=== FILE: README.md ===
# DataArchive core, modelled in Dafny

DataArchive catalogues physical drives. A scan walks a drive's file tree and
stores one record per file, in batches. Before that, it checks the drive and
resolves the drive's physical identity. An inspection session runs four
passes over a drive:

1. Health: chkdsk and SMART become a score from 0 to 100 and a label.
2. Operating system: detection from the registry or from marker files, plus
   Windows features, user profiles and installed programs.
3. Metadata: file statistics, quick hashes, duplicate groups and files that
   other scans already hold.
4. Interactive review: decision points drawn from the first three passes,
   and a log of the decisions taken.

All of it is recorded in a catalogue store. This project models that core
and proves what its code promises.

The model is split into modules that follow the program:

- **Store** (`catalog_store.dfy`): the catalogue store `database.py`, as a
  class whose tables are sequences in insertion order. A logical clock
  stands for `datetime.now()`.
- **Scan** (`file_scanner.dfy`, `batches.dfy`, `scan_drive.dfy`): the
  scanner's walk, with its skip and error counters, and the batched insert
  loops.
- **Drive checks** (`drive_identity.dfy`, `drive_validation.dfy`,
  `drive_paths.dfy`): the drive manager's identity fallbacks and the drive
  validator's classification of errors and warnings.
- **Pass 1** (`health.dfy`, `chkdsk.dfy`): the health pass and the chkdsk
  output parser.
- **Pass 2** (`os_detection.dfy`, `os_inspection.dfy`, `registry.dfy`):
  operating-system detection, the pass-2 analyses and the offline registry
  reader.
- **Pass 3** (`metadata_stats.dfy`, `metadata_capture.dfy`,
  `quick_hashes.dfy`, `duplicate_groups.dfy`, `metadata_inspection.dfy`):
  the metadata capture, hashing and duplicate grouping.
- **Pass 4** (`review.dfy`): the interactive review.
- **Hashing** (`hashing.dfy`): the hash utilities.
- **Index tools** (`directory_extract.dfy`, `index_summary.dfy`): the
  Windows Search Index aggregations.
- **Shared** (`text.dfy`, `collections.dfy`): text helpers and Python
  dictionaries as ordered association lists.

The model treats the environment as inputs:

- The machine is given as values and functions: the drive's directory tree,
  the set of marker paths that exist, file contents, the outputs of
  PowerShell, chkdsk and hivex, and the rows the Windows Search Index
  returns.
- The MD5 and SHA-256 digests are function parameters.

Three behaviours of the code that the model keeps:

- `start_pass` does not check that earlier passes are finished, and a
  session's `current_pass` can go down (`Catalog.StartedBack`).
- `record_decision` does not de-duplicate decision keys. Logging the same
  decision twice leaves two rows (`Catalog.DecidedTwice`).
- A pass is marked failed only by `complete_pass` with a non-empty error
  message. A pass whose code raises stays `running`.

## Model

| member | source | states |
|---|---|---|
| FileBatches.Flushed | scan_drive.py:183-185 | the records already inserted by full batches are a prefix of fewer than one batch less than all records read |
| FileBatches.Collect | scan_drive.py:177-185 | one loop pass: the record joins the batch; a batch reaching the batch size is inserted and restarts; the rows stored so far are always those of the records before the open batch |
| FileBatches.LastFlush | scan_drive.py:187-189 | after inserting the non-empty remainder the table holds the rows of every record read, in order |
| ScanDrive.OrElse | scan_drive.py:134-135 | `a or b` on an optional argument: a non-empty value wins, a missing or empty one gives the fallback |
| ScanDrive.DriveRecord | scan_drive.py:133-144 | the drive record: a non-empty `--drive-serial`/`--drive-model` overrides, otherwise the detected value, and `MANUAL_<name>`/`Drive_<name>` only when the key is missing; connection falls back to the platform; notes are `--drive-notes` |
| ScanDrive.DetectedIdentityUsed | scan_drive.py:107-135 | with drive information found, the `MANUAL_`/`Drive_` fallbacks never apply and the serial stored is never empty |
| ScanDrive.InsertInBatches | scan_drive.py:172-189 | the batch loop: counts and total size of all records and all rows inserted in order; an exception at record k leaves exactly the full batches before k stored |
| ScanDrive.RunScan | scan_drive.py:61-110 | exit code 1, with drives, scans, files, `os_info` and the clock unchanged, for a missing path, a non-directory, a failed validation or no drive information; validation is valid exactly when it has no error; otherwise the scan is recorded; no other table is in the frame |
| ScanDrive.RecordScan | scan_drive.py:145-227 | drive upserted and one new in-progress scan row; when `detect` raises or `os_info` already holds the new scan id, exit code 1 with no file row and the clock two ticks on; otherwise the detection is stored under the scan id and the file stage follows; only drives, scans, files, `os_info` and the clock can change |
| ScanDrive.WalkScan | scan_drive.py:166-227 | a walk that is not stopped completes the scan with its count, size and every row, exit code 0 and one tick; an interrupt (130) or an error (1) at record k leaves the scans and the clock as they were, with only the full batches before k stored; drives and `os_info` never change |
| ScanDrive.RecordScanAsWritten | scan_drive.py:152-161 | as written, with python/core/os_detector.py as the detector, Stage 2 always raises: exit code 1, the drive upserted and the new scan left in progress, with no file row and no `os_info` row |
| ScanDrive.StageTwoStopsEveryScan | scan_drive.py:155-163 | where detection succeeds and the scan id is free in `os_info`, the written recording over a dataclass result exits with 1, leaving the scan in progress with no files; the corrected one exits with 0, with the scan complete, every file row and its `os_info` row |
| DriveValidation.WslOnlyKernelMissed | python/core/drive_validator.py:25-31 | as written, a `/proc/version` naming WSL but not Microsoft is not recognised, while the intended test recognises it |
| DriveValidation.DetectWsl | python/core/drive_validator.py:25-31 | WSL exactly when the version text, lower-cased, contains `microsoft` or `wsl`; an unreadable file is not WSL |
| DriveValidation.DetectWslExtends | python/core/drive_validator.py:29 | the intended test accepts every text the written one accepts |
| DriveValidation.DriveValidator.constructor | python/core/drive_validator.py:21-23 | keeps the mount path and decides WSL once, from the version text |
| DriveValidation.DriveValidator.ValidateWslMount | python/core/drive_validator.py:88-102 | a path not of the form `/mnt/...` gives only the pattern warning; `/mnt` alone only the no-letter error; otherwise the letter is the upper-cased third part and there is an error exactly when Windows does not know the drive or reports it offline; errors are all error kinds, warnings none |
| DriveValidation.DriveValidator.QueryIssues | python/core/drive_validator.py:130-192 | a failed, timed-out or raising query gives its one warning; "Drive not found" the one error; an offline disk without a disk number raises while formatting and gives the error-warning; otherwise read-only, not-Online, missing physical disk and missing number keys each give their warning exactly when they hold |
| DriveValidation.DriveValidator.Validate | python/core/drive_validator.py:33-78 | a missing path or a non-directory is the only error and ends the check; valid exactly when there are no errors; off WSL there are no warnings and the drive is valid exactly when it lists; a permission error is the last error |
| DriveValidation.DriveValidator.CheckMounted | python/core/drive_validator.py:57-78 | on WSL the mount check's issues are added first, then the listing's error; valid exactly when no error was added |
| DriveIdentity.DetectPlatform | core/drive_manager.py:26-35 | the tool runs on WSL exactly when the interop file exists; otherwise Linux, Windows or unknown from the system name |
| DriveIdentity.FirstText | core/drive_manager.py:84-85 | `a or b or default` over two JSON values: the first truthy one, else the default |
| DriveIdentity.Fallback | core/drive_manager.py:159-179 | the fallback identity: serial `UNKNOWN_` followed by the first 16 hex digits of the path's MD5, size 0, no disk number, connection "Unknown" |
| DriveIdentity.FromQuery | core/drive_manager.py:80-101 | the serial is the stripped first truthy serial (physical, then WMI), or `UNKNOWN_` with the path's '/' replaced by '_' when that is blank, so never empty; the model likewise with "Unknown"; connection "Direct" exactly for SATA, NVMe and IDE buses, else "USB/Bridge"; size 0 when absent |
| DriveIdentity.BlankSerialBlocksWmiSerial | core/drive_manager.py:84-88 | a serial of blanks is truthy, so the WMI serial is never consulted and the identity falls back to the path |
| DriveIdentity.MountLetter | core/drive_manager.py:118-129 | a letter is asked for exactly when the path's parts start with the root and `mnt`: the third part upper-cased, or the path's name when there is none |
| DriveIdentity.MountLetterOfDrive | core/drive_manager.py:120-123 | `/mnt/x` asks about the upper-cased letter x |
| DriveIdentity.MountLetterOfOtherRoot | core/drive_manager.py:127-129 | a one-letter directory under another root gives no letter |
| DriveIdentity.MountLetterOfMntAlone | core/drive_manager.py:124-126 | `/mnt` itself asks Windows about a drive called "MNT" |
| DriveIdentity.RootedParts | core/drive_manager.py:120 | `Path("/x/y").parts` is the root and the two names |
| DriveIdentity.PhysicalIdentity | core/drive_manager.py:37-111 | off WSL the fallback identity; on WSL the queried identity when the mount maps to a disk and the query answers, the fallback otherwise; the serial is never empty |
| DriveIdentity.QueriedIdentity | core/drive_manager.py:42-104 | the identity carries a disk number exactly when the platform is WSL, a letter is found, Windows maps it to a disk and the identity query answers |
| DriveIdentity.FilesystemType | core/drive_manager.py:238-248 | no type exactly when no mounts line has the mount point as second field; otherwise the third field of such a line |
| DriveIdentity.GetDriveInfo | core/drive_manager.py:250-284 | nothing for a path that is not an existing directory or whose volume cannot be read; otherwise used = total − free, the filesystem type and the physical identity |
| DriveIdentity.DetectDrives | core/drive_manager.py:181-223 | on WSL with a `/mnt` folder, the loop lists the drives of its entries in listing order; on every other platform, or without `/mnt`, no drive |
| DriveIdentity.WslDrivesExact | core/drive_manager.py:193-223 | a drive is listed exactly for each `/mnt` entry that is a one-character directory whose volume can be read; its device is the upper-cased letter and a colon, its identity is that of its mount point, and its size is the identity's size, since the identity is merged last |
| DrivePaths.DriveLetter | python/inspection/pass3_metadata.py:200-208 | `X:…` gives the upper-cased X; `/mnt/x` or `/mnt/x/…` with an ASCII letter x gives it upper-cased; anything else none; a letter is one character |
| DrivePaths.DriveLetterShown | python/inspection/pass3_metadata.py:246 | the reports show the letter, or "?" exactly when there is none (or the letter is "?" itself) |
| DrivePaths.WindowsFormLetter | python/inspection/pass1_health.py:149-150 | any `c:` prefix gives the upper-cased c |
| DrivePaths.WslFormLetter | python/inspection/pass2_os.py:135-137 | `/mnt/x` and `/mnt/x/<sub>` both give the upper-cased letter x |
| DrivePaths.LongMountNameHasNoLetter | python/utils/chkdsk_wrapper.py:142-144 | `/mnt/cd` and `/media/c` give no letter: the letter must be followed by '/' or the end |
| DrivePaths.Root | scan_drive.py:61 | the anchor `pathlib` keeps: "//" for exactly two leading slashes, "/" for one or three and more, none for a relative path |
| DrivePaths.Name | scan_drive.py:134-135 | `Path(p).name` holds no '/' |
| DrivePaths.NormalKeepsParts | scan_drive.py:61-84 | normalising a path with `Path` keeps its parts, so the validator sees the parts the user gave |
| DrivePaths.PartsHead | python/core/drive_validator.py:90-91 | the first part is the anchor exactly when the path is absolute, and only the anchor holds a '/' |
| DrivePaths.NormalOfParts | scan_drive.py:61 | the normal form depends only on the parts |
| DrivePaths.NormalIdempotent | scan_drive.py:61-84 | normalising twice is normalising once |
| FileScanning.Suffix | core/file_scanner.py:114 | `PurePath.suffix`: empty exactly when no dot stands after the first character and before the last; otherwise the name's tail from its last dot, holding no other dot |
| FileScanning.GetFileInfo | core/file_scanner.py:96-126 | none exactly when the file's status cannot be read; otherwise the size from the status, hidden exactly when the name starts with '.', never a system file, and an extension that is empty or starts with '.' |
| FileScanning.RecordPathSplits | core/file_scanner.py:102-109 | the recorded path is relative to the drive root: splitting it at '/' gives the directories walked and then the file name |
| FileScanning.ExtensionIsLowerSuffix | core/file_scanner.py:114 | the recorded extension is the name's suffix, lower-cased |
| FileScanning.Pruned | core/file_scanner.py:61 | the kept subdirectories are those of the listing that match no skip pattern, in order |
| FileScanning.TotalSize | scan_drive.py:180 | the sum of the records' sizes, never negative |
| FileScanning.FileScanner.constructor | core/file_scanner.py:19-23 | a scanner for one tree with both counts at 0 and no scan started |
| FileScanning.FileScanner.ShouldSkipDirectory | core/file_scanner.py:128-144 | skips exactly when some pattern, lower-cased, occurs in the lower-cased name, and then counts exactly one skip; errors unchanged |
| FileScanning.FileScanner.PruneDirs | core/file_scanner.py:33-61 | the kept subdirectories are the unmatched ones, and the skip count grows by the number removed |
| FileScanning.FileScanner.CountWalk | core/file_scanner.py:31-34 | one walk counts every file it reaches and adds one skip per pruned directory of the walk |
| FileScanning.FileScanner.CountFiles | core/file_scanner.py:25-40 | `count_files` returns the number of files the walk reaches and adds the walk's prunes to the skip count |
| FileScanning.FileScanner.StartScan | core/file_scanner.py:42-53 | calling `scan` only creates the generator: the whole walk is ahead, nothing has run and the counts are unchanged |
| FileScanning.FileScanner.Next | core/file_scanner.py:52-82 | one `next()`: on the first request with progress shown, `count_files` adds the whole tree's prunes; then the walk goes through exactly one step (to the next file that yields a record, or to the end), adding that step's prunes and failed files to the counts |
| FileScanning.FileScanner.Advance | core/file_scanner.py:59-82 | one event of the walk: opening a directory prunes its subdirectories; examining a file yields its record, or counts one error when its status cannot be read |
| FileScanning.FileScanner.Expand | core/file_scanner.py:59-63 | `os.walk` opens a directory: its prune event, then its files, then its kept subdirectories come before the work left |
| FileScanning.FileScanner.Pull | core/file_scanner.py:59-82 | seen from the start of the walk, a `next()` goes through one more step, the records so far grow by the one returned, and the end comes only when the whole walk is gone through |
| FileScanning.FileScanner.Request | core/file_scanner.py:59-82 | the consumer's request for record i, all earlier ones answered: it is the walk's i-th record, or the end exactly when the walk has only i; the walk is then gone through up to the (i+1)-th yielding file, and the counts are those of that prefix |
| FileScanning.FileScanner.Scan | core/file_scanner.py:42-94 | run to its end, the generator yields every record of the walk in order; errors grow by the files that fail; skips grow by the tree's prunes once, or twice when progress is shown |
| FileScanning.EventsWalk | core/file_scanner.py:59-63 | the walk, event by event, reaches exactly the files of the recursive walk and prunes exactly its skipped directories |
| FileScanning.UptoStep | core/file_scanner.py:63-70 | asking for one more record goes through one more generator step of the walk |
| FileScanning.RecordOrError | core/file_scanner.py:66-82 | every file reached yields exactly one record or counts exactly one error |
| FileScanning.PrunedNeverVisited | core/file_scanner.py:61 | every file reached lies under no pruned directory |
| MetadataCapture.Processed | python/inspection/pass3_metadata.py:334-383 | the records the loop takes: all of them, or fewer exactly when an exception at record `stopAt` ends the loop first |
| MetadataCapture.Tally | python/inspection/pass3_metadata.py:336-365 | one record moves every counter, tally, the largest file, the date range and the folders from the statistics of the records before to those including it |
| MetadataCapture.NoteFolder | python/inspection/pass3_metadata.py:361-365 | a folder is counted the first time a file in it is seen; the count stays the number of distinct folders |
| MetadataCapture.CaptureFileMetadata | python/inspection/pass3_metadata.py:321-399 | the statistics are those of the records taken before the enumeration exception (if any); the error is reported exactly when the exception comes before the walk ends; skipped and error counts are those of the walk consumed by the requests made (plus the whole tree's prunes when progress is shown), and of the whole walk when it ended; when storing, exactly the records taken are inserted, in order |
| MetadataCapture.EndCounts | python/inspection/pass3_metadata.py:391-392 | once the walk has ended the counts are every pruned directory (twice with progress shown) and every failed file |
| MetadataCapture.Enumerate | python/inspection/pass3_metadata.py:334-383 | records are asked of the generator one by one until it ends or the request for record `stopAt + 1` raises: the records taken are the first ones of the walk, and the generator has gone through the walk up to the request after the last one taken |
| MetadataCapture.CaptureRecords | python/inspection/pass3_metadata.py:336-387 | every record taken updates the statistics; when storing, records are inserted in batches of `batch_size` and the remainder after the loop, so the rows written are exactly the records taken |
| MetadataCapture.Finish | python/inspection/pass3_metadata.py:385-397 | after the loop the statistics are those of the records taken and, when storing, the partial batch is inserted |
| MetadataCapture.Absorb | python/inspection/pass3_metadata.py:336-372 | one loop body: the record is tallied and, when storing, batched, a full batch being inserted |
| MetadataStats.ClassifySize | python/inspection/pass3_metadata.py:210-221 | each size lands in exactly one of five buckets, bounded by 1 KiB, 1 MiB, 100 MiB and 1 GiB |
| MetadataStats.ClassifyMonotone | python/inspection/pass3_metadata.py:210-221 | a larger file never lands in a smaller bucket |
| MetadataStats.ExtKey | python/inspection/pass3_metadata.py:340 | the extension, or "(no extension)" when it is empty; never empty |
| MetadataStats.Dirname | python/inspection/pass3_metadata.py:362 | `os.path.dirname`: a path without '/' has no folder |
| MetadataStats.StatsTotals | python/inspection/pass3_metadata.py:336-346 | the extension counts and the size distribution each sum to the number of files, the extension sizes to the bytes; every tally has distinct keys |
| MetadataStats.ExtensionCountsExact | python/inspection/pass3_metadata.py:340-341 | each extension key is counted exactly as often as it occurs; nothing is counted under "" |
| MetadataStats.LargestFile | python/inspection/pass3_metadata.py:348-351 | the largest size bounds every file's size; its path is that of the first file of that size (strict `>`); with size 0 no path is recorded |
| MetadataStats.OldestDate | python/inspection/pass3_metadata.py:353-395 | the oldest date is the least modification time, missing only for no files |
| MetadataStats.NewestDate | python/inspection/pass3_metadata.py:358-397 | the newest date is the greatest modification time, missing only for no files |
| MetadataStats.FoldersExact | python/inspection/pass3_metadata.py:361-390 | the folders counted are exactly the distinct non-empty parent directories |
| QuickHashes.CandidatesExact | python/inspection/pass3_metadata.py:411-417 | a candidate is exactly a file row of the scan with at least `min_duplicate_size` bytes, with its row id |
| QuickHashes.HashQueueOrdered | python/inspection/pass3_metadata.py:416 | the queue holds every candidate once, in non-increasing order of size |
| QuickHashes.HashedShape | python/inspection/pass3_metadata.py:445-454 | every entry is a `quick` hash of the scan with a non-empty value for one of the candidates, at most one per candidate |
| QuickHashes.HashedComplete | python/inspection/pass3_metadata.py:445-454 | every candidate whose file hashes to a non-empty digest has its entry |
| QuickHashes.HashKeysStamp | python/inspection/pass3_metadata.py:457-471 | stamping a batch with the insertion time and dropping the stamps gives the batch back |
| QuickHashes.FlushHashes | python/inspection/pass3_metadata.py:457-471 | inserting a batch appends exactly its entries after the rows already there |
| QuickHashes.ComputeFileHashes | python/inspection/pass3_metadata.py:401-474 | the rows added are the entries of the candidates taken largest first, in order; `files_hashed` is their number; with no candidates nothing changes |
| QuickHashes.HashOne | python/inspection/pass3_metadata.py:436-458 | one loop turn: a non-empty hash is counted and batched, a batch reaching `batch_size` is inserted; stored and batched entries stay those of the files seen |
| QuickHashes.HashQueued | python/inspection/pass3_metadata.py:427-473 | the hashing loop with its final flush appends exactly the entries of the queue in order and counts them |
| DuplicateGroups.AddToBucket | python/inspection/pass3_metadata.py:484-497 | adding a row to the grouping always leaves at least one bucket |
| DuplicateGroups.AddToBucketEffect | python/inspection/pass3_metadata.py:494 | a row joins the bucket of its (hash, size) key if there is one and otherwise opens a new bucket at the end; no other bucket changes |
| DuplicateGroups.GroupByExact | python/inspection/pass3_metadata.py:484-497 | the `GROUP BY h.hash_value, f.size_bytes` is exact: no two buckets share a key, none is empty, every key that occurs has a bucket, and that bucket holds exactly the rows with the key, in order |
| DuplicateGroups.KeyInKeySet | python/inspection/pass3_metadata.py:494 | every bucket's key is in the key set |
| DuplicateGroups.KeySetExact | python/inspection/pass3_metadata.py:494 | the key set holds exactly the keys of the buckets: a key is in it if and only if some bucket has that key |
| DuplicateGroups.BucketMembers | python/inspection/pass3_metadata.py:494 | in a well-formed grouping a bucket's members are the ones its key looks up |
| DuplicateGroups.MembersAtFound | python/inspection/pass3_metadata.py:494 | a key that has members has a bucket holding them |
| DuplicateGroups.MultiExact | python/inspection/pass3_metadata.py:495 | `HAVING COUNT(*) > 1` keeps exactly the buckets of two or more rows, each still holding all rows of its key |
| DuplicateGroups.DuplicateCandidatesExact | python/inspection/pass3_metadata.py:484-500 | every candidate is a (hash, size) pair shared by two or more quick-hash rows of the scan and holds exactly those rows; candidates come largest size first and there are at most 1000 |
| DuplicateGroups.Groups | python/inspection/pass3_metadata.py:511-537 | one report group per candidate |
| DuplicateGroups.WasteOfOne | python/inspection/pass3_metadata.py:522 | a group of `count` copies of `size` bytes wastes all but one copy, at least one copy's worth when there are two |
| DuplicateGroups.GroupTotals | python/inspection/pass3_metadata.py:522-539 | the wasted bytes of groups of two or more are what their members hold minus one copy each, at least one copy per group, and the groups hold at least two files each |
| DuplicateGroups.DuplicateTotals | python/inspection/pass3_metadata.py:565-568 | the report counts every candidate as a group, its wasted bytes are the members' bytes minus one copy per group, its files at least two per group, and it keeps the first 50 groups in order |
| DuplicateGroups.GroupRowsOf | python/inspection/pass3_metadata.py:544-550 | one `duplicate_groups` row per candidate |
| DuplicateGroups.MemberRowsOfGroup | python/inspection/pass3_metadata.py:553-560 | one `duplicate_members` row per member of the group |
| DuplicateGroups.InGroupAppend | python/inspection/pass3_metadata.py:553-560 | the rows of a group in a concatenation are its rows in each part |
| DuplicateGroups.GroupRowsExact | python/inspection/pass3_metadata.py:553-560 | the member rows of one group carry its members in order, and the first alone is primary |
| DuplicateGroups.MemberRowsLast | python/inspection/pass3_metadata.py:553-560 | storing one more group appends exactly its member rows |
| DuplicateGroups.MemberRowsStep | python/inspection/pass3_metadata.py:553-560 | after one more group, the rows of each group id are the old ones, or the new group's members for its id |
| DuplicateGroups.InGroupAfter | python/inspection/pass3_metadata.py:553-560 | appending the rows of group `id` adds them to that group and to no other |
| DuplicateGroups.MemberRowsSplit | python/inspection/pass3_metadata.py:544-560 | in the stored member rows, group `firstId + k` holds exactly the members of the k-th candidate in order, and no other group id has rows |
| DuplicateGroups.MemberRowsExact | python/inspection/pass3_metadata.py:544-560 | as `MemberRowsSplit`, and each stored group's first member is its only primary |
| DuplicateGroups.GroupsStep | python/inspection/pass3_metadata.py:511-537 | the groups of one more candidate are the old ones plus its group |
| DuplicateGroups.GroupRowsStep | python/inspection/pass3_metadata.py:544-550 | storing one more candidate appends its group row, stamped one tick later |
| DuplicateGroups.MemberRowsOfStep | python/inspection/pass3_metadata.py:553-560 | storing one more candidate appends its member rows under the next group id |
| DuplicateGroups.MemberStep | python/inspection/pass3_metadata.py:553-560 | the member rows of a group after one more member are the old rows plus that member, primary only when first |
| DuplicateGroups.StoreMembers | python/inspection/pass3_metadata.py:555-560 | the loop inserts exactly the member rows of the group, in order, the first flagged primary |
| DuplicateGroups.StoreGroup | python/inspection/pass3_metadata.py:544-560 | one group's row, stamped with the clock, then its member rows under the new row's id; the stores stay those of the candidates stored so far |
| DuplicateGroups.StoreGroups | python/inspection/pass3_metadata.py:511-568 | the loop stores one group row and its member rows per candidate and returns the report totals of all candidates |
| DuplicateGroups.IdentifyDuplicates | python/inspection/pass3_metadata.py:476-570 | with no candidate nothing changes and the report is empty; otherwise every candidate of the scan's quick hashes is stored as a group with its members and the report holds the totals and the first 50 groups |
| MetadataInspection.Samples | python/inspection/pass3_metadata.py:590-596 | one sample per candidate |
| MetadataInspection.SampleCandidates | python/inspection/pass3_metadata.py:590-596 | the loop builds, in order, one sample per candidate holding its new path, existing path, existing drive and size |
| MetadataInspection.GroupEntries | python/inspection/pass3_metadata.py:539-568 | one report entry per duplicate group |
| MetadataInspection.FindCrossScanDuplicates | python/inspection/pass3_metadata.py:572-605 | with candidates from other scans the report counts them, gains one warning giving their number and one entry with the count and samples of the first 20; with none, the count is 0 and warnings and entries are unchanged |
| MetadataInspection.FindCrossScanDuplicatesAsWritten | python/core/database.py:546-570 | over the query as written, which raises, the report is left with no cross-scan count, warning or entry |
| MetadataInspection.CrossScanLostAsWritten | python/core/database.py:563-564 | whenever a file of the scan matches another scan's file by size and name, the corrected query reports a candidate while the query as written raises |
| MetadataInspection.When | python/inspection/pass3_metadata.py:607-642 | a recommendation is emitted exactly when its condition holds, and nothing else is |
| MetadataInspection.Recommendations | python/inspection/pass3_metadata.py:607-642 | the recommendations are never empty |
| MetadataInspection.RecommendDuplicates | python/inspection/pass3_metadata.py:612-617 | the duplicates note appears exactly when more than 1 GiB is wasted, the many-groups note exactly when there are more than 100 groups |
| MetadataInspection.RecommendExtensions | python/inspection/pass3_metadata.py:620-625 | the temporary-files and backup-files notes appear exactly when `.tmp`, respectively `.bak`, is among the five most frequent extensions |
| MetadataInspection.RecommendDates | python/inspection/pass3_metadata.py:628-629 | with both an oldest and a newest date the span note for them appears, and without either no span note appears |
| MetadataInspection.RecommendErrors | python/inspection/pass3_metadata.py:632-637 | the error-rate note appears exactly when errors exceed a tenth of the files processed, the cross-drive note exactly when there are cross-scan candidates |
| MetadataInspection.RecommendNoIssues | python/inspection/pass3_metadata.py:639-640 | the no-issues note appears exactly when no other condition holds, and then alone |
| MetadataInspection.FoundNoNote | python/inspection/pass3_metadata.py:609-637 | no condition's note is the no-issues note |
| MetadataInspection.FoundNone | python/inspection/pass3_metadata.py:609-640 | no condition's note is emitted exactly when every condition fails |
| MetadataInspection.TemporaryDrive | python/inspection/pass3_metadata.py:268-272 | the temporary drive's serial is `TEMP-` and the timestamp |
| MetadataInspection.ResolveScan | python/inspection/pass3_metadata.py:256-275 | a given scan id is kept and nothing changes; otherwise one new scan in progress on the path is appended, on the session's drive when it has one and on an upserted temporary drive otherwise |
| MetadataInspection.CaptureErrors | python/inspection/pass3_metadata.py:394-397 | the report has an error exactly when the enumeration failed, and the joined message is then not empty |
| MetadataInspection.HashAndGroup | python/inspection/pass3_metadata.py:282-288 | the files hashed are the quick hashes of the scan's queue, the duplicate report is that of the scan's stored quick hashes, and the store grows by exactly those rows |
| MetadataInspection.AnalyseDuplicates | python/inspection/pass3_metadata.py:282-293 | with hashing off nothing is hashed or grouped; with hashing on the hashes and groups are those of the scan; then the cross-scan figures are those of the candidates the store reports |
| MetadataInspection.CloseReported | python/inspection/pass3_metadata.py:302-303 | with a truthy scan id the scan is closed with the captured file count and size; nothing else changes and the report's duplicate figures still describe the store |
| MetadataInspection.RecordMetadataPass | python/inspection/pass3_metadata.py:306-315 | with a truthy session id pass 3 is recorded failed with the joined errors when there are any and completed otherwise, with the report's JSON; without one nothing changes |
| MetadataInspection.CloseScan | python/inspection/pass3_metadata.py:302-303 | the report's scan is closed with its totals, and the cross-scan candidates stay the same |
| MetadataInspection.DescribedErrors | python/inspection/pass3_metadata.py:394-397 | the report has an error exactly when the enumeration exception comes before the walk ends, and the recorded message is then that error |
| MetadataInspection.Gather | python/inspection/pass3_metadata.py:278-296 | the report describes the records captured before any enumeration exception and the duplicate phases of a truthy scan id; the captured files are stored under it and the hashing rows are added when hashing is on; nothing else changes |
| MetadataInspection.GatheredComposed | python/inspection/pass3_metadata.py:278-293 | capture followed by the duplicate phases leaves the store `Gather` promises |
| MetadataInspection.Report | python/inspection/pass3_metadata.py:279-296 | from a capture, the report carries its error, the duplicate phases of a truthy scan id and the recommendations; without hashing nothing is hashed |
| MetadataInspection.Begin | python/inspection/pass3_metadata.py:251-275 | with a truthy session id pass 3 is marked running; then the scan is resolved as `ResolveScan` states |
| MetadataInspection.LeavesComposed | python/inspection/pass3_metadata.py:244-319 | starting, gathering, closing the scan and recording the pass together leave the store `Leaves` describes |
| MetadataInspection.PassesComposed | python/inspection/pass3_metadata.py:251-315 | the session, pass and decision tables after the pass are the pass started and then recorded |
| MetadataInspection.ScansComposed | python/inspection/pass3_metadata.py:256-303 | the drive and scan tables after the pass are the scan resolved and then closed |
| MetadataInspection.RowsComposed | python/inspection/pass3_metadata.py:278-293 | the file, hash, group and member tables after the pass are those of the capture and the duplicate phases |
| MetadataInspection.GatherClosed | python/inspection/pass3_metadata.py:278-303 | capture and the duplicate phases as `Gather` states, then the scan closed with its totals |
| MetadataInspection.InspectStored | python/inspection/pass3_metadata.py:223-319 | with a store: the report describes the capture and its duplicate phases; the store is left as `Leaves` describes; with a truthy session id pass 3 ends failed with the joined errors or completed, with the report's JSON |
| MetadataInspection.Inspect | python/inspection/pass3_metadata.py:223-319 | `inspect`: the report describes the capture; with a store, what it leaves and the pass's outcome as in `InspectStored`; without one the report has no scan id |
| MetadataInspection.InspectUnstored | python/inspection/pass3_metadata.py:244-296 | without a store the report describes the capture alone and has no scan id |
| Catalog.Rows | python/core/database.py:305-326 | one file row per record, in order, each under the scan's id and holding the record |
| Catalog.RowsAppend | python/core/database.py:305-326 | inserting two batches in turn writes the rows of both, in order |
| Catalog.FindSerial | python/core/database.py:253-258 | the lookup by serial finds a row holding the serial, and finds none exactly when no row holds it |
| Catalog.UpsertDrive | python/core/database.py:219-260 | the returned drive id is a row of the new table |
| Catalog.UpsertKeepsSerialsUnique | python/core/database.py:229 | the upsert never makes a second row for a serial number |
| Catalog.UpsertDriveEffect | python/core/database.py:222-258 | the id returned holds the serial; a new serial appends one row stamped `first_seen` and `last_scanned` now; a known serial keeps the row count, identity columns and `first_seen`, refreshes `last_scanned`, and takes firmware, media, bus and notes from the new values when given, keeping the old ones otherwise |
| Catalog.UpsertIdempotentId | python/core/database.py:219-260 | inserting the same serial again returns the same id and adds no row |
| Catalog.PlaceholdersKeepLayout | python/core/database.py:384-390 | the four placeholder rows of a new session keep every session owning four consecutive pass rows numbered 1-4 and named after their pass |
| Catalog.PendingPasses | python/core/database.py:384-390 | the loop makes the pending rows for passes 1 to 4, in order, named health, os_detection, metadata and review |
| Catalog.FailureMessage | python/inspection/pass3_metadata.py:310 | a pass gets an error message exactly when it has errors |
| Catalog.FailureMessageFails | python/core/database.py:444 | when no error is empty, the pass is recorded as failed exactly when there are errors |
| Catalog.Database.constructor | python/core/database.py:19-24 | a fresh store has every table empty |
| Catalog.Database.InsertDrive | python/core/database.py:219-260 | the drives table and the returned id are the upsert's, and serial numbers stay unique |
| Catalog.Database.StartScan | python/core/database.py:262-271 | one scan row is appended, in progress, started now on the mount point; its id is the new row's |
| Catalog.Database.InsertOsInfo | python/core/database.py:283-303 | the insert succeeds exactly when no row has the scan id, the primary key (database.py:78), and then appends the row read from the detection; otherwise nothing is written |
| Catalog.OsInfoAppendKeyed | python/core/database.py:77-89 | adding a row only for a free `scan_id` keeps the primary key unique, and the new row is then the only one with its id |
| Catalog.Database.CompleteScan | python/core/database.py:273-281 | only the named scan changes: end time, file count, total size and status COMPLETE; an unknown id changes no row |
| Catalog.Database.InsertFilesBatch | python/core/database.py:305-326 | the files table grows by exactly the batch's rows, in order |
| Catalog.Database.InsertFileHashesBatch | python/core/database.py:519-531 | the hash table grows by one row per hash, in order, and the count returned is the batch's length |
| Catalog.Database.GetFileTree | python/core/database.py:340-369 | the loop builds the tree `FileTree` defines for the scan's files |
| Catalog.FileTreeStats | python/core/database.py:340-369 | a node's size and file count are the totals over the scan's files of at most `max_depth` parts that lie below it |
| Catalog.AddPathStats | python/core/database.py:355-366 | one file adds its size, and one to the count, to exactly the nodes on its directory path and leaves every other node alone |
| Catalog.LeadsStep | python/core/database.py:355-366 | whether a node lies on a file's directory path is decided one component at a time |
| Catalog.StatsHead | python/core/database.py:355-366 | a node's figures are looked up one component at a time down the tree |
| Catalog.Database.StartInspection | python/core/database.py:375-395 | one active session at pass 1 is appended, followed by its four pending pass rows; its id is the new row's |
| Catalog.Database.GetInspection | python/core/database.py:397-420 | none exactly when the session does not exist; otherwise the session and its four pass rows, numbered 1 to 4 in order |
| Catalog.Database.StartPass | python/core/database.py:422-438 | that pass, if it exists, becomes running since now; the session's current pass becomes `n` whatever it was; nothing else changes |
| Catalog.StartedBack | python/core/database.py:434-436 | starting pass `m` after pass `n` leaves the session at pass `m`, as if `n` had never been started, so the current pass can go down |
| Catalog.Database.CompletePass | python/core/database.py:440-454 | that pass, if it exists, is failed exactly when a non-empty message is given and completed otherwise, and stores the report and message; no other pass changes |
| Catalog.Database.SkipPass | python/core/database.py:456-466 | that pass, if it exists, is skipped with the reason as its message; no other row and no session changes |
| Catalog.Database.CompleteInspection | python/core/database.py:468-478 | the session, if it exists, takes the status and a completion time; nothing else changes |
| Catalog.Database.RecordDecision | python/core/database.py:480-496 | a new decision row is always appended, even for a key already decided; its id is the new row's |
| Catalog.DecidedTwice | python/core/database.py:480-496 | deciding the same key twice keeps both rows, the later one last |
| Catalog.Database.GetDecisions | python/core/database.py:498-506 | exactly the session's decisions, in strictly increasing decision time |
| Catalog.DecisionsOfSorted | python/core/database.py:498-506 | the decisions of a session come from the table, belong to the session, and are in increasing time when the table is |
| Catalog.DecisionsOfAppend | python/core/database.py:498-506 | a new decision is returned for its session and for no other; none is merged or dropped |
| Catalog.Database.GetActiveInspections | python/core/database.py:572-582 | exactly the active sessions, each with its id and drive (none when the drive is missing), most recently started first |
| Catalog.ActiveSessionsNewestFirst | python/core/database.py:572-582 | the active sessions come in strictly decreasing start time, and each is an active session row with its own id |
| Catalog.Database.FindPotentialDuplicates | python/core/database.py:546-570 | every row pairs a file of this scan of at least `min_size` bytes with a file of another scan of the same size and the same base name ignoring case; there are at most 1000 rows, and under that limit every such pair is returned |
| Catalog.AllMatchAppend | python/core/database.py:560-567 | joined rows that all meet the join condition still do when concatenated |
| Catalog.PairsForAt | python/core/database.py:560-567 | each row joined for a new file meets the join condition |
| Catalog.PairsForMatch | python/core/database.py:560-567 | all rows joined for a new file meet the join condition |
| Catalog.PairsMatch | python/core/database.py:560-567 | every row of the join meets the join condition |
| Catalog.PairsForComplete | python/core/database.py:560-567 | every pair meeting the join condition is among the rows of its new file |
| Catalog.PairsComplete | python/core/database.py:560-567 | every pair meeting the join condition is among the rows of the join |
| Catalog.AllPairsFound | python/core/database.py:560-567 | every pair of files meeting the join condition is a row of the join before the limit |
| Catalog.PairsForSameDrives | python/core/database.py:565-566 | the rows for one file read the scans table only through each scan's drive |
| Catalog.PairsSameDrives | python/core/database.py:565-566 | closing a scan keeps its drive, so the join's rows do not change (closing a scan: database.py:273-281) |
| Catalog.RecordPass | python/inspection/pass3_metadata.py:306-312 | pass `n` is completed with the report and the errors joined by "; "; it ends failed exactly when the joined message is non-empty text, completed otherwise |
| Chkdsk.RunLength | python/utils/chkdsk_wrapper.py:287 | a run of a character class stays inside the line |
| Chkdsk.RunLengthMaximal | python/utils/chkdsk_wrapper.py:287 | the run `\d+`, `[\d,]+` or `\s+` takes holds only characters of its class and cannot be extended |
| Chkdsk.RunLengthExact | python/utils/chkdsk_wrapper.py:287 | a run that ends where the class stops is taken whole |
| Chkdsk.AltAt | python/utils/chkdsk_wrapper.py:295 | a matched alternative such as one of KB, bytes, MB, GB lies inside the line |
| Chkdsk.SearchLeftmost | python/utils/chkdsk_wrapper.py:260-322 | `re.search` returns a real match and no position before it matches |
| Chkdsk.SearchNone | python/utils/chkdsk_wrapper.py:260-322 | when `re.search` finds nothing, no position in range matches |
| Chkdsk.SearchFinds | python/utils/chkdsk_wrapper.py:260-322 | `re.search` finds a match whenever the pattern occurs somewhere in the line |
| Chkdsk.NumberSearchShape | python/utils/chkdsk_wrapper.py:287-323 | the number a size or bad-sector pattern captures is a non-empty run of its class |
| Chkdsk.DigitRun | python/utils/chkdsk_wrapper.py:271-287 | `(\d+)` captures a maximal run of digits |
| Chkdsk.DigitRunOf | python/utils/chkdsk_wrapper.py:271-287 | a digit run followed by a non-digit or the end is exactly what `(\d+)` captures |
| Chkdsk.StageAt | python/utils/chkdsk_wrapper.py:271 | `stage (\d+) of (\d+)` captures two digit strings |
| Chkdsk.StageSearchShape | python/utils/chkdsk_wrapper.py:271-273 | a stage found in a line carries two digit strings, so `int()` cannot raise on them |
| Chkdsk.FindStageOccurs | python/utils/chkdsk_wrapper.py:271-272 | a stage is reported exactly when `stage <n> of <m>` occurs in the line, ignoring case |
| Chkdsk.StageAtStart | python/utils/chkdsk_wrapper.py:271 | a line starting `Stage <n> of <m>` matches with those two numbers |
| Chkdsk.StageLineParsed | python/utils/chkdsk_wrapper.py:271-280 | chkdsk's line `Stage n of t` is read back as stage n of t |
| Chkdsk.RemoveCommasDigits | python/utils/chkdsk_wrapper.py:297 | removing the commas from a `[\d,]+` capture leaves digits only, and nothing exactly when the capture was commas alone |
| Chkdsk.CommaNumber | python/utils/chkdsk_wrapper.py:297-324 | `int(g.replace(',', ''))` raises exactly when the capture holds commas only |
| Chkdsk.UnitFactor | python/utils/chkdsk_wrapper.py:298-307 | the unit read from the whole line scales by 1, 1024, 1024^2 or 1024^3 |
| Chkdsk.ScanLines | python/utils/chkdsk_wrapper.py:254-257 | one scanned line per line of the output |
| Chkdsk.LineSizes | python/utils/chkdsk_wrapper.py:295-325 | the three size conversions go through exactly when none of them raises on the line |
| Chkdsk.SizesFrame | python/utils/chkdsk_wrapper.py:295-325 | the size conversions write the total, free and allocation fields and nothing else |
| Chkdsk.LineOutcome | python/utils/chkdsk_wrapper.py:255-345 | whether a line raises depends on the line alone |
| Chkdsk.LinesOutcome | python/utils/chkdsk_wrapper.py:247-350 | the whole output parses without raising exactly when no line raises |
| Chkdsk.FailureSticks | python/utils/chkdsk_wrapper.py:255-345 | once a line raises, the later lines change nothing |
| Chkdsk.WithUsed | python/utils/chkdsk_wrapper.py:348-349 | used bytes are set, to total minus free, only when both are positive; nothing else changes |
| Chkdsk.ApplyLine | python/utils/chkdsk_wrapper.py:258-345 | one loop iteration applies the line's steps in order and stops where `int()` raises |
| Chkdsk.ParseLinesStep | python/utils/chkdsk_wrapper.py:255-345 | parsing one more line applies it to the result of the lines before |
| Chkdsk.ParseEachLine | python/utils/chkdsk_wrapper.py:255-345 | the loop gives the result of parsing the stripped lines in order, stopping at the first that raises |
| Chkdsk.ParseChkdskOutput | python/utils/chkdsk_wrapper.py:247-350 | `_parse_chkdsk_output`: nothing for empty output; otherwise the lines in order, with used bytes computed only after the last |
| Chkdsk.CombinedOutput | python/utils/chkdsk_wrapper.py:224-229 | the output is stdout alone when stderr is empty, and otherwise stdout followed by a longer stderr section |
| Chkdsk.RunChkdsk | python/utils/chkdsk_wrapper.py:148-204 | no drive letter or no chkdsk gives the matching error and no run; after the process exits the output is parsed; success exactly when the output is non-empty, the exit code is 0 or 1 and parsing did not raise; a timeout or a failed launch records its error and leaves every other field at its default: no output, exit code -1 and nothing parsed |
| Chkdsk.LitAtOf | python/utils/chkdsk_wrapper.py:259-345 | a word that lower-cases to the literal is an occurrence of it |
| Chkdsk.DigitsThen | python/utils/chkdsk_wrapper.py:287 | a digit string followed by a non-digit is a maximal digit run |
| Chkdsk.BadSectorsTail | python/utils/chkdsk_wrapper.py:287 | ` KB in bad sectors` matches the unit and tail of the bad-sector pattern |
| Chkdsk.BadSectorsAtStart | python/utils/chkdsk_wrapper.py:287 | the bad-sector pattern matches chkdsk's summary line at its start, capturing the count |
| Chkdsk.BadSectorsLineParsed | python/utils/chkdsk_wrapper.py:287-289 | chkdsk's line `<n> KB in bad sectors.` is read back as n |
| Chkdsk.CleanLineClearsErrors | python/utils/chkdsk_wrapper.py:340-345 | a line reporting a clean scan leaves errors_found false, whatever came before |
| Chkdsk.BadSectorsReported | python/utils/chkdsk_wrapper.py:287-293 | a positive bad-sector count is stored, sets errors_found when the line parses and does not report a clean scan, and adds a warning naming the count |
| Chkdsk.ErrorLineRecorded | python/utils/chkdsk_wrapper.py:327-345 | a line with an error keyword and no exclusion is among the warnings, and errors_found is then set exactly when the line does not also report a clean scan |
| Chkdsk.WarningsDistinct | python/utils/chkdsk_wrapper.py:337-338 | the keyword scan adds a line at most once, so without bad-sector warnings the warnings stay distinct |
| Chkdsk.StageCompleted | python/utils/chkdsk_wrapper.py:282-285 | a `100 percent ... percent complete` line completes the stage in progress, even one begun on that line |
| Chkdsk.StagePairsAppend | python/utils/chkdsk_wrapper.py:273-280 | a new stage adds its numbers at the end |
| Chkdsk.StagePairsComplete | python/utils/chkdsk_wrapper.py:282-285 | completing a stage keeps every stage's numbers |
| Chkdsk.LineStages | python/utils/chkdsk_wrapper.py:271-285 | one line adds its stage, if it announces one, after the stages already found |
| Chkdsk.StagesInOrder | python/utils/chkdsk_wrapper.py:247-350 | after a full parse the stage results are one entry per stage line, in the order of the lines |
| Registry.TypeName | python/utils/registry_reader.py:95-108 | a known type code gets its `REG_` name; any other code is named `Unknown(<code>)` (used at registry_reader.py:272) |
| Registry.TypeNameInjective | python/utils/registry_reader.py:95-108 | different type codes get different names (used at registry_reader.py:272) |
| Registry.KnownOrUnknown | python/utils/registry_reader.py:95-108 | no known name is also an unknown code's name (used at registry_reader.py:272) |
| Registry.UnknownNamesDiffer | python/utils/registry_reader.py:272 | two unknown codes with the same name are the same code |
| Registry.TableDistinct | python/utils/registry_reader.py:95-108 | the twelve known names are distinct |
| Registry.LittleEndianBound | python/utils/registry_reader.py:459-462 | a little-endian value of k bytes is below 256^k |
| Registry.LittleRoundTrip | python/utils/registry_reader.py:459-462 | reading back the k little-endian bytes of a number below 256^k gives the number |
| Registry.BigIsReversedLittle | python/utils/registry_reader.py:464-467 | a big-endian reading is the little-endian reading of the reversed bytes |
| Registry.ReverseReverse | python/utils/registry_reader.py:464-467 | reversing the bytes twice gives them back |
| Registry.Units | python/utils/registry_reader.py:446-471 | UTF-16-LE bytes give one 16-bit unit per two bytes |
| Registry.UnitsOfBytes | python/utils/registry_reader.py:446-471 | units written as bytes read back as the same units |
| Registry.DecodeEncodeUnits | python/utils/registry_reader.py:446-471 | encoding text as UTF-16 units (surrogate pairs above U+FFFF) and decoding them gives the text back |
| Registry.Utf16RoundTrip | python/utils/registry_reader.py:446-471 | `decode('utf-16-le')` of the UTF-16-LE encoding of a text is the text |
| Registry.Quoted | python/core/os_detector.py:192-205 | one quoted item per list item |
| Registry.NonEmpty | python/utils/registry_reader.py:472 | the pieces kept are the non-empty ones |
| Registry.NonEmptyAppend | python/utils/registry_reader.py:472 | filtering a concatenation filters each part |
| Registry.NonEmptyKeeps | python/utils/registry_reader.py:472 | a list of non-empty pieces is kept whole |
| Registry.DwordLittleEndian | python/utils/registry_reader.py:459-462 | REG_DWORD is the little-endian value of the first four bytes, whatever follows; fewer than four bytes give no value |
| Registry.DwordBigEndian | python/utils/registry_reader.py:464-467 | REG_DWORD_BIG_ENDIAN reads the same four bytes most significant first |
| Registry.QwordLittleEndian | python/utils/registry_reader.py:476-479 | REG_QWORD is the little-endian value of the first eight bytes; fewer than eight give no value |
| Registry.IntegerWidths | python/utils/registry_reader.py:459-479 | DWORD values stay below 2^32 and QWORD values below 2^64 |
| Registry.BinaryIsHex | python/utils/registry_reader.py:456-482 | REG_BINARY, and an unknown type with data, give lower-case hex, two digits per byte, that decodes back to the data; an unknown type without data gives no value |
| Registry.TrimNuls | python/utils/registry_reader.py:446 | `rstrip('\x00')` removes exactly the trailing NULs of a text that does not end in one |
| Registry.StringValue | python/utils/registry_reader.py:444-454 | REG_SZ and REG_EXPAND_SZ give the stored text with its trailing NULs removed |
| Registry.StringValueUntrailed | python/utils/registry_reader.py:444-454 | a REG_SZ or REG_EXPAND_SZ value never ends in a NUL |
| Registry.JoinAppend | python/utils/registry_reader.py:471-472 | joining a concatenation joins the parts with one separator between |
| Registry.MultiStringRoundTrip | python/utils/registry_reader.py:469-472 | non-empty, NUL-free strings stored each ended by a NUL and the list by one more decode to exactly those strings |
| Registry.MultiStringDecodes | python/utils/registry_reader.py:469-472 | data that decodes as UTF-16-LE gives the non-empty pieces between its NULs |
| Registry.TerminatedPieces | python/utils/registry_reader.py:471-472 | the non-empty pieces of a terminated multi-string are its strings |
| Registry.TerminatedSplit | python/utils/registry_reader.py:471-472 | splitting a terminated multi-string gives its strings and two empty pieces |
| Registry.NoSeparatorAppend | python/utils/registry_reader.py:471-472 | strings without NULs stay so when lists are joined |
| Registry.TerminatedJoin | python/utils/registry_reader.py:471-472 | the two terminators are two empty strings joined on |
| Registry.EmptyTerminatedSplit | python/utils/registry_reader.py:471-472 | an empty multi-string decodes to no strings |
| Registry.MultiStringPieces | python/utils/registry_reader.py:469-472 | every string of a decoded REG_MULTI_SZ is non-empty and NUL-free |
| Registry.HivePath | python/utils/registry_reader.py:161-187 | a hive is found only when the config directory exists, as the exact name when that exists and otherwise as the lower-case name; none exactly when neither exists |
| Registry.ReaderDriveLetter | python/utils/registry_reader.py:189-202 | a drive letter found is one character |
| Registry.FindPowerShell | python/utils/registry_reader.py:139-151 | PowerShell is found exactly on Windows or, under WSL, when one of the two host paths exists, and then it is that path |
| Registry.KeyParts | python/utils/registry_reader.py:249 | no key part holds a backslash |
| Registry.ChildIndex | python/utils/registry_reader.py:255-260 | the child found is the first whose name equals the part ignoring case; none exactly when no child's does |
| Registry.FindChild | python/utils/registry_reader.py:255-260 | the loop over the children finds the first whose name matches the part ignoring case |
| Registry.LookupSkipsEmpty | python/utils/registry_reader.py:252-253 | empty parts make no difference to where a key path leads |
| Registry.LookupIgnoresCase | python/utils/registry_reader.py:256 | key paths that differ only in letter case lead to the same node |
| Registry.SameChild | python/utils/registry_reader.py:256 | parts equal ignoring case find the same child |
| Registry.Navigate | python/utils/registry_reader.py:249-265 | the walk ends at the node the non-empty parts lead to, matching each ignoring case, or at none when a part has no match |
| Registry.ValuesOfLastWins | python/utils/registry_reader.py:268-283 | every value is stored under its name (or `(Default)`), and a name holds the last value of that name |
| Registry.ValuesOfNames | python/utils/registry_reader.py:268-283 | the stored names are exactly the values' names |
| Registry.Names | python/utils/registry_reader.py:286-287 | the subkeys are the child names, in order |
| Registry.HivexRead | python/utils/registry_reader.py:234-301 | a hivex read succeeds exactly when the hive file is found, opens, and the key path leads to a node |
| Registry.ReadWithHivex | python/utils/registry_reader.py:234-301 | the body of `_read_with_hivex` gives the read `HivexRead` defines: the node's decoded values and child names, or the matching error |
| Registry.PowerShellRead | python/utils/registry_reader.py:303-323 | without the hive file, or under WSL without a drive letter, the PowerShell read fails with the matching error; otherwise its outcome is the script's |
| Registry.ReadKeyFirstSuccess | python/utils/registry_reader.py:204-232 | a key is read exactly when some available method reads it, by hivex first and then PowerShell; otherwise the error is that no method could read it |
| Registry.LastSource | python/utils/registry_reader.py:541-545 | the source chosen for a result key is a value that exists |
| Registry.LastSourceIn | python/utils/registry_reader.py:541-545 | a result key gets a source only if the mapping names it |
| Registry.ReadWindowsVersion | python/utils/registry_reader.py:484-563 | the loop over the mapping gives the version information `VersionInfoOf` defines: the error of a failed read, or each result key holding its last present source |
| Registry.CurrentBuildNumberWins | python/utils/registry_reader.py:527-545 | `current_build` holds CurrentBuildNumber when it exists, else CurrentBuild when that exists, else nothing |
| Registry.LastSourceSkip | python/utils/registry_reader.py:541-545 | mapping entries for other result keys do not change a key's source |
| Registry.SingleSource | python/utils/registry_reader.py:524-545 | every other result key is filled exactly when its registry value exists, and then holds its data |
| OsDetection.Fresh | python/core/os_detector.py:28-41 | a fresh result knows nothing: confidence UNKNOWN, not boot-capable, no methods tried, no errors |
| OsDetection.NamesInjective | python/core/os_detector.py:37-38 | each detection method and each confidence level is written as its own text (NONE, REGISTRY, PATTERN, OS_RELEASE, LSB_RELEASE, SYSTEM_VERSION_PLIST; HIGH, MEDIUM, LOW, UNKNOWN), so distinct values stay distinct in an `os_info` row |
| OsDetection.DetectOrder | python/core/os_detector.py:93-118 | the result is UNKNOWN, of type 'Unknown' and method NONE exactly when the drive has none of `Windows`, `etc` and `System/Library`; otherwise it is the first family's result whose marker folder exists |
| OsDetection.WindowsDecided | python/core/os_detector.py:120-159 | with a `Windows` folder the result is boot-capable and never UNKNOWN: the registry's when that is HIGH, otherwise the pattern detector's; without it, UNKNOWN |
| OsDetection.RegistryOutcome | python/core/os_detector.py:161-223 | the registry detector answers HIGH or UNKNOWN, and every UNKNOWN carries one error |
| OsDetection.RegistryNamed | python/core/os_detector.py:185-196 | registry detection is HIGH exactly when the key was read and holds a non-empty ProductName, which becomes the name |
| OsDetection.RegistryVersion | python/core/os_detector.py:198-201 | the version is DisplayVersion when it is filled, else CurrentVersion when that is filled |
| OsDetection.FieldFrom | python/utils/registry_reader.py:524-545 | a single-source field holds its registry value's data, or nothing when the value is absent |
| OsDetection.RegistryBuild | python/core/os_detector.py:203-207 | the build is `build.ubr` when UBR is filled and the build alone otherwise, the build being CurrentBuildNumber when present and CurrentBuild otherwise |
| OsDetection.RegistryFailure | python/core/os_detector.py:170-180 | a failed read is reported with the read's own error, and a missing reader with its own message |
| OsDetection.PatternNeverUnknown | python/core/os_detector.py:225-286 | the pattern detector answers MEDIUM or LOW, never UNKNOWN |
| OsDetection.PatternTree | python/core/os_detector.py:225-286 | MEDIUM exactly for a Vista-or-later 64-bit layout or, without Users, an XP or NT layout; every other drive is LOW |
| OsDetection.Run | python/core/os_detector.py:325 | the capture of `([^"\n]+)` is the longest prefix without quotes or line breaks |
| OsDetection.SearchFrom | python/core/os_detector.py:325-346 | a value found is non-empty and holds no quote or line break |
| OsDetection.LineValueFirst | python/core/os_detector.py:325 | a value found comes from the first line start where the key is followed by '=', and no earlier line start matches |
| OsDetection.LongerKeyNoMatch | python/core/os_detector.py:325 | a line naming a longer key, such as `VERSION_ID=` for `VERSION`, never matches |
| OsDetection.RunOfValue | python/core/os_detector.py:325 | a value followed by a quote or line break is captured whole |
| OsDetection.FirstLineValue | python/core/os_detector.py:325-327 | a file that begins with `KEY="value"` or `KEY=value` yields the value without the quotes |
| OsDetection.ParseOsRelease | python/core/os_detector.py:317-327 | the loop over the four keys applies each handler that finds its key, in order, as `OsReleaseFields` defines |
| OsDetection.AllKeysApplied | python/core/os_detector.py:317-327 | applying all handlers one at a time is applying them all |
| OsDetection.LinuxDecided | python/core/os_detector.py:288-357 | UNKNOWN exactly without `etc`; HIGH from os-release exactly when it has a NAME other than 'Unknown'; otherwise MEDIUM from lsb-release exactly when it has a DISTRIB_DESCRIPTION; otherwise LOW |
| OsDetection.MacDecided | python/core/os_detector.py:359-405 | UNKNOWN exactly without `System/Library`; HIGH exactly when the plist gives a non-empty version; otherwise LOW, keeping what the plist gave |
| OsInspection.FeaturesOf | python/inspection/pass2_os.py:229-259 | each feature flag is the existence of its marker path; `is_64bit` exactly when `Program Files (x86)` exists |
| OsInspection.ProfilesIff | python/inspection/pass2_os.py:272-277 | a name is listed as a profile exactly when some entry of that name is a directory, not a system folder, holding NTUSER.DAT |
| OsInspection.ProfilesExclude | python/inspection/pass2_os.py:270-274 | no system folder is ever reported as a profile |
| OsInspection.CollectProfiles | python/inspection/pass2_os.py:272-277 | the loop over the entries collects exactly the profiles, in listing order |
| OsInspection.ProfileSources | python/inspection/pass2_os.py:261-302 | profiles come from `Users` when it exists (a failed listing leaves none and one warning) and from `Documents and Settings` only when `Users` does not; with neither there are none and no warnings |
| OsInspection.AnalyseUserProfiles | python/inspection/pass2_os.py:261-302 | the profile list is replaced only when a listing succeeded, and each failed listing adds its warning; nothing else changes |
| OsInspection.Dirs | python/inspection/pass2_os.py:316 | a listing has no more directories than entries |
| OsInspection.CountInstalledPrograms | python/inspection/pass2_os.py:304-322 | the count is the subdirectories of `Program Files` plus those of `Program Files (x86)`, a missing or unreadable folder adding nothing |
| OsInspection.ConfidenceAdvice | python/inspection/pass2_os.py:328-332 | the could-not-detect note appears exactly for UNKNOWN, the low-confidence note exactly for LOW, and nothing else |
| OsInspection.WindowsAdviceIff | python/inspection/pass2_os.py:334-350 | each Windows note appears exactly when its condition holds: a Server edition, an older Windows name with a version, BitLocker among the features, more than five profiles |
| OsInspection.Recommendations | python/inspection/pass2_os.py:324-355 | the recommendations are never empty |
| OsInspection.RecommendationsIff | python/inspection/pass2_os.py:324-355 | the confidence notes appear exactly for UNKNOWN and LOW; the Windows notes exactly for Windows drives; the no-issues note exactly when nothing else applies, and then alone |
| OsInspection.ExtraAnalysisOnlyForWindows | python/inspection/pass2_os.py:166-196 | the Windows analysis runs exactly when enabled on a drive detected as Windows, and then `is_64bit` is the existence of `Program Files (x86)`; otherwise no profiles and no profile note; the errors are the detection's |
| OsInspection.AnalyseWindows | python/inspection/pass2_os.py:192-259 | the features, the `64bit_detected` and `wsl_installed` notes, the profiles and the program count are added to the report as their definitions say |
| OsInspection.Analyse | python/inspection/pass2_os.py:154-199 | the report is the detection copied over, with the Windows analysis and the recommendations, as `OsReportOf` defines |
| OsInspection.Inspect | python/inspection/pass2_os.py:141-227 | the report is `OsReportOf`; with a store and a truthy session id pass 2 is started and then recorded with the report, failed exactly when the joined errors are non-empty; then, for a session with a truthy drive id, the detection is added to `os_info` under the session id unless that key is taken; otherwise the store is unchanged |
| OsInspection.InspectSession | python/inspection/pass2_os.py:160-224 | with session `s`: the report, pass 2 started and then recorded, the clock two ticks on, and the legacy `os_info` write |
| OsInspection.RecordSession | python/inspection/pass2_os.py:203-224 | pass 2 completed with the report and the joined errors, failed exactly on a non-empty message and one tick on, then the legacy `os_info` write |
| OsInspection.StoreLegacyRow | python/inspection/pass2_os.py:216-224 | a row keyed by the session id is added exactly when the session exists with a truthy drive id and the key is free; an insert that raises is ignored and writes nothing |
| Health.Note | python/inspection/pass1_health.py:381-398 | a SMART warning is emitted exactly when its condition holds, at most once |
| Health.SmartOf | python/inspection/pass1_health.py:270-408 | `_get_smart_data` never fills reallocated or pending sectors |
| Health.SmartAvailable | python/inspection/pass1_health.py:270-408 | SMART data is available exactly when a drive letter, Windows or WSL, and PowerShell are there, the query printed output, and it decodes to an object whose `available` is true |
| Health.SmartCounters | python/inspection/pass1_health.py:355-398 | for available data, uncorrectable sectors are uncorrected reads plus uncorrected writes (a missing count reads 0); the status defaults to 'Unknown'; each warning appears exactly when its condition holds, such as a temperature above 55 |
| Health.Capped | python/inspection/pass1_health.py:222-232 | a per-sector deduction is `min(n * k, cap)` for a positive count and never more than the cap |
| Health.ChkdskFindings | python/inspection/pass1_health.py:176-201 | the chkdsk step gives no advice and no empty error; a successful run costs 20 with errors and 30 with bad sectors, an unsuccessful one 10, an exception 15 |
| Health.SmartFindings | python/inspection/pass1_health.py:204-241 | the SMART step never reports an empty error |
| Health.Clamp | python/inspection/pass1_health.py:244 | the clamped score lies in 0..100 and a score already there is unchanged |
| Health.ScoreIsDeducted | python/inspection/pass1_health.py:160-244 | the score is 100 less the deductions, or 0 when they exceed 100; deductions only lower it |
| Health.DeductionBounds | python/inspection/pass1_health.py:176-241 | chkdsk takes at most 50 points, SMART at most 100 |
| Health.CleanRunScoresFull | python/inspection/pass1_health.py:176-244 | a successful chkdsk run without errors or bad sectors and no SMART step leave a score of 100 |
| Health.LabelMonotone | python/inspection/pass1_health.py:410-423 | a higher score never gets a worse label |
| Health.LabelBands | python/inspection/pass1_health.py:410-423 | Excellent from 90, Good from 75, Fair from 50, Poor from 25, Critical below, and each label is exactly its band |
| Health.Advise | python/inspection/pass1_health.py:425-450 | an advice appears exactly when its condition holds, and nothing else |
| Health.Recommendations | python/inspection/pass1_health.py:425-450 | the recommendations raise exactly when available SMART data has a null status; otherwise they are never empty |
| Health.LowScoreBacksUp | python/inspection/pass1_health.py:429-430 | the back-up advice appears exactly when the score is below 50 |
| Health.AllClearAlone | python/inspection/pass1_health.py:447-448 | the all-clear appears only alone, and never with a score below 50 |
| Health.NullStatusNoted | python/inspection/pass1_health.py:213-240 | available SMART data with a null status costs nothing and adds only the note that retrieval failed |
| Health.UnknownStatusCosts | python/inspection/pass1_health.py:214-216 | a status read as 'Unknown', as a missing key is, costs 25 points and a warning (scored at pass1_health.py:362) |
| Health.AssessedErrors | python/inspection/pass1_health.py:176-241 | no error the health check reports is empty text |
| Health.Assess | python/inspection/pass1_health.py:171-252 | the steps lower the score in turn and add their warnings, errors and advice; the score is clamped and labelled; it raises exactly when available SMART data has a null status |
| Health.Finish | python/inspection/pass1_health.py:255-264 | a report is stored for pass 1, failed exactly when it has errors; after an exception nothing is written and the pass stays running |
| Health.Inspect | python/inspection/pass1_health.py:156-268 | with a store and a truthy session id pass 1 is started and, unless the recommendations raise, recorded with the report, failed exactly when it has errors; without one the store is unchanged |
| Review.HealthJsonOf | python/inspection/pass1_health.py:60-90 | the stored pass-1 report holds null SMART data exactly when SMART was not read (stored at pass1_health.py:209-213) |
| Review.HealthSummaryFailsOnNull | python/inspection/pass4_review.py:193-206 | the summary as written fails exactly on a stored report whose chkdsk result or SMART data is null, and otherwise agrees with the corrected summary |
| Review.SkippedSmartStopsReview | python/inspection/pass4_review.py:204-205 | a pass-1 report made with SMART skipped stops the review as written; the corrected summary reads SMART as unavailable and keeps the stored status and score |
| Review.TopExtensionsAreTop | python/inspection/pass4_review.py:245-248 | at most five extensions (fewer only when fewer exist), in non-increasing count order, drawn from the counts, and no extension left out counts more than one kept |
| Review.ProposalsIff | python/inspection/pass4_review.py:250-388 | each of the four decision points is proposed exactly when its finding holds: duplicates in the scan or across scans, a bootable Windows system, a Windows system, a health score below 70; a missing health report proposes no health action |
| Review.ProposalKinds | python/inspection/pass4_review.py:250-388 | every proposal is one of the four kinds of decision point |
| Review.ProposalDefaults | python/inspection/pass4_review.py:250-388 | every proposal has a default, and the default is one of its own options |
| Review.ProposalIdsDistinct | python/inspection/pass4_review.py:250-388 | no two proposals share an id |
| Review.DecisionPoint.constructor | python/inspection/pass4_review.py:52-63 | a new decision point carries its proposal and is unresolved, with no resolution and no notes |
| Review.SettledAll | python/inspection/pass4_review.py:513-523 | one record per proposal, each the proposal settled with its default under auto-resolve and pending otherwise |
| Review.RecordsSettled | python/inspection/pass4_review.py:523 | the records of decision points that each stand as their settled proposal are the settled proposals, in order |
| Review.GenerateDecisionPoints | python/inspection/pass4_review.py:250-388 | one fresh decision point per proposal, in order, each pending |
| Review.AutoResolve | python/inspection/pass4_review.py:516-521 | every decision point with a default is resolved with it and noted as auto-resolved; the others are untouched |
| Review.PendingCount | python/inspection/pass4_review.py:461 | the pending count never exceeds the number of decision points |
| Review.PendingAfterAutoResolve | python/inspection/pass4_review.py:516-523 | when every proposal has a default, nothing is pending after auto-resolve and everything is pending without it |
| Review.Prefix10 | python/inspection/pass4_review.py:428 | the cut date is a prefix of the date, at most ten characters long |
| Review.AdvisedIff | python/inspection/pass4_review.py:390-430 | each recommendation is drawn exactly when its finding holds: health Critical or Poor, more than 1 GiB wasted on duplicates, a bootable system, more than three user profiles |
| Review.AdvisedHistory | python/inspection/pass4_review.py:425-430 | the "files date back to" advice is drawn exactly when the oldest file date is known and non-empty, and it carries that date cut to ten characters |
| Review.Recommendations | python/inspection/pass4_review.py:390-434 | there is always at least one recommendation |
| Review.RecommendationsIff | python/inspection/pass4_review.py:431-432 | standard archiving is recommended exactly when nothing else is, and then alone; every other recommendation is exactly one drawn from the findings |
| Review.SummaryPending | python/inspection/pass4_review.py:436-465 | the summary line starts with the drive and the health status, and it reports the pending count, with its exact value, exactly when some decision is pending |
| Review.FinishedKeeps | python/inspection/pass4_review.py:538-554 | finishing the review keeps its decision points and errors, and the summary is drawn from the report with its recommendations |
| Review.ReviewNeverFails | python/inspection/pass4_review.py:482-569 | the review never records an error, so pass 4 is never stored as failed; every decision point is pending unless auto-resolve settled them all, and the summary says so |
| Review.Inspect | python/inspection/pass4_review.py:467-569 | the report is the review of what was read; with a store and a session id, pass 4 is started and then completed with the report's JSON and no error message, and nothing else in the store changes; without either, nothing is read or written |
| Review.InspectStored | python/inspection/pass4_review.py:491-566 | with a store and a session id, pass 4 is started and recorded as completed with the report; the report is the review of what the store held beforehand |
| Review.StartAndRead | python/inspection/pass4_review.py:491-527 | starting pass 4 changes nothing the later reads see: what is read is what the store held before |
| Review.ReadStored | python/inspection/pass4_review.py:495-527 | the reads return the session's drive, the decoded stored reports of passes 1-3 and the session's logged decisions |
| Review.Review | python/inspection/pass4_review.py:507-554 | the steps after the reads produce the review specified for what was read |
| Review.Unresolved | python/inspection/pass4_review.py:626-627 | filtering never adds decision points |
| Review.UnresolvedIff | python/inspection/pass4_review.py:626-627 | a decision point is pending exactly when it was proposed and no logged decision names it |
| Review.UnresolvedMore | python/inspection/pass4_review.py:626-627 | filtering by one more key is the same as filtering the pending ones again |
| Review.KeysAfterRecord | python/core/database.py:480-506 | logging a decision for a session adds exactly its key to that session's decision keys |
| Review.ResolvingRemovesPending | python/inspection/pass4_review.py:571-629 | logging a decision removes exactly its decision point from the pending ones, and nothing else |
| Review.GetPendingDecisions | python/inspection/pass4_review.py:606-629 | the pending decision points of the stored pass-4 report that no logged decision names; none without a store, an unknown session or a stored report |
| Review.ResolveDecision | python/inspection/pass4_review.py:571-604 | succeeds exactly when there is a store, and then logs the decision under the decision point's id as both type and key; only the decisions and the clock, one tick on, can change |
| Hashing.ErrorMessage | python/utils/hash_utils.py:97-104 | every error the hash functions catch is reported with a non-empty message |
| Hashing.Read | python/utils/hash_utils.py:78-93 | a read returns the next bytes of the file from the position, as many as asked for or as remain |
| Hashing.SizeBytes | python/utils/hash_utils.py:74 | the size is fed to the hasher as its decimal digits |
| Hashing.ComputeQuickHash | python/utils/hash_utils.py:49-104 | exactly one of a hash and an error; a size or open error is reported with its message; otherwise the hash is the MD5 of the size followed by the whole of a small file, or the first and last chunks of a large one |
| Hashing.SmallFileHashedWhole | python/utils/hash_utils.py:77-93 | a file of at most 64 bytes, or at most two chunks long, is hashed whole after its size |
| Hashing.MiddleBytesIgnored | python/utils/hash_utils.py:80-88 | two files of the same size, longer than two chunks, that agree on their first and last chunks get the same quick hash whatever lies between |
| Hashing.ComputeSha256 | python/utils/hash_utils.py:107-140 | exactly one of a hash and an error; an open error is reported with its message; otherwise the hash is the SHA-256 of the whole file (of nothing, for a chunk size of 0) |
| Hashing.HashFile | python/utils/hash_utils.py:143-180 | a size error yields no hashes and a size of 0; an open error yields no hashes; otherwise the quick hash is computed, and the SHA-256 hash only on request, with its failure reported beside the quick hash |
| Hashing.FilesAreDuplicates | python/utils/hash_utils.py:183-230 | two files are duplicates exactly when both can be read, their sizes agree, their quick hashes agree and their SHA-256 hashes agree; different sizes are reported as such |
| Hashing.ParseCompositeKey | python/utils/hash_utils.py:250-261 | a key parses only when it holds a ':' |
| Hashing.CompositeKeyRoundTrip | python/utils/hash_utils.py:233-261 | a composite key parses back to its size and quick hash, even when the hash itself holds ':' |
| DirectoryExtract.GetDirectoryTree | python/quick_directory_extract.py:37-110 | without an index connection the summary is empty; otherwise it is the per-folder summary of the query's rows |
| DirectoryExtract.Update | python/quick_directory_extract.py:78-97 | one row updates its folder's entry as the reference fold says |
| DirectoryExtract.HasFolderStep | python/quick_directory_extract.py:70-97 | a folder has rows after one more row exactly when it had some before or the new row belongs to it |
| DirectoryExtract.DirectoryTotals | python/quick_directory_extract.py:70-82 | a folder has an entry exactly when some row belongs to it, and its file and byte totals are the sums over its rows; every other folder reads as the empty entry |
| DirectoryExtract.OldestDateStep | python/quick_directory_extract.py:85-90 | the creation dates of a folder's rows after one more row are those before plus the new row's, when it has one |
| DirectoryExtract.NewestDateStep | python/quick_directory_extract.py:92-96 | the modification dates of a folder's rows after one more row are those before plus the new row's, when it has one |
| DirectoryExtract.OldestIsMinimum | python/quick_directory_extract.py:85-90 | the oldest date is one of the folder's creation dates and no creation date is smaller in string order; it is missing exactly when no row has one |
| DirectoryExtract.NewestIsMaximum | python/quick_directory_extract.py:92-96 | the newest date is one of the folder's modification dates and no modification date is greater in string order; it is missing exactly when no row has one |
| DirectoryExtract.HasGroupStep | python/quick_directory_extract.py:80-82 | the extensions of a folder after one more row are those before plus the new row's |
| DirectoryExtract.ExtensionsSumToTotal | python/quick_directory_extract.py:54-82 | when no (folder, extension) group repeats, a folder lists exactly the extensions of its rows and their counts add up to its file total |
| DirectoryExtract.Keep | python/quick_directory_extract.py:121 | a kept path part is never empty |
| DirectoryExtract.ComponentsFrom | python/quick_directory_extract.py:121 | the names split from a path are never empty |
| DirectoryExtract.PathParts | python/quick_directory_extract.py:121 | no part of a path is empty, and a path with a drive letter starts with that drive |
| DirectoryExtract.CreateHierarchicalTree | python/quick_directory_extract.py:112-156 | the loop builds the tree the reference build specifies |
| DirectoryExtract.EnsurePathInfo | python/quick_directory_extract.py:124-137 | the first walk creates an empty node for each leading run of the folder's parts that is missing, and leaves every other node as it was |
| DirectoryExtract.SetLeafInfo | python/quick_directory_extract.py:139-154 | the second walk sets the direct figures of the folder's own node, when it exists, and changes nothing else |
| DirectoryExtract.LastWithCreated | python/quick_directory_extract.py:116-154 | a node whose parts are some placed folder's has been created |
| DirectoryExtract.CreatedStep | python/quick_directory_extract.py:116-137 | after one more folder, the created nodes are those before plus the leading runs of its parts, when it is placed |
| DirectoryExtract.HierarchyInfo | python/quick_directory_extract.py:112-156 | the tree has a node for every leading run of every placed folder's parts and for nothing else; a folder's own node carries the figures of the last folder with those parts; no node's file or byte total is ever filled in |
| DirectoryExtract.CountExtensions | python/quick_directory_extract.py:182-186 | the nested loop computes the extension totals across all folders |
| DirectoryExtract.AddAllCounts | python/quick_directory_extract.py:185-186 | adding one folder's extensions adds its count to each extension's total and its counts to the grand total |
| DirectoryExtract.SumLast | python/quick_directory_extract.py:161-162 | a total is the total of all but the last entry plus the last |
| DirectoryExtract.ExtensionTotalsSum | python/quick_directory_extract.py:182-186 | an extension's total is the sum of its counts over all folders, and the totals together add up to every count of every folder |
| DirectoryExtract.SummarizeTree | python/quick_directory_extract.py:158-198 | the counts of folders, files and bytes; the 15 folders with most files and the 20 most frequent extensions (fewer only when fewer exist), each list in non-increasing order, drawn from the folders and the extension totals, with nothing left out ranking above anything kept |
| IndexSummary.TallyCounts | python/get_windows_index_metadata.py:259-272 | a tally holds every key once, each with its number of occurrences, and its counts add up to the number of keys |
| IndexSummary.TallyStep | python/get_windows_index_metadata.py:263-265 | counting one more key adds one to its count |
| IndexSummary.KeysStep | python/get_windows_index_metadata.py:259-272 | one more record adds its type key, and its extension and folder keys when they are non-empty |
| IndexSummary.GenerateSummaryReport | python/get_windows_index_metadata.py:247-285 | the loops compute the report the reference summary specifies: nothing for no records, otherwise the counts sorted and cut to 20 where the report lists the top ones |
| IndexSummary.CountTypesAndExtensions | python/get_windows_index_metadata.py:259-265 | the first loop tallies the perceived types of all records and the non-empty lower-cased extensions |
| IndexSummary.CountFolders | python/get_windows_index_metadata.py:268-272 | the second loop tallies the non-empty folders |
| IndexSummary.SumInsert | python/get_windows_index_metadata.py:281 | inserting an item into a sorted list adds its count to the total |
| IndexSummary.SumSorted | python/get_windows_index_metadata.py:281 | sorting the items keeps the total of their counts |
| IndexSummary.ReportShape | python/get_windows_index_metadata.py:247-285 | there is a report exactly when there are records; it counts one file per record, its type counts add up to the number of records and hold the same items as the tally, and every list is in non-increasing count order and drawn from its tally |
| IndexSummary.TopListsAreTop | python/get_windows_index_metadata.py:274-283 | the top extension and folder lists hold 20 entries, or all when fewer exist, and nothing left out counts more than anything kept |
| IndexSummary.TypeKeysLength | python/get_windows_index_metadata.py:259-263 | there is one type key per record |
| IndexSummary.TypeCounts | python/get_windows_index_metadata.py:259-263 | each perceived type is counted once per record that has it |
| IndexSummary.ExtensionCounts | python/get_windows_index_metadata.py:259-265 | each extension is counted once per record that has it, and records without one are not counted |
| IndexSummary.FolderCounts | python/get_windows_index_metadata.py:268-272 | each folder is counted once per record in it, and records without one are not counted |
| IndexSummary.ExtensionsLowered | python/get_windows_index_metadata.py:261-265 | every extension counted is non-empty and holds no upper-case letter |
| IndexSummary.AnyNullStep | python/get_windows_index_metadata.py:259-261 | some record has a null extension after one more record exactly when one did before or the new one does |
| IndexSummary.NullExtensionRaises | python/get_windows_index_metadata.py:261 | the extension count as written fails exactly when some record has a null extension; otherwise it agrees with the corrected count |
| IndexSummary.FolderItemRaises | python/get_windows_index_metadata.py:261 | a single folder item, indexed with no size and no extension, stops the report as written, while the corrected report exists (the query at get_windows_index_metadata.py:49-74 has no item-type filter) |

## Left out

- SQLite itself is not modelled: connections, commits, schema creation and SQL text. Each table is a sequence, and a write that raises is not modelled. So `resolve_decision` returning False on a database error, and the logged failures of `complete_pass` in the passes, do not appear.
- External processes and libraries are inputs, not models: PowerShell, chkdsk, hivex, the registry load and unload, the SMART script, COM/ADODB for the Windows Search Index, and `plistlib`. Their outputs, already parsed, are parameters.
- MD5 and SHA-256 are function parameters over bytes, not implemented.
- The file system is an input: the directory tree, the set of marker paths that exist, file contents and `os.statvfs` answers. The order in which `os.walk` lists a directory is the order of the input.
- Time is a logical clock that advances once per stamped write. It replaces `datetime.now()`, ISO formatting, `fromtimestamp` and the parsed install date (`install_date_parsed`). A temporary drive's `TEMP-<timestamp>` serial takes its time stamp as an input.
- Floating-point figures are not computed: GB and MB strings, rounding, `execution_time_seconds`, and the size shown in a summary line.
- JSON encoding and decoding are function parameters. The JSON `to_json` writes and the decoders pass 4 applies are given, not defined.
- Human-readable text is kept only as the kind of message it is: summaries, recommendation wording and printed reports. The pass-2 and pass-3 `_generate_summary` lines are not modelled. The markdown report generator is not part of this model; its outcome is an input of pass 4.
- Progress bars, progress callbacks and logging are not modelled.
- The process supervisor that launches passes as worker processes is not part of this model. The web UI (`archive_ui.py`), the power manager, the logger and the thin command-line wrappers are not part of this model either.
- Some store operations that nothing in the repository's code calls are not modelled: `get_scan_info`, `insert_file_hash`, `find_duplicates_by_hash` and `get_inspection_history`.
- ScanDrive.RecordScanAsWritten: scan_drive.py imports `core.logger`, `core.database`, `core.drive_validator` and `core.os_detector`. The model takes these to be the modules of python/core. The `core/` package beside scan_drive.py also exists, but only its drive_manager.py and file_scanner.py are part of this model. Its database, drive_validator and os_detector modules are not part of this model. `RecordScanAsWritten` and `StageTwoStopsEveryScan` hold only under that reading. If the detector scan_drive.py imports returns a dictionary, Stage 2 behaves as the corrected `RecordScan` does.
- ScanDrive.RecordScan: takes the outcome of `OSDetector.detect` as an input, a result or None when it raises, rather than computing it from a drive view. An interrupt during Stage 2 (exit code 130) is not modelled; the interrupt input covers the file walk only.
- Stage 4 of the scan (`get_statistics` after `complete_scan`) only reads the store to write log lines, and is not modelled.
- The `verify_with_sha256` option of pass 3 is not a parameter of the model: the source does nothing with it beyond a TODO.
- Python's string methods and `re` are Unicode-aware; the model's are ASCII-only:
  - `Text.Lower`, `Text.Upper` and `Text.IsSpace` map case and recognise white space for ASCII characters only.
  - The chkdsk and registry matchers read `\d`, `\w` and `\s` as ASCII digits, ASCII word characters and ASCII white space.
- DrivePaths.DriveLetterShown: ensures a one-character result because upper-casing is ASCII-only; Python's `'ß'.upper()` is `'SS'`.
- Text.ParseInt: accepts an optional sign and ASCII digits, surrounded by ASCII white space; Python's `int()` also accepts underscores between digits and non-ASCII digits.
- Registry.Data.Shown: shows a multi-string value's items in single quotes without Python's `repr` escaping of quotes and backslashes.
- DuplicateGroups.Groups: members carry their paths whole. The source joins a group's paths with `GROUP_CONCAT(..., '|||')` and splits them again, so a path containing `|||` would shift the member list; the model does not capture that.
- IndexSummary.SummaryOf: leaves out `total_size_gb` (floating point) and `extraction_timestamp` (clock).
- DirectoryExtract.PathParts: produces no UNC anchor (`\\server\share\`) as `pathlib` does on Windows; such a folder is split into its names.
- Catalog.Database.InsertFileHashesBatch: stamps every row of a batch with one clock value; the source calls `datetime.now()` once per row.
- Catalog.Database.GetInspection: returns the session row and its passes without the drive's model and serial number that the LEFT JOIN adds; pass 4 reads them from the drives table directly.
- MetadataInspection.HighErrors: compares `errors_count > files_processed * 0.1` in exact arithmetic, not in floating point.
- MetadataCapture.CaptureFileMetadata: takes the records from the walk first and then stores them. The source interleaves the two, which leaves the same final state, because the walk never reads the store.
- FileScanning.FileScanner.CountFiles: the path where `count_files` catches an exception and returns 0 is not modelled. `os.walk` ignores listing errors, so only the skip test could raise.

## Findings

| source | as written | input that shows it | evidently intended | confidence | as-written member | corrected member |
|---|---|---|---|---|---|---|
| python/core/drive_validator.py:29 | `_detect_wsl` calls `f.read()` twice on `/proc/version`. The second call is at end of file and returns "", so the `wsl` test never holds | a `/proc/version` text `WSL` that names WSL but not Microsoft: the validator does not see WSL and skips the WSL mount checks | test both words in the one text read, as `pass2_os.py` does | not executed | DriveValidation.WslOnlyKernelMissed | DriveValidation.DetectWsl |
| python/inspection/pass4_review.py:204-205 | `health_report.get('smart_data', {}).get('available', False)` raises AttributeError when the stored value is null. The review stops. Pass 1 stores a null `smart_data` whenever SMART is skipped, and a null `chkdsk_result` when chkdsk raised | a session whose pass 1 ran with SMART skipped, then reviewed in pass 4 | read a null nested object as an empty one: SMART unavailable, and the rest of the summary kept | not executed | Review.SkippedSmartStopsReview | Review.HealthSummaryFailsOnNull |
| python/get_windows_index_metadata.py:261 | `f.get('System.FileExtension', '').lower()` raises AttributeError when the key holds null. The index query has no item-type filter, so folder items, which have no extension, are read too | one record for the folder `E:\` with no size and no extension | count a null extension like a missing one: not counted | not executed | IndexSummary.FolderItemRaises | IndexSummary.NullExtensionRaises |
| python/core/database.py:563-564 | the name comparison calls `REVERSE()`, which SQLite does not provide and the store never registers. The query raises, and `_find_cross_scan_duplicates` swallows the error, so pass 3 never reports a cross-scan candidate | any file of the scan with the size and the name of a file of another scan | the pairs of this scan's files with other scans' files of equal size and equal last path component, ignoring case, up to 1000 | not executed | MetadataInspection.CrossScanLostAsWritten | Catalog.Database.FindPotentialDuplicates |
| scan_drive.py:157 | if `core.os_detector` is python/core/os_detector.py, `OSDetector.detect()` returns an `OSDetectionResult` dataclass, which has no `__getitem__`, so `os_info['os_type']` raises TypeError. `except Exception` turns it into exit code 1 before `insert_os_info` and the file scan, which leaves the new scan in progress with no file rows | any drive that passes validation and has drive information | read the result through its dictionary (`detect().to_dict()`), store it with `insert_os_info`, then scan the files | not executed; holds only if scan_drive.py's `core.os_detector` is python/core/os_detector.py, and scan_drive.py:159 calls `.get` on the same value, which suggests a dictionary instead | ScanDrive.StageTwoStopsEveryScan | ScanDrive.RecordScan |

=== FILE: batches.dfy ===
/**
 * Batched inserts of file records, as the scan and the metadata pass do
 * them: each record joins a batch, a batch that reaches the batch size is
 * inserted and restarts, and what is left is inserted at the end.
 */
module FileBatches {
  import opened FileScanning
  import opened Catalog

  /** A batch size below 1 flushes after every record, like a size of 1. */
  function Capacity(size: int): (c: nat)
    ensures c >= 1 && (size >= 1 ==> c == size)
  {
    if size < 1 then 1 else size
  }

  /** How many of `n` records full batches of `size` have flushed: whole batches only. */
  function Flushed(n: nat, size: int): (r: nat)
    ensures r <= n && n - r < Capacity(size)
    decreases n
  {
    if n < Capacity(size) then 0 else Capacity(size) + Flushed(n - Capacity(size), size)
  }

  /**
   * One pass of a batch loop's body: the record joins the batch, and a
   * batch that reaches `size` records is inserted and restarts. `stored`
   * are the records inserted so far, after the rows `before` that were
   * there.
   */
  method Collect(db: Database, scanId: int, size: int, ghost before: seq<FileRow>, ghost stored: seq<FileRecord>,
                 batch: seq<FileRecord>, rec: FileRecord)
    returns (ghost stored': seq<FileRecord>, batch': seq<FileRecord>)
    requires db.Valid() && |batch| < Capacity(size) && Flushed(|stored| + |batch|, size) == |stored|
    requires db.files == before + Rows(scanId, stored)
    modifies db`files
    ensures db.Valid() && |batch'| < Capacity(size)
    ensures stored' + batch' == stored + (batch + [rec])
    ensures Flushed(|stored| + |batch| + 1, size) == |stored'|
    ensures db.files == before + Rows(scanId, stored')
  {
    FlushedStep(|stored| + |batch|, |batch|, size);
    batch' := batch + [rec];
    stored' := stored;
    if |batch'| >= size {
      db.InsertFilesBatch(scanId, batch');
      RowsAppend(scanId, stored, batch');
      stored', batch' := stored + batch', [];
    }
  }

  /** The rows after the final insert are the rows of every record read. */
  lemma LastFlush(before: seq<FileRow>, scanId: int, stored: seq<FileRecord>, batch: seq<FileRecord>)
    ensures (before + Rows(scanId, stored)) + Rows(scanId, batch) == before + Rows(scanId, stored + batch)
    ensures batch == [] ==> before + Rows(scanId, stored) == before + Rows(scanId, stored + batch)
  {
    RowsAppend(scanId, stored, batch);
    if batch == [] {
      assert stored + batch == stored;
    }
  }

  /** How the flushed part moves when one more record is read. */
  lemma {:induction false} FlushedStep(i: nat, held: nat, size: int)
    requires held <= i && held < Capacity(size) && Flushed(i, size) == i - held
    ensures held + 1 < Capacity(size) ==> Flushed(i + 1, size) == i - held
    ensures held + 1 == Capacity(size) ==> Flushed(i + 1, size) == i + 1
    decreases i
  {
    var c := Capacity(size);
    if i >= c {
      FlushedStep(i - c, held, size);
      assert Flushed(i + 1, size) == c + Flushed(i + 1 - c, size);
    } else if i + 1 == c {
      assert Flushed(i + 1 - c, size) == 0;
    }
  }

  lemma PrefixStep(records: seq<FileRecord>, i: nat, stored: seq<FileRecord>, batch: seq<FileRecord>)
    requires i < |records| && stored + batch == records[..i]
    ensures stored + (batch + [records[i]]) == records[..i + 1]
  {
    assert records[..i + 1] == records[..i] + [records[i]];
  }
}

=== FILE: catalog_store.dfy ===
/**
 * The catalogue store: the drives, scans, the operating system found per
 * scan, files, hashes, duplicate groups, inspection sessions, their four passes and the decisions log, held as
 * tables in memory.
 *
 * Each table is a sequence in insertion order, and every auto-increment id
 * is the row's position plus one (rows are never deleted). `datetime.now()`
 * is a logical clock: each stamped write takes the current value and then
 * advances it, so stamps grow strictly in the order the writes happen.
 */
module Catalog {
  import opened Wrappers
  import opened Text
  import opened Dicts
  import opened Sorting
  import opened FileScanning
  import OsDetection

  /** The columns `insert_drive` reads from its argument. */
  datatype DriveInfo = DriveInfo(
    serialNumber: string,
    model: Option<string>,
    manufacturer: Option<string>,
    sizeBytes: Option<int>,
    filesystem: Option<string>,
    partitionScheme: Option<string>,
    volumeLabel: Option<string>,
    connectionType: Option<string>,
    firmwareVersion: Option<string>,
    mediaType: Option<string>,
    busType: Option<string>,
    notes: Option<string>)

  datatype DriveRow = DriveRow(info: DriveInfo, firstSeen: nat, lastScanned: nat)

  datatype ScanStatus = InProgress | Complete

  datatype ScanRow = ScanRow(
    driveId: int,
    scanStart: nat,
    scanEnd: Option<nat>,
    mountPoint: string,
    fileCount: Option<int>,
    totalSizeBytes: Option<int>,
    status: ScanStatus)

  datatype FileRow = FileRow(scanId: int, rec: FileRecord)

  /** A row of `os_info`, keyed by `scan_id`: the keys `insert_os_info` reads from a detection result. */
  datatype OsInfoRow = OsInfoRow(
    scanId: int,
    osType: string,
    osName: string,
    version: Option<string>,
    buildNumber: Option<string>,
    edition: Option<string>,
    installDate: Option<string>,
    bootCapable: bool,
    detectionMethod: string,
    confidence: string)

  /** The row `insert_os_info(scanId, result)` writes for a detection result. */
  function OsInfoOf(scanId: int, d: OsDetection.Detection): OsInfoRow
  {
    OsInfoRow(scanId, d.osType, d.osName, d.version, d.buildNumber, d.edition, d.installDate, d.bootCapable,
              OsDetection.MethodName(d.detectionMethod), OsDetection.ConfidenceName(d.confidence))
  }

  predicate HasOsInfo(rows: seq<OsInfoRow>, scanId: int)
  {
    exists i :: 0 <= i < |rows| && rows[i].scanId == scanId
  }

  /** `scan_id` is the primary key of `os_info`: no two rows share it. */
  predicate OsInfoKeyed(rows: seq<OsInfoRow>)
  {
    forall i, j :: 0 <= i < j < |rows| ==> rows[i].scanId != rows[j].scanId
  }

  /** Adding a row only for a scan id the table lacks keeps the key unique, and the row is then the one found for it. */
  lemma OsInfoAppendKeyed(rows: seq<OsInfoRow>, row: OsInfoRow)
    requires OsInfoKeyed(rows) && !HasOsInfo(rows, row.scanId)
    ensures OsInfoKeyed(rows + [row])
    ensures HasOsInfo(rows + [row], row.scanId)
    ensures forall i :: 0 <= i < |rows| + 1 && (rows + [row])[i].scanId == row.scanId ==> i == |rows|
  {
    assert (rows + [row])[|rows|] == row;
  }

  datatype HashRow = HashRow(scanId: int, fileId: int, hashType: string, hashValue: string, computedAt: nat)

  datatype GroupRow = GroupRow(hashValue: string, fileSize: int, fileCount: int, totalWastedBytes: int, createdAt: nat)

  datatype MemberRow = MemberRow(groupId: int, fileId: int, scanId: int, isPrimary: bool)

  datatype SessionRow = SessionRow(
    driveId: int,
    startedAt: nat,
    completedAt: Option<nat>,
    status: string,
    currentPass: int,
    beadsIssueId: Option<string>)

  datatype PassStatus = Pending | Running | Completed | Failed | Skipped

  datatype PassRow = PassRow(
    passNumber: nat,
    passName: string,
    startedAt: Option<nat>,
    completedAt: Option<nat>,
    status: PassStatus,
    reportJson: Option<string>,
    errorMessage: Option<string>)

  datatype DecisionRow = DecisionRow(
    sessionId: int,
    decisionType: string,
    decisionKey: string,
    decisionValue: string,
    description: Option<string>,
    decidedAt: nat,
    decidedBy: string)

  /** The rows `insert_files_batch` writes for a batch of records of scan `scanId`. */
  function Rows(scanId: int, batch: seq<FileRecord>): (r: seq<FileRow>)
    ensures |r| == |batch|
    ensures forall k :: 0 <= k < |batch| ==> r[k].scanId == scanId && r[k].rec == batch[k]
  {
    seq(|batch|, k requires 0 <= k < |batch| => FileRow(scanId, batch[k]))
  }

  /** Inserting two batches one after the other writes the rows of both, in order. */
  lemma RowsAppend(scanId: int, a: seq<FileRecord>, b: seq<FileRecord>)
    ensures Rows(scanId, a + b) == Rows(scanId, a) + Rows(scanId, b)
  {
  }

  /** `COALESCE(new, old)` */
  function Coalesce<T>(given: Option<T>, stored: Option<T>): Option<T>
  {
    if given.Some? then given else stored
  }

  predicate UniqueSerials(drives: seq<DriveRow>)
  {
    forall i, j :: 0 <= i < j < |drives| ==> drives[i].info.serialNumber != drives[j].info.serialNumber
  }

  /** The position of the row holding `serial`, if any. */
  function FindSerial(drives: seq<DriveRow>, serial: string): (r: Option<nat>)
    ensures r.None? <==> forall i :: 0 <= i < |drives| ==> drives[i].info.serialNumber != serial
    ensures r.Some? ==> r.value < |drives| && drives[r.value].info.serialNumber == serial
  {
    if drives == [] then None
    else if drives[|drives| - 1].info.serialNumber == serial then Some(|drives| - 1)
    else FindSerial(drives[..|drives| - 1], serial)
  }

  /**
   * The `INSERT ... ON CONFLICT(serial_number) DO UPDATE` of `insert_drive`
   * at time `now`: the new table and the serial's `drive_id`.
   */
  function UpsertDrive(drives: seq<DriveRow>, info: DriveInfo, now: nat): (r: (seq<DriveRow>, nat))
    ensures 1 <= r.1 <= |r.0|
  {
    match FindSerial(drives, info.serialNumber)
    case None => (drives + [DriveRow(info, now, now)], |drives| + 1)
    case Some(i) =>
      var prior := drives[i];
      var merged := prior.info.(
        firmwareVersion := Coalesce(info.firmwareVersion, prior.info.firmwareVersion),
        mediaType := Coalesce(info.mediaType, prior.info.mediaType),
        busType := Coalesce(info.busType, prior.info.busType),
        notes := Coalesce(info.notes, prior.info.notes));
      (drives[i := DriveRow(merged, prior.firstSeen, now)], i + 1)
  }

  /** The pass names, by pass number. */
  function PassName(n: nat): string
  {
    if n == 1 then "health"
    else if n == 2 then "os_detection"
    else if n == 3 then "metadata"
    else "review"
  }

  function PendingPass(n: nat): PassRow
  {
    PassRow(n, PassName(n), None, None, Pending, None, None)
  }

  /** Every session owns four consecutive pass rows, numbered 1 to 4 and named after their pass. */
  predicate PassLayout(passes: seq<PassRow>)
  {
    forall i :: 0 <= i < |passes| ==> passes[i].passNumber == i % 4 + 1 && passes[i].passName == PassName(i % 4 + 1)
  }

  /** Appending the four placeholders of a new session keeps the layout. */
  lemma PlaceholdersKeepLayout(passes: seq<PassRow>)
    requires PassLayout(passes) && |passes| % 4 == 0
    ensures PassLayout(passes + [PendingPass(1), PendingPass(2), PendingPass(3), PendingPass(4)])
  {
    var all := passes + [PendingPass(1), PendingPass(2), PendingPass(3), PendingPass(4)];
    forall i | |passes| <= i < |all|
      ensures all[i].passNumber == i % 4 + 1 && all[i].passName == PassName(i % 4 + 1)
    {
      FourRows(|passes| / 4, i - |passes|);
    }
  }

  /** The loop of `start_inspection` that makes one pending row per pass, in pass order. */
  method PendingPasses() returns (placeholders: seq<PassRow>)
    ensures placeholders == [PendingPass(1), PendingPass(2), PendingPass(3), PendingPass(4)]
  {
    placeholders := [];
    var n := 1;
    while n <= 4
      invariant 1 <= n <= 5
      invariant placeholders == seq(n - 1, k requires 0 <= k < n - 1 => PendingPass(k + 1))
    {
      placeholders := placeholders + [PendingPass(n)];
      n := n + 1;
    }
  }

  /** Where pass `n` of session `s` sits in the passes table, when both exist. */
  function PassIndex(sessions: nat, s: int, n: int): Option<nat>
  {
    if 1 <= s <= sessions && 1 <= n <= 4 then Some(4 * (s - 1) + (n - 1)) else None
  }

  /** The session rows after `start_pass(s, n)`: session `s`, when it exists, is at pass `n`. */
  function AtPass(sessions: seq<SessionRow>, s: int, n: int): (r: seq<SessionRow>)
    ensures |r| == |sessions|
  {
    if 1 <= s <= |sessions| then sessions[s - 1 := sessions[s - 1].(currentPass := n)] else sessions
  }

  /** The pass rows after `start_pass(s, n)` at time `t`: that pass, when it exists, is running since `t`. */
  function PassStarted(passes: seq<PassRow>, sessions: nat, s: int, n: int, t: nat): (r: seq<PassRow>)
    requires |passes| == 4 * sessions
    ensures |r| == |passes|
  {
    match PassIndex(sessions, s, n)
    case None => passes
    case Some(i) => passes[i := passes[i].(status := Running, startedAt := Some(t))]
  }

  /**
   * The pass rows after `complete_pass(s, n, reportJson, errorMessage)` at
   * time `t`: that pass, when it exists, is failed when a non-empty error
   * message is given and completed otherwise, and keeps the report and the
   * message.
   */
  function PassCompleted(passes: seq<PassRow>, sessions: nat, s: int, n: int, reportJson: Option<string>,
                         errorMessage: Option<string>, t: nat): (r: seq<PassRow>)
    requires |passes| == 4 * sessions
    ensures |r| == |passes|
  {
    match PassIndex(sessions, s, n)
    case None => passes
    case Some(i) =>
      passes[i := passes[i].(status := if errorMessage.Some? && errorMessage.value != "" then Failed else Completed,
                             completedAt := Some(t), reportJson := reportJson, errorMessage := errorMessage)]
  }

  /** The pass rows after `start_pass(s, n)` at time `t` and `complete_pass` of the same pass at `t + 1`. */
  function PassRun(passes: seq<PassRow>, sessions: nat, s: int, n: int, reportJson: Option<string>,
                   errorMessage: Option<string>, t: nat): (r: seq<PassRow>)
    requires |passes| == 4 * sessions
    ensures |r| == |passes|
  {
    PassCompleted(PassStarted(passes, sessions, s, n, t), sessions, s, n, reportJson, errorMessage, t + 1)
  }

  datatype TreeNode = TreeNode(size: int, fileCount: nat, children: Dict<string, TreeNode>)

  /** The walk down `dirs` in `get_file_tree`, adding a file's size to every node passed. */
  function AddPath(tree: Dict<string, TreeNode>, dirs: seq<string>, size: int): Dict<string, TreeNode>
    decreases |dirs|
  {
    if dirs == [] then tree
    else
      var n := GetOr(tree, dirs[0], TreeNode(0, 0, []));
      Put(tree, dirs[0], TreeNode(n.size + size, n.fileCount + 1, AddPath(n.children, dirs[1..], size)))
  }

  /** The directory parts of a stored path: all its '/'-separated parts but the last. */
  function DirParts(path: string): seq<string>
  {
    var parts := Split(path, '/');
    parts[..|parts| - 1]
  }

  /** Whether `get_file_tree` takes a file into the tree. */
  predicate InTree(f: FileRow, scanId: int, maxDepth: int)
  {
    f.scanId == scanId && |Split(f.rec.path, '/')| <= maxDepth
  }

  /** The tree `get_file_tree` builds from the files table. */
  function FileTree(files: seq<FileRow>, scanId: int, maxDepth: int): Dict<string, TreeNode>
  {
    if files == [] then []
    else
      var f := files[|files| - 1];
      var t := FileTree(files[..|files| - 1], scanId, maxDepth);
      if InTree(f, scanId, maxDepth) then AddPath(t, DirParts(f.rec.path), f.rec.sizeBytes) else t
  }

  /** The node at a path of directory names, if the tree has it. */
  function NodeAt(tree: Dict<string, TreeNode>, p: seq<string>): Option<TreeNode>
    requires |p| >= 1
    decreases |p|
  {
    match Get(tree, p[0])
    case None => None
    case Some(n) => if |p| == 1 then Some(n) else NodeAt(n.children, p[1..])
  }

  /** A node's (size, file_count), or zeros when the tree has no such node. */
  function StatsAt(tree: Dict<string, TreeNode>, p: seq<string>): (int, nat)
    requires |p| >= 1
  {
    match NodeAt(tree, p)
    case None => (0, 0)
    case Some(n) => (n.size, n.fileCount)
  }

  /** `p` names a directory on the way to a file with directory parts `dirs`. */
  predicate Leads(p: seq<string>, dirs: seq<string>)
  {
    1 <= |p| <= |dirs| && dirs[..|p|] == p
  }

  /** What the files contribute to the node at `p`: a reference definition. */
  function Contribution(files: seq<FileRow>, scanId: int, maxDepth: int, p: seq<string>): (int, nat)
  {
    if files == [] then (0, 0)
    else
      var f := files[|files| - 1];
      var c := Contribution(files[..|files| - 1], scanId, maxDepth, p);
      if InTree(f, scanId, maxDepth) && Leads(p, DirParts(f.rec.path)) then (c.0 + f.rec.sizeBytes, c.1 + 1) else c
  }

  /** The last path component, as the SQL in `find_potential_duplicates` takes it. */
  function BaseName(path: string): string
  {
    match LastIndexOf(path, '/')
    case None => path
    case Some(i) => if i == |path| - 1 then path else path[i + 1..]
  }

  datatype PotentialDuplicate = PotentialDuplicate(
    newFileId: nat,
    newPath: string,
    sizeBytes: nat,
    existingFileId: nat,
    existingPath: string,
    existingScanId: int,
    existingDrive: Option<string>)

  /** `self.db and session_id`, `if drive_id`: an id counts only when it is not 0. */
  predicate Given(id: Option<int>)
  {
    id.Some? && id.value != 0
  }

  /** `'; '.join(report.errors) if report.errors else None`, the error message a pass is completed with. */
  function FailureMessage(errors: seq<string>): (m: Option<string>)
    ensures m.Some? <==> errors != []
  {
    if errors == [] then None else Some(Join(errors, "; "))
  }

  /** When no error is empty, the pass is recorded as failed exactly when there are errors. */
  lemma FailureMessageFails(errors: seq<string>)
    requires forall k :: 0 <= k < |errors| ==> errors[k] != ""
    ensures (var m := FailureMessage(errors); m.Some? && m.value != "") <==> errors != []
  {
    if errors != [] {
      assert |Join(errors, "; ")| >= |errors[0]|;
    }
  }

  class Database {
    var drives: seq<DriveRow>
    var scans: seq<ScanRow>
    var files: seq<FileRow>
    var fileHashes: seq<HashRow>
    var duplicateGroups: seq<GroupRow>
    var duplicateMembers: seq<MemberRow>
    var sessions: seq<SessionRow>
    var passes: seq<PassRow>
    var decisions: seq<DecisionRow>
    var osInfo: seq<OsInfoRow>
    /** The logical clock standing for `datetime.now()`. */
    var clock: nat

    predicate Valid()
      reads this
    {
      && UniqueSerials(drives)
      && |passes| == 4 * |sessions|
      && PassLayout(passes)
      && (forall i :: 0 <= i < |decisions| ==> decisions[i].decidedAt < clock)
      && (forall i, j :: 0 <= i < j < |decisions| ==> decisions[i].decidedAt < decisions[j].decidedAt)
      && (forall i :: 0 <= i < |sessions| ==> sessions[i].startedAt < clock)
      && (forall i, j :: 0 <= i < j < |sessions| ==> sessions[i].startedAt < sessions[j].startedAt)
    }

    /** A fresh, empty store (`_init_schema` on a new file). */
    constructor ()
      ensures Valid()
      ensures drives == [] && scans == [] && files == [] && fileHashes == []
      ensures duplicateGroups == [] && duplicateMembers == []
      ensures sessions == [] && passes == [] && decisions == [] && osInfo == [] && clock == 0
    {
      drives, scans, files, fileHashes, osInfo := [], [], [], [], [];
      duplicateGroups, duplicateMembers := [], [];
      sessions, passes, decisions := [], [], [];
      clock := 0;
    }

    /** `insert_drive`: insert or refresh the row for `info`'s serial number. */
    method InsertDrive(info: DriveInfo) returns (driveId: nat)
      requires Valid()
      modifies this`drives, this`clock
      ensures Valid()
      ensures (drives, driveId) == UpsertDrive(old(drives), info, old(clock))
      ensures clock == old(clock) + 1
    {
      var r := UpsertDrive(drives, info, clock);
      UpsertKeepsSerialsUnique(drives, info, clock);
      drives := r.0;
      driveId := r.1;
      clock := clock + 1;
    }

    /** `start_scan`: a new IN_PROGRESS scan; its id is the new row's. */
    method StartScan(driveId: int, mountPoint: string) returns (scanId: nat)
      requires Valid()
      modifies this`scans, this`clock
      ensures Valid()
      ensures scans == old(scans) + [ScanRow(driveId, old(clock), None, mountPoint, None, None, InProgress)]
      ensures scanId == |scans|
      ensures clock == old(clock) + 1
    {
      scans := scans + [ScanRow(driveId, clock, None, mountPoint, None, None, InProgress)];
      scanId := |scans|;
      clock := clock + 1;
    }

    /** `complete_scan`: only that scan's counts, end time and status change; no row, no change. */
    method CompleteScan(scanId: int, fileCount: int, totalSize: int)
      requires Valid()
      modifies this`scans, this`clock
      ensures Valid()
      ensures |scans| == |old(scans)|
      ensures forall i :: 0 <= i < |scans| && i + 1 != scanId ==> scans[i] == old(scans)[i]
      ensures 1 <= scanId <= |scans| ==>
        scans[scanId - 1] == old(scans)[scanId - 1].(scanEnd := Some(old(clock)), fileCount := Some(fileCount),
                                                    totalSizeBytes := Some(totalSize), status := Complete)
      ensures clock == old(clock) + 1
    {
      if 1 <= scanId <= |scans| {
        scans := scans[scanId - 1 := scans[scanId - 1].(scanEnd := Some(clock), fileCount := Some(fileCount),
                                                         totalSizeBytes := Some(totalSize), status := Complete)];
      }
      clock := clock + 1;
    }

    /**
     * `insert_os_info`: one row for scan `scanId`. The insert raises, and
     * nothing is written, when the table already holds a row with that key.
     */
    method InsertOsInfo(scanId: int, d: OsDetection.Detection) returns (ok: bool)
      requires Valid()
      modifies this`osInfo
      ensures Valid()
      ensures ok <==> !HasOsInfo(old(osInfo), scanId)
      ensures osInfo == if ok then old(osInfo) + [OsInfoOf(scanId, d)] else old(osInfo)
    {
      ok := !HasOsInfo(osInfo, scanId);
      if ok {
        osInfo := osInfo + [OsInfoOf(scanId, d)];
      }
    }

    /** `insert_files_batch`: one row per record, in order. */
    method InsertFilesBatch(scanId: int, batch: seq<FileRecord>)
      requires Valid()
      modifies this`files
      ensures Valid()
      ensures files == old(files) + Rows(scanId, batch)
    {
      files := files + Rows(scanId, batch);
    }

    /** `insert_file_hashes_batch`: every hash is stamped with the same time. */
    method InsertFileHashesBatch(batch: seq<(int, int, string, string)>) returns (n: nat)
      requires Valid()
      modifies this`fileHashes, this`clock
      ensures Valid()
      ensures n == |batch|
      ensures fileHashes == old(fileHashes)
        + seq(|batch|, k requires 0 <= k < |batch| => HashRow(batch[k].0, batch[k].1, batch[k].2, batch[k].3, old(clock)))
      ensures clock == old(clock) + 1
    {
      var now := clock;
      fileHashes := fileHashes
        + seq(|batch|, k requires 0 <= k < |batch| => HashRow(batch[k].0, batch[k].1, batch[k].2, batch[k].3, now));
      clock := clock + 1;
      n := |batch|;
    }

    /** `get_file_tree`: the directory tree of one scan, down to `maxDepth` path parts. */
    method GetFileTree(scanId: int, maxDepth: int) returns (tree: Dict<string, TreeNode>)
      ensures tree == FileTree(files, scanId, maxDepth)
    {
      tree := [];
      var i := 0;
      while i < |files|
        invariant i <= |files|
        invariant tree == FileTree(files[..i], scanId, maxDepth)
      {
        assert files[..i + 1][..i] == files[..i];
        var f := files[i];
        var parts := Split(f.rec.path, '/');
        if f.scanId == scanId && |parts| <= maxDepth {
          tree := AddPath(tree, parts[..|parts| - 1], f.rec.sizeBytes);
        }
        i := i + 1;
      }
      assert files[..|files|] == files;
    }

    /**
     * `start_inspection`: an active session at pass 1, followed by its four
     * pending pass rows; the id is the new session's.
     */
    method StartInspection(driveId: int, beadsIssueId: Option<string>) returns (sessionId: nat)
      requires Valid()
      modifies this`sessions, this`passes, this`clock
      ensures Valid()
      ensures sessions == old(sessions) + [SessionRow(driveId, old(clock), None, "active", 1, beadsIssueId)]
      ensures passes == old(passes) + [PendingPass(1), PendingPass(2), PendingPass(3), PendingPass(4)]
      ensures sessionId == |sessions|
      ensures clock == old(clock) + 1
    {
      sessions := sessions + [SessionRow(driveId, clock, None, "active", 1, beadsIssueId)];
      sessionId := |sessions|;
      var placeholders := PendingPasses();
      PlaceholdersKeepLayout(passes);
      passes := passes + placeholders;
      clock := clock + 1;
    }

    /** `get_inspection`: the session and its passes in pass-number order, or None. */
    method GetInspection(sessionId: int) returns (r: Option<(SessionRow, seq<PassRow>)>)
      requires Valid()
      ensures r.None? <==> !(1 <= sessionId <= |sessions|)
      ensures r.Some? ==>
        && r.value.0 == sessions[sessionId - 1]
        && r.value.1 == passes[4 * (sessionId - 1)..4 * sessionId]
        && forall k :: 0 <= k < 4 ==> r.value.1[k].passNumber == k + 1
    {
      if 1 <= sessionId <= |sessions| {
        var ps := passes[4 * (sessionId - 1)..4 * sessionId];
        forall k | 0 <= k < 4 ensures ps[k].passNumber == k + 1 {
          assert ps[k] == passes[4 * (sessionId - 1) + k];
          FourRows(sessionId - 1, k);
        }
        r := Some((sessions[sessionId - 1], ps));
      } else {
        r := None;
      }
    }

    /**
     * `start_pass`: pass `n` of session `s` becomes running, and the
     * session's current pass becomes `n` whatever it was, with no check
     * that earlier passes ran.
     */
    method StartPass(s: int, n: int) returns (ok: bool)
      requires Valid()
      modifies this`passes, this`sessions, this`clock
      ensures Valid() && ok
      ensures passes == PassStarted(old(passes), |old(sessions)|, s, n, old(clock))
      ensures sessions == AtPass(old(sessions), s, n)
      ensures clock == old(clock) + 1
    {
      var idx := PassIndex(|sessions|, s, n);
      if idx.Some? {
        passes := passes[idx.value := passes[idx.value].(status := Running, startedAt := Some(clock))];
      }
      if 1 <= s <= |sessions| {
        sessions := sessions[s - 1 := sessions[s - 1].(currentPass := n)];
      }
      clock := clock + 1;
      ok := true;
    }

    /** `complete_pass`: failed exactly when an error message is given and non-empty. */
    method CompletePass(s: int, n: int, reportJson: Option<string>, errorMessage: Option<string>) returns (ok: bool)
      requires Valid()
      modifies this`passes, this`clock
      ensures Valid() && ok
      ensures passes == PassCompleted(old(passes), |sessions|, s, n, reportJson, errorMessage, old(clock))
      ensures clock == old(clock) + 1
    {
      var status := if errorMessage.Some? && errorMessage.value != "" then Failed else Completed;
      var idx := PassIndex(|sessions|, s, n);
      if idx.Some? {
        passes := passes[idx.value := passes[idx.value].(status := status, completedAt := Some(clock),
                                                         reportJson := reportJson, errorMessage := errorMessage)];
      }
      clock := clock + 1;
      ok := true;
    }

    /** `skip_pass`: the reason is kept as the error message; the session is left alone. */
    method SkipPass(s: int, n: int, reason: string) returns (ok: bool)
      requires Valid()
      modifies this`passes, this`clock
      ensures Valid() && ok
      ensures passes == match PassIndex(|sessions|, s, n)
        case None => old(passes)
        case Some(i) => old(passes)[i := old(passes)[i].(status := Skipped, completedAt := Some(old(clock)),
                                                         errorMessage := Some(reason))]
      ensures clock == old(clock) + 1
    {
      var idx := PassIndex(|sessions|, s, n);
      if idx.Some? {
        passes := passes[idx.value := passes[idx.value].(status := Skipped, completedAt := Some(clock),
                                                         errorMessage := Some(reason))];
      }
      clock := clock + 1;
      ok := true;
    }

    /** `complete_inspection` */
    method CompleteInspection(s: int, status: string) returns (ok: bool)
      requires Valid()
      modifies this`sessions, this`clock
      ensures Valid() && ok
      ensures sessions == if 1 <= s <= |old(sessions)| then old(sessions)[s - 1 := old(sessions)[s - 1].(status := status, completedAt := Some(old(clock)))] else old(sessions)
      ensures clock == old(clock) + 1
    {
      if 1 <= s <= |sessions| {
        sessions := sessions[s - 1 := sessions[s - 1].(status := status, completedAt := Some(clock))];
      }
      clock := clock + 1;
      ok := true;
    }

    /** `record_decision`: always a new row, even for a key already decided. */
    method RecordDecision(s: int, decisionType: string, decisionKey: string, decisionValue: string,
                          description: Option<string>, decidedBy: string) returns (decisionId: nat)
      requires Valid()
      modifies this`decisions, this`clock
      ensures Valid()
      ensures decisions == old(decisions) + [DecisionRow(s, decisionType, decisionKey, decisionValue, description, old(clock), decidedBy)]
      ensures decisionId == |decisions|
      ensures clock == old(clock) + 1
    {
      decisions := decisions + [DecisionRow(s, decisionType, decisionKey, decisionValue, description, clock, decidedBy)];
      decisionId := |decisions|;
      clock := clock + 1;
    }

    /** `get_decisions`: one session's decisions, ordered by the time they were made. */
    method GetDecisions(s: int) returns (r: seq<DecisionRow>)
      requires Valid()
      ensures r == DecisionsOf(decisions, s)
      ensures forall i, j :: 0 <= i < j < |r| ==> r[i].decidedAt < r[j].decidedAt
    {
      r := [];
      for i := 0 to |decisions|
        invariant r == DecisionsOf(decisions[..i], s)
      {
        assert decisions[..i + 1][..i] == decisions[..i];
        if decisions[i].sessionId == s {
          r := r + [decisions[i]];
        }
      }
      assert decisions[..|decisions|] == decisions;
      DecisionsOfSorted(decisions, s);
    }

    /** `get_active_inspections`: active sessions, most recently started first, with their drive. */
    method GetActiveInspections() returns (r: seq<(nat, SessionRow, Option<DriveRow>)>)
      requires Valid()
      ensures r == ActiveSessions(sessions, drives)
      ensures forall i, j :: 0 <= i < j < |r| ==> r[i].1.startedAt > r[j].1.startedAt
    {
      r := [];
      for i := 0 to |sessions|
        invariant r == ActiveSessions(sessions[..i], drives)
      {
        assert sessions[..i + 1][..i] == sessions[..i];
        if sessions[i].status == "active" {
          r := [(i + 1, sessions[i], DriveById(drives, sessions[i].driveId))] + r;
        }
      }
      assert sessions[..|sessions|] == sessions;
      ActiveSessionsNewestFirst(sessions, drives);
    }

    /**
     * `find_potential_duplicates`: files of this scan at least `minSize`
     * bytes long, paired with files of other (existing) scans of the same
     * size and the same base name ignoring case; at most 1000 pairs.
     */
    function FindPotentialDuplicates(scanId: int, minSize: int): (r: seq<PotentialDuplicate>)
      reads this`files, this`scans, this`drives
      ensures |r| <= 1000
      ensures forall k :: 0 <= k < |r| ==> PairMatches(files, scans, drives, scanId, minSize, r[k])
      ensures var n := |DuplicatePairs(files, scans, drives, scanId, minSize, |files|)|;
        |r| == if n <= 1000 then n else 1000
      ensures |DuplicatePairs(files, scans, drives, scanId, minSize, |files|)| <= 1000 ==>
        forall i, j :: 0 <= i < |files| && 0 <= j < |files| && Joins(files, scans, drives, scanId, minSize, i, j) ==>
          PairRow(files, scans, drives, i, j) in r
    {
      var all := DuplicatePairs(files, scans, drives, scanId, minSize, |files|);
      PairsMatch(files, scans, drives, scanId, minSize, |files|);
      AllPairsFound(files, scans, drives, scanId, minSize);
      Take(all, 1000)
    }

    /**
     * `find_potential_duplicates` as written: the name comparison calls
     * REVERSE, which SQLite does not provide and the store never registers
     * (`sqlite3.connect` only), so preparing the statement raises
     * "no such function: REVERSE" (None here) whatever the tables hold.
     */
    function FindPotentialDuplicatesAsWritten(scanId: int, minSize: int): Option<seq<PotentialDuplicate>>
    {
      None
    }
  }

  /**
   * Recording pass `n` of session `s` with its report: `complete_pass` with
   * the errors joined by "; " as the message (none when there are none), so
   * the pass fails exactly when the joined errors are non-empty text.
   */
  method RecordPass(db: Database, s: int, n: int, reportJson: string, errors: seq<string>)
    requires db.Valid()
    modifies db`passes, db`clock
    ensures db.Valid()
    ensures db.passes == PassCompleted(old(db.passes), |db.sessions|, s, n, Some(reportJson), FailureMessage(errors),
                                       old(db.clock))
    ensures db.clock == old(db.clock) + 1
    ensures match PassIndex(|db.sessions|, s, n)
      case None => true
      case Some(i) =>
        && db.passes[i].status == (var m := FailureMessage(errors); if m.Some? && m.value != "" then Failed else Completed)
        && db.passes[i].reportJson == Some(reportJson)
        && db.passes[i].errorMessage == FailureMessage(errors)
  {
    var _ := db.CompletePass(s, n, Some(reportJson), FailureMessage(errors));
  }

  /** The decisions of session `s`, in table order. */
  function DecisionsOf(ds: seq<DecisionRow>, s: int): seq<DecisionRow>
  {
    if ds == [] then []
    else DecisionsOf(ds[..|ds| - 1], s) + if ds[|ds| - 1].sessionId == s then [ds[|ds| - 1]] else []
  }

  /** The drive a session points at (a LEFT JOIN: None when there is none). */
  function DriveById(drives: seq<DriveRow>, driveId: int): Option<DriveRow>
  {
    if 1 <= driveId <= |drives| then Some(drives[driveId - 1]) else None
  }

  /** The active sessions with their ids, latest table row first. */
  function ActiveSessions(sessions: seq<SessionRow>, drives: seq<DriveRow>): seq<(nat, SessionRow, Option<DriveRow>)>
  {
    if sessions == [] then []
    else
      var last := sessions[|sessions| - 1];
      var rest := ActiveSessions(sessions[..|sessions| - 1], drives);
      if last.status == "active" then [(|sessions|, last, DriveById(drives, last.driveId))] + rest else rest
  }

  /** The join condition of `find_potential_duplicates` for files at positions `i` and `j`. */
  predicate Joins(files: seq<FileRow>, scans: seq<ScanRow>, drives: seq<DriveRow>,
                  scanId: int, minSize: int, i: nat, j: nat)
    requires i < |files| && j < |files|
  {
    var f1 := files[i];
    var f2 := files[j];
    && f1.scanId == scanId && f2.scanId != scanId
    && f1.rec.sizeBytes == f2.rec.sizeBytes && f1.rec.sizeBytes >= minSize
    && SameName(f1.rec.path, f2.rec.path)
    && ScanDrive(scans, drives, f2.scanId).Some?
  }

  /** Two paths whose file names agree ignoring case. */
  predicate SameName(p: string, q: string)
  {
    Lower(BaseName(p)) == Lower(BaseName(q))
  }

  /** The drive a scan belongs to, through the scans table. */
  function ScanDrive(scans: seq<ScanRow>, drives: seq<DriveRow>, scanId: int): Option<DriveRow>
  {
    if 1 <= scanId <= |scans| then DriveById(drives, scans[scanId - 1].driveId) else None
  }

  /** The row the query returns for a joined pair. */
  function PairRow(files: seq<FileRow>, scans: seq<ScanRow>, drives: seq<DriveRow>, i: nat, j: nat): PotentialDuplicate
    requires i < |files| && j < |files|
  {
    var f1 := files[i];
    var f2 := files[j];
    var model := match ScanDrive(scans, drives, f2.scanId)
      case None => None
      case Some(d) => d.info.model;
    PotentialDuplicate(i + 1, f1.rec.path, f1.rec.sizeBytes, j + 1, f2.rec.path, f2.scanId, model)
  }

  /** A returned row comes from a pair of files that meets the join condition. */
  predicate PairMatches(files: seq<FileRow>, scans: seq<ScanRow>, drives: seq<DriveRow>,
                        scanId: int, minSize: int, d: PotentialDuplicate)
  {
    && 1 <= d.newFileId <= |files| && 1 <= d.existingFileId <= |files|
    && Joins(files, scans, drives, scanId, minSize, d.newFileId - 1, d.existingFileId - 1)
    && d == PairRow(files, scans, drives, d.newFileId - 1, d.existingFileId - 1)
  }

  /** The joined rows for the new file at position `i`, against the first `m` files. */
  function PairsFor(files: seq<FileRow>, scans: seq<ScanRow>, drives: seq<DriveRow>,
                    scanId: int, minSize: int, i: nat, m: nat): seq<PotentialDuplicate>
    requires i < |files| && m <= |files|
  {
    if m == 0 then []
    else
      var rest := PairsFor(files, scans, drives, scanId, minSize, i, m - 1);
      if Joins(files, scans, drives, scanId, minSize, i, m - 1)
      then rest + [PairRow(files, scans, drives, i, m - 1)]
      else rest
  }

  /** All joined rows, new files in table order, each against the files in table order. */
  function DuplicatePairs(files: seq<FileRow>, scans: seq<ScanRow>, drives: seq<DriveRow>,
                          scanId: int, minSize: int, n: nat): seq<PotentialDuplicate>
    requires n <= |files|
  {
    if n == 0 then []
    else DuplicatePairs(files, scans, drives, scanId, minSize, n - 1)
         + PairsFor(files, scans, drives, scanId, minSize, n - 1, |files|)
  }

  // ---------------------------------------------------------------------
  // Properties of the store.

  /** Every row of `ds` comes from a pair of files that meets the join condition. */
  predicate AllMatch(files: seq<FileRow>, scans: seq<ScanRow>, drives: seq<DriveRow>,
                     scanId: int, minSize: int, ds: seq<PotentialDuplicate>)
  {
    forall k :: 0 <= k < |ds| ==> PairMatches(files, scans, drives, scanId, minSize, ds[k])
  }

  lemma AllMatchAppend(files: seq<FileRow>, scans: seq<ScanRow>, drives: seq<DriveRow>,
                       scanId: int, minSize: int, a: seq<PotentialDuplicate>, b: seq<PotentialDuplicate>)
    requires AllMatch(files, scans, drives, scanId, minSize, a)
    requires AllMatch(files, scans, drives, scanId, minSize, b)
    ensures AllMatch(files, scans, drives, scanId, minSize, a + b)
  {
    forall k | 0 <= k < |a + b|
      ensures PairMatches(files, scans, drives, scanId, minSize, (a + b)[k])
    {
      if k < |a| {
        assert (a + b)[k] == a[k];
      } else {
        assert (a + b)[k] == b[k - |a|];
      }
    }
  }

  /** The `k`-th row joined for the new file at position `i` meets the join condition. */
  lemma {:induction false} PairsForAt(files: seq<FileRow>, scans: seq<ScanRow>, drives: seq<DriveRow>,
                                      scanId: int, minSize: int, i: nat, m: nat, k: nat)
    requires i < |files| && m <= |files| && k < |PairsFor(files, scans, drives, scanId, minSize, i, m)|
    ensures PairMatches(files, scans, drives, scanId, minSize, PairsFor(files, scans, drives, scanId, minSize, i, m)[k])
  {
    var rest := PairsFor(files, scans, drives, scanId, minSize, i, m - 1);
    if k < |rest| {
      PairsForAt(files, scans, drives, scanId, minSize, i, m - 1, k);
      assert PairsFor(files, scans, drives, scanId, minSize, i, m)[k] == rest[k];
    } else {
      var x := PairRow(files, scans, drives, i, m - 1);
      assert PairsFor(files, scans, drives, scanId, minSize, i, m)[k] == x;
      assert x.newFileId == i + 1 && x.existingFileId == m;
    }
  }

  lemma PairsForMatch(files: seq<FileRow>, scans: seq<ScanRow>, drives: seq<DriveRow>,
                      scanId: int, minSize: int, i: nat, m: nat)
    requires i < |files| && m <= |files|
    ensures AllMatch(files, scans, drives, scanId, minSize, PairsFor(files, scans, drives, scanId, minSize, i, m))
  {
    forall k | 0 <= k < |PairsFor(files, scans, drives, scanId, minSize, i, m)|
      ensures PairMatches(files, scans, drives, scanId, minSize, PairsFor(files, scans, drives, scanId, minSize, i, m)[k])
    {
      PairsForAt(files, scans, drives, scanId, minSize, i, m, k);
    }
  }

  lemma {:induction false} PairsMatch(files: seq<FileRow>, scans: seq<ScanRow>, drives: seq<DriveRow>,
                                      scanId: int, minSize: int, n: nat)
    requires n <= |files|
    ensures AllMatch(files, scans, drives, scanId, minSize, DuplicatePairs(files, scans, drives, scanId, minSize, n))
  {
    if n > 0 {
      PairsMatch(files, scans, drives, scanId, minSize, n - 1);
      PairsForMatch(files, scans, drives, scanId, minSize, n - 1, |files|);
      AllMatchAppend(files, scans, drives, scanId, minSize,
                     DuplicatePairs(files, scans, drives, scanId, minSize, n - 1),
                     PairsFor(files, scans, drives, scanId, minSize, n - 1, |files|));
    }
  }

  /** A joined pair against the first `m` files is among the rows for its new file. */
  lemma {:induction false} PairsForComplete(files: seq<FileRow>, scans: seq<ScanRow>, drives: seq<DriveRow>,
                                            scanId: int, minSize: int, i: nat, m: nat, j: nat)
    requires i < |files| && j < m <= |files|
    requires Joins(files, scans, drives, scanId, minSize, i, j)
    ensures PairRow(files, scans, drives, i, j) in PairsFor(files, scans, drives, scanId, minSize, i, m)
  {
    if j < m - 1 {
      PairsForComplete(files, scans, drives, scanId, minSize, i, m - 1, j);
    }
  }

  /** A joined pair whose new file is among the first `n` files is among the rows of the query. */
  lemma {:induction false} PairsComplete(files: seq<FileRow>, scans: seq<ScanRow>, drives: seq<DriveRow>,
                                         scanId: int, minSize: int, n: nat, i: nat, j: nat)
    requires i < n <= |files| && j < |files|
    requires Joins(files, scans, drives, scanId, minSize, i, j)
    ensures PairRow(files, scans, drives, i, j) in DuplicatePairs(files, scans, drives, scanId, minSize, n)
  {
    if i < n - 1 {
      PairsComplete(files, scans, drives, scanId, minSize, n - 1, i, j);
    } else {
      PairsForComplete(files, scans, drives, scanId, minSize, i, |files|, j);
    }
  }

  /** Every pair of files meeting the join condition is a row of the query before its limit. */
  lemma AllPairsFound(files: seq<FileRow>, scans: seq<ScanRow>, drives: seq<DriveRow>, scanId: int, minSize: int)
    ensures forall i, j :: 0 <= i < |files| && 0 <= j < |files| && Joins(files, scans, drives, scanId, minSize, i, j) ==>
      PairRow(files, scans, drives, i, j) in DuplicatePairs(files, scans, drives, scanId, minSize, |files|)
  {
    forall i, j | 0 <= i < |files| && 0 <= j < |files| && Joins(files, scans, drives, scanId, minSize, i, j)
      ensures PairRow(files, scans, drives, i, j) in DuplicatePairs(files, scans, drives, scanId, minSize, |files|)
    {
      PairsComplete(files, scans, drives, scanId, minSize, |files|, i, j);
    }
  }

  /** Two scans tables that agree on every scan's drive. */
  predicate SameScanDrives(scans: seq<ScanRow>, scans': seq<ScanRow>)
  {
    |scans| == |scans'| && forall k :: 0 <= k < |scans| ==> scans[k].driveId == scans'[k].driveId
  }

  /** The rows for one new file read the scans table only through each scan's drive. */
  lemma {:induction false} PairsForSameDrives(files: seq<FileRow>, scans: seq<ScanRow>, scans': seq<ScanRow>,
                                              drives: seq<DriveRow>, scanId: int, minSize: int, i: nat, m: nat)
    requires i < |files| && m <= |files| && SameScanDrives(scans, scans')
    ensures PairsFor(files, scans, drives, scanId, minSize, i, m) == PairsFor(files, scans', drives, scanId, minSize, i, m)
  {
    if m > 0 {
      PairsForSameDrives(files, scans, scans', drives, scanId, minSize, i, m - 1);
      var f2 := files[m - 1];
      assert ScanDrive(scans, drives, f2.scanId) == ScanDrive(scans', drives, f2.scanId);
    }
  }

  /**
   * The query reads the scans table only through each scan's drive, so
   * closing a scan (which keeps its drive) leaves its rows unchanged.
   */
  lemma {:induction false} PairsSameDrives(files: seq<FileRow>, scans: seq<ScanRow>, scans': seq<ScanRow>,
                                           drives: seq<DriveRow>, scanId: int, minSize: int, n: nat)
    requires n <= |files| && SameScanDrives(scans, scans')
    ensures DuplicatePairs(files, scans, drives, scanId, minSize, n) == DuplicatePairs(files, scans', drives, scanId, minSize, n)
  {
    if n > 0 {
      PairsSameDrives(files, scans, scans', drives, scanId, minSize, n - 1);
      PairsForSameDrives(files, scans, scans', drives, scanId, minSize, n - 1, |files|);
    }
  }

  /** The upsert never creates a second row for a serial number. */
  lemma UpsertKeepsSerialsUnique(drives: seq<DriveRow>, info: DriveInfo, now: nat)
    requires UniqueSerials(drives)
    ensures UniqueSerials(UpsertDrive(drives, info, now).0)
  {
  }

  /**
   * After the upsert the returned id's row holds the serial; a new serial
   * adds one row, a known one keeps the row count, the identity columns and
   * `first_seen`, refreshes `last_scanned`, and takes the firmware, media,
   * bus and notes columns only where the new values are present.
   */
  lemma UpsertDriveEffect(drives: seq<DriveRow>, info: DriveInfo, now: nat)
    requires UniqueSerials(drives)
    ensures var (t, id) := UpsertDrive(drives, info, now);
      && t[id - 1].info.serialNumber == info.serialNumber
      && t[id - 1].lastScanned == now
      && (forall i :: 0 <= i < |t| && i != id - 1 ==> i < |drives| && t[i] == drives[i])
      && if exists i :: 0 <= i < |drives| && drives[i].info.serialNumber == info.serialNumber then
           && |t| == |drives|
           && var o := drives[id - 1];
           && t[id - 1].firstSeen == o.firstSeen
           && t[id - 1].info.model == o.info.model
           && t[id - 1].info.manufacturer == o.info.manufacturer
           && t[id - 1].info.sizeBytes == o.info.sizeBytes
           && t[id - 1].info.filesystem == o.info.filesystem
           && t[id - 1].info.firmwareVersion == (if info.firmwareVersion.Some? then info.firmwareVersion else o.info.firmwareVersion)
           && t[id - 1].info.mediaType == (if info.mediaType.Some? then info.mediaType else o.info.mediaType)
           && t[id - 1].info.busType == (if info.busType.Some? then info.busType else o.info.busType)
           && t[id - 1].info.notes == (if info.notes.Some? then info.notes else o.info.notes)
         else
           |t| == |drives| + 1 && id == |t| && t[id - 1] == DriveRow(info, now, now)
  {
  }

  /** Inserting the same serial again returns the same id and adds no row. */
  lemma UpsertIdempotentId(drives: seq<DriveRow>, info: DriveInfo, info2: DriveInfo, now: nat, later: nat)
    requires UniqueSerials(drives) && info2.serialNumber == info.serialNumber
    ensures var (t, id) := UpsertDrive(drives, info, now);
      var (t2, id2) := UpsertDrive(t, info2, later);
      id2 == id && |t2| == |t|
  {
    var (t, id) := UpsertDrive(drives, info, now);
    UpsertKeepsSerialsUnique(drives, info, now);
    assert t[id - 1].info.serialNumber == info.serialNumber;
    assert FindSerial(t, info.serialNumber) == Some(id - 1);
  }

  lemma {:induction false} DecisionsOfSorted(ds: seq<DecisionRow>, s: int)
    requires forall i, j :: 0 <= i < j < |ds| ==> ds[i].decidedAt < ds[j].decidedAt
    ensures forall i, j :: 0 <= i < j < |DecisionsOf(ds, s)| ==>
      DecisionsOf(ds, s)[i].decidedAt < DecisionsOf(ds, s)[j].decidedAt
    ensures forall x :: x in DecisionsOf(ds, s) ==> x in ds && x.sessionId == s
  {
    if ds != [] {
      var front := ds[..|ds| - 1];
      var last := ds[|ds| - 1];
      DecisionsOfSorted(front, s);
      var r0 := DecisionsOf(front, s);
      forall x | x in r0 ensures x.decidedAt < last.decidedAt && x in ds {
        var k :| 0 <= k < |front| && front[k] == x;
        assert ds[k] == x;
      }
      if last.sessionId == s {
        var r := r0 + [last];
        forall i, j | 0 <= i < j < |r| ensures r[i].decidedAt < r[j].decidedAt {
          if j == |r| - 1 {
            assert r[i] in r0;
          }
        }
      }
    }
  }

  /** Every recorded decision of a session is returned, none is merged or dropped. */
  lemma {:induction false} DecisionsOfAppend(ds: seq<DecisionRow>, d: DecisionRow, s: int)
    ensures DecisionsOf(ds + [d], s) == DecisionsOf(ds, s) + if d.sessionId == s then [d] else []
    ensures |DecisionsOf(ds + [d], s)| == |DecisionsOf(ds, s)| + if d.sessionId == s then 1 else 0
  {
    assert (ds + [d])[..|ds|] == ds;
  }

  /**
   * Deciding the same key twice keeps both rows: the session's decisions
   * end with the two, the later one made at a later time.
   */
  lemma DecidedTwice(ds: seq<DecisionRow>, d: DecisionRow, t: nat)
    requires d.decidedAt < t
    ensures DecisionsOf(ds + [d] + [d.(decidedAt := t)], d.sessionId)
         == DecisionsOf(ds, d.sessionId) + [d, d.(decidedAt := t)]
  {
  }

  /**
   * `start_pass` does not keep passes in order: starting pass `m` after
   * pass `n` leaves the session at `m`, as if `n` had never been started.
   */
  lemma StartedBack(sessions: seq<SessionRow>, s: int, n: int, m: int)
    ensures AtPass(AtPass(sessions, s, n), s, m) == AtPass(sessions, s, m)
    ensures 1 <= s <= |sessions| ==> AtPass(AtPass(sessions, s, n), s, m)[s - 1].currentPass == m
  {
  }

  lemma {:induction false} ActiveSessionsNewestFirst(sessions: seq<SessionRow>, drives: seq<DriveRow>)
    requires forall i, j :: 0 <= i < j < |sessions| ==> sessions[i].startedAt < sessions[j].startedAt
    ensures forall i, j :: 0 <= i < j < |ActiveSessions(sessions, drives)| ==>
      ActiveSessions(sessions, drives)[i].1.startedAt > ActiveSessions(sessions, drives)[j].1.startedAt
    ensures forall k :: 0 <= k < |ActiveSessions(sessions, drives)| ==>
      var e := ActiveSessions(sessions, drives)[k];
      1 <= e.0 <= |sessions| && e.1 == sessions[e.0 - 1] && e.1.status == "active"
  {
    if sessions != [] {
      var front := sessions[..|sessions| - 1];
      forall i, j | 0 <= i < j < |front| ensures front[i].startedAt < front[j].startedAt {
        assert front[i] == sessions[i] && front[j] == sessions[j];
      }
      ActiveSessionsNewestFirst(front, drives);
      var rest := ActiveSessions(front, drives);
      var last := sessions[|sessions| - 1];
      forall k | 0 <= k < |rest|
        ensures rest[k].1 == sessions[rest[k].0 - 1] && rest[k].1.startedAt < last.startedAt
      {
        var at := rest[k].0 - 1;
        assert rest[k].1 == front[at] == sessions[at] && at < |sessions| - 1;
      }
      if last.status == "active" {
        var r := [(|sessions|, last, DriveById(drives, last.driveId))] + rest;
        forall i, j | 0 <= i < j < |r| ensures r[i].1.startedAt > r[j].1.startedAt {
          assert r[j] == rest[j - 1];
          if i > 0 { assert r[i] == rest[i - 1]; }
        }
        forall k | 0 <= k < |r|
          ensures 1 <= r[k].0 <= |sessions| && r[k].1 == sessions[r[k].0 - 1] && r[k].1.status == "active"
        {
          if k > 0 { assert r[k] == rest[k - 1]; }
        }
      }
    }
  }

  /**
   * Adding one file to the tree adds its size, and one file, to exactly
   * the nodes on its directory path; every other node keeps its figures.
   */
  lemma {:induction false} AddPathStats(tree: Dict<string, TreeNode>, dirs: seq<string>, size: int, p: seq<string>)
    requires |p| >= 1
    ensures StatsAt(AddPath(tree, dirs, size), p)
      == if Leads(p, dirs) then (StatsAt(tree, p).0 + size, StatsAt(tree, p).1 + 1) else StatsAt(tree, p)
    decreases |dirs|
  {
    if dirs != [] {
      var n := GetOr(tree, dirs[0], TreeNode(0, 0, []));
      var node := TreeNode(n.size + size, n.fileCount + 1, AddPath(n.children, dirs[1..], size));
      var t2 := Put(tree, dirs[0], node);
      assert AddPath(tree, dirs, size) == t2;
      PutGet(tree, dirs[0], node, p[0]);
      StatsHead(t2, p);
      StatsHead(tree, p);
      LeadsStep(p, dirs);
      if p[0] == dirs[0] && |p| > 1 {
        AddPathStats(n.children, dirs[1..], size, p[1..]);
        if Get(tree, dirs[0]).None? {
          EmptyStats(p[1..]);
        }
      }
    }
  }

  /** Whether `p` leads along `dirs` is decided one component at a time. */
  lemma LeadsStep(p: seq<string>, dirs: seq<string>)
    requires |p| >= 1 && |dirs| >= 1
    ensures p[0] != dirs[0] ==> !Leads(p, dirs)
    ensures p[0] == dirs[0] && |p| == 1 ==> Leads(p, dirs)
    ensures p[0] == dirs[0] && |p| > 1 ==> (Leads(p, dirs) <==> Leads(p[1..], dirs[1..]))
  {
    if Leads(p, dirs) {
      assert dirs[..|p|][0] == dirs[0];
    }
    if p[0] == dirs[0] && |p| == 1 {
      assert dirs[..1] == [dirs[0]] && p == [p[0]];
    }
    if p[0] == dirs[0] && |p| > 1 && |p| <= |dirs| {
      assert dirs[..|p|] == [dirs[0]] + dirs[1..][..|p| - 1];
      assert p == [p[0]] + p[1..];
    }
  }

  lemma StatsHead(tree: Dict<string, TreeNode>, p: seq<string>)
    requires |p| >= 1
    ensures StatsAt(tree, p) == match Get(tree, p[0])
      case None => (0, 0)
      case Some(n) => if |p| == 1 then (n.size, n.fileCount) else StatsAt(n.children, p[1..])
  {
  }

  lemma FourRows(k: nat, j: nat)
    requires j < 4
    ensures (4 * k + j) % 4 == j
  {
  }

  lemma EmptyStats(p: seq<string>)
    requires |p| >= 1
    ensures StatsAt([], p) == (0, 0)
  {
  }

  /**
   * `get_file_tree` in closed form: a node's size and file count are the
   * totals over the scan's files within the depth limit that lie below it.
   */
  lemma {:induction false} FileTreeStats(files: seq<FileRow>, scanId: int, maxDepth: int, p: seq<string>)
    requires |p| >= 1
    ensures StatsAt(FileTree(files, scanId, maxDepth), p) == Contribution(files, scanId, maxDepth, p)
  {
    if files == [] {
      EmptyStats(p);
    } else {
      var f := files[|files| - 1];
      FileTreeStats(files[..|files| - 1], scanId, maxDepth, p);
      if InTree(f, scanId, maxDepth) {
        AddPathStats(FileTree(files[..|files| - 1], scanId, maxDepth), DirParts(f.rec.path), f.rec.sizeBytes, p);
      }
    }
  }
}

=== FILE: chkdsk.dfy ===
/**
 * The chkdsk wrapper: whether chkdsk can run, how its combined output is
 * collected, how each output line updates the result, and when the run counts
 * as a success.
 *
 * The regular expressions of the line parser are written out as matchers:
 * each numeric pattern is a maximal run of digits (or digits and commas),
 * a maximal run of white space, a unit word, white space and a tail phrase,
 * all compared without regard to ASCII case; `re.search` is the leftmost
 * position where the matcher succeeds.
 */
module Chkdsk {
  import opened Wrappers
  import opened Text
  import opened DrivePaths
  import opened Seqs

  /** One entry of `stage_results`; `completed` is status "completed" rather than "running". */
  datatype Stage = Stage(number: nat, total: nat, description: string, completed: bool)

  /** The fields of the result that the output parser writes. */
  datatype ParsedOutput = ParsedOutput(
    volumeLabel: string,
    filesystemType: string,
    totalBytes: int,
    usedBytes: int,
    freeBytes: int,
    allocationUnitBytes: int,
    errorsFound: bool,
    badSectors: int,
    stages: seq<Stage>,
    warnings: seq<string>)

  /**
   * `ChkdskResult`; `total_allocation_units` is never written and stays 0, and
   * the execution time is left out.
   */
  datatype ChkdskResult = ChkdskResult(
    success: bool,
    driveLetter: string,
    parsed: ParsedOutput,
    totalAllocationUnits: int,
    errors: seq<string>,
    rawOutput: string,
    exitCode: int)

  /** The dataclass defaults. */
  const NothingParsed := ParsedOutput("", "", 0, 0, 0, 0, false, 0, [], [])
  const Initial := ChkdskResult(false, "", NothingParsed, 0, [], "", -1)

  // ---------------------------------------------------------------- matchers

  /** The character classes the patterns use: `\d`, `[\d,]`, `\s` and `\w`. */
  datatype CharClass = Digits | DigitsOrCommas | Spaces | WordChars

  predicate InClass(c: char, cls: CharClass)
  {
    match cls
    case Digits => IsDigit(c)
    case DigitsOrCommas => IsDigit(c) || c == ','
    case Spaces => IsSpace(c)
    case WordChars => IsAsciiLetter(c) || IsDigit(c) || c == '_'
  }

  /** Length of the longest run of `cls` characters starting at `i`. */
  function RunLength(s: string, i: nat, cls: CharClass): (n: nat)
    requires i <= |s|
    ensures i + n <= |s|
    decreases |s| - i
  {
    if i < |s| && InClass(s[i], cls) then 1 + RunLength(s, i + 1, cls) else 0
  }

  /** The run holds only `cls` characters and cannot be extended. */
  lemma {:induction false} RunLengthMaximal(s: string, i: nat, cls: CharClass)
    requires i <= |s|
    ensures forall k :: i <= k < i + RunLength(s, i, cls) ==> InClass(s[k], cls)
    ensures i + RunLength(s, i, cls) == |s| || !InClass(s[i + RunLength(s, i, cls)], cls)
    decreases |s| - i
  {
    if i < |s| && InClass(s[i], cls) {
      RunLengthMaximal(s, i + 1, cls);
    }
  }

  /** The lower-case literal `lit` occurs at `i`, ignoring ASCII case. */
  predicate LitAt(s: string, i: nat, lit: string)
  {
    i + |lit| <= |s| && Lower(s[i..i + |lit|]) == lit
  }
  /**
   * Length of the first of the alternatives `alts` that occurs at `i`, 0 when
   * none does. In every pattern here at most one alternative can occur at a
   * position, so this is the alternative the regular expression takes.
   */
  function AltAt(s: string, i: nat, alts: seq<string>): (n: nat)
    ensures n > 0 ==> i + n <= |s|
  {
    if alts == [] then 0
    else if alts[0] != "" && LitAt(s, i, alts[0]) then |alts[0]|
    else AltAt(s, i, alts[1..])
  }

  /** The captured groups of a match; `second` is used by the stage pattern only. */
  datatype Groups = Groups(first: string, second: string)

  /** `re.search`: the match at the leftmost position in `i..n` where `at` succeeds. */
  function Search<T>(at: nat -> Option<T>, i: nat, n: nat): Option<T>
    decreases n + 1 - i
  {
    if i > n then None
    else if at(i).Some? then at(i)
    else Search(at, i + 1, n)
  }

  /** A found match is a real one, and no position before it matches. */
  lemma {:induction false} SearchLeftmost<T>(at: nat -> Option<T>, i: nat, n: nat) returns (k: nat)
    requires Search(at, i, n).Some?
    ensures i <= k <= n && at(k) == Search(at, i, n)
    ensures forall j :: i <= j < k ==> at(j).None?
    decreases n + 1 - i
  {
    if at(i).Some? {
      k := i;
    } else {
      k := SearchLeftmost(at, i + 1, n);
    }
  }

  /** No match is missed: when the search fails, no position in range matches. */
  lemma {:induction false} SearchNone<T>(at: nat -> Option<T>, i: nat, n: nat, k: nat)
    requires Search(at, i, n).None? && i <= k <= n
    ensures at(k).None?
    decreases n + 1 - i
  {
    if i < k {
      SearchNone(at, i + 1, n, k);
    }
  }

  predicate InClassAll(g: string, cls: CharClass)
  {
    forall k :: 0 <= k < |g| ==> InClass(g[k], cls)
  }

  /**
   * `(<number>)\s+(?:<units>)\s+(?:<tails>)` anchored at `i`, capturing the
   * number. The number run and both white-space runs must be maximal, because
   * the next item of the pattern cannot start with what they consume.
   */
  function NumberAt(s: string, i: nat, cls: CharClass, units: seq<string>, tails: seq<string>): Option<Groups>
  {
    if i > |s| then None
    else
      var d := RunLength(s, i, cls);
      if d > 0 && UnitAndTailAt(s, i + d, units, tails) then Some(Groups(s[i..i + d], "")) else None
  }

  /** `\s+(?:<units>)\s+(?:<tails>)` anchored at `j`. */
  predicate UnitAndTailAt(s: string, j: nat, units: seq<string>, tails: seq<string>)
    requires j <= |s|
  {
    var w1 := RunLength(s, j, Spaces);
    var u := AltAt(s, j + w1, units);
    w1 > 0 && u > 0 && RunLength(s, j + w1 + u, Spaces) > 0
    && AltAt(s, j + w1 + u + RunLength(s, j + w1 + u, Spaces), tails) > 0
  }

  function NumberMatcher(s: string, cls: CharClass, units: seq<string>, tails: seq<string>): nat -> Option<Groups>
  {
    (i: nat) => NumberAt(s, i, cls, units, tails)
  }

  /** A number capture is a non-empty run of its class. */
  lemma NumberSearchShape(s: string, cls: CharClass, units: seq<string>, tails: seq<string>)
    requires Search(NumberMatcher(s, cls, units, tails), 0, |s|).Some?
    ensures |Search(NumberMatcher(s, cls, units, tails), 0, |s|).value.first| > 0
    ensures InClassAll(Search(NumberMatcher(s, cls, units, tails), 0, |s|).value.first, cls)
  {
    var i := SearchLeftmost(NumberMatcher(s, cls, units, tails), 0, |s|);
    RunLengthMaximal(s, i, cls);
  }

  /** A maximal run of digits starting at `i`, as `(\d+)` captures it. */
  function DigitRun(s: string, i: nat): (g: string)
    requires i <= |s|
    ensures |g| == RunLength(s, i, Digits) && AllDigits(g)
  {
    RunLengthMaximal(s, i, Digits);
    s[i..i + RunLength(s, i, Digits)]
  }

  /** `stage (\d+) of (\d+)` anchored at `i`. */
  function StageAt(s: string, i: nat): (r: Option<Groups>)
    ensures r.Some? ==> AllDigits(r.value.first) && AllDigits(r.value.second)
  {
    if i > |s| || !LitAt(s, i, "stage ") then None
    else
      var n := DigitRun(s, i + 6);
      var j := i + 6 + |n|;
      if n == [] || !LitAt(s, j, " of ") then None
      else
        var t := DigitRun(s, j + 4);
        if t == [] then None else Some(Groups(n, t))
  }

  function StageMatcher(s: string): nat -> Option<Groups>
  {
    (i: nat) => StageAt(s, i)
  }

  lemma StageSearchShape(s: string)
    requires Search(StageMatcher(s), 0, |s|).Some?
    ensures AllDigits(Search(StageMatcher(s), 0, |s|).value.first)
    ensures AllDigits(Search(StageMatcher(s), 0, |s|).value.second)
  {
    var i := SearchLeftmost(StageMatcher(s), 0, |s|);
  }

  /** `volume label is (.+)` anchored at `i`: the rest of the line, which holds no newline. */
  function LabelAt(s: string, i: nat): Option<Groups>
  {
    if LitAt(s, i, "volume label is ") && i + 16 < |s| then Some(Groups(s[i + 16..], "")) else None
  }

  /** `file system is (\w+)` anchored at `i`. */
  function FileSystemAt(s: string, i: nat): Option<Groups>
  {
    if i <= |s| && LitAt(s, i, "file system is ") then
      var w := RunLength(s, i + 15, WordChars);
      if w > 0 then Some(Groups(s[i + 15..i + 15 + w], "")) else None
    else None
  }

  const SizeUnits: seq<string> := ["kb", "bytes", "mb", "gb"]

  function FindVolumeLabel(line: string): Option<string>
  {
    match Search((i: nat) => LabelAt(line, i), 0, |line|)
    case None => None
    case Some(g) => Some(g.first)
  }

  function FindFileSystem(line: string): Option<string>
  {
    match Search((i: nat) => FileSystemAt(line, i), 0, |line|)
    case None => None
    case Some(g) => Some(g.first)
  }

  function FindStage(line: string): Option<(nat, nat)>
  {
    match Search(StageMatcher(line), 0, |line|)
    case None => None
    case Some(g) => StageSearchShape(line); Some((DigitsValue(g.first), DigitsValue(g.second)))
  }

  /** `(\d+)\s+(?:KB|bytes)\s+in bad sectors` */
  function FindBadSectors(line: string): Option<nat>
  {
    match Search(NumberMatcher(line, Digits, ["kb", "bytes"], ["in bad sectors"]), 0, |line|)
    case None => None
    case Some(g) =>
      NumberSearchShape(line, Digits, ["kb", "bytes"], ["in bad sectors"]);
      Some(DigitsValue(g.first))
  }

  function RemoveCommas(s: string): string
  {
    if s == [] then []
    else if s[0] == ',' then RemoveCommas(s[1..])
    else [s[0]] + RemoveCommas(s[1..])
  }

  /** Removing the commas from a run of digits and commas leaves digits only, and "" only for commas alone. */
  lemma {:induction false} RemoveCommasDigits(g: string)
    requires InClassAll(g, DigitsOrCommas)
    ensures AllDigits(RemoveCommas(g))
    ensures RemoveCommas(g) == [] <==> forall k :: 0 <= k < |g| ==> g[k] == ','
  {
    if g != [] {
      assert forall k :: 1 <= k < |g| ==> g[k] == g[1..][k - 1];
      RemoveCommasDigits(g[1..]);
    }
  }

  /**
   * `int(g.replace(',', ''))` for a captured run of digits and commas; a run
   * of commas only leaves "", on which `int` raises (None).
   */
  function CommaNumber(g: string): (r: Option<nat>)
    requires InClassAll(g, DigitsOrCommas)
    ensures r.None? <==> forall k :: 0 <= k < |g| ==> g[k] == ','
  {
    RemoveCommasDigits(g);
    var t := RemoveCommas(g);
    if t == [] then None else Some(DigitsValue(t))
  }

  /**
   * A size pattern `([\d,]+)\s+(?:<units>)\s+(?:<tails>)` in the line: None
   * when it does not match, Some(None) when it matches but `int()` raises on
   * the capture, else the number.
   */
  function FindSize(line: string, units: seq<string>, tails: seq<string>): Option<Option<nat>>
  {
    match Search(NumberMatcher(line, DigitsOrCommas, units, tails), 0, |line|)
    case None => None
    case Some(g) =>
      NumberSearchShape(line, DigitsOrCommas, units, tails);
      Some(CommaNumber(g.first))
  }

  /** `([\d,]+)\s+(?:KB|bytes|MB|GB)\s+total disk space` */
  function FindTotal(line: string): Option<Option<nat>>
  {
    FindSize(line, SizeUnits, ["total disk space"])
  }

  /** `([\d,]+)\s+(?:KB|bytes|MB|GB)\s+(?:are )?available` */
  function FindFree(line: string): Option<Option<nat>>
  {
    FindSize(line, SizeUnits, ["are available", "available"])
  }

  /** `([\d,]+)\s+bytes\s+(?:in each )?allocation unit` */
  function FindAllocation(line: string): Option<Option<nat>>
  {
    FindSize(line, ["bytes"], ["in each allocation unit", "allocation unit"])
  }

  /** The unit is read from the whole line: GB, else MB, else KB, else bytes. */
  function UnitFactor(line: string): (f: nat)
    ensures f in {1, 1024, 1024 * 1024, 1024 * 1024 * 1024}
  {
    var up := Upper(line);
    if Contains(up, "GB") then 1024 * 1024 * 1024
    else if Contains(up, "MB") then 1024 * 1024
    else if Contains(up, "KB") then 1024
    else 1
  }

  // ------------------------------------------------------------- line parser

  const ErrorKeywords: seq<string> :=
    ["error", "corrupt", "damaged", "failed", "unreadable", "lost chain", "cross-linked", "invalid"]
  const ErrorExclusions: seq<string> := ["error-free", "no errors found", "windows has scanned"]

  /** A line that the keyword scan adds to the warnings and that sets errors_found. */
  predicate FlagsError(line: string)
  {
    var low := Lower(line);
    (exists k :: 0 <= k < |ErrorKeywords| && Contains(low, ErrorKeywords[k]))
    && !Contains(low, "no errors")
    && !(exists k :: 0 <= k < |ErrorExclusions| && Contains(low, ErrorExclusions[k]))
  }

  /** A line that reports a clean scan and clears errors_found. */
  predicate ReportsClean(line: string)
  {
    var low := Lower(line);
    Contains(low, "windows has scanned the file system and found no problems")
    || Contains(low, "no further action is required")
  }

  predicate MarksStageDone(line: string)
  {
    Contains(Lower(line), "percent complete") && Contains(Lower(line), "100 percent")
  }

  /**
   * What the parser reads from one stripped line: every pattern and keyword
   * test depends on the line alone, so they are gathered before the result
   * is updated.
   */
  datatype LineFacts = LineFacts(
    text: string,
    volLabel: Option<string>,
    fileSystem: Option<string>,
    stage: Option<(nat, nat)>,
    stageDone: bool,
    badSectors: Option<nat>,
    total: Option<Option<nat>>,
    free: Option<Option<nat>>,
    allocation: Option<Option<nat>>,
    unitFactor: nat,
    flagsError: bool,
    clean: bool)

  function Scan(line: string): LineFacts
  {
    LineFacts(line, FindVolumeLabel(line), FindFileSystem(line), FindStage(line), MarksStageDone(line),
      FindBadSectors(line), FindTotal(line), FindFree(line), FindAllocation(line), UnitFactor(line),
      FlagsError(line), ReportsClean(line))
  }

  /** The stripped lines of the output, each scanned. */
  function ScanLines(lines: seq<string>, scan: string -> LineFacts): (facts: seq<LineFacts>)
    ensures |facts| == |lines|
  {
    seq(|lines|, k requires 0 <= k < |lines| => scan(Strip(lines[k])))
  }

  // Each step of a line is its own function of the result so far, in the
  // order the loop body takes them.

  function LabelStep(f: LineFacts, r: ParsedOutput): ParsedOutput
  {
    match f.volLabel
    case Some(v) => r.(volumeLabel := Strip(v))
    case None => r
  }

  function FileSystemStep(f: LineFacts, r: ParsedOutput): ParsedOutput
  {
    match f.fileSystem
    case Some(v) => r.(filesystemType := Upper(v))
    case None => r
  }

  /** A stage line appends a running stage, which becomes the current stage. */
  function StageStep(f: LineFacts, r: ParsedOutput): ParsedOutput
  {
    match f.stage
    case Some((n, t)) => r.(stages := r.stages + [Stage(n, t, f.text, false)])
    case None => r
  }

  /** A "100 percent ... percent complete" line completes the current (last) stage, if any. */
  function StageDoneStep(f: LineFacts, r: ParsedOutput): ParsedOutput
  {
    if |r.stages| > 0 && f.stageDone
    then r.(stages := r.stages[|r.stages| - 1 := r.stages[|r.stages| - 1].(completed := true)])
    else r
  }

  /** The count is stored even when 0; only a positive count is an error and a warning. */
  function BadSectorsStep(f: LineFacts, r: ParsedOutput): ParsedOutput
  {
    match f.badSectors
    case Some(n) =>
      if n > 0 then r.(badSectors := n, errorsFound := true, warnings := r.warnings + ["Bad sectors detected: " + NatToString(n)])
      else r.(badSectors := n)
    case None => r
  }

  /** Total disk space, scaled by the unit named in the line; false when `int()` raises. */
  function TotalStep(f: LineFacts, r: ParsedOutput): (ParsedOutput, bool)
  {
    match f.total
    case None => (r, true)
    case Some(None) => (r, false)
    case Some(Some(v)) => (r.(totalBytes := v * f.unitFactor), true)
  }

  /** Available space, scaled by the unit named in the line; false when `int()` raises. */
  function FreeStep(f: LineFacts, r: ParsedOutput): (ParsedOutput, bool)
  {
    match f.free
    case None => (r, true)
    case Some(None) => (r, false)
    case Some(Some(v)) => (r.(freeBytes := v * f.unitFactor), true)
  }

  /** Allocation unit size in bytes; false when `int()` raises. */
  function AllocationStep(f: LineFacts, r: ParsedOutput): (ParsedOutput, bool)
  {
    match f.allocation
    case None => (r, true)
    case Some(None) => (r, false)
    case Some(Some(v)) => (r.(allocationUnitBytes := v), true)
  }

  /** An error keyword sets errors_found and adds the line to the warnings once. */
  function ErrorStep(f: LineFacts, r: ParsedOutput): ParsedOutput
  {
    if f.flagsError then
      r.(errorsFound := true, warnings := if f.text in r.warnings then r.warnings else r.warnings + [f.text])
    else r
  }

  function CleanStep(f: LineFacts, r: ParsedOutput): ParsedOutput
  {
    if f.clean then r.(errorsFound := false) else r
  }

  /** The steps that cannot raise: label, file system, stages and bad sectors. */
  function LineHead(f: LineFacts, r: ParsedOutput): ParsedOutput
  {
    BadSectorsStep(f, StageDoneStep(f, StageStep(f, FileSystemStep(f, LabelStep(f, r)))))
  }

  /** The three size conversions in turn, stopping at the first that raises. */
  function LineSizes(f: LineFacts, h: ParsedOutput): (sized: (ParsedOutput, bool))
    ensures sized.1 <==> !LineRaises(f)
  {
    var total := TotalStep(f, h);
    if !total.1 then total
    else
      var free := FreeStep(f, total.0);
      if !free.1 then free
      else
        var alloc := AllocationStep(f, free.0);
        if !alloc.1 then alloc
        else (alloc.0, true)
  }

  /** The size conversions write the three size fields and nothing else. */
  lemma SizesFrame(f: LineFacts, h: ParsedOutput)
    ensures var s := LineSizes(f, h).0;
      s == h.(totalBytes := s.totalBytes, freeBytes := s.freeBytes, allocationUnitBytes := s.allocationUnitBytes)
  {
  }

  /** One line; false when it made `int()` raise, leaving the updates made before that. */
  function ParseLine(f: LineFacts, r: ParsedOutput): (ParsedOutput, bool)
  {
    var sized := LineSizes(f, LineHead(f, r));
    if sized.1 then (CleanStep(f, ErrorStep(f, sized.0)), true) else sized
  }

  /** The lines in order, stopping at the first that raises. */
  function ParseLines(facts: seq<LineFacts>, r: ParsedOutput): (ParsedOutput, bool)
  {
    if facts == [] then (r, true)
    else
      var init := ParseLines(facts[..|facts| - 1], r);
      if init.1 then ParseLine(facts[|facts| - 1], init.0) else init
  }

  /** Used bytes are total minus free, and only when both are known (positive). */
  function WithUsed(r: ParsedOutput): (w: ParsedOutput)
    ensures w == r.(usedBytes := w.usedBytes)
    ensures r.totalBytes > 0 && r.freeBytes > 0 ==> w.usedBytes + w.freeBytes == w.totalBytes
    ensures !(r.totalBytes > 0 && r.freeBytes > 0) ==> w == r
  {
    if r.totalBytes > 0 && r.freeBytes > 0 then r.(usedBytes := r.totalBytes - r.freeBytes) else r
  }

  /** `_parse_chkdsk_output`: nothing for empty output; used bytes only after every line parsed. */
  function ParseOutput(output: string, r: ParsedOutput): (ParsedOutput, bool)
  {
    if output == "" then (r, true)
    else
      var parsed := ParseLines(ScanLines(Split(output, '\n'), Scan), r);
      if parsed.1 then (WithUsed(parsed.0), true) else parsed
  }

  lemma {:induction false} FailureSticks(facts: seq<LineFacts>, i: nat, r: ParsedOutput)
    requires i <= |facts| && !ParseLines(facts[..i], r).1
    ensures ParseLines(facts, r) == ParseLines(facts[..i], r)
    decreases |facts| - i
  {
    if i < |facts| {
      assert facts[..i + 1][..i] == facts[..i];
      FailureSticks(facts, i + 1, r);
    } else {
      assert facts[..i] == facts;
    }
  }

  /** The body of the line loop: each step in turn, stopping where `int()` raises. */
  method ApplyLine(f: LineFacts, r: ParsedOutput) returns (parsed: ParsedOutput, ok: bool)
    ensures (parsed, ok) == ParseLine(f, r)
  {
    parsed := LabelStep(f, r);
    parsed := FileSystemStep(f, parsed);
    parsed := StageStep(f, parsed);
    parsed := StageDoneStep(f, parsed);
    parsed := BadSectorsStep(f, parsed);
    parsed, ok := TotalStep(f, parsed).0, TotalStep(f, parsed).1;
    if ok {
      parsed, ok := FreeStep(f, parsed).0, FreeStep(f, parsed).1;
    }
    if ok {
      parsed, ok := AllocationStep(f, parsed).0, AllocationStep(f, parsed).1;
    }
    if ok {
      parsed := ErrorStep(f, parsed);
      parsed := CleanStep(f, parsed);
    }
  }

  lemma ParseLinesStep(facts: seq<LineFacts>, i: nat, r: ParsedOutput)
    requires i < |facts| && ParseLines(facts[..i], r).1
    ensures ParseLines(facts[..i + 1], r) == ParseLine(facts[i], ParseLines(facts[..i], r).0)
  {
    assert facts[..i + 1][..i] == facts[..i];
  }

  /**
   * The loop over the lines: each stripped, scanned and applied in turn,
   * stopping at the first line on which `int()` raises.
   */
  method ParseEachLine(lines: seq<string>, scan: string -> LineFacts, parsed0: ParsedOutput)
    returns (parsed: ParsedOutput, ok: bool)
    ensures (parsed, ok) == ParseLines(ScanLines(lines, scan), parsed0)
  {
    ghost var facts := ScanLines(lines, scan);
    parsed, ok := parsed0, true;
    var i := 0;
    while i < |lines| && ok
      invariant 0 <= i <= |lines|
      invariant (parsed, ok) == ParseLines(facts[..i], parsed0)
    {
      ParseLinesStep(facts, i, parsed0);
      var f := scan(Strip(lines[i]));
      parsed, ok := ApplyLine(f, parsed);
      i := i + 1;
    }
    if !ok {
      FailureSticks(facts, i, parsed0);
    } else {
      assert facts[..i] == facts;
    }
  }

  /** `_parse_chkdsk_output`; used bytes are computed only after the last line. */
  method ParseChkdskOutput(output: string, parsed0: ParsedOutput) returns (parsed: ParsedOutput, ok: bool)
    ensures (parsed, ok) == ParseOutput(output, parsed0)
  {
    parsed, ok := parsed0, true;
    if output == "" {
      return;
    }
    parsed, ok := ParseEachLine(Split(output, '\n'), Scan, parsed0);
    if ok && parsed.totalBytes > 0 && parsed.freeBytes > 0 {
      parsed := parsed.(usedBytes := parsed.totalBytes - parsed.freeBytes);
    }
  }

  // ------------------------------------------------------------------ runner

  /** What `__init__` finds: the platform, WSL, and whether PowerShell was located. */
  datatype Environment = Environment(isWindows: bool, isWsl: bool, hasPowershell: bool)

  /** `can_run_chkdsk` */
  predicate CanRunChkdsk(env: Environment)
  {
    (env.isWindows || env.isWsl) && !(env.isWsl && !env.hasPowershell)
  }

  /** How the chkdsk subprocess ended. */
  datatype ProcessOutcome =
    | Exited(stdout: string, stderr: string, returnCode: int)
    | TimedOut
    | LaunchFailed(message: string)

  /** stdout, followed by a marked stderr section when stderr is not empty. */
  function CombinedOutput(stdout: string, stderr: string): (o: string)
    ensures stderr == "" ==> o == stdout
    ensures stderr != "" ==> |o| > |stdout| && o[..|stdout|] == stdout
  {
    if stderr == "" then stdout else stdout + "\n--- STDERR ---\n" + stderr
  }

  /** The message of the ValueError `int('')` raises. */
  const IntParseError := "invalid literal for int() with base 10: ''"

  /**
   * `run_chkdsk`: the drive letter must be found and chkdsk available; after
   * the process exits, its output is parsed, and the run succeeds exactly
   * when the output is not empty, the exit code is 0 or 1, and parsing did
   * not raise. A timeout or a failed launch leaves every other field at its
   * default: no output, exit code -1 and nothing parsed.
   */
  method RunChkdsk(drivePath: string, env: Environment, outcome: ProcessOutcome, timeoutSeconds: int)
    returns (result: ChkdskResult)
    ensures DriveLetter(drivePath).None? ==>
      result == Initial.(errors := ["Could not extract drive letter from path: " + drivePath])
    ensures DriveLetter(drivePath).Some? ==> result.driveLetter == DriveLetter(drivePath).value
    ensures DriveLetter(drivePath).Some? && !CanRunChkdsk(env) ==>
      result == Initial.(driveLetter := DriveLetter(drivePath).value, errors := ["ChkDsk is not available in this environment"])
    ensures result.success <==>
      DriveLetter(drivePath).Some? && CanRunChkdsk(env) && outcome.Exited?
      && CombinedOutput(outcome.stdout, outcome.stderr) != "" && outcome.returnCode in {0, 1}
      && ParseOutput(CombinedOutput(outcome.stdout, outcome.stderr), NothingParsed).1
    ensures DriveLetter(drivePath).Some? && CanRunChkdsk(env) && outcome.Exited? ==>
      result.rawOutput == CombinedOutput(outcome.stdout, outcome.stderr)
      && result.exitCode == outcome.returnCode
      && result.parsed == ParseOutput(result.rawOutput, NothingParsed).0
      && result.errors == if ParseOutput(result.rawOutput, NothingParsed).1 then [] else ["ChkDsk execution failed: " + IntParseError]
    ensures DriveLetter(drivePath).Some? && CanRunChkdsk(env) && outcome.TimedOut? ==>
      result == Initial.(driveLetter := DriveLetter(drivePath).value,
                         errors := ["ChkDsk timed out after " + IntToString(timeoutSeconds) + " seconds"])
    ensures DriveLetter(drivePath).Some? && CanRunChkdsk(env) && outcome.LaunchFailed? ==>
      result == Initial.(driveLetter := DriveLetter(drivePath).value,
                         errors := ["ChkDsk execution failed: " + outcome.message])
  {
    result := Initial;
    var letter := DriveLetter(drivePath);
    if letter.None? {
      result := result.(errors := result.errors + ["Could not extract drive letter from path: " + drivePath]);
      return;
    }
    result := result.(driveLetter := letter.value);
    if !CanRunChkdsk(env) {
      result := result.(errors := result.errors + ["ChkDsk is not available in this environment"]);
      return;
    }
    match outcome
    case Exited(stdout, stderr, code) =>
      var output := CombinedOutput(stdout, stderr);
      result := result.(rawOutput := output, exitCode := code);
      var parsed, ok := ParseChkdskOutput(output, result.parsed);
      result := result.(parsed := parsed);
      if ok {
        result := result.(success := output != "" && code in {0, 1});
      } else {
        result := result.(errors := result.errors + ["ChkDsk execution failed: " + IntParseError]);
      }
    case TimedOut =>
      result := result.(errors := result.errors + ["ChkDsk timed out after " + IntToString(timeoutSeconds) + " seconds"]);
    case LaunchFailed(message) =>
      result := result.(errors := result.errors + ["ChkDsk execution failed: " + message]);
  }

  /** A line on which one of the size conversions raises. */
  predicate LineRaises(f: LineFacts)
  {
    f.total == Some(None) || f.free == Some(None) || f.allocation == Some(None)
  }

  /** Whether a line raises depends on the line alone. */
  lemma LineOutcome(f: LineFacts, r: ParsedOutput)
    ensures ParseLine(f, r).1 <==> !LineRaises(f)
  {
  }

  /** The whole output parses without raising exactly when no line raises. */
  lemma {:induction false} LinesOutcome(facts: seq<LineFacts>, r: ParsedOutput)
    ensures ParseLines(facts, r).1 <==> forall k :: 0 <= k < |facts| ==> !LineRaises(facts[k])
  {
    if facts != [] {
      var init := facts[..|facts| - 1];
      var last := facts[|facts| - 1];
      var prev := ParseLines(init, r);
      assert ParseLines(facts, r) == if prev.1 then ParseLine(last, prev.0) else prev;
      LinesOutcome(init, r);
      assert (forall k :: 0 <= k < |facts| ==> !LineRaises(facts[k]))
        <==> (forall k :: 0 <= k < |init| ==> !LineRaises(init[k])) && !LineRaises(last) by {
        assert forall k :: 0 <= k < |init| ==> init[k] == facts[k];
      }
    }
  }

  // -------------------------------------------------------------- properties

  /** Searching finds a match whenever the pattern occurs somewhere in range. */
  lemma SearchFinds<T>(at: nat -> Option<T>, i: nat, n: nat, k: nat)
    requires i <= k <= n && at(k).Some?
    ensures Search(at, i, n).Some?
  {
    if Search(at, i, n).None? {
      SearchNone(at, i, n, k);
    }
  }

  /** A stage is reported exactly when `stage <n> of <m>` occurs in the line. */
  lemma FindStageOccurs(line: string)
    ensures FindStage(line).Some? <==> exists i :: 0 <= i <= |line| && StageAt(line, i).Some?
  {
    if FindStage(line).Some? {
      var i := SearchLeftmost(StageMatcher(line), 0, |line|);
      assert StageAt(line, i).Some?;
    } else {
      forall i | 0 <= i <= |line| ensures StageAt(line, i).None? {
        SearchNone(StageMatcher(line), 0, |line|, i);
      }
    }
  }

  /** A run that ends where the class stops has exactly its own length. */
  lemma {:induction false} RunLengthExact(s: string, i: nat, len: nat, cls: CharClass)
    requires i + len <= |s|
    requires forall k :: i <= k < i + len ==> InClass(s[k], cls)
    requires i + len == |s| || !InClass(s[i + len], cls)
    ensures RunLength(s, i, cls) == len
    decreases len
  {
    if len > 0 {
      RunLengthExact(s, i + 1, len - 1, cls);
    }
  }

  /** A run of digits followed by a non-digit or the end is what `(\d+)` captures there. */
  lemma DigitRunOf(pre: string, digits: string, post: string)
    requires digits != [] && AllDigits(digits)
    requires post == [] || !IsDigit(post[0])
    ensures DigitRun(pre + digits + post, |pre|) == digits
  {
    var s := pre + digits + post;
    var j := |pre| + |digits|;
    assert forall k :: |pre| <= k < j ==> s[k] == digits[k - |pre|];
    assert j < |s| ==> s[j] == post[0];
    RunLengthExact(s, |pre|, |digits|, Digits);
    assert s[|pre|..j] == digits;
  }

  /** `stage (\d+) of (\d+)` matches a line that starts with a stage announcement. */
  lemma StageAtStart(sn: string, st: string)
    requires sn != [] && AllDigits(sn) && st != [] && AllDigits(st)
    ensures StageAt("Stage " + sn + " of " + st, 0) == Some(Groups(sn, st))
  {
    var pre, mid := "Stage ", " of ";
    var s := pre + sn + mid + st;
    DigitRunOf(pre, sn, mid + st);
    Append3(pre + sn, mid, st);
    DigitRunOf(pre + sn + mid, st, []);
    AppendEmpty(s);
    StageWords();
    LitAtOf([], pre, sn + mid + st, "stage ");
    AppendEmpty(pre);
    Append3(pre, sn, mid);
    Append3(pre, sn + mid, st);
    LitAtOf(pre + sn, mid, st, " of ");
    StageFromParts(s, sn, st);
  }

  lemma StageFromParts(s: string, sn: string, st: string)
    requires LitAt(s, 0, "stage ") && DigitRun(s, 6) == sn && sn != []
    requires LitAt(s, 6 + |sn|, " of ") && DigitRun(s, 10 + |sn|) == st && st != []
    ensures StageAt(s, 0) == Some(Groups(sn, st))
  {
  }

  lemma StageWords()
    ensures Lower("Stage ") == "stage " && Lower(" of ") == " of "
  {
    assert Lower("Stage ")[0] == 's';
  }

  /** The progress line chkdsk prints for a stage is read back as that stage's numbers. */
  lemma StageLineParsed(n: nat, t: nat)
    ensures FindStage("Stage " + NatToString(n) + " of " + NatToString(t)) == Some((n, t))
  {
    StageAtStart(NatToString(n), NatToString(t));
    DigitsOfNat(n);
    DigitsOfNat(t);
  }

  /** A word that lower-cases to `lit` is an occurrence of `lit`. */
  lemma LitAtOf(pre: string, word: string, post: string, lit: string)
    requires Lower(word) == lit
    ensures LitAt(pre + word + post, |pre|, lit)
  {
    assert (pre + word + post)[|pre|..|pre| + |word|] == word;
  }

  /** A digit string followed by a non-digit is a maximal digit run. */
  lemma DigitsThen(sn: string, rest: string)
    requires AllDigits(sn) && rest != [] && !IsDigit(rest[0])
    ensures RunLength(sn + rest, 0, Digits) == |sn|
  {
    var s := sn + rest;
    assert forall k :: 0 <= k < |sn| ==> s[k] == sn[k];
    RunLengthExact(s, 0, |sn|, Digits);
  }

  lemma OneSpace(s: string, i: nat)
    requires i + 1 < |s| && IsSpace(s[i]) && !IsSpace(s[i + 1])
    ensures RunLength(s, i, Spaces) == 1
  {
  }

  /** The unit and the tail of chkdsk's bad-sector summary line. */
  lemma BadSectorsTail(sn: string)
    ensures UnitAndTailAt(sn + " " + "KB" + " " + "in bad sectors" + ".", |sn|, ["kb", "bytes"], ["in bad sectors"])
  {
    var s := sn + " " + "KB" + " " + "in bad sectors" + ".";
    var d := |sn|;
    OneSpace(s, d);
    OneSpace(s, d + 3);
    assert Lower("KB") == "kb";
    LitAtOf(sn + " ", "KB", " " + "in bad sectors" + ".", "kb");
    assert AltAt(s, d + 1, ["kb", "bytes"]) == 2;
    assert Lower("in bad sectors") == "in bad sectors";
    LitAtOf(sn + " " + "KB" + " ", "in bad sectors", ".", "in bad sectors");
  }

  /** `(\d+)\s+(?:KB|bytes)\s+in bad sectors` matches chkdsk's summary line at its start. */
  lemma BadSectorsAtStart(sn: string)
    requires sn != [] && AllDigits(sn)
    ensures NumberAt(sn + " " + "KB" + " " + "in bad sectors" + ".", 0, Digits, ["kb", "bytes"], ["in bad sectors"])
      == Some(Groups(sn, ""))
  {
    var rest := " " + "KB" + " " + "in bad sectors" + ".";
    var s := sn + " " + "KB" + " " + "in bad sectors" + ".";
    assert s == sn + rest;
    DigitsThen(sn, rest);
    BadSectorsTail(sn);
    assert s[..|sn|] == sn;
  }

  /** chkdsk's bad-sector summary line is read back as its count. */
  lemma BadSectorsLineParsed(n: nat)
    ensures FindBadSectors(NatToString(n) + " " + "KB" + " " + "in bad sectors" + ".") == Some(n)
  {
    BadSectorsAtStart(NatToString(n));
    DigitsOfNat(n);
  }

  /** A line reporting a clean scan leaves errors_found false, whatever came before. */
  lemma CleanLineClearsErrors(f: LineFacts, r: ParsedOutput)
    requires f.clean && !LineRaises(f)
    ensures !ParseLine(f, r).0.errorsFound
  {
  }

  /** A positive bad-sector count is an error and a warning naming the count. */
  lemma BadSectorsReported(f: LineFacts, r: ParsedOutput, n: nat)
    requires f.badSectors == Some(n) && n > 0
    ensures ParseLine(f, r).0.badSectors == n
    ensures "Bad sectors detected: " + NatToString(n) in ParseLine(f, r).0.warnings
    ensures !f.clean && !LineRaises(f) ==> ParseLine(f, r).0.errorsFound
  {
  }

  /** A line with an error keyword is recorded among the warnings and sets errors_found unless it also reports a clean scan. */
  lemma ErrorLineRecorded(f: LineFacts, r: ParsedOutput)
    requires f.flagsError && !LineRaises(f)
    ensures f.text in ParseLine(f, r).0.warnings
    ensures ParseLine(f, r).0.errorsFound <==> !f.clean
  {
  }

  predicate NoDuplicates(ws: seq<string>)
  {
    forall i, j :: 0 <= i < j < |ws| ==> ws[i] != ws[j]
  }

  /** The keyword scan adds a line at most once, so without bad-sector counts the warnings stay distinct. */
  lemma WarningsDistinct(f: LineFacts, r: ParsedOutput)
    requires NoDuplicates(r.warnings)
    requires f.badSectors.None? || f.badSectors == Some(0)
    ensures NoDuplicates(ParseLine(f, r).0.warnings)
  {
    var sized := LineSizes(f, LineHead(f, r));
    SizesFrame(f, LineHead(f, r));
    assert sized.0.warnings == r.warnings;
    var w := ErrorStep(f, sized.0).warnings;
    assert NoDuplicates(w) by {
      if f.flagsError && f.text !in r.warnings {
        assert w == r.warnings + [f.text];
      }
    }
    assert CleanStep(f, ErrorStep(f, sized.0)).warnings == w;
  }

  /** A "100 percent complete" line completes the stage in progress, which may have begun on that line. */
  lemma StageCompleted(f: LineFacts, r: ParsedOutput)
    requires f.stageDone && (|r.stages| > 0 || f.stage.Some?)
    ensures var stages := ParseLine(f, r).0.stages; |stages| > 0 && stages[|stages| - 1].completed
  {
  }

  function StagePairs(stages: seq<Stage>): seq<(nat, nat)>
  {
    seq(|stages|, k requires 0 <= k < |stages| => (stages[k].number, stages[k].total))
  }

  /** The stage numbers announced by the lines, in order. */
  function AnnouncedStages(facts: seq<LineFacts>): seq<(nat, nat)>
  {
    if facts == [] then []
    else
      var last := facts[|facts| - 1];
      AnnouncedStages(facts[..|facts| - 1]) + (if last.stage.Some? then [last.stage.value] else [])
  }

  lemma StagePairsAppend(stages: seq<Stage>, st: Stage)
    ensures StagePairs(stages + [st]) == StagePairs(stages) + [(st.number, st.total)]
  {
    assert forall k :: 0 <= k < |stages| ==> (stages + [st])[k] == stages[k];
  }

  lemma StagePairsComplete(stages: seq<Stage>, k: nat)
    requires k < |stages|
    ensures StagePairs(stages[k := stages[k].(completed := true)]) == StagePairs(stages)
  {
  }

  /** One line adds its stage, if it announces one, after the stages already found. */
  lemma LineStages(f: LineFacts, r: ParsedOutput)
    ensures StagePairs(ParseLine(f, r).0.stages) == StagePairs(r.stages) + (if f.stage.Some? then [f.stage.value] else [])
  {
    var labelled := FileSystemStep(f, LabelStep(f, r));
    assert labelled.stages == r.stages;
    var staged := StageStep(f, labelled);
    if f.stage.Some? {
      StagePairsAppend(r.stages, Stage(f.stage.value.0, f.stage.value.1, f.text, false));
    }
    var done := StageDoneStep(f, staged);
    if |staged.stages| > 0 && f.stageDone {
      StagePairsComplete(staged.stages, |staged.stages| - 1);
    }
    assert LineHead(f, r).stages == done.stages;
    SizesFrame(f, LineHead(f, r));
    assert ParseLine(f, r).0.stages == done.stages;
  }

  /** After a full parse, `stage_results` lists one entry per stage line, in the order of the lines. */
  lemma {:induction false} StagesInOrder(facts: seq<LineFacts>, r: ParsedOutput)
    requires ParseLines(facts, r).1
    ensures StagePairs(ParseLines(facts, r).0.stages) == StagePairs(r.stages) + AnnouncedStages(facts)
  {
    if facts != [] {
      var init := facts[..|facts| - 1];
      StagesInOrder(init, r);
      LineStages(facts[|facts| - 1], ParseLines(init, r).0);
    }
  }
}

=== FILE: collections.dfy ===
/**
 * Python dictionaries as the catalogue's code uses them: keys kept in
 * insertion order, `d[k] = v` replacing the value in place or appending a new
 * key, `d.get(k, default)`, and `d[k] = d.get(k, 0) + n` counters.
 */
module Dicts {
  import opened Wrappers

  type Dict<K, V> = seq<(K, V)>

  function Keys<K, V>(d: Dict<K, V>): (ks: seq<K>)
    ensures |ks| == |d|
  {
    seq(|d|, i requires 0 <= i < |d| => d[i].0)
  }

  predicate UniqueKeys<K(==), V>(d: Dict<K, V>)
  {
    forall i, j :: 0 <= i < j < |d| ==> d[i].0 != d[j].0
  }

  predicate HasKey<K(==), V>(d: Dict<K, V>, k: K)
  {
    exists i :: 0 <= i < |d| && d[i].0 == k
  }

  /** `d.get(k)` */
  function Get<K(==), V>(d: Dict<K, V>, k: K): (r: Option<V>)
    ensures r.Some? <==> HasKey(d, k)
  {
    if d == [] then None
    else if d[0].0 == k then Some(d[0].1)
    else
      assert HasKey(d, k) <==> HasKey(d[1..], k) by {
        if HasKey(d, k) {
          var i :| 0 <= i < |d| && d[i].0 == k;
          assert d[1..][i - 1].0 == k;
        }
        if HasKey(d[1..], k) {
          var i :| 0 <= i < |d[1..]| && d[1..][i].0 == k;
          assert d[i + 1].0 == k;
        }
      }
      Get(d[1..], k)
  }

  /** `d.get(k, default)` */
  function GetOr<K(==), V>(d: Dict<K, V>, k: K, default: V): V
  {
    Get(d, k).GetOr(default)
  }

  /** `d[k] = v`: an existing key keeps its place, a new key goes last. */
  function Put<K(==), V>(d: Dict<K, V>, k: K, v: V): (r: Dict<K, V>)
  {
    if d == [] then [(k, v)]
    else if d[0].0 == k then [(k, v)] + d[1..]
    else [d[0]] + Put(d[1..], k, v)
  }

  /** `d[k] = d.get(k, 0) + n` */
  function Add<K(==)>(d: Dict<K, int>, k: K, n: int): Dict<K, int>
  {
    Put(d, k, GetOr(d, k, 0) + n)
  }

  function SumValues<K>(d: Dict<K, int>): int
  {
    if d == [] then 0 else d[0].1 + SumValues(d[1..])
  }

  lemma {:induction false} PutGet<K, V>(d: Dict<K, V>, k: K, v: V, k': K)
    ensures Get(Put(d, k, v), k') == if k' == k then Some(v) else Get(d, k')
  {
    if d != [] && d[0].0 != k {
      PutGet(d[1..], k, v, k');
    }
  }

  /** Put keeps the keys distinct and adds `k` last when it was missing. */
  lemma {:induction false} PutKeys<K, V>(d: Dict<K, V>, k: K, v: V)
    requires UniqueKeys(d)
    ensures UniqueKeys(Put(d, k, v))
    ensures Keys(Put(d, k, v)) == if HasKey(d, k) then Keys(d) else Keys(d) + [k]
  {
    if d == [] {
    } else if d[0].0 == k {
      assert Keys(Put(d, k, v)) == Keys(d);
    } else {
      PutKeys(d[1..], k, v);
      var r := Put(d, k, v);
      assert r == [d[0]] + Put(d[1..], k, v);
      assert HasKey(d, k) <==> HasKey(d[1..], k) by {
        if HasKey(d, k) {
          var i :| 0 <= i < |d| && d[i].0 == k;
          assert d[1..][i - 1].0 == k;
        }
        if HasKey(d[1..], k) {
          var i :| 0 <= i < |d[1..]| && d[1..][i].0 == k;
          assert d[i + 1].0 == k;
        }
      }
      forall j | 0 < j < |r| ensures r[j].0 != d[0].0 {
        assert r[j].0 == Keys(Put(d[1..], k, v))[j - 1];
        if HasKey(d[1..], k) {
          assert r[j].0 == Keys(d[1..])[j - 1] == d[j].0;
        } else if j < |d| {
          assert r[j].0 == Keys(d[1..])[j - 1] == d[j].0;
        }
      }
      assert Keys(r) == [d[0].0] + Keys(Put(d[1..], k, v));
      assert Keys(d) == [d[0].0] + Keys(d[1..]);
    }
  }

  /** A counter update changes the total of all counters by exactly `n`. */
  lemma {:induction false} SumAdd<K>(d: Dict<K, int>, k: K, n: int)
    ensures SumValues(Add(d, k, n)) == SumValues(d) + n
  {
    if d != [] && d[0].0 != k {
      SumAdd(d[1..], k, n);
      assert Add(d, k, n) == [d[0]] + Add(d[1..], k, n);
    }
  }

  lemma AddGet<K>(d: Dict<K, int>, k: K, n: int, k': K)
    ensures GetOr(Add(d, k, n), k', 0) == GetOr(d, k', 0) + (if k' == k then n else 0)
  {
    PutGet(d, k, GetOr(d, k, 0) + n, k');
  }

  lemma AddKeys<K>(d: Dict<K, int>, k: K, n: int)
    requires UniqueKeys(d)
    ensures UniqueKeys(Add(d, k, n))
    ensures HasKey(Add(d, k, n), k)
    ensures forall k' :: HasKey(Add(d, k, n), k') <==> HasKey(d, k') || k' == k
  {
    PutKeys(d, k, GetOr(d, k, 0) + n);
    forall k' ensures HasKey(Add(d, k, n), k') <==> HasKey(d, k') || k' == k {
      PutGet(d, k, GetOr(d, k, 0) + n, k');
      assert Get(Add(d, k, n), k').Some? <==> Get(d, k').Some? || k' == k;
    }
  }
}

/**
 * `sorted(xs, key=..., reverse=True)`: Python's sort is stable, so items with
 * equal keys keep their original order.
 */
module Sorting {
  predicate SortedDesc<T>(s: seq<T>, key: T -> int)
  {
    forall i, j :: 0 <= i < j < |s| ==> key(s[i]) >= key(s[j])
  }

  /** Places `x` before the first item whose key is not larger than its own. */
  function InsertDesc<T>(x: T, s: seq<T>, key: T -> int): (r: seq<T>)
    ensures |r| == |s| + 1
  {
    if s == [] || key(s[0]) <= key(x) then [x] + s else [s[0]] + InsertDesc(x, s[1..], key)
  }

  function SortDesc<T>(s: seq<T>, key: T -> int): (r: seq<T>)
    ensures |r| == |s|
  {
    if s == [] then [] else InsertDesc(s[0], SortDesc(s[1..], key), key)
  }

  /** `xs[:n]` */
  function Take<T>(s: seq<T>, n: nat): (r: seq<T>)
    ensures |r| <= n && |r| <= |s| && r == s[..|r|]
    ensures |s| <= n ==> r == s
  {
    if |s| <= n then s else s[..n]
  }

  predicate AllAtMost<T>(s: seq<T>, key: T -> int, bound: int)
  {
    forall i :: 0 <= i < |s| ==> key(s[i]) <= bound
  }

  lemma ConsSorted<T>(h: T, s: seq<T>, key: T -> int)
    requires SortedDesc(s, key) && AllAtMost(s, key, key(h))
    ensures SortedDesc([h] + s, key)
  {
    var r := [h] + s;
    forall i, j | 0 <= i < j < |r| ensures key(r[i]) >= key(r[j]) {
      assert r[j] == s[j - 1];
      if i > 0 { assert r[i] == s[i - 1]; }
    }
  }

  lemma {:induction false} InsertDescPerm<T>(x: T, s: seq<T>, key: T -> int)
    ensures multiset(InsertDesc(x, s, key)) == multiset(s) + multiset{x}
  {
    if s != [] && key(s[0]) > key(x) {
      InsertDescPerm(x, s[1..], key);
      assert s == [s[0]] + s[1..];
    }
  }

  lemma {:induction false} InsertDescBound<T>(x: T, s: seq<T>, key: T -> int, bound: int)
    requires AllAtMost(s, key, bound) && key(x) <= bound
    ensures AllAtMost(InsertDesc(x, s, key), key, bound)
  {
    var r := InsertDesc(x, s, key);
    if s != [] && key(s[0]) > key(x) {
      var t := s[1..];
      assert AllAtMost(t, key, bound) by {
        forall i | 0 <= i < |t| ensures key(t[i]) <= bound {
          assert t[i] == s[i + 1];
        }
      }
      InsertDescBound(x, t, key, bound);
      forall i | 0 <= i < |r| ensures key(r[i]) <= bound {
        if i > 0 { assert r[i] == InsertDesc(x, t, key)[i - 1]; }
      }
    } else {
      forall i | 0 <= i < |r| ensures key(r[i]) <= bound {
        if i > 0 { assert r[i] == s[i - 1]; }
      }
    }
  }

  lemma {:induction false} InsertDescSorted<T>(x: T, s: seq<T>, key: T -> int)
    requires SortedDesc(s, key)
    ensures SortedDesc(InsertDesc(x, s, key), key)
  {
    if s == [] || key(s[0]) <= key(x) {
      forall i | 0 <= i < |s| ensures key(s[i]) <= key(x) {
        if i > 0 { assert key(s[0]) >= key(s[i]); }
      }
      ConsSorted(x, s, key);
    } else {
      var t := s[1..];
      assert SortedDesc(t, key) by {
        forall i, j | 0 <= i < j < |t| ensures key(t[i]) >= key(t[j]) {
          assert t[i] == s[i + 1] && t[j] == s[j + 1];
        }
      }
      InsertDescSorted(x, t, key);
      assert AllAtMost(t, key, key(s[0])) by {
        forall i | 0 <= i < |t| ensures key(t[i]) <= key(s[0]) {
          assert t[i] == s[i + 1];
        }
      }
      InsertDescBound(x, t, key, key(s[0]));
      ConsSorted(s[0], InsertDesc(x, t, key), key);
    }
  }

  /** The sort returns the same items, with keys in non-increasing order. */
  lemma {:induction false} SortDescCorrect<T>(s: seq<T>, key: T -> int)
    ensures SortedDesc(SortDesc(s, key), key)
    ensures multiset(SortDesc(s, key)) == multiset(s)
    ensures |SortDesc(s, key)| == |s|
  {
    if s != [] {
      var t := SortDesc(s[1..], key);
      SortDescCorrect(s[1..], key);
      InsertDescSorted(s[0], t, key);
      InsertDescPerm(s[0], t, key);
      ConsMultiset(s);
    }
  }

  lemma ConsMultiset<T>(s: seq<T>)
    requires s != []
    ensures multiset(s) == multiset(s[1..]) + multiset{s[0]}
  {
    assert s == [s[0]] + s[1..];
  }

  /**
   * Keeping the first `n` items of the sorted sequence keeps the largest keys:
   * no item left out has a larger key than any item kept.
   */
  lemma TopN<T>(s: seq<T>, key: T -> int, n: nat)
    ensures var top := Take(SortDesc(s, key), n);
      |top| == (if |s| < n then |s| else n)
      && SortedDesc(top, key)
      && multiset(top) <= multiset(s)
      && forall i, j :: 0 <= i < |top| <= j < |s| ==> key(top[i]) >= key(SortDesc(s, key)[j])
  {
    var r := SortDesc(s, key);
    SortDescCorrect(s, key);
    var top := Take(r, n);
    assert r == top + r[|top|..];
    assert multiset(r) == multiset(top) + multiset(r[|top|..]);
  }
}

/** Facts about concatenation that loops and proofs over sequences use at every step. */
module Seqs {
  /** Taking one more item extends the prefix by that item. */
  lemma TakeStep<T>(s: seq<T>, i: nat)
    requires i < |s|
    ensures s[..i + 1] == s[..i] + [s[i]]
  {
  }

  /** Appending to a batch that follows what is stored appends to the whole. */
  lemma Regroup<T>(stored: seq<T>, batch: seq<T>, x: T)
    ensures stored + (batch + [x]) == (stored + batch) + [x]
  {
  }

  /** Concatenation is associative. */
  lemma Append3<T>(a: seq<T>, b: seq<T>, c: seq<T>)
    ensures a + (b + c) == (a + b) + c
  {
  }

  lemma Append4<T>(a: seq<T>, b: seq<T>, c: seq<T>, d: seq<T>)
    ensures a + b + c + d == a + (b + c + d)
  {
  }

  /** A sequence is its prefix followed by the rest. */
  lemma SplitAt<T>(s: seq<T>, n: nat)
    requires n <= |s|
    ensures s == s[..n] + s[n..]
  {
  }

  /** The empty sequence is a unit of concatenation. */
  lemma AppendEmpty<T>(a: seq<T>)
    ensures a + [] == a && [] + a == a
  {
  }
}

=== FILE: directory_extract.dfy ===
/**
 * The quick directory extractor over the Windows Search Index: one grouped
 * query row per (folder, extension) is folded into a per-folder summary
 * (`get_directory_tree`), the flat summary is turned into a nested tree keyed
 * by path parts (`create_hierarchical_tree`), and the printed summary ranks
 * folders and extensions (`print_tree_summary`).
 */
module DirectoryExtract {
  import opened Wrappers
  import opened Text
  import opened Dicts
  import opened Sorting
  import opened Seqs

  // ---------------------------------------------------------------------
  // get_directory_tree
  // ---------------------------------------------------------------------

  /**
   * One row of the grouped index query. Every column may come back null; the
   * dates are taken as their ISO text.
   */
  datatype GroupRow = GroupRow(
    folderPath: Option<string>,
    extension: Option<string>,
    fileCount: Option<int>,
    totalSize: Option<int>,
    oldest: Option<string>,
    newest: Option<string>)

  datatype DirInfo = DirInfo(
    totalFiles: int,
    totalSize: int,
    extensions: Dict<string, int>,
    oldestFile: Option<string>,
    newestFile: Option<string>)

  /** The `defaultdict` factory's value for a folder seen for the first time. */
  const EmptyDir := DirInfo(0, 0, [], None, None)

  /** Python truthiness of an optional string. */
  predicate Truthy(s: Option<string>)
  {
    s.Some? && s.value != ""
  }

  /** `FolderPath or "Unknown"` */
  function FolderOf(r: GroupRow): string
  {
    if Truthy(r.folderPath) then r.folderPath.value else "Unknown"
  }

  /** `Extension or "no_extension"` */
  function ExtensionOf(r: GroupRow): string
  {
    if Truthy(r.extension) then r.extension.value else "no_extension"
  }

  /** `FileCount or 0` */
  function CountOf(r: GroupRow): int
  {
    r.fileCount.GetOr(0)
  }

  /** `TotalSize or 0` */
  function SizeOf(r: GroupRow): int
  {
    r.totalSize.GetOr(0)
  }

  /** Keeps the smaller of the date seen so far and a row's date, ignoring an empty one. */
  function Earlier(cur: Option<string>, s: Option<string>): Option<string>
  {
    if !Truthy(s) then cur
    else if cur.None? || StrLess(s.value, cur.value) then s
    else cur
  }

  /** Keeps the larger of the date seen so far and a row's date, ignoring an empty one. */
  function Later(cur: Option<string>, s: Option<string>): Option<string>
  {
    if !Truthy(s) then cur
    else if cur.None? || StrLess(cur.value, s.value) then s
    else cur
  }

  /** One row's update of its folder's entry; the extension count is assigned, not added. */
  function Fold(info: DirInfo, r: GroupRow): DirInfo
  {
    DirInfo(
      info.totalFiles + CountOf(r),
      info.totalSize + SizeOf(r),
      Put(info.extensions, ExtensionOf(r), CountOf(r)),
      Earlier(info.oldestFile, r.oldest),
      Later(info.newestFile, r.newest))
  }

  /** The per-folder summary of the rows, folders in order of first appearance. */
  function DirectoryTree(rows: seq<GroupRow>): Dict<string, DirInfo>
  {
    if rows == [] then []
    else
      var t := DirectoryTree(rows[..|rows| - 1]);
      var r := rows[|rows| - 1];
      Put(t, FolderOf(r), Fold(GetOr(t, FolderOf(r), EmptyDir), r))
  }

  /**
   * The extraction loop over the query's rows; without an index connection
   * the result is empty.
   */
  method GetDirectoryTree(connected: bool, rows: seq<GroupRow>) returns (tree: Dict<string, DirInfo>)
    ensures tree == if connected then DirectoryTree(rows) else []
  {
    tree := [];
    if !connected {
      return;
    }
    var i := 0;
    while i < |rows|
      invariant 0 <= i <= |rows|
      invariant tree == DirectoryTree(rows[..i])
    {
      var r := rows[i];
      var folder := if Truthy(r.folderPath) then r.folderPath.value else "Unknown";
      var info := GetOr(tree, folder, EmptyDir);
      info := Update(info, r);
      tree := Put(tree, folder, info);
      assert rows[..i + 1][..i] == rows[..i];
      i := i + 1;
    }
    assert rows[..|rows|] == rows;
  }

  /** The updates of one folder's entry in the extraction loop. */
  method Update(info: DirInfo, r: GroupRow) returns (info': DirInfo)
    ensures info' == Fold(info, r)
  {
    var extension := if Truthy(r.extension) then r.extension.value else "no_extension";
    var count := r.fileCount.GetOr(0);
    var size := r.totalSize.GetOr(0);
    info' := info.(totalFiles := info.totalFiles + count, totalSize := info.totalSize + size);
    info' := info'.(extensions := Put(info'.extensions, extension, count));
    if Truthy(r.oldest) {
      if info'.oldestFile.None? || StrLess(r.oldest.value, info'.oldestFile.value) {
        info' := info'.(oldestFile := r.oldest);
      }
    }
    if Truthy(r.newest) {
      if info'.newestFile.None? || StrLess(info'.newestFile.value, r.newest.value) {
        info' := info'.(newestFile := r.newest);
      }
    }
  }

  /** Reference definition: the files of all rows that belong to `folder`. */
  function FilesIn(rows: seq<GroupRow>, folder: string): int
  {
    if rows == [] then 0
    else
      var r := rows[|rows| - 1];
      FilesIn(rows[..|rows| - 1], folder) + (if FolderOf(r) == folder then CountOf(r) else 0)
  }

  /** Reference definition: the bytes of all rows that belong to `folder`. */
  function BytesIn(rows: seq<GroupRow>, folder: string): int
  {
    if rows == [] then 0
    else
      var r := rows[|rows| - 1];
      BytesIn(rows[..|rows| - 1], folder) + (if FolderOf(r) == folder then SizeOf(r) else 0)
  }

  predicate HasFolder(rows: seq<GroupRow>, folder: string)
  {
    exists i :: 0 <= i < |rows| && FolderOf(rows[i]) == folder
  }

  lemma HasFolderStep(rows: seq<GroupRow>, folder: string)
    requires rows != []
    ensures HasFolder(rows, folder) <==> HasFolder(rows[..|rows| - 1], folder) || FolderOf(rows[|rows| - 1]) == folder
  {
    var init := rows[..|rows| - 1];
    if HasFolder(init, folder) {
      var i :| 0 <= i < |init| && FolderOf(init[i]) == folder;
      assert rows[i] == init[i];
    }
  }

  /**
   * A folder has an entry exactly when some row belongs to it, and its totals
   * are the sums over those rows; every other folder reads as the empty entry.
   */
  lemma {:induction false} DirectoryTotals(rows: seq<GroupRow>, folder: string)
    ensures HasKey(DirectoryTree(rows), folder) <==> HasFolder(rows, folder)
    ensures GetOr(DirectoryTree(rows), folder, EmptyDir).totalFiles == FilesIn(rows, folder)
    ensures GetOr(DirectoryTree(rows), folder, EmptyDir).totalSize == BytesIn(rows, folder)
  {
    if rows != [] {
      var init := rows[..|rows| - 1];
      var r := rows[|rows| - 1];
      var t := DirectoryTree(init);
      DirectoryTotals(init, folder);
      PutGet(t, FolderOf(r), Fold(GetOr(t, FolderOf(r), EmptyDir), r), folder);
      HasFolderStep(rows, folder);
    }
  }

  /** `date` is the truthy creation date of some row belonging to `folder`. */
  predicate OldestDate(rows: seq<GroupRow>, folder: string, date: string)
  {
    exists i :: 0 <= i < |rows| && FolderOf(rows[i]) == folder && Truthy(rows[i].oldest) && rows[i].oldest.value == date
  }

  /** `date` is the truthy modification date of some row belonging to `folder`. */
  predicate NewestDate(rows: seq<GroupRow>, folder: string, date: string)
  {
    exists i :: 0 <= i < |rows| && FolderOf(rows[i]) == folder && Truthy(rows[i].newest) && rows[i].newest.value == date
  }

  lemma OldestDateStep(rows: seq<GroupRow>, folder: string)
    requires rows != []
    ensures var r := rows[|rows| - 1];
      forall d :: OldestDate(rows, folder, d) <==>
        OldestDate(rows[..|rows| - 1], folder, d) || (FolderOf(r) == folder && Truthy(r.oldest) && r.oldest.value == d)
  {
    var init := rows[..|rows| - 1];
    forall d | OldestDate(init, folder, d) ensures OldestDate(rows, folder, d) {
      var i :| 0 <= i < |init| && FolderOf(init[i]) == folder && Truthy(init[i].oldest) && init[i].oldest.value == d;
      assert rows[i] == init[i];
    }
    forall d | OldestDate(rows, folder, d)
      ensures OldestDate(init, folder, d) || (FolderOf(rows[|rows| - 1]) == folder && Truthy(rows[|rows| - 1].oldest) && rows[|rows| - 1].oldest.value == d)
    {
      var i :| 0 <= i < |rows| && FolderOf(rows[i]) == folder && Truthy(rows[i].oldest) && rows[i].oldest.value == d;
      if i < |rows| - 1 {
        assert init[i] == rows[i];
      }
    }
  }

  lemma NewestDateStep(rows: seq<GroupRow>, folder: string)
    requires rows != []
    ensures var r := rows[|rows| - 1];
      forall d :: NewestDate(rows, folder, d) <==>
        NewestDate(rows[..|rows| - 1], folder, d) || (FolderOf(r) == folder && Truthy(r.newest) && r.newest.value == d)
  {
    var init := rows[..|rows| - 1];
    forall d | NewestDate(init, folder, d) ensures NewestDate(rows, folder, d) {
      var i :| 0 <= i < |init| && FolderOf(init[i]) == folder && Truthy(init[i].newest) && init[i].newest.value == d;
      assert rows[i] == init[i];
    }
    forall d | NewestDate(rows, folder, d)
      ensures NewestDate(init, folder, d) || (FolderOf(rows[|rows| - 1]) == folder && Truthy(rows[|rows| - 1].newest) && rows[|rows| - 1].newest.value == d)
    {
      var i :| 0 <= i < |rows| && FolderOf(rows[i]) == folder && Truthy(rows[i].newest) && rows[i].newest.value == d;
      if i < |rows| - 1 {
        assert init[i] == rows[i];
      }
    }
  }

  /** `oldest_file` of one folder entry. */
  function OldestOf(rows: seq<GroupRow>, folder: string): Option<string>
  {
    GetOr(DirectoryTree(rows), folder, EmptyDir).oldestFile
  }

  /** `newest_file` of one folder entry. */
  function NewestOf(rows: seq<GroupRow>, folder: string): Option<string>
  {
    GetOr(DirectoryTree(rows), folder, EmptyDir).newestFile
  }

  /**
   * `oldest_file` is the least creation date of the folder's rows in string
   * order: it is one of them, no row's date is smaller, and it is missing
   * only when no row has a date.
   */
  lemma {:induction false} OldestIsMinimum(rows: seq<GroupRow>, folder: string)
    ensures OldestOf(rows, folder).None? <==> forall d :: !OldestDate(rows, folder, d)
    ensures OldestOf(rows, folder).Some? ==> OldestDate(rows, folder, OldestOf(rows, folder).value)
    ensures OldestOf(rows, folder).Some? ==> forall d :: OldestDate(rows, folder, d) ==> !StrLess(d, OldestOf(rows, folder).value)
  {
    if rows != [] {
      var init := rows[..|rows| - 1];
      var r := rows[|rows| - 1];
      var t := DirectoryTree(init);
      OldestIsMinimum(init, folder);
      PutGet(t, FolderOf(r), Fold(GetOr(t, FolderOf(r), EmptyDir), r), folder);
      OldestDateStep(rows, folder);
      var cur := OldestOf(init, folder);
      if FolderOf(r) == folder && Truthy(r.oldest) {
        var s := r.oldest.value;
        assert OldestDate(rows, folder, s);
        if cur.None? {
          StrLessIrreflexive(s);
        } else if StrLess(s, cur.value) {
          forall d | OldestDate(init, folder, d) ensures !StrLess(d, s) {
            if StrLess(d, s) {
              StrLessTransitive(d, s, cur.value);
            }
          }
          StrLessIrreflexive(s);
        } else {
          StrLessIrreflexive(cur.value);
          assert OldestDate(rows, folder, cur.value);
        }
      } else if cur.Some? {
        assert OldestDate(rows, folder, cur.value);
      }
    }
  }

  /**
   * `newest_file` is the greatest modification date of the folder's rows in
   * string order, in the same sense.
   */
  lemma {:induction false} NewestIsMaximum(rows: seq<GroupRow>, folder: string)
    ensures NewestOf(rows, folder).None? <==> forall d :: !NewestDate(rows, folder, d)
    ensures NewestOf(rows, folder).Some? ==> NewestDate(rows, folder, NewestOf(rows, folder).value)
    ensures NewestOf(rows, folder).Some? ==> forall d :: NewestDate(rows, folder, d) ==> !StrLess(NewestOf(rows, folder).value, d)
  {
    if rows != [] {
      var init := rows[..|rows| - 1];
      var r := rows[|rows| - 1];
      var t := DirectoryTree(init);
      NewestIsMaximum(init, folder);
      PutGet(t, FolderOf(r), Fold(GetOr(t, FolderOf(r), EmptyDir), r), folder);
      NewestDateStep(rows, folder);
      var cur := NewestOf(init, folder);
      if FolderOf(r) == folder && Truthy(r.newest) {
        var s := r.newest.value;
        assert NewestDate(rows, folder, s);
        if cur.None? {
          StrLessIrreflexive(s);
        } else if StrLess(cur.value, s) {
          forall d | NewestDate(init, folder, d) ensures !StrLess(s, d) {
            if StrLess(s, d) {
              StrLessTransitive(cur.value, s, d);
            }
          }
          StrLessIrreflexive(s);
        } else {
          StrLessIrreflexive(cur.value);
          assert NewestDate(rows, folder, cur.value);
        }
      } else if cur.Some? {
        assert NewestDate(rows, folder, cur.value);
      }
    }
  }

  /** No two rows name the same (folder, extension) group once nulls are replaced. */
  predicate DistinctGroups(rows: seq<GroupRow>)
  {
    forall i, j :: 0 <= i < j < |rows| && FolderOf(rows[i]) == FolderOf(rows[j]) ==> ExtensionOf(rows[i]) != ExtensionOf(rows[j])
  }

  predicate HasGroup(rows: seq<GroupRow>, folder: string, ext: string)
  {
    exists i :: 0 <= i < |rows| && FolderOf(rows[i]) == folder && ExtensionOf(rows[i]) == ext
  }

  lemma HasGroupStep(rows: seq<GroupRow>, folder: string)
    requires rows != []
    ensures var r := rows[|rows| - 1];
      forall e :: HasGroup(rows, folder, e) <==>
        HasGroup(rows[..|rows| - 1], folder, e) || (FolderOf(r) == folder && ExtensionOf(r) == e)
  {
    var init := rows[..|rows| - 1];
    forall e | HasGroup(init, folder, e) ensures HasGroup(rows, folder, e) {
      var i :| 0 <= i < |init| && FolderOf(init[i]) == folder && ExtensionOf(init[i]) == e;
      assert rows[i] == init[i];
    }
    forall e | HasGroup(rows, folder, e)
      ensures HasGroup(init, folder, e) || (FolderOf(rows[|rows| - 1]) == folder && ExtensionOf(rows[|rows| - 1]) == e)
    {
      var i :| 0 <= i < |rows| && FolderOf(rows[i]) == folder && ExtensionOf(rows[i]) == e;
      if i < |rows| - 1 {
        assert init[i] == rows[i];
      }
    }
  }

  /**
   * Since the count of a group is assigned to its extension, the per-extension
   * counts of a folder add up to its `total_files` when no group repeats; the
   * query's GROUP BY gives that unless two null spellings meet.
   */
  lemma {:induction false} ExtensionsSumToTotal(rows: seq<GroupRow>, folder: string)
    requires DistinctGroups(rows)
    ensures SumValues(GetOr(DirectoryTree(rows), folder, EmptyDir).extensions) == FilesIn(rows, folder)
    ensures forall e :: HasKey(GetOr(DirectoryTree(rows), folder, EmptyDir).extensions, e) <==> HasGroup(rows, folder, e)
  {
    if rows != [] {
      var init := rows[..|rows| - 1];
      var r := rows[|rows| - 1];
      var t := DirectoryTree(init);
      assert DistinctGroups(init) by {
        forall i, j | 0 <= i < j < |init| && FolderOf(init[i]) == FolderOf(init[j]) ensures ExtensionOf(init[i]) != ExtensionOf(init[j]) {
          assert init[i] == rows[i] && init[j] == rows[j];
        }
      }
      ExtensionsSumToTotal(init, folder);
      PutGet(t, FolderOf(r), Fold(GetOr(t, FolderOf(r), EmptyDir), r), folder);
      HasGroupStep(rows, folder);
      var exts := GetOr(t, folder, EmptyDir).extensions;
      if FolderOf(r) == folder {
        forall i | 0 <= i < |init| && FolderOf(init[i]) == folder ensures ExtensionOf(init[i]) != ExtensionOf(r) {
          assert init[i] == rows[i];
        }
        assert !HasGroup(init, folder, ExtensionOf(r));
        assert Put(exts, ExtensionOf(r), CountOf(r)) == Add(exts, ExtensionOf(r), CountOf(r));
        SumAdd(exts, ExtensionOf(r), CountOf(r));
        forall e ensures HasKey(Put(exts, ExtensionOf(r), CountOf(r)), e) <==> HasKey(exts, e) || e == ExtensionOf(r) {
          PutGet(exts, ExtensionOf(r), CountOf(r), e);
        }
      }
    }
  }

  // ---------------------------------------------------------------------
  // create_hierarchical_tree
  // ---------------------------------------------------------------------

  predicate IsSep(c: char)
  {
    c == '\\' || c == '/'
  }

  /** A path part as `pathlib` keeps it: empty parts and "." are dropped. */
  function Keep(part: string): (r: seq<string>)
    ensures forall i :: 0 <= i < |r| ==> r[i] != ""
  {
    if part == "" || part == "." then [] else [part]
  }

  /** The parts of a path after its anchor, `cur` being the part read so far. */
  function ComponentsFrom(s: string, cur: string): (r: seq<string>)
    ensures forall i :: 0 <= i < |r| ==> r[i] != ""
    decreases |s|
  {
    if s == [] then Keep(cur)
    else if IsSep(s[0]) then Keep(cur) + ComponentsFrom(s[1..], "")
    else ComponentsFrom(s[1..], cur + [s[0]])
  }

  /**
   * `Path(p).parts` on Windows: a drive with a root ("E:\\") or without one
   * ("E:"), or a bare root, comes first, followed by the non-empty names
   * between separators.
   */
  function PathParts(p: string): (r: seq<string>)
    ensures forall i :: 0 <= i < |r| ==> r[i] != ""
    ensures |p| >= 2 && p[1] == ':' ==> |r| >= 1 && |r[0]| >= 2 && r[0][..2] == p[..2]
  {
    if |p| >= 3 && p[1] == ':' && IsSep(p[2]) then [p[..2] + "\\"] + ComponentsFrom(p[3..], "")
    else if |p| >= 2 && p[1] == ':' then [p[..2]] + ComponentsFrom(p[2..], "")
    else if |p| >= 1 && IsSep(p[0]) then ["\\"] + ComponentsFrom(p[1..], "")
    else ComponentsFrom(p, "")
  }

  datatype NodeInfo = NodeInfo(
    totalFiles: int,
    totalSize: int,
    extensions: Dict<string, int>,
    directFiles: int,
    directSize: int,
    dated: bool,  // whether the node received `oldest_file` and `newest_file`
    oldestFile: Option<string>,
    newestFile: Option<string>)

  datatype Node = Node(subdirs: Dict<string, Node>, info: NodeInfo)

  const NewInfo := NodeInfo(0, 0, [], 0, 0, false, None, None)
  const NewNode := Node([], NewInfo)

  /** The node a walk down `q` from the top level reaches, if every step exists. */
  function NodeAt(tree: Dict<string, Node>, q: seq<string>): Option<Node>
    requires |q| >= 1
    decreases |q|
  {
    match Get(tree, q[0])
    case None => None
    case Some(n) => if |q| == 1 then Some(n) else NodeAt(n.subdirs, q[1..])
  }

  function InfoAt(tree: Dict<string, Node>, q: seq<string>): Option<NodeInfo>
    requires |q| >= 1
  {
    match NodeAt(tree, q)
    case None => None
    case Some(n) => Some(n.info)
  }

  /** `q` is one of the leading runs of `parts`. */
  predicate IsPrefix(q: seq<string>, parts: seq<string>)
  {
    1 <= |q| <= |parts| && parts[..|q|] == q
  }

  /** The first walk: a new node is made for every part not yet present. */
  function EnsurePath(tree: Dict<string, Node>, parts: seq<string>): Dict<string, Node>
    decreases |parts|
  {
    if parts == [] then tree
    else
      var n := GetOr(tree, parts[0], NewNode);
      Put(tree, parts[0], n.(subdirs := EnsurePath(n.subdirs, parts[1..])))
  }

  /** The `info.update(...)` of the leaf with a folder's own figures. */
  function Direct(info: NodeInfo, d: DirInfo): NodeInfo
  {
    info.(directFiles := d.totalFiles, directSize := d.totalSize, extensions := d.extensions,
          dated := true, oldestFile := d.oldestFile, newestFile := d.newestFile)
  }

  /**
   * The second walk, down to the leaf's parent, and the update of the leaf when
   * it is there. After `EnsurePath` every step exists.
   */
  function SetLeaf(tree: Dict<string, Node>, parts: seq<string>, d: DirInfo): Dict<string, Node>
    requires |parts| >= 1
    decreases |parts|
  {
    match Get(tree, parts[0])
    case None => tree
    case Some(n) =>
      if |parts| == 1 then Put(tree, parts[0], n.(info := Direct(n.info, d)))
      else Put(tree, parts[0], n.(subdirs := SetLeaf(n.subdirs, parts[1..], d)))
  }

  /** Folders the tree takes: not empty, not "Unknown", with at least one part. */
  predicate Placed(path: string)
  {
    path != "" && path != "Unknown" && PathParts(path) != []
  }

  /** One entry of the flat summary placed into the tree. */
  function Place(tree: Dict<string, Node>, path: string, d: DirInfo): Dict<string, Node>
  {
    if !Placed(path) then tree
    else SetLeaf(EnsurePath(tree, PathParts(path)), PathParts(path), d)
  }

  function Hierarchy(flat: Dict<string, DirInfo>): Dict<string, Node>
  {
    if flat == [] then []
    else
      var e := flat[|flat| - 1];
      Place(Hierarchy(flat[..|flat| - 1]), e.0, e.1)
  }

  /** The loop over the flat summary, in its key order. */
  method CreateHierarchicalTree(flat: Dict<string, DirInfo>) returns (tree: Dict<string, Node>)
    ensures tree == Hierarchy(flat)
  {
    tree := [];
    for i := 0 to |flat|
      invariant tree == Hierarchy(flat[..i])
    {
      var (path, info) := flat[i];
      assert flat[..i + 1][..i] == flat[..i];
      if path == "" || path == "Unknown" {
        continue;
      }
      var parts := PathParts(path);
      tree := EnsurePath(tree, parts);
      if parts != [] {
        tree := SetLeaf(tree, parts, info);
      }
    }
    assert flat[..|flat|] == flat;
  }

  /** Reference definition: some placed folder has `q` as a leading run of its parts. */
  predicate Created(flat: Dict<string, DirInfo>, q: seq<string>)
  {
    exists i :: 0 <= i < |flat| && Placed(flat[i].0) && IsPrefix(q, PathParts(flat[i].0))
  }

  /** Reference definition: the last placed folder whose parts are exactly `q`. */
  function LastWith(flat: Dict<string, DirInfo>, q: seq<string>): Option<DirInfo>
  {
    if flat == [] then None
    else
      var e := flat[|flat| - 1];
      if Placed(e.0) && PathParts(e.0) == q then Some(e.1) else LastWith(flat[..|flat| - 1], q)
  }

  /** What the tree holds at `q`: a reference definition of the whole build. */
  function ExpectedInfo(flat: Dict<string, DirInfo>, q: seq<string>): Option<NodeInfo>
  {
    if !Created(flat, q) then None
    else match LastWith(flat, q)
      case None => Some(NewInfo)
      case Some(d) => Some(Direct(NewInfo, d))
  }

  lemma {:induction false} EnsurePathInfo(tree: Dict<string, Node>, parts: seq<string>, q: seq<string>)
    requires |q| >= 1
    ensures InfoAt(EnsurePath(tree, parts), q) ==
      if InfoAt(tree, q).Some? then InfoAt(tree, q) else if IsPrefix(q, parts) then Some(NewInfo) else None
    decreases |parts|
  {
    if parts != [] {
      var n := GetOr(tree, parts[0], NewNode);
      var n' := n.(subdirs := EnsurePath(n.subdirs, parts[1..]));
      PutGet(tree, parts[0], n', q[0]);
      if q[0] == parts[0] && |q| > 1 {
        EnsurePathInfo(n.subdirs, parts[1..], q[1..]);
        assert IsPrefix(q, parts) <==> IsPrefix(q[1..], parts[1..]) by {
          if IsPrefix(q[1..], parts[1..]) {
            assert parts[..|q|] == [parts[0]] + parts[1..][..|q| - 1];
            assert q == [q[0]] + q[1..];
          }
          if IsPrefix(q, parts) {
            assert parts[1..][..|q| - 1] == parts[..|q|][1..];
          }
        }
        if Get(tree, parts[0]).None? {
          assert InfoAt(n.subdirs, q[1..]).None?;
        }
      } else if q[0] == parts[0] {
        assert parts[..1] == [parts[0]];
      }
    }
  }

  lemma {:induction false} SetLeafInfo(tree: Dict<string, Node>, parts: seq<string>, d: DirInfo, q: seq<string>)
    requires |parts| >= 1 && |q| >= 1
    ensures InfoAt(SetLeaf(tree, parts, d), q) ==
      if q == parts && InfoAt(tree, q).Some? then Some(Direct(InfoAt(tree, q).value, d)) else InfoAt(tree, q)
    decreases |parts|
  {
    match Get(tree, parts[0])
    case None =>
    case Some(n) =>
      if |parts| == 1 {
        PutGet(tree, parts[0], n.(info := Direct(n.info, d)), q[0]);
        if q[0] == parts[0] && |q| == 1 {
          assert q == parts;
        }
      } else {
        PutGet(tree, parts[0], n.(subdirs := SetLeaf(n.subdirs, parts[1..], d)), q[0]);
        if q[0] == parts[0] && |q| > 1 {
          SetLeafInfo(n.subdirs, parts[1..], d, q[1..]);
          assert q == parts <==> q[1..] == parts[1..] by {
            if q[1..] == parts[1..] {
              assert q == [q[0]] + q[1..] && parts == [parts[0]] + parts[1..];
            }
          }
        }
      }
  }

  lemma {:induction false} LastWithCreated(flat: Dict<string, DirInfo>, q: seq<string>)
    requires |q| >= 1
    ensures LastWith(flat, q).Some? ==> Created(flat, q)
  {
    if flat != [] {
      var init := flat[..|flat| - 1];
      var e := flat[|flat| - 1];
      if Placed(e.0) && PathParts(e.0) == q {
        assert IsPrefix(q, PathParts(flat[|flat| - 1].0));
      } else {
        LastWithCreated(init, q);
        if Created(init, q) {
          var i :| 0 <= i < |init| && Placed(init[i].0) && IsPrefix(q, PathParts(init[i].0));
          assert flat[i] == init[i];
        }
      }
    }
  }

  lemma CreatedStep(flat: Dict<string, DirInfo>, q: seq<string>)
    requires flat != []
    ensures var e := flat[|flat| - 1];
      Created(flat, q) <==> Created(flat[..|flat| - 1], q) || (Placed(e.0) && IsPrefix(q, PathParts(e.0)))
  {
    var init := flat[..|flat| - 1];
    if Created(flat, q) {
      var i :| 0 <= i < |flat| && Placed(flat[i].0) && IsPrefix(q, PathParts(flat[i].0));
      if i < |flat| - 1 {
        assert init[i] == flat[i];
      }
    }
    if Created(init, q) {
      var i :| 0 <= i < |init| && Placed(init[i].0) && IsPrefix(q, PathParts(init[i].0));
      assert flat[i] == init[i];
    }
  }

  /**
   * The built tree has a node for every leading run of every placed folder's
   * parts and for nothing else. A node whose parts are a placed folder's carries
   * the figures of the last such folder as its direct figures; every other node
   * keeps the empty info. `total_files` and `total_size` stay 0 everywhere:
   * nothing rolls the folders' figures up.
   */
  lemma {:induction false} HierarchyInfo(flat: Dict<string, DirInfo>, q: seq<string>)
    requires |q| >= 1
    ensures InfoAt(Hierarchy(flat), q) == ExpectedInfo(flat, q)
    ensures InfoAt(Hierarchy(flat), q).Some? ==>
      InfoAt(Hierarchy(flat), q).value.totalFiles == 0 && InfoAt(Hierarchy(flat), q).value.totalSize == 0
  {
    if flat != [] {
      var init := flat[..|flat| - 1];
      var e := flat[|flat| - 1];
      var t := Hierarchy(init);
      HierarchyInfo(init, q);
      LastWithCreated(init, q);
      CreatedStep(flat, q);
      if Placed(e.0) {
        var parts := PathParts(e.0);
        EnsurePathInfo(t, parts, q);
        SetLeafInfo(EnsurePath(t, parts), parts, e.1, q);
        if q == parts {
          assert IsPrefix(q, parts);
        }
      }
    }
  }

  // ---------------------------------------------------------------------
  // print_tree_summary
  // ---------------------------------------------------------------------

  /** `all_extensions[ext] += count` over one folder's extensions. */
  function AddAll(all: Dict<string, int>, exts: Dict<string, int>): Dict<string, int>
  {
    if exts == [] then all
    else
      var e := exts[|exts| - 1];
      Add(AddAll(all, exts[..|exts| - 1]), e.0, e.1)
  }

  /** The extension totals across all folders, in order of first appearance. */
  function ExtensionTotals(flat: Dict<string, DirInfo>): Dict<string, int>
  {
    if flat == [] then [] else AddAll(ExtensionTotals(flat[..|flat| - 1]), flat[|flat| - 1].1.extensions)
  }

  /** The nested loop of the summary that fills `all_extensions`. */
  method CountExtensions(flat: Dict<string, DirInfo>) returns (all: Dict<string, int>)
    ensures all == ExtensionTotals(flat)
  {
    all := [];
    for i := 0 to |flat|
      invariant all == ExtensionTotals(flat[..i])
    {
      var exts := flat[i].1.extensions;
      ghost var before := all;
      for j := 0 to |exts|
        invariant all == AddAll(before, exts[..j])
      {
        all := Add(all, exts[j].0, exts[j].1);
        assert exts[..j + 1][..j] == exts[..j];
      }
      assert exts[..|exts|] == exts;
      assert flat[..i + 1][..i] == flat[..i];
    }
    assert flat[..|flat|] == flat;
  }

  /** Reference definition: the counts listed under `ext` in one folder. */
  function CountFor(exts: Dict<string, int>, ext: string): int
  {
    if exts == [] then 0
    else CountFor(exts[..|exts| - 1], ext) + (if exts[|exts| - 1].0 == ext then exts[|exts| - 1].1 else 0)
  }

  /** Reference definition: the counts listed under `ext` across all folders. */
  function CountAcross(flat: Dict<string, DirInfo>, ext: string): int
  {
    if flat == [] then 0 else CountAcross(flat[..|flat| - 1], ext) + CountFor(flat[|flat| - 1].1.extensions, ext)
  }

  /** Reference definition: every count of every folder. */
  function AllCounts(flat: Dict<string, DirInfo>): int
  {
    if flat == [] then 0 else AllCounts(flat[..|flat| - 1]) + SumValues(flat[|flat| - 1].1.extensions)
  }

  lemma {:induction false} AddAllCounts(all: Dict<string, int>, exts: Dict<string, int>, ext: string)
    ensures GetOr(AddAll(all, exts), ext, 0) == GetOr(all, ext, 0) + CountFor(exts, ext)
    ensures SumValues(AddAll(all, exts)) == SumValues(all) + SumValues(exts)
  {
    if exts != [] {
      var init := exts[..|exts| - 1];
      var e := exts[|exts| - 1];
      AddAllCounts(all, init, ext);
      AddGet(AddAll(all, init), e.0, e.1, ext);
      SumAdd(AddAll(all, init), e.0, e.1);
      SumLast(exts);
    }
  }

  lemma {:induction false} SumLast(d: Dict<string, int>)
    requires d != []
    ensures SumValues(d) == SumValues(d[..|d| - 1]) + d[|d| - 1].1
  {
    if |d| > 1 {
      SumLast(d[1..]);
      assert d[1..][..|d[1..]| - 1] == d[..|d| - 1][1..];
    }
  }

  /**
   * An extension's total is the sum of its counts over all folders, and the
   * totals together add up to every count of every folder.
   */
  lemma {:induction false} ExtensionTotalsSum(flat: Dict<string, DirInfo>, ext: string)
    ensures GetOr(ExtensionTotals(flat), ext, 0) == CountAcross(flat, ext)
    ensures SumValues(ExtensionTotals(flat)) == AllCounts(flat)
  {
    if flat != [] {
      ExtensionTotalsSum(flat[..|flat| - 1], ext);
      AddAllCounts(ExtensionTotals(flat[..|flat| - 1]), flat[|flat| - 1].1.extensions, ext);
    }
  }

  function DirFiles(e: (string, DirInfo)): int
  {
    e.1.totalFiles
  }

  function Count(e: (string, int)): int
  {
    e.1
  }

  function SumFiles(flat: Dict<string, DirInfo>): int
  {
    if flat == [] then 0 else SumFiles(flat[..|flat| - 1]) + flat[|flat| - 1].1.totalFiles
  }

  function SumSizes(flat: Dict<string, DirInfo>): int
  {
    if flat == [] then 0 else SumSizes(flat[..|flat| - 1]) + flat[|flat| - 1].1.totalSize
  }

  datatype TreeSummary = TreeSummary(
    totalDirs: nat,
    totalFiles: int,
    totalSize: int,
    topDirs: Dict<string, DirInfo>,
    topExtensions: Dict<string, int>)

  /**
   * The figures the summary prints: the counts, the 15 folders with most files
   * and the 20 most frequent extensions, each list in non-increasing order,
   * drawn from the folders and the extension totals, and with nothing left
   * out ranking above anything kept.
   */
  method SummarizeTree(flat: Dict<string, DirInfo>) returns (s: TreeSummary)
    ensures s.totalDirs == |flat| && s.totalFiles == SumFiles(flat) && s.totalSize == SumSizes(flat)
    ensures |s.topDirs| == (if |flat| < 15 then |flat| else 15)
    ensures SortedDesc(s.topDirs, DirFiles) && multiset(s.topDirs) <= multiset(flat)
    ensures forall i, j :: 0 <= i < |s.topDirs| <= j < |flat| ==>
      DirFiles(s.topDirs[i]) >= DirFiles(SortDesc(flat, DirFiles)[j])
    ensures var all := ExtensionTotals(flat);
      && |s.topExtensions| == (if |all| < 20 then |all| else 20)
      && SortedDesc(s.topExtensions, Count)
      && multiset(s.topExtensions) <= multiset(all)
      && forall i, j :: 0 <= i < |s.topExtensions| <= j < |all| ==>
           Count(s.topExtensions[i]) >= Count(SortDesc(all, Count)[j])
  {
    var all := CountExtensions(flat);
    var topDirs := Take(SortDesc(flat, DirFiles), 15);
    var topExtensions := Take(SortDesc(all, Count), 20);
    TopN(flat, DirFiles, 15);
    TopN(all, Count, 20);
    s := TreeSummary(|flat|, SumFiles(flat), SumSizes(flat), topDirs, topExtensions);
  }
}

=== FILE: drive_identity.dfy ===
/**
 * The drive manager: which platform the tool runs on, the physical
 * identity of the disk behind a mount point (or a fallback identity), and
 * the drive information a scan starts from.
 *
 * Everything the manager asks the machine is an input: the PowerShell
 * queries become the functions `partitionDisk` and `physicalDisk` of a
 * `Host`, `os.statvfs` becomes `volume`, `/proc/mounts` is its list of
 * lines, and MD5 is a function from a string to its hex digest.
 */
module DriveIdentity {
  import opened Wrappers
  import opened Text
  import opened DrivePaths

  datatype Platform = Wsl | Linux | Windows | OtherPlatform

  /** `_detect_platform`: the WSL interop file wins over `platform.system()`. */
  function DetectPlatform(interopExists: bool, system: string): (r: Platform)
    ensures interopExists ==> r == Wsl
    ensures r == Wsl ==> interopExists
  {
    if interopExists then Wsl
    else if system == "Linux" then Linux
    else if system == "Windows" then Windows
    else OtherPlatform
  }

  function PlatformName(p: Platform): string
  {
    match p
    case Wsl => "WSL"
    case Linux => "LINUX"
    case Windows => "WINDOWS"
    case OtherPlatform => "UNKNOWN"
  }

  /** Python truthiness of the value `data.get(key)` returns. */
  predicate Truthy(f: Field<string>)
  {
    f.Present? && f.value != ""
  }

  /** `a or b or default` over two JSON values. */
  function FirstText(a: Field<string>, b: Field<string>, default: string): (r: string)
    ensures Truthy(a) ==> r == a.value
    ensures !Truthy(a) && Truthy(b) ==> r == b.value
    ensures !Truthy(a) && !Truthy(b) ==> r == default
  {
    if Truthy(a) then a.value else if Truthy(b) then b.value else default
  }

  /** The object the identity query prints for one disk number. */
  datatype DiskQuery = DiskQuery(
    serialNumber: Field<string>,
    model: Field<string>,
    mediaType: Field<string>,
    busType: Field<string>,
    manufacturer: Field<string>,
    firmwareVersion: Field<string>,
    size: Option<int>,
    wmiModel: Field<string>,
    wmiSerial: Field<string>,
    interfaceType: Field<string>)

  datatype Identity = Identity(
    serialNumber: string,
    model: string,
    manufacturer: Option<string>,
    firmwareVersion: Option<string>,
    sizeBytes: int,
    mediaType: Option<string>,
    busType: Option<string>,
    interfaceType: Option<string>,
    connectionMethod: string,
    diskNumber: Option<int>,
    note: Option<string>)

  /** `s.replace(a, b)` for single characters. */
  function ReplaceChar(s: string, a: char, b: char): (r: string)
    ensures |r| == |s|
    ensures a != b ==> a !in r
    ensures forall i :: 0 <= i < |s| && s[i] != a ==> r[i] == s[i]
  {
    seq(|s|, i requires 0 <= i < |s| => if s[i] == a then b else s[i])
  }

  /** Python's `s[:n]`: the whole string when it is shorter. */
  function Prefix(s: string, n: nat): (r: string)
    ensures |r| == if |s| < n then |s| else n
    ensures r == s[..|r|]
  {
    if |s| <= n then s else s[..n]
  }

  /** The bus types that count as a direct connection. */
  predicate DirectBus(f: Field<string>)
  {
    f.Present? && f.value in ["SATA", "NVMe", "IDE"]
  }

  /** `_fallback_identity`: an identity made from the mount path alone. */
  function Fallback(mountPath: string, md5Hex: string -> string): (r: Identity)
    ensures StartsWith(r.serialNumber, "UNKNOWN_")
    ensures |md5Hex(mountPath)| >= 16 ==> |r.serialNumber| == 24
    ensures |r.serialNumber| - 8 <= |md5Hex(mountPath)| && r.serialNumber[8..] == md5Hex(mountPath)[..|r.serialNumber| - 8]
    ensures r.sizeBytes == 0 && r.diskNumber.None? && r.connectionMethod == "Unknown"
  {
    var serial := "UNKNOWN_" + Prefix(md5Hex(mountPath), 16);
    assert serial[8..] == Prefix(md5Hex(mountPath), 16);
    Identity(serial, "Unknown Drive at " + mountPath, Some("Unknown"), Some("Unknown"), 0,
             Some("Unknown"), Some("Unknown"), Some("Unknown"), "Unknown", None,
             Some("Could not retrieve physical drive identity"))
  }

  /** The identity built from a successful query of disk `diskNumber`. */
  function FromQuery(mountPath: string, diskNumber: int, data: DiskQuery): (r: Identity)
    ensures r.serialNumber != ""
    ensures Strip(FirstText(data.serialNumber, data.wmiSerial, "")) != "" ==>
      r.serialNumber == Strip(FirstText(data.serialNumber, data.wmiSerial, ""))
    ensures Strip(FirstText(data.serialNumber, data.wmiSerial, "")) == "" ==>
      r.serialNumber == "UNKNOWN_" + ReplaceChar(mountPath, '/', '_')
    ensures r.model == Strip(FirstText(data.model, data.wmiModel, "Unknown"))
    ensures r.connectionMethod == "Direct" <==> DirectBus(data.busType)
    ensures r.connectionMethod == "Direct" || r.connectionMethod == "USB/Bridge"
    ensures r.sizeBytes == match data.size case None => 0 case Some(n) => n
    ensures r.diskNumber == Some(diskNumber)
  {
    var serial := Strip(FirstText(data.serialNumber, data.wmiSerial, ""));
    var model := Strip(FirstText(data.model, data.wmiModel, "Unknown"));
    Identity(
      if serial != "" then serial else "UNKNOWN_" + ReplaceChar(mountPath, '/', '_'),
      model,
      Lookup(data.manufacturer, "Unknown"),
      Lookup(data.firmwareVersion, "Unknown"),
      match data.size case None => 0 case Some(n) => if n != 0 then n else 0,
      Lookup(data.mediaType, "Unknown"),
      Lookup(data.busType, "Unknown"),
      Lookup(data.interfaceType, "Unknown"),
      if DirectBus(data.busType) then "Direct" else "USB/Bridge",
      Some(diskNumber),
      None)
  }

  /** A serial number of white space only is truthy, so the WMI serial is never consulted. */
  lemma BlankSerialBlocksWmiSerial(mountPath: string, diskNumber: int, data: DiskQuery)
    requires data.serialNumber == Present("  ") && Truthy(data.wmiSerial) && Strip(data.wmiSerial.value) != ""
    ensures FromQuery(mountPath, diskNumber, data).serialNumber == "UNKNOWN_" + ReplaceChar(mountPath, '/', '_')
  {
    assert Strip("  ") == "";
  }

  /**
   * `_get_disk_number_from_mount`, up to the query: the drive letter it
   * asks Windows about. `/mnt/x/...` gives the third part upper-cased; `/mnt`
   * alone gives the path's name, "MNT"; any other path gives none.
   */
  function MountLetter(mountPath: string): (r: Option<string>)
    ensures r.Some? <==> |Parts(mountPath)| > 1 && Parts(mountPath)[0] == "/" && Parts(mountPath)[1] == "mnt"
  {
    var parts := Parts(mountPath);
    if |parts| > 1 && parts[0] == "/" && parts[1] == "mnt" then
      if |parts| > 2 then Some(Upper(parts[2])) else Some(Upper(Name(mountPath)))
    else None
  }

  /** A WSL drive mount names its drive letter, upper-cased. */
  lemma MountLetterOfDrive(c: char)
    requires c != '/' && c != '.'
    ensures MountLetter("/mnt/" + [c]) == Some([UpperChar(c)])
  {
    RootedParts("mnt", [c]);
    assert "/" + "mnt" + "/" + [c] == "/mnt/" + [c];
    assert Upper([c]) == [UpperChar(c)];
  }

  /** Other directories under the root do not. */
  lemma MountLetterOfOtherRoot(c: char)
    requires c != '/' && c != '.'
    ensures MountLetter("/media/" + [c]) == None
  {
    RootedParts("media", [c]);
    assert "/" + "media" + "/" + [c] == "/media/" + [c];
  }

  /** `/mnt` itself asks Windows about a drive called "MNT". */
  lemma MountLetterOfMntAlone()
    ensures MountLetter("/mnt") == Some("MNT")
  {
    var pieces := Split("/mnt", '/');
    assert pieces == ["", "mnt"] by { SplitFirst("", "mnt"); SplitNone("mnt"); assert "" + "/" + "mnt" == "/mnt"; }
    assert Components(pieces) == ["mnt"] by { assert pieces[..1] == [""]; }
    assert Root("/mnt") == "/";
    assert Parts("/mnt") == ["/", "mnt"];
    assert Name("/mnt") == "mnt";
    assert Upper("mnt") == "MNT";
  }

  lemma SplitNone(a: string)
    requires '/' !in a
    ensures Split(a, '/') == [a]
  {
  }

  lemma SplitFirst(a: string, rest: string)
    requires '/' !in a
    ensures Split(a + "/" + rest, '/') == [a] + Split(rest, '/')
  {
    IndexOfAfter(a, '/', rest);
    var s := a + "/" + rest;
    assert s == a + ['/'] + rest;
    assert IndexOf(s, '/') == Some(|a|);
    assert s[..|a|] == a && s[|a| + 1..] == rest;
  }

  lemma ComponentsOfThree(a: string, b: string, c: string)
    requires a == "" && b != "" && b != "." && c != "" && c != "."
    ensures Components([a, b, c]) == [b, c]
  {
    assert [a][..0] == [];
    assert Components([a]) == [];
    assert [a, b][..1] == [a];
    assert Components([a, b]) == [b];
    assert [a, b, c][..2] == [a, b];
  }

  /** `Path("/" + x + "/" + y).parts` for two plain names. */
  lemma RootedParts(x: string, y: string)
    requires x != "" && x != "." && '/' !in x
    requires y != "" && y != "." && '/' !in y
    ensures Parts("/" + x + "/" + y) == ["/", x, y]
  {
    var p := "/" + x + "/" + y;
    assert p == "" + "/" + (x + "/" + y);
    SplitFirst("", x + "/" + y);
    SplitFirst(x, y);
    SplitNone(y);
    var pieces := ["", x, y];
    assert Split(p, '/') == pieces;
    ComponentsOfThree("", x, y);
    assert Root(p) == "/" by { assert p[0] == '/' && p[1] == x[0]; }
  }

  /** What the machine answers. */
  datatype VolumeStat = VolumeStat(blocks: nat, fragmentSize: nat, available: nat)

  datatype Host = Host(
    platform: Platform,
    partitionDisk: string -> Option<int>,
    physicalDisk: int -> Option<DiskQuery>,
    md5Hex: string -> string,
    pathExists: string -> bool,
    isDir: string -> bool,
    volume: string -> Option<VolumeStat>,
    mounts: Option<seq<string>>)

  /**
   * `get_physical_drive_identity`: the queried identity on WSL when the
   * mount maps to a disk number and the identity query answers; the
   * fallback identity in every other case. It never fails.
   */
  function PhysicalIdentity(host: Host, mountPath: string): (r: Identity)
    ensures host.platform != Wsl ==> r == Fallback(mountPath, host.md5Hex)
    ensures r.serialNumber != ""
  {
    if host.platform != Wsl then Fallback(mountPath, host.md5Hex)
    else
      match MountLetter(mountPath)
      case None => Fallback(mountPath, host.md5Hex)
      case Some(letter) =>
        match host.partitionDisk(letter)
        case None => Fallback(mountPath, host.md5Hex)
        case Some(n) =>
          match host.physicalDisk(n)
          case None => Fallback(mountPath, host.md5Hex)
          case Some(data) => FromQuery(mountPath, n, data)
  }

  /** The queried identity appears exactly when every step of the query succeeds. */
  lemma QueriedIdentity(host: Host, mountPath: string)
    ensures PhysicalIdentity(host, mountPath).diskNumber.Some? <==>
      && host.platform == Wsl
      && MountLetter(mountPath).Some?
      && host.partitionDisk(MountLetter(mountPath).value).Some?
      && host.physicalDisk(host.partitionDisk(MountLetter(mountPath).value).value).Some?
  {
  }

  /** `_get_filesystem_type`: the third field of the first `/proc/mounts` line mounted at `mountPoint`. */
  function FilesystemType(lines: seq<string>, mountPoint: string): (r: Option<string>)
    ensures r.None? <==> forall i :: 0 <= i < |lines| ==> !MountedAt(lines[i], mountPoint)
    ensures r.Some? ==> exists i :: 0 <= i < |lines| && MountedAt(lines[i], mountPoint) && Words(lines[i])[2] == r.value
  {
    if lines == [] then None
    else if MountedAt(lines[0], mountPoint) then Some(Words(lines[0])[2])
    else
      var r := FilesystemType(lines[1..], mountPoint);
      assert forall i :: 1 <= i < |lines| ==> lines[i] == lines[1..][i - 1];
      r
  }

  predicate MountedAt(line: string, mountPoint: string)
  {
    |Words(line)| >= 3 && Words(line)[1] == mountPoint
  }

  /** The dictionary `get_drive_info` returns. */
  datatype DriveInfoView = DriveInfoView(
    path: string,
    totalBytes: int,
    usedBytes: int,
    freeBytes: int,
    filesystem: Option<string>,
    accessible: bool,
    identity: Identity)

  /** A count of fragments in bytes. */
  function Bytes(count: nat, fragmentSize: nat): nat
  {
    count * fragmentSize
  }

  /**
   * `get_drive_info`: nothing for a path that is not an existing directory
   * or whose volume cannot be read; otherwise the volume sizes, the
   * filesystem type and the physical identity.
   */
  function GetDriveInfo(host: Host, path: string): (r: Option<DriveInfoView>)
    ensures r.None? <==> !host.pathExists(path) || !host.isDir(path) || host.volume(path).None?
    ensures r.Some? ==>
      && r.value.usedBytes == r.value.totalBytes - r.value.freeBytes
      && r.value.totalBytes >= 0 && r.value.freeBytes >= 0
      && r.value.accessible
      && r.value.identity == PhysicalIdentity(host, path)
      && r.value.filesystem == (if host.mounts.None? then None else FilesystemType(host.mounts.value, path))
  {
    if !(host.pathExists(path) && host.isDir(path)) then None
    else
      match host.volume(path)
      case None => None
      case Some(v) =>
        var total := Bytes(v.blocks, v.fragmentSize);
        var free := Bytes(v.available, v.fragmentSize);
        var fs := if host.mounts.None? then None else FilesystemType(host.mounts.value, path);
        Some(DriveInfoView(path, total, total - free, free, fs, true, PhysicalIdentity(host, path)))
  }

  /** One drive `_detect_wsl_drives` lists; the identity's `size_bytes` key, merged last, replaces the volume total. */
  datatype DetectedDrive = DetectedDrive(
    device: string,
    mountPoint: string,
    sizeBytes: int,
    freeBytes: nat,
    filesystem: Option<string>,
    connectionType: string,
    identity: Identity)

  /** A `/mnt` entry is taken when it is a directory with a one-character name whose volume can be read. */
  predicate Listed(host: Host, name: string)
  {
    |name| == 1 && host.isDir("/mnt/" + name) && host.volume("/mnt/" + name).Some?
  }

  /** The drive listed for a taken `/mnt` entry. */
  function WslDrive(host: Host, name: string): DetectedDrive
    requires Listed(host, name)
  {
    var mountPoint := "/mnt/" + name;
    var v := host.volume(mountPoint).value;
    var identity := PhysicalIdentity(host, mountPoint);
    DetectedDrive(Upper(name) + ":", mountPoint, identity.sizeBytes, Bytes(v.available, v.fragmentSize),
                  if host.mounts.None? then None else FilesystemType(host.mounts.value, mountPoint),
                  "WSL", identity)
  }

  /** The drives of the `/mnt` entries, in listing order. */
  function WslDrives(host: Host, names: seq<string>): seq<DetectedDrive>
  {
    if names == [] then []
    else
      var init := WslDrives(host, names[..|names| - 1]);
      var name := names[|names| - 1];
      if Listed(host, name) then init + [WslDrive(host, name)] else init
  }

  /**
   * `detect_drives`: on WSL, the loop of `_detect_wsl_drives` over the
   * entries of `/mnt` (None when `/mnt` does not exist); on every other
   * platform no drive.
   */
  method DetectDrives(host: Host, mnt: Option<seq<string>>) returns (drives: seq<DetectedDrive>)
    ensures drives == if host.platform == Wsl && mnt.Some? then WslDrives(host, mnt.value) else []
  {
    drives := [];
    if host.platform != Wsl || mnt.None? {
      return;
    }
    var names := mnt.value;
    for i := 0 to |names|
      invariant drives == WslDrives(host, names[..i])
    {
      assert names[..i + 1][..i] == names[..i];
      var name := names[i];
      if |name| == 1 && host.isDir("/mnt/" + name) && host.volume("/mnt/" + name).Some? {
        drives := drives + [WslDrive(host, name)];
      }
    }
    assert names[..|names|] == names;
  }

  /**
   * Every drive listed comes from a taken `/mnt` entry: its device is the
   * upper-cased letter and a colon, its identity is the physical identity of
   * its mount point, and its size is that identity's size; and every taken
   * entry is listed.
   */
  lemma {:induction false} WslDrivesExact(host: Host, names: seq<string>)
    ensures forall d :: d in WslDrives(host, names) ==>
      exists name :: name in names && Listed(host, name) && d == WslDrive(host, name)
    ensures forall d :: d in WslDrives(host, names) ==>
      && |d.mountPoint| == 6 && d.mountPoint[..5] == "/mnt/"
      && d.device == Upper(d.mountPoint[5..]) + ":" && |d.device| == 2
      && d.identity == PhysicalIdentity(host, d.mountPoint)
      && d.sizeBytes == d.identity.sizeBytes && d.connectionType == "WSL"
    ensures forall name :: name in names && Listed(host, name) ==> WslDrive(host, name) in WslDrives(host, names)
  {
    if names != [] {
      var init := names[..|names| - 1];
      WslDrivesExact(host, init);
      forall name | name in names
        ensures name in init || name == names[|names| - 1]
      {
        assert names == init + [names[|names| - 1]];
      }
    }
  }
}

=== FILE: drive_paths.dfy ===
/**
 * Drive letters and POSIX path components, as every inspection pass, the
 * chkdsk wrapper, the registry reader, the drive manager and the drive
 * validator read them from a drive path.
 */
module DrivePaths {
  import opened Wrappers
  import opened Text

  predicate IsAsciiLetter(c: char)
  {
    'a' <= c <= 'z' || 'A' <= c <= 'Z'
  }

  /**
   * `_extract_drive_letter`: `X:...` gives X, `/mnt/x` or `/mnt/x/...` gives x
   * (a letter); both upper-cased. The pattern's `$` also matches before a
   * final newline.
   */
  function DriveLetter(path: string): (r: Option<string>)
    ensures r.Some? ==> |r.value| == 1
  {
    if |path| >= 2 && path[1] == ':' then Some([UpperChar(path[0])])
    else if |path| >= 6 && path[..5] == "/mnt/" && IsAsciiLetter(path[5])
      && (|path| == 6 || path[6] == '/' || (|path| == 7 && path[6] == '\n'))
    then Some([UpperChar(path[5])])
    else None
  }

  /** What the reports show: the letter, or "?" when there is none. */
  function DriveLetterShown(path: string): (r: string)
    ensures |r| == 1
    ensures r == "?" <==> DriveLetter(path).None? || DriveLetter(path).value == "?"
  {
    DriveLetter(path).GetOr("?")
  }

  lemma WindowsFormLetter(c: char, rest: string)
    ensures DriveLetter([c, ':'] + rest) == Some([UpperChar(c)])
  {
  }

  /** Every WSL mount of a letter, with or without a sub-path, names that letter. */
  lemma WslFormLetter(c: char, sub: string)
    requires IsAsciiLetter(c)
    ensures DriveLetter("/mnt/" + [c]) == Some([UpperChar(c)])
    ensures DriveLetter("/mnt/" + [c] + "/" + sub) == Some([UpperChar(c)])
    ensures 'A' <= UpperChar(c) <= 'Z'
  {
    var p := "/mnt/" + [c] + "/" + sub;
    assert p[..5] == "/mnt/" && p[5] == c && p[6] == '/';
  }

  /** `/mnt/cd` is not a drive mount: the letter must be followed by '/' or the end. */
  lemma LongMountNameHasNoLetter()
    ensures DriveLetter("/mnt/cd") == None
    ensures DriveLetter("/media/c") == None
  {
    assert "/media/c"[..5] != "/mnt/" by { assert "/media/c"[2] == 'e' && "/mnt/"[2] == 'n'; }
  }

  // ---------------------------------------------------------------------
  // POSIX paths as `pathlib` reads them.

  /**
   * The anchor `pathlib` keeps: exactly two leading slashes stay "//",
   * one or three and more become "/", a relative path has none.
   */
  function Root(p: string): (r: string)
    ensures r == "" || r == "/" || r == "//"
    ensures r != "" <==> (p != [] && p[0] == '/')
  {
    if |p| >= 2 && p[..2] == "//" && (|p| == 2 || p[2] != '/') then "//"
    else if |p| >= 1 && p[0] == '/' then "/"
    else ""
  }

  /** The pieces that name something: `pathlib` drops empty pieces and ".". */
  function Components(pieces: seq<string>): (r: seq<string>)
    ensures |r| <= |pieces|
    ensures forall k :: 0 <= k < |r| ==> r[k] != "" && r[k] != "." && r[k] in pieces
  {
    if pieces == [] then []
    else
      var last := pieces[|pieces| - 1];
      Components(pieces[..|pieces| - 1]) + if last == "" || last == "." then [] else [last]
  }

  /** `Path(p).parts` */
  function Parts(p: string): seq<string>
  {
    (if Root(p) == "" then [] else [Root(p)]) + Components(Split(p, '/'))
  }

  /** `Path(p).name`: the last component, "" when there is none. */
  function Name(p: string): (r: string)
    ensures '/' !in r
  {
    var c := Components(Split(p, '/'));
    if c == [] then "" else c[|c| - 1]
  }

  /** `str(Path(p))`: the anchor, then the components joined by '/'; "." for nothing. */
  function Normal(p: string): string
  {
    Rejoin(Root(p), Components(Split(p, '/')))
  }

  function Rejoin(root: string, c: seq<string>): string
  {
    if root == "" && c == [] then "." else root + Join(c, "/")
  }

  lemma {:induction false} ComponentsAppend(a: seq<string>, b: seq<string>)
    ensures Components(a + b) == Components(a) + Components(b)
    decreases |b|
  {
    if b != [] {
      ComponentsAppend(a, b[..|b| - 1]);
      assert (a + b)[..|a + b| - 1] == a + b[..|b| - 1];
    } else {
      assert a + b == a;
    }
  }

  lemma {:induction false} ComponentsClean(c: seq<string>)
    requires forall k :: 0 <= k < |c| ==> c[k] != "" && c[k] != "."
    ensures Components(c) == c
    decreases |c|
  {
    if c != [] {
      ComponentsClean(c[..|c| - 1]);
    }
  }

  /** Joining non-empty components gives a string that does not start with '/'. */
  lemma JoinedHead(c: seq<string>)
    requires forall k :: 0 <= k < |c| ==> c[k] != "" && '/' !in c[k]
    ensures c != [] ==> Join(c, "/") != "" && Join(c, "/")[0] != '/'
  {
    if |c| > 1 {
      assert Join(c, "/") == c[0] + "/" + Join(c[1..], "/");
    }
  }

  /** Components survive normalisation unchanged. */
  lemma ComponentsOfJoin(c: seq<string>)
    requires Clean(c)
    ensures Components(Split(Join(c, "/"), '/')) == c
  {
    if c == [] {
      assert Split("", '/') == [""];
    } else {
      SplitJoin(c, '/');
      ComponentsClean(c);
    }
  }

  /** Splitting after a leading '/' adds one empty piece in front. */
  lemma SplitSlash(j: string)
    ensures Split("/" + j, '/') == [""] + Split(j, '/')
  {
    assert IndexOf("/" + j, '/') == Some(0);
    assert ("/" + j)[1..] == j;
  }

  predicate Clean(c: seq<string>)
  {
    forall k :: 0 <= k < |c| ==> c[k] != "" && c[k] != "." && '/' !in c[k]
  }

  lemma PartsOfDot()
    ensures Parts(".") == []
  {
    assert IndexOf(".", '/') == None;
    assert Split(".", '/') == ["."];
  }

  lemma PartsOfRelative(c: seq<string>)
    requires Clean(c) && c != []
    ensures Parts(Join(c, "/")) == c
  {
    ComponentsOfJoin(c);
    JoinedHead(c);
  }

  lemma RootsOf(j: string)
    requires j == [] || j[0] != '/'
    ensures Root("/" + j) == "/"
    ensures Root("/" + ("/" + j)) == "//"
  {
    var d := "/" + ("/" + j);
    assert d[..2] == "//";
    assert |d| == 2 || d[2] == j[0];
  }

  lemma PiecesAfterRoots(j: string)
    ensures Components(Split("/" + j, '/')) == Components(Split(j, '/'))
    ensures Components(Split("/" + ("/" + j), '/')) == Components(Split(j, '/'))
  {
    SplitSlash("/" + j);
    SplitSlash(j);
    ComponentsAppend([""], Split(j, '/'));
    ComponentsAppend([""], Split("/" + j, '/'));
    assert Components([""]) == [];
  }

  lemma PartsOfRooted(c: seq<string>)
    requires Clean(c)
    ensures Parts("/" + Join(c, "/")) == ["/"] + c
    ensures Parts("/" + ("/" + Join(c, "/"))) == ["//"] + c
  {
    var j := Join(c, "/");
    ComponentsOfJoin(c);
    JoinedHead(c);
    RootsOf(j);
    PiecesAfterRoots(j);
  }

  /** The components of any path are clean. */
  lemma ComponentsAreClean(p: string)
    ensures Clean(Components(Split(p, '/')))
  {
    var pieces := Split(p, '/');
    var c := Components(pieces);
    forall k | 0 <= k < |c| ensures '/' !in c[k] {
      var i :| 0 <= i < |pieces| && pieces[i] == c[k];
    }
  }

  /** `Path(str(Path(p))).parts == Path(p).parts`: normalising a path keeps its parts. */
  lemma NormalKeepsParts(p: string)
    ensures Parts(Normal(p)) == Parts(p)
  {
    var c := Components(Split(p, '/'));
    var r := Root(p);
    ComponentsAreClean(p);
    if r == "" && c == [] {
      PartsOfDot();
    } else if r == "" {
      assert Normal(p) == Join(c, "/");
      PartsOfRelative(c);
    } else if r == "/" {
      PartsOfRooted(c);
    } else {
      assert Normal(p) == "/" + ("/" + Join(c, "/"));
      PartsOfRooted(c);
    }
  }

  /** The first part is the anchor exactly when it holds a '/'. */
  lemma PartsHead(p: string)
    ensures Root(p) != "" ==> Parts(p) != [] && Parts(p)[0] == Root(p) && '/' in Parts(p)[0]
    ensures Root(p) != "" ==> Parts(p)[1..] == Components(Split(p, '/'))
    ensures Root(p) == "" ==> Parts(p) == Components(Split(p, '/'))
    ensures Root(p) == "" && Parts(p) != [] ==> '/' !in Parts(p)[0]
  {
    ComponentsAreClean(p);
  }

  /** The normal form depends only on the parts. */
  lemma NormalOfParts(p: string, q: string)
    requires Parts(p) == Parts(q)
    ensures Normal(p) == Normal(q)
  {
    PartsHead(p);
    PartsHead(q);
  }

  /** Normal form is a fixed point. */
  lemma NormalIdempotent(p: string)
    ensures Normal(Normal(p)) == Normal(p)
  {
    NormalKeepsParts(p);
    NormalOfParts(Normal(p), p);
  }
}

=== FILE: drive_validation.dfy ===
/**
 * The drive validator: before a scan, it checks that the drive path
 * exists, is a directory and can be listed, and on WSL that Windows
 * knows the drive and has it online. Each problem is an error (the scan
 * must not start) or a warning (the scan may go on); the result is valid
 * exactly when there is no error.
 *
 * The PowerShell status query and the directory listing are inputs; the
 * messages are represented by their kind.
 */
module DriveValidation {
  import opened Wrappers
  import opened Text
  import opened DrivePaths

  datatype Issue =
    | PathMissing
    | NotADirectory
    | NotMntPattern
    | NoDriveLetter
    | StatusQueryFailed
    | NotFoundInWindows(letter: string)
    | Offline(letter: string)
    | ReadOnly(letter: string)
    | StatusNotOnline(status: Option<string>)
    | PhysicalDiskBug
    | ValidationTimedOut
    | ValidationError
    | PermissionDenied
    | CannotAccess

  /** The kinds of problem that stop a scan. */
  predicate IsErrorKind(i: Issue)
  {
    i.PathMissing? || i.NotADirectory? || i.NoDriveLetter? || i.NotFoundInWindows?
    || i.Offline? || i.PermissionDenied? || i.CannotAccess?
  }

  /**
   * What the drive-status query gives: a failed run, a timeout, an
   * exception (output that is not JSON, say), the "Drive not found" object,
   * or the status object. Truthiness of the JSON values is already taken;
   * `hasDiskNumber` and `hasPartitionNumber` say whether those keys exist.
   */
  datatype StatusQuery =
    | NonZeroExit
    | QueryTimedOut
    | QueryRaised
    | DriveNotFound
    | Status(isOffline: bool, isReadOnly: bool, diskStatus: Option<string>, physicalDiskFound: bool,
             hasDiskNumber: bool, hasPartitionNumber: bool)

  /** What listing the directory does. */
  datatype Listing = Listed | ListPermissionError | ListFailed

  datatype MountCheck = MountCheck(warnings: seq<Issue>, errors: seq<Issue>, driveLetter: Option<string>)

  datatype Validation = Validation(valid: bool, warnings: seq<Issue>, errors: seq<Issue>, driveLetter: Option<string>)

  /** `_detect_wsl` as written: the second `f.read()` is at end of file and returns "". */
  function DetectWslAsWritten(procVersion: Option<string>): bool
  {
    match procVersion
    case None => false
    case Some(text) => Contains(Lower(text), "microsoft") || Contains(Lower(""), "wsl")
  }

  /** A kernel that names WSL but not Microsoft is not recognised. */
  lemma WslOnlyKernelMissed()
    ensures !DetectWslAsWritten(Some("WSL"))
    ensures DetectWsl(Some("WSL"))
  {
    assert !Contains("wsl", "microsoft");
    assert !Contains("", "wsl");
    assert Lower("WSL") == "wsl";
    assert Contains("wsl", "wsl") by { assert "wsl"[0..3] == "wsl"; }
  }

  /** `_detect_wsl` as intended: either word in the one text that was read. */
  function DetectWsl(procVersion: Option<string>): (r: bool)
    ensures r <==> procVersion.Some? && (Contains(Lower(procVersion.value), "microsoft") || Contains(Lower(procVersion.value), "wsl"))
  {
    match procVersion
    case None => false
    case Some(text) =>
      var lowered := Lower(text);
      Contains(lowered, "microsoft") || Contains(lowered, "wsl")
  }

  /** The intended test recognises everything the written one does, and more. */
  lemma DetectWslExtends(procVersion: Option<string>)
    ensures DetectWslAsWritten(procVersion) ==> DetectWsl(procVersion)
  {
    if procVersion.Some? && !Contains(Lower(procVersion.value), "microsoft") {
      assert !Contains(Lower(""), "wsl");
    }
  }

  class DriveValidator {
    const mountPath: string
    const isWsl: bool

    constructor (mountPath: string, procVersion: Option<string>)
      ensures this.mountPath == mountPath && isWsl == DetectWsl(procVersion)
    {
      this.mountPath := mountPath;
      isWsl := DetectWsl(procVersion);
    }

    /**
     * `_validate_wsl_mount`: the path must look like `/mnt/<x>`, and
     * Windows must know the drive and have it online.
     */
    method ValidateWslMount(query: StatusQuery) returns (r: MountCheck)
      ensures forall i :: 0 <= i < |r.errors| ==> IsErrorKind(r.errors[i])
      ensures forall i :: 0 <= i < |r.warnings| ==> !IsErrorKind(r.warnings[i])
      ensures |Parts(mountPath)| < 2 || Parts(mountPath)[1] != "mnt" ==> r == MountCheck([NotMntPattern], [], None)
      ensures |Parts(mountPath)| == 2 && Parts(mountPath)[1] == "mnt" ==> r == MountCheck([], [NoDriveLetter], None)
      ensures |Parts(mountPath)| >= 3 && Parts(mountPath)[1] == "mnt" ==>
        && r.driveLetter == Some(Upper(Parts(mountPath)[2]))
        && (r.errors != [] <==> query.DriveNotFound? || (query.Status? && query.isOffline && query.hasDiskNumber))
    {
      var parts := Parts(mountPath);
      if |parts| < 2 || parts[1] != "mnt" {
        return MountCheck([NotMntPattern], [], None);
      }
      if |parts| < 3 {
        return MountCheck([], [NoDriveLetter], None);
      }
      var letter := Upper(parts[2]);
      var warnings, errors := QueryIssues(letter, query);
      r := MountCheck(warnings, errors, Some(letter));
    }

    /**
     * The issues the drive-status query raises for drive `letter`. Only an
     * unknown drive and an offline disk are errors; a failed, timed-out or
     * raising query gives one warning.
     */
    method QueryIssues(letter: string, query: StatusQuery) returns (warnings: seq<Issue>, errors: seq<Issue>)
      ensures forall i :: 0 <= i < |errors| ==> IsErrorKind(errors[i])
      ensures forall i :: 0 <= i < |warnings| ==> !IsErrorKind(warnings[i])
      ensures errors != [] <==> query.DriveNotFound? || (query.Status? && query.isOffline && query.hasDiskNumber)
      ensures query.NonZeroExit? ==> warnings == [StatusQueryFailed] && errors == []
      ensures query.QueryTimedOut? ==> warnings == [ValidationTimedOut] && errors == []
      ensures query.QueryRaised? ==> warnings == [ValidationError] && errors == []
      ensures query.DriveNotFound? ==> warnings == [] && errors == [NotFoundInWindows(letter)]
      ensures query.Status? && query.isOffline && !query.hasDiskNumber ==> warnings == [ValidationError] && errors == []
      ensures query.Status? && (query.hasDiskNumber || !query.isOffline) ==>
        && (ReadOnly(letter) in warnings <==> query.isReadOnly)
        && (StatusNotOnline(query.diskStatus) in warnings <==> query.diskStatus != Some("Online"))
        && (PhysicalDiskBug in warnings <==> !query.physicalDiskFound)
        && (ValidationError in warnings <==> !query.hasDiskNumber || !query.hasPartitionNumber)
    {
      warnings, errors := [], [];
      match query {
        case NonZeroExit =>
          warnings := warnings + [StatusQueryFailed];
        case QueryTimedOut =>
          warnings := warnings + [ValidationTimedOut];
        case QueryRaised =>
          warnings := warnings + [ValidationError];
        case DriveNotFound =>
          errors := errors + [NotFoundInWindows(letter)];
        case Status(offline, readOnly, status, found, hasDisk, hasPartition) =>
          if offline && !hasDisk {
            // formatting the offline message reads the missing DiskNumber and raises
            warnings := warnings + [ValidationError];
          } else {
            if offline {
              errors := errors + [Offline(letter)];
            }
            if readOnly {
              warnings := warnings + [ReadOnly(letter)];
            }
            if status != Some("Online") {
              warnings := warnings + [StatusNotOnline(status)];
            }
            if !found {
              warnings := warnings + [PhysicalDiskBug];
            }
            if !hasDisk || !hasPartition {
              // the closing debug lines read both keys
              warnings := warnings + [ValidationError];
            }
          }
      }
    }

    /**
     * `validate`: a missing path or a non-directory is the one error and
     * ends the check; otherwise the WSL checks (on WSL) and the listing
     * add their issues, and the result is valid exactly when none is an
     * error.
     */
    method Validate(pathExists: bool, isDir: bool, query: StatusQuery, listing: Listing) returns (r: Validation)
      ensures r.valid <==> r.errors == []
      ensures !pathExists ==> r == Validation(false, [], [PathMissing], None)
      ensures pathExists && !isDir ==> r == Validation(false, [], [NotADirectory], None)
      ensures forall i :: 0 <= i < |r.errors| ==> IsErrorKind(r.errors[i])
      ensures forall i :: 0 <= i < |r.warnings| ==> !IsErrorKind(r.warnings[i])
      ensures pathExists && isDir && !isWsl ==> r.warnings == [] && r.driveLetter.None?
      ensures pathExists && isDir && !isWsl ==> (r.valid <==> listing.Listed?)
      ensures pathExists && isDir && listing.ListPermissionError? ==> r.errors != [] && r.errors[|r.errors| - 1] == PermissionDenied
    {
      if !pathExists {
        return Validation(false, [], [PathMissing], None);
      }
      if !isDir {
        return Validation(false, [], [NotADirectory], None);
      }
      r := CheckMounted(query, listing);
    }

    /** The checks of `validate` once the path is a directory. */
    method CheckMounted(query: StatusQuery, listing: Listing) returns (r: Validation)
      ensures r.valid <==> r.errors == []
      ensures forall i :: 0 <= i < |r.errors| ==> IsErrorKind(r.errors[i])
      ensures forall i :: 0 <= i < |r.warnings| ==> !IsErrorKind(r.warnings[i])
      ensures !isWsl ==> r.warnings == [] && r.driveLetter.None? && (r.valid <==> listing.Listed?)
      ensures listing.ListPermissionError? ==> r.errors != [] && r.errors[|r.errors| - 1] == PermissionDenied
    {
      var valid := true;
      var warnings: seq<Issue> := [];
      var errors: seq<Issue> := [];
      var letter: Option<string> := None;
      if isWsl {
        var w := ValidateWslMount(query);
        letter := w.driveLetter;
        warnings := warnings + w.warnings;
        errors := errors + w.errors;
        if w.errors != [] {
          valid := false;
        }
      }
      match listing {
        case Listed =>
        case ListPermissionError =>
          valid := false;
          errors := errors + [PermissionDenied];
        case ListFailed =>
          valid := false;
          errors := errors + [CannotAccess];
      }
      r := Validation(valid, warnings, errors, letter);
    }
  }
}

=== FILE: duplicate_groups.dfy ===
/**
 * Duplicate grouping in the metadata pass: the scan's quick hashes are
 * joined with their files, grouped by (hash, size), and every group of two
 * or more files is a duplicate group: all but one copy count as wasted
 * bytes, the first member is the primary, and the group and its members
 * are stored.
 */
module DuplicateGroups {
  import opened Wrappers
  import opened Sorting
  import opened Seqs
  import opened FileScanning
  import opened Catalog

  const MaxGroups: nat := 1000
  const ReportedGroups: nat := 50

  /** One row of the join of a `quick` hash of the scan with its file. */
  datatype Joined = Joined(hashValue: string, sizeBytes: nat, fileId: int, path: string)

  datatype Member = Member(fileId: int, path: string)

  /** The hash rows of scan `scanId` of type `quick` whose file exists, joined with the file, in table order. */
  function JoinRows(hashes: seq<HashRow>, files: seq<FileRow>, scanId: int): seq<Joined>
  {
    if hashes == [] then []
    else
      var h := hashes[|hashes| - 1];
      JoinRows(hashes[..|hashes| - 1], files, scanId)
        + if h.scanId == scanId && h.hashType == "quick" && 1 <= h.fileId <= |files|
          then [Joined(h.hashValue, files[h.fileId - 1].rec.sizeBytes, h.fileId, files[h.fileId - 1].rec.path)]
          else []
  }

  /** A bucket of the `GROUP BY h.hash_value, f.size_bytes`. */
  datatype Bucket = Bucket(hashValue: string, sizeBytes: nat, members: seq<Member>)

  function MemberOf(j: Joined): Member
  {
    Member(j.fileId, j.path)
  }

  /** The grouping key, (hash value, size). */
  type Key = (string, nat)

  function KeyOf(j: Joined): Key
  {
    (j.hashValue, j.sizeBytes)
  }

  function BucketKey(b: Bucket): Key
  {
    (b.hashValue, b.sizeBytes)
  }

  /** Adds a joined row to the bucket of its key, or opens a bucket for it at the end. */
  function AddToBucket(bs: seq<Bucket>, j: Joined): (r: seq<Bucket>)
    ensures |r| >= 1
  {
    if bs == [] then [Bucket(j.hashValue, j.sizeBytes, [MemberOf(j)])]
    else if BucketKey(bs[0]) == KeyOf(j) then [bs[0].(members := bs[0].members + [MemberOf(j)])] + bs[1..]
    else [bs[0]] + AddToBucket(bs[1..], j)
  }

  /** The buckets of a run of joined rows, in order of first appearance; members in row order. */
  function GroupBy(js: seq<Joined>): seq<Bucket>
  {
    if js == [] then [] else AddToBucket(GroupBy(js[..|js| - 1]), js[|js| - 1])
  }

  // ---------------------------------------------------------------------
  // What the grouping means.

  /** The members of the rows with key `k`, in row order. */
  function MembersWith(js: seq<Joined>, k: Key): seq<Member>
  {
    if js == [] then []
    else
      var j := js[|js| - 1];
      MembersWith(js[..|js| - 1], k) + if KeyOf(j) == k then [MemberOf(j)] else []
  }

  /** The members of the bucket with key `k`, or none when there is no such bucket. */
  function MembersAt(bs: seq<Bucket>, k: Key): seq<Member>
  {
    if bs == [] then []
    else if BucketKey(bs[0]) == k then bs[0].members
    else MembersAt(bs[1..], k)
  }

  function KeySet(bs: seq<Bucket>): set<Key>
  {
    if bs == [] then {} else {BucketKey(bs[0])} + KeySet(bs[1..])
  }

  /** No two buckets share a key, and every bucket has a member. */
  predicate WellFormed(bs: seq<Bucket>)
  {
    bs == [] || (BucketKey(bs[0]) !in KeySet(bs[1..]) && bs[0].members != [] && WellFormed(bs[1..]))
  }

  lemma {:induction false} AddToBucketEffect(bs: seq<Bucket>, j: Joined)
    requires WellFormed(bs)
    ensures WellFormed(AddToBucket(bs, j))
    ensures KeySet(AddToBucket(bs, j)) == KeySet(bs) + {KeyOf(j)}
    ensures forall k :: MembersAt(AddToBucket(bs, j), k) == MembersAt(bs, k) + if KeyOf(j) == k then [MemberOf(j)] else []
    decreases |bs|
  {
    var r := AddToBucket(bs, j);
    if bs == [] {
      assert r[1..] == [];
    } else if BucketKey(bs[0]) == KeyOf(j) {
      assert r[1..] == bs[1..];
      forall k ensures MembersAt(r, k) == MembersAt(bs, k) + if KeyOf(j) == k then [MemberOf(j)] else [] {
        if KeyOf(j) != k {
          assert MembersAt(bs, k) + [] == MembersAt(bs, k);
        }
      }
    } else {
      AddToBucketEffect(bs[1..], j);
      assert r[1..] == AddToBucket(bs[1..], j);
      forall k ensures MembersAt(r, k) == MembersAt(bs, k) + if KeyOf(j) == k then [MemberOf(j)] else [] {
        if BucketKey(bs[0]) == k {
          assert MembersAt(bs, k) + [] == MembersAt(bs, k);
        }
      }
    }
  }

  /**
   * The grouping is exact: no two buckets share a key, every bucket has a
   * member, there is a bucket for every key that occurs, and the bucket of
   * a key holds exactly the rows with that key, in row order.
   */
  lemma {:induction false} GroupByExact(js: seq<Joined>)
    ensures WellFormed(GroupBy(js))
    ensures forall j :: j in js ==> KeyOf(j) in KeySet(GroupBy(js))
    ensures forall k :: MembersAt(GroupBy(js), k) == MembersWith(js, k)
  {
    if js != [] {
      var front := js[..|js| - 1];
      GroupByExact(front);
      AddToBucketEffect(GroupBy(front), js[|js| - 1]);
      forall j | j in js ensures KeyOf(j) in KeySet(GroupBy(js)) {
        if j != js[|js| - 1] {
          var i :| 0 <= i < |js| && js[i] == j;
          assert front[i] == j;
        }
      }
    }
  }

  /** Every bucket's key is in the key set. */
  lemma {:induction false} KeyInKeySet(bs: seq<Bucket>, b: Bucket)
    requires b in bs
    ensures BucketKey(b) in KeySet(bs)
    decreases |bs|
  {
    if bs[0] != b {
      assert b in bs[1..];
      KeyInKeySet(bs[1..], b);
    }
  }

  /** The key set holds exactly the keys of the buckets. */
  lemma {:induction false} KeySetExact(bs: seq<Bucket>)
    ensures forall k :: k in KeySet(bs) <==> exists b :: b in bs && BucketKey(b) == k
    decreases |bs|
  {
    if bs != [] {
      KeySetExact(bs[1..]);
      forall k | k in KeySet(bs) ensures exists b :: b in bs && BucketKey(b) == k {
        if k != BucketKey(bs[0]) {
          assert k in KeySet(bs[1..]);
          var b :| b in bs[1..] && BucketKey(b) == k;
          assert b in bs;
        }
      }
      forall b | b in bs ensures BucketKey(b) in KeySet(bs) {
        KeyInKeySet(bs, b);
      }
    }
  }

  /** In well-formed buckets, a bucket holds the members its key looks up. */
  lemma {:induction false} BucketMembers(bs: seq<Bucket>, b: Bucket)
    requires WellFormed(bs) && b in bs
    ensures MembersAt(bs, BucketKey(b)) == b.members
    decreases |bs|
  {
    if bs[0] != b {
      assert b in bs[1..];
      KeyInKeySet(bs[1..], b);
      BucketMembers(bs[1..], b);
    }
  }

  /** A key with members has a bucket holding them. */
  lemma {:induction false} MembersAtFound(bs: seq<Bucket>, k: Key)
    requires MembersAt(bs, k) != []
    ensures exists b :: b in bs && BucketKey(b) == k && b.members == MembersAt(bs, k)
    decreases |bs|
  {
    if BucketKey(bs[0]) != k {
      MembersAtFound(bs[1..], k);
      var b :| b in bs[1..] && BucketKey(b) == k && b.members == MembersAt(bs[1..], k);
      assert b in bs;
    }
  }

  // ---------------------------------------------------------------------
  // The candidate groups: `HAVING COUNT(*) > 1 ORDER BY f.size_bytes DESC LIMIT 1000`.

  /** The buckets with more than one member, in order. */
  function Multi(bs: seq<Bucket>): seq<Bucket>
  {
    if bs == [] then []
    else Multi(bs[..|bs| - 1]) + if |bs[|bs| - 1].members| > 1 then [bs[|bs| - 1]] else []
  }

  lemma {:induction false} MultiExact(bs: seq<Bucket>)
    ensures forall b :: b in Multi(bs) <==> b in bs && |b.members| > 1
  {
    if bs != [] {
      var front := bs[..|bs| - 1];
      MultiExact(front);
      assert bs == front + [bs[|bs| - 1]];
    }
  }

  function BucketSize(b: Bucket): int
  {
    b.sizeBytes
  }

  /** The duplicate candidates of the join: multi-member buckets, largest size first, at most 1000. */
  function DuplicateCandidates(js: seq<Joined>): seq<Bucket>
  {
    Take(SortDesc(Multi(GroupBy(js)), BucketSize), MaxGroups)
  }

  /**
   * Every candidate is a (hash, size) pair shared by two or more rows and
   * holds exactly those rows; the candidates come largest size first and
   * there are at most 1000 of them; when there are no more than 1000 such
   * pairs, every one of them is a candidate.
   */
  lemma DuplicateCandidatesExact(js: seq<Joined>)
    ensures |DuplicateCandidates(js)| <= MaxGroups
    ensures SortedDesc(DuplicateCandidates(js), BucketSize)
    ensures forall b :: b in DuplicateCandidates(js) ==>
      |b.members| > 1 && b.members == MembersWith(js, BucketKey(b))
    ensures |Multi(GroupBy(js))| <= MaxGroups ==>
      forall k :: |MembersWith(js, k)| > 1 ==> k in KeySet(DuplicateCandidates(js))
  {
    var bs := GroupBy(js);
    var cs := DuplicateCandidates(js);
    GroupByExact(js);
    MultiExact(bs);
    TopN(Multi(bs), BucketSize, MaxGroups);
    SortDescCorrect(Multi(bs), BucketSize);
    forall b | b in cs ensures |b.members| > 1 && b.members == MembersWith(js, BucketKey(b)) {
      assert b in multiset(cs);
      assert b in Multi(bs);
      BucketMembers(bs, b);
    }
    if |Multi(bs)| <= MaxGroups {
      forall k | |MembersWith(js, k)| > 1 ensures k in KeySet(cs) {
        MembersAtFound(bs, k);
        var b :| b in bs && BucketKey(b) == k && b.members == MembersAt(bs, k);
        assert b in multiset(SortDesc(Multi(bs), BucketSize));
        KeyInKeySet(cs, b);
      }
    }
  }

  // ---------------------------------------------------------------------
  // The groups of the report and the rows stored for them.

  /** A duplicate group of the report: every copy but one counts as wasted. */
  datatype Group = Group(quickHash: string, fileSize: nat, members: seq<Member>, wastedBytes: int)

  function GroupOf(b: Bucket): Group
  {
    Group(b.hashValue, b.sizeBytes, b.members, b.sizeBytes * (|b.members| - 1))
  }

  function Groups(cs: seq<Bucket>): (gs: seq<Group>)
    ensures |gs| == |cs|
  {
    if cs == [] then [] else Groups(cs[..|cs| - 1]) + [GroupOf(cs[|cs| - 1])]
  }

  function WastedTotal(gs: seq<Group>): int
  {
    if gs == [] then 0 else WastedTotal(gs[..|gs| - 1]) + gs[|gs| - 1].wastedBytes
  }

  function FileTotal(gs: seq<Group>): int
  {
    if gs == [] then 0 else FileTotal(gs[..|gs| - 1]) + |gs[|gs| - 1].members|
  }

  /** The bytes all members of the groups hold. */
  function HeldBytes(gs: seq<Group>): int
  {
    if gs == [] then 0 else HeldBytes(gs[..|gs| - 1]) + gs[|gs| - 1].fileSize * |gs[|gs| - 1].members|
  }

  /** The bytes of one copy of each group. */
  function OneCopyBytes(gs: seq<Group>): int
  {
    if gs == [] then 0 else OneCopyBytes(gs[..|gs| - 1]) + gs[|gs| - 1].fileSize
  }

  /** What `_identify_duplicates` leaves in the report. */
  datatype Duplicates = Duplicates(groupsFound: nat, totalDuplicateFiles: int, totalWastedBytes: int, reported: seq<Group>)

  function DuplicatesOf(cs: seq<Bucket>): Duplicates
  {
    var gs := Groups(cs);
    Duplicates(|gs|, FileTotal(gs), WastedTotal(gs), Take(gs, ReportedGroups))
  }

  lemma WasteOfOne(size: nat, count: int)
    requires count > 1
    ensures size * (count - 1) == size * count - size
    ensures size * (count - 1) >= size
  {
    assert size * (count - 1) == size * count - size;
  }

  /** For groups of two or more, each group wastes its size times its copies but one. */
  lemma {:induction false} GroupTotals(cs: seq<Bucket>)
    requires forall b :: b in cs ==> |b.members| > 1
    ensures WastedTotal(Groups(cs)) == HeldBytes(Groups(cs)) - OneCopyBytes(Groups(cs))
    ensures WastedTotal(Groups(cs)) >= OneCopyBytes(Groups(cs))
    ensures FileTotal(Groups(cs)) >= 2 * |cs|
  {
    if cs != [] {
      var front := cs[..|cs| - 1];
      var last := cs[|cs| - 1];
      assert forall b :: b in front ==> b in cs;
      GroupTotals(front);
      var gs := Groups(cs);
      assert gs[..|gs| - 1] == Groups(front);
      assert gs[|gs| - 1] == GroupOf(last);
      WasteOfOne(last.sizeBytes, |last.members|);
    }
  }

  /**
   * For groups of two or more: the wasted bytes are everything the members
   * hold except one copy per group, so at least one copy's worth; every
   * group adds two or more files; the report keeps the first 50 groups.
   */
  lemma DuplicateTotals(cs: seq<Bucket>)
    requires forall b :: b in cs ==> |b.members| > 1
    ensures DuplicatesOf(cs).groupsFound == |cs|
    ensures DuplicatesOf(cs).totalWastedBytes == HeldBytes(Groups(cs)) - OneCopyBytes(Groups(cs))
    ensures DuplicatesOf(cs).totalWastedBytes >= OneCopyBytes(Groups(cs))
    ensures DuplicatesOf(cs).totalDuplicateFiles >= 2 * DuplicatesOf(cs).groupsFound
    ensures |DuplicatesOf(cs).reported| <= ReportedGroups
    ensures DuplicatesOf(cs).reported == Groups(cs)[..|DuplicatesOf(cs).reported|]
  {
    GroupTotals(cs);
  }

  /** The group row of a bucket, stamped `now`. */
  function GroupRowOf(b: Bucket, now: nat): GroupRow
  {
    GroupRow(b.hashValue, b.sizeBytes, |b.members|, GroupOf(b).wastedBytes, now)
  }

  /** The group rows stored for `cs`, the k-th stamped `now + k`. */
  function GroupRowsOf(cs: seq<Bucket>, now: nat): (r: seq<GroupRow>)
    ensures |r| == |cs|
  {
    if cs == [] then [] else GroupRowsOf(cs[..|cs| - 1], now) + [GroupRowOf(cs[|cs| - 1], now + |cs| - 1)]
  }

  /** The member rows of group `groupId`: the first member is the primary. */
  function MemberRowsOfGroup(groupId: int, scanId: int, ms: seq<Member>): (r: seq<MemberRow>)
    ensures |r| == |ms|
  {
    if ms == [] then []
    else MemberRowsOfGroup(groupId, scanId, ms[..|ms| - 1]) + [MemberRow(groupId, ms[|ms| - 1].fileId, scanId, |ms| == 1)]
  }

  /** The member rows stored for `cs`, whose groups take ids from `firstId` on. */
  function MemberRowsOf(cs: seq<Bucket>, firstId: int, scanId: int): seq<MemberRow>
  {
    if cs == [] then []
    else MemberRowsOf(cs[..|cs| - 1], firstId, scanId) + MemberRowsOfGroup(firstId + |cs| - 1, scanId, cs[|cs| - 1].members)
  }

  /** The rows of group `groupId`. */
  function InGroup(rows: seq<MemberRow>, groupId: int): seq<MemberRow>
  {
    if rows == [] then []
    else InGroup(rows[..|rows| - 1], groupId) + if rows[|rows| - 1].groupId == groupId then [rows[|rows| - 1]] else []
  }

  function FileIds(rows: seq<MemberRow>): seq<int>
  {
    if rows == [] then [] else FileIds(rows[..|rows| - 1]) + [rows[|rows| - 1].fileId]
  }

  function PrimaryIds(rows: seq<MemberRow>): seq<int>
  {
    if rows == [] then []
    else PrimaryIds(rows[..|rows| - 1]) + if rows[|rows| - 1].isPrimary then [rows[|rows| - 1].fileId] else []
  }

  function MemberIds(ms: seq<Member>): seq<int>
  {
    if ms == [] then [] else MemberIds(ms[..|ms| - 1]) + [ms[|ms| - 1].fileId]
  }

  lemma {:induction false} InGroupAppend(a: seq<MemberRow>, b: seq<MemberRow>, groupId: int)
    ensures InGroup(a + b, groupId) == InGroup(a, groupId) + InGroup(b, groupId)
    decreases |b|
  {
    if b == [] {
      assert a + b == a;
    } else {
      var c := b[..|b| - 1];
      InGroupAppend(a, c, groupId);
      assert (a + b)[..|a + b| - 1] == a + c;
    }
  }

  /** The rows of one group carry its members in order, and the first of them alone is primary. */
  lemma {:induction false} GroupRowsExact(groupId: int, scanId: int, ms: seq<Member>, g: int)
    ensures InGroup(MemberRowsOfGroup(groupId, scanId, ms), g) == if g == groupId then MemberRowsOfGroup(groupId, scanId, ms) else []
    ensures FileIds(MemberRowsOfGroup(groupId, scanId, ms)) == MemberIds(ms)
    ensures PrimaryIds(MemberRowsOfGroup(groupId, scanId, ms)) == if ms == [] then [] else [ms[0].fileId]
    decreases |ms|
  {
    if ms != [] {
      var front := ms[..|ms| - 1];
      GroupRowsExact(groupId, scanId, front, g);
      var r := MemberRowsOfGroup(groupId, scanId, ms);
      assert r[..|r| - 1] == MemberRowsOfGroup(groupId, scanId, front);
      if |ms| > 1 {
        assert front[0] == ms[0];
      }
    }
  }

  /** Storing one more group appends that group's member rows. */
  lemma MemberRowsLast(cs: seq<Bucket>, firstId: int, scanId: int)
    requires cs != []
    ensures MemberRowsOf(cs, firstId, scanId)
      == MemberRowsOf(cs[..|cs| - 1], firstId, scanId) + MemberRowsOfGroup(firstId + |cs| - 1, scanId, cs[|cs| - 1].members)
  {
  }

  /** The rows of a group after one more group is stored. */
  lemma MemberRowsStep(cs: seq<Bucket>, firstId: int, scanId: int, g: int)
    requires cs != []
    ensures InGroup(MemberRowsOf(cs, firstId, scanId), g)
      == InGroup(MemberRowsOf(cs[..|cs| - 1], firstId, scanId), g)
         + (if g == firstId + |cs| - 1 then MemberRowsOfGroup(g, scanId, cs[|cs| - 1].members) else [])
  {
    MemberRowsLast(cs, firstId, scanId);
    InGroupAfter(MemberRowsOf(cs[..|cs| - 1], firstId, scanId), firstId + |cs| - 1, scanId, cs[|cs| - 1].members, g);
  }

  /** Appending the rows of group `id` adds them to that group alone. */
  lemma InGroupAfter(before: seq<MemberRow>, id: int, scanId: int, ms: seq<Member>, g: int)
    ensures InGroup(before + MemberRowsOfGroup(id, scanId, ms), g)
      == InGroup(before, g) + (if g == id then MemberRowsOfGroup(id, scanId, ms) else [])
  {
    var added := MemberRowsOfGroup(id, scanId, ms);
    InGroupAppend(before, added, g);
    GroupRowsExact(id, scanId, ms, g);
    if g != id {
      assert InGroup(before, g) + InGroup(added, g) == InGroup(before, g) + [];
    }
  }

  /**
   * In the member rows of the stored groups, group `firstId + k` holds
   * exactly the members of the k-th candidate, in order; no other group
   * id has rows.
   */
  lemma {:induction false} MemberRowsSplit(cs: seq<Bucket>, firstId: int, scanId: int, k: int)
    ensures InGroup(MemberRowsOf(cs, firstId, scanId), firstId + k)
      == if 0 <= k < |cs| then MemberRowsOfGroup(firstId + k, scanId, cs[k].members) else []
    decreases |cs|
  {
    if cs != [] {
      var front := cs[..|cs| - 1];
      MemberRowsSplit(front, firstId, scanId, k);
      MemberRowsStep(cs, firstId, scanId, firstId + k);
      var earlier := InGroup(MemberRowsOf(front, firstId, scanId), firstId + k);
      if k != |cs| - 1 {
        assert InGroup(MemberRowsOf(cs, firstId, scanId), firstId + k) == earlier + [] == earlier;
        if 0 <= k < |cs| - 1 {
          assert cs[k] == front[k];
        }
      }
    }
  }

  /**
   * In the member rows of the stored groups, group `firstId + k` holds
   * exactly the members of the k-th candidate, in order, and its first
   * member is its only primary; no other group id has rows.
   */
  lemma MemberRowsExact(cs: seq<Bucket>, firstId: int, scanId: int, k: int)
    ensures 0 <= k < |cs| ==> FileIds(InGroup(MemberRowsOf(cs, firstId, scanId), firstId + k)) == MemberIds(cs[k].members)
    ensures 0 <= k < |cs| && cs[k].members != [] ==>
      PrimaryIds(InGroup(MemberRowsOf(cs, firstId, scanId), firstId + k)) == [cs[k].members[0].fileId]
    ensures !(0 <= k < |cs|) ==> InGroup(MemberRowsOf(cs, firstId, scanId), firstId + k) == []
  {
    MemberRowsSplit(cs, firstId, scanId, k);
    if 0 <= k < |cs| {
      GroupRowsExact(firstId + k, scanId, cs[k].members, firstId + k);
    }
  }

  // ---------------------------------------------------------------------
  // `_identify_duplicates`

  // One more candidate, as the report and the stored rows see it.

  lemma GroupsStep(seen: seq<Bucket>, b: Bucket)
    ensures Groups(seen + [b]) == Groups(seen) + [GroupOf(b)]
    ensures WastedTotal(Groups(seen) + [GroupOf(b)]) == WastedTotal(Groups(seen)) + GroupOf(b).wastedBytes
  {
    assert (seen + [b])[..|seen|] == seen;
    var gs := Groups(seen) + [GroupOf(b)];
    assert gs[..|gs| - 1] == Groups(seen);
  }

  lemma GroupRowsStep(seen: seq<Bucket>, b: Bucket, now: nat)
    ensures GroupRowsOf(seen + [b], now) == GroupRowsOf(seen, now) + [GroupRowOf(b, now + |seen|)]
  {
    assert (seen + [b])[..|seen|] == seen;
  }

  lemma MemberRowsOfStep(seen: seq<Bucket>, b: Bucket, firstId: int, scanId: int)
    ensures MemberRowsOf(seen + [b], firstId, scanId)
      == MemberRowsOf(seen, firstId, scanId) + MemberRowsOfGroup(firstId + |seen|, scanId, b.members)
  {
    assert (seen + [b])[..|seen|] == seen;
  }

  lemma MemberStep(groupId: int, scanId: int, seen: seq<Member>, m: Member)
    ensures MemberRowsOfGroup(groupId, scanId, seen + [m])
      == MemberRowsOfGroup(groupId, scanId, seen) + [MemberRow(groupId, m.fileId, scanId, seen == [])]
  {
    assert (seen + [m])[..|seen|] == seen;
  }

  /** The member rows of one group, one `INSERT` at a time, the first flagged primary. */
  method StoreMembers(db: Database, groupId: int, scanId: int, ms: seq<Member>)
    requires db.Valid()
    modifies db`duplicateMembers
    ensures db.Valid()
    ensures db.duplicateMembers == old(db.duplicateMembers) + MemberRowsOfGroup(groupId, scanId, ms)
  {
    ghost var seen: seq<Member> := [];
    var i := 0;
    while i < |ms|
      invariant i <= |ms| && seen == ms[..i]
      invariant db.Valid()
      invariant db.duplicateMembers == old(db.duplicateMembers) + MemberRowsOfGroup(groupId, scanId, seen)
    {
      var row := MemberRow(groupId, ms[i].fileId, scanId, i == 0);
      MemberStep(groupId, scanId, seen, ms[i]);
      Regroup(old(db.duplicateMembers), MemberRowsOfGroup(groupId, scanId, seen), row);
      db.duplicateMembers := db.duplicateMembers + [row];
      TakeStep(ms, i);
      seen := seen + [ms[i]];
      i := i + 1;
    }
    assert ms[..|ms|] == ms;
  }

  /**
   * One group: its row stamped with the clock, its id the new row's, then
   * its members. `seen` are the candidates stored before it, on top of the
   * rows `groups0` and `members0` that were there already.
   */
  method StoreGroup(db: Database, scanId: int, b: Bucket, group: Group, ghost seen: seq<Bucket>, ghost now: nat,
                    ghost groups0: seq<GroupRow>, ghost members0: seq<MemberRow>)
    requires db.Valid() && group == GroupOf(b)
    requires db.clock == now + |seen|
    requires db.duplicateGroups == groups0 + GroupRowsOf(seen, now)
    requires db.duplicateMembers == members0 + MemberRowsOf(seen, |groups0| + 1, scanId)
    modifies db`duplicateGroups, db`duplicateMembers, db`clock
    ensures db.Valid()
    ensures db.clock == now + |seen| + 1
    ensures db.duplicateGroups == groups0 + GroupRowsOf(seen + [b], now)
    ensures db.duplicateMembers == members0 + MemberRowsOf(seen + [b], |groups0| + 1, scanId)
  {
    GroupRowsStep(seen, b, now);
    MemberRowsOfStep(seen, b, |groups0| + 1, scanId);
    var row := GroupRow(b.hashValue, b.sizeBytes, |b.members|, group.wastedBytes, db.clock);
    Regroup(groups0, GroupRowsOf(seen, now), row);
    Append3(members0, MemberRowsOf(seen, |groups0| + 1, scanId), MemberRowsOfGroup(|groups0| + 1 + |seen|, scanId, b.members));
    db.duplicateGroups := db.duplicateGroups + [row];
    db.clock := db.clock + 1;
    var groupId := |db.duplicateGroups|;
    StoreMembers(db, groupId, scanId, group.members);
  }

  /**
   * The loop over the candidates: each becomes a report group and is
   * stored, the wasted bytes are summed, and the report keeps the first 50.
   */
  method StoreGroups(db: Database, scanId: int, cs: seq<Bucket>) returns (d: Duplicates)
    requires db.Valid()
    modifies db`duplicateGroups, db`duplicateMembers, db`clock
    ensures db.Valid()
    ensures d == DuplicatesOf(cs)
    ensures db.duplicateGroups == old(db.duplicateGroups) + GroupRowsOf(cs, old(db.clock))
    ensures db.duplicateMembers == old(db.duplicateMembers) + MemberRowsOf(cs, |old(db.duplicateGroups)| + 1, scanId)
    ensures db.clock == old(db.clock) + |cs|
  {
    var totalWasted := 0;
    var groups: seq<Group> := [];
    var i := 0;
    while i < |cs|
      invariant i <= |cs|
      invariant groups == Groups(cs[..i]) && totalWasted == WastedTotal(groups)
      invariant db.Valid()
      invariant db.clock == old(db.clock) + i
      invariant db.duplicateGroups == old(db.duplicateGroups) + GroupRowsOf(cs[..i], old(db.clock))
      invariant db.duplicateMembers == old(db.duplicateMembers) + MemberRowsOf(cs[..i], |old(db.duplicateGroups)| + 1, scanId)
    {
      var b := cs[i];
      var group := GroupOf(b);
      TakeStep(cs, i);
      GroupsStep(cs[..i], b);
      totalWasted := totalWasted + group.wastedBytes;
      groups := groups + [group];
      StoreGroup(db, scanId, b, group, cs[..i], old(db.clock), old(db.duplicateGroups), old(db.duplicateMembers));
      i := i + 1;
    }
    assert cs[..|cs|] == cs;
    d := Duplicates(|groups|, FileTotal(groups), totalWasted, Take(groups, ReportedGroups));
  }

  /**
   * `_identify_duplicates`: the scan's quick hashes are joined with their
   * files and grouped; with no candidate nothing changes, otherwise every
   * candidate is stored as a group with its members and summarised.
   */
  method IdentifyDuplicates(db: Database, scanId: int) returns (d: Duplicates)
    requires db.Valid()
    modifies db`duplicateGroups, db`duplicateMembers, db`clock
    ensures db.Valid()
    ensures var cs := DuplicateCandidates(JoinRows(db.fileHashes, db.files, scanId));
      && d == DuplicatesOf(cs)
      && db.duplicateGroups == old(db.duplicateGroups) + GroupRowsOf(cs, old(db.clock))
      && db.duplicateMembers == old(db.duplicateMembers) + MemberRowsOf(cs, |old(db.duplicateGroups)| + 1, scanId)
      && db.clock == old(db.clock) + |cs|
  {
    var cs := DuplicateCandidates(JoinRows(db.fileHashes, db.files, scanId));
    if cs == [] {
      assert Take(Groups(cs), ReportedGroups) == [];
      return Duplicates(0, 0, 0, []);
    }
    d := StoreGroups(db, scanId, cs);
  }
}

=== FILE: file_scanner.dfy ===
/**
 * The file scanner: a top-down walk of the drive that prunes directories
 * matching a skip pattern, turns each file it reaches into a catalogue record
 * (or counts an error when the file cannot be examined), and keeps running
 * counts of pruned directories and failed files.
 *
 * The directory tree under the drive root is an input value; a file whose
 * status cannot be read carries no `Stat`.
 */
module FileScanning {
  import opened Wrappers
  import opened Text
  import opened Seqs

  /** What `os.stat` reports about a file (times as raw timestamps). */
  datatype Stat = Stat(size: nat, mtime: int, ctime: int, atime: int)

  datatype Entry = Entry(name: string, stat: Option<Stat>)

  datatype Dir = Dir(name: string, files: seq<Entry>, subdirs: seq<Dir>)

  /** One catalogue row, as `_get_file_info` builds it. */
  datatype FileRecord = FileRecord(
    path: string,
    sizeBytes: nat,
    modified: int,
    created: int,
    accessed: int,
    extension: string,
    isHidden: bool,
    isSystem: bool)

  const SkipPatterns: seq<string> :=
    ["$RECYCLE.BIN", "System Volume Information", "$Windows.~BT", "Windows.old", ".Trash", ".cache"]

  /** A directory is pruned when a skip pattern occurs in its name, ignoring case. */
  predicate SkipMatch(name: string)
  {
    exists k :: 0 <= k < |SkipPatterns| && Contains(Lower(name), Lower(SkipPatterns[k]))
  }

  /** `PurePath.suffix`: from the last dot, unless that dot leads or ends the name. */
  function Suffix(name: string): (r: string)
    ensures r == [] || (|r| >= 2 && r[0] == '.' && '.' !in r[1..] && |r| < |name| && r == name[|name| - |r|..])
    ensures r == [] <==> forall i :: 0 < i < |name| - 1 && name[i] == '.' ==> '.' in name[i + 1..]
  {
    match LastIndexOf(name, '.')
    case None => []
    case Some(i) =>
      if 0 < i < |name| - 1 then
        assert name[i..][1..] == name[i + 1..];
        name[i..]
      else
        assert forall j :: 0 < j < |name| - 1 && name[j] == '.' ==> '.' in name[j + 1..] by {
          forall j | 0 < j < |name| - 1 && name[j] == '.' ensures '.' in name[j + 1..] {
            if j != i {
              assert j < i;
              assert name[i] == name[j + 1..][i - j - 1];
            }
          }
        }
        []
  }

  /** The path of a file relative to the drive root: its directories, then its name. */
  function RelativePath(dirs: seq<string>, name: string): string
  {
    Join(dirs + [name], "/")
  }

  /**
   * `_get_file_info`: the record for a file reached under the directories
   * `dirs`, or None when its status cannot be read.
   */
  function GetFileInfo(dirs: seq<string>, e: Entry): (r: Option<FileRecord>)
    ensures r.None? <==> e.stat.None?
    ensures r.Some? ==>
      && r.value.sizeBytes == e.stat.value.size
      && (r.value.isHidden <==> |e.name| > 0 && e.name[0] == '.')
      && !r.value.isSystem
      && |r.value.extension| == |Suffix(e.name)|
      && (r.value.extension == [] || r.value.extension[0] == '.')
  {
    match e.stat
    case None => None
    case Some(st) =>
      Some(FileRecord(
        RelativePath(dirs, e.name), st.size, st.mtime, st.ctime, st.atime,
        Lower(Suffix(e.name)), StartsWith(e.name, "."), false))
  }

  // ---------------------------------------------------------------------
  // The walk, as a specification.

  /** `[d for d in dirs if not skip(d)]` */
  function Pruned(ds: seq<Dir>): (r: seq<Dir>)
    ensures forall x :: x in r ==> x in ds && !SkipMatch(x.name)
    ensures |r| <= |ds|
  {
    if ds == [] then []
    else if SkipMatch(ds[|ds| - 1].name) then Pruned(ds[..|ds| - 1])
    else Pruned(ds[..|ds| - 1]) + [ds[|ds| - 1]]
  }

  /** The files of one directory, each paired with the directories leading to it. */
  function Here(files: seq<Entry>, dirs: seq<string>): (vs: seq<(seq<string>, Entry)>)
    ensures |vs| == |files|
  {
    seq(|files|, k requires 0 <= k < |files| => (dirs, files[k]))
  }

  /** Files the walk reaches, each with the directory names leading to it, in walk order. */
  function Visited(d: Dir, dirs: seq<string>): seq<(seq<string>, Entry)>
  {
    Here(d.files, dirs) + VisitedAll(d.subdirs, dirs)
  }

  function VisitedAll(ds: seq<Dir>, dirs: seq<string>): seq<(seq<string>, Entry)>
  {
    if ds == [] then []
    else
      var last := ds[|ds| - 1];
      VisitedAll(ds[..|ds| - 1], dirs)
        + if SkipMatch(last.name) then [] else Visited(last, dirs + [last.name])
  }

  /** The walk over directories already filtered, in order. */
  function VisitedList(ds: seq<Dir>, dirs: seq<string>): seq<(seq<string>, Entry)>
  {
    if ds == [] then []
    else VisitedList(ds[..|ds| - 1], dirs) + Visited(ds[|ds| - 1], dirs + [ds[|ds| - 1].name])
  }

  /** How many directories the walk prunes. */
  function Skips(d: Dir): nat
  {
    |d.subdirs| - |Pruned(d.subdirs)| + SkipsAll(d.subdirs)
  }

  function SkipsAll(ds: seq<Dir>): nat
  {
    if ds == [] then 0
    else
      var last := ds[|ds| - 1];
      SkipsAll(ds[..|ds| - 1]) + if SkipMatch(last.name) then 0 else Skips(last)
  }

  function SkipsList(ds: seq<Dir>): nat
  {
    if ds == [] then 0 else SkipsList(ds[..|ds| - 1]) + Skips(ds[|ds| - 1])
  }

  /** The records of the files reached, skipping the ones that fail. */
  function Records(vs: seq<(seq<string>, Entry)>): seq<FileRecord>
  {
    if vs == [] then []
    else
      var last := vs[|vs| - 1];
      Records(vs[..|vs| - 1]) + match GetFileInfo(last.0, last.1)
        case None => []
        case Some(rec) => [rec]
  }

  /** How many of the files reached fail. */
  function Failures(vs: seq<(seq<string>, Entry)>): nat
  {
    if vs == [] then 0
    else Failures(vs[..|vs| - 1]) + if vs[|vs| - 1].1.stat.None? then 1 else 0
  }

  /** The records a full `scan` of `tree` yields, in walk order. */
  function WalkRecords(tree: Dir): seq<FileRecord>
  {
    Records(Visited(tree, []))
  }

  /** The sum of the records' sizes. */
  function TotalSize(rs: seq<FileRecord>): (n: nat)
    ensures rs == [] ==> n == 0
  {
    if rs == [] then 0 else TotalSize(rs[..|rs| - 1]) + rs[|rs| - 1].sizeBytes
  }

  lemma TotalSizeStep(records: seq<FileRecord>, i: nat)
    requires i < |records|
    ensures TotalSize(records[..i + 1]) == TotalSize(records[..i]) + records[i].sizeBytes
  {
    assert records[..i + 1][..i] == records[..i];
  }

  // ---------------------------------------------------------------------
  // The scanner.

  class FileScanner {
    /** The tree under the drive path the scanner was created for. */
    const root: Dir
    var skippedCount: nat
    var errorCount: nat
    /** The suspended generator of `scan`: the work ahead, whether it has begun, and whether it shows progress. */
    var work: seq<Task>
    var started: bool
    var progress: bool

    constructor (root: Dir)
      ensures this.root == root && skippedCount == 0 && errorCount == 0
      ensures work == [] && !started && !progress
    {
      this.root := root;
      skippedCount := 0;
      errorCount := 0;
      work := [];
      started := false;
      progress := false;
    }

    /** `_should_skip_directory`: the patterns in order; a match counts once. */
    method ShouldSkipDirectory(name: string) returns (skip: bool)
      modifies this`skippedCount
      ensures skip <==> SkipMatch(name)
      ensures skippedCount == old(skippedCount) + if skip then 1 else 0
      ensures errorCount == old(errorCount)
    {
      var lowered := Lower(name);
      for k := 0 to |SkipPatterns|
        invariant forall j :: 0 <= j < k ==> !Contains(lowered, Lower(SkipPatterns[j]))
        invariant skippedCount == old(skippedCount) && errorCount == old(errorCount)
      {
        if Contains(lowered, Lower(SkipPatterns[k])) {
          skippedCount := skippedCount + 1;
          return true;
        }
      }
      return false;
    }

    /** `dirs[:] = [d for d in dirs if not self._should_skip_directory(d)]` */
    method PruneDirs(ds: seq<Dir>) returns (kept: seq<Dir>)
      modifies this`skippedCount
      ensures kept == Pruned(ds)
      ensures skippedCount == old(skippedCount) + (|ds| - |Pruned(ds)|)
      ensures errorCount == old(errorCount)
    {
      kept := [];
      for k := 0 to |ds|
        invariant kept == Pruned(ds[..k])
        invariant skippedCount == old(skippedCount) + (k - |Pruned(ds[..k])|)
        invariant errorCount == old(errorCount)
      {
        assert ds[..k + 1][..k] == ds[..k];
        var skip := ShouldSkipDirectory(ds[k].name);
        if !skip {
          kept := kept + [ds[k]];
        }
      }
      assert ds[..|ds|] == ds;
    }

    /** One `os.walk` from `d` in `count_files`: the number of files reached. */
    method CountWalk(d: Dir, ghost dirs: seq<string>) returns (count: nat)
      modifies this`skippedCount
      decreases d
      ensures count == |Visited(d, dirs)|
      ensures skippedCount == old(skippedCount) + Skips(d)
      ensures errorCount == old(errorCount)
    {
      var kept := PruneDirs(d.subdirs);
      count := |d.files|;
      for j := 0 to |kept|
        invariant count == |d.files| + |VisitedList(kept[..j], dirs)|
        invariant skippedCount == old(skippedCount) + (|d.subdirs| - |kept|) + SkipsList(kept[..j])
        invariant errorCount == old(errorCount)
      {
        assert kept[j] in d.subdirs;
        assert kept[..j + 1][..j] == kept[..j];
        var n := CountWalk(kept[j], dirs + [kept[j].name]);
        count := count + n;
      }
      assert kept[..|kept|] == kept;
      VisitedPruned(d.subdirs, dirs);
      SkipsPruned(d.subdirs);
    }

    /** `count_files` */
    method CountFiles() returns (count: nat)
      modifies this`skippedCount
      ensures count == |Visited(root, [])|
      ensures skippedCount == old(skippedCount) + Skips(root)
      ensures errorCount == old(errorCount)
    {
      count := CountWalk(root, []);
    }

    /** Calling `scan`: the generator is created, and nothing runs until a record is asked for. */
    method StartScan(showProgress: bool)
      modifies this
      ensures work == [Open(root, [])] && !started && progress == showProgress
      ensures skippedCount == old(skippedCount) && errorCount == old(errorCount)
      ensures Consumed([], skippedCount, errorCount)
    {
      work := [Open(root, [])];
      started := false;
      progress := showProgress;
      Started(root);
    }

    /**
     * `next()` on the generator of `scan`: on the first request, with
     * progress shown, `count_files` walks the whole tree; then the walk
     * resumes where it was suspended, pruning subdirectories as it opens
     * directories and counting the files that fail, up to the next file
     * that yields a record, or to the end of the walk.
     */
    method Next() returns (r: Option<FileRecord>)
      modifies this`work, this`skippedCount, this`errorCount, this`started
      ensures started && progress == old(progress)
      ensures var es := Ahead(old(work)); var n := Step(es);
        && Ahead(work) == es[n..]
        && Records(Reached(es[..n])) == (if r.Some? then [r.value] else [])
        && (r.None? ==> n == |es|)
        && skippedCount == old(skippedCount) + (if !old(started) && progress then Skips(root) else 0) + Prunes(es[..n])
        && errorCount == old(errorCount) + Failures(Reached(es[..n]))
    {
      if !started {
        started := true;
        if progress {
          var total := CountFiles();
        }
      }
      r := Resume();
    }

    /**
     * The generator's loop, resumed: go through the walk until a file
     * yields a record, or to its end.
     */
    method Resume() returns (r: Option<FileRecord>)
      modifies this`work, this`skippedCount, this`errorCount
      ensures var es := Ahead(old(work)); var n := Step(es);
        && Ahead(work) == es[n..]
        && Records(Reached(es[..n])) == (if r.Some? then [r.value] else [])
        && (r.None? ==> n == |es|)
        && skippedCount == old(skippedCount) + Prunes(es[..n])
        && errorCount == old(errorCount) + Failures(Reached(es[..n]))
    {
      ghost var es := Ahead(work);
      ghost var pre: seq<Event> := [];
      Nothing();
      while work != []
        invariant es == pre + Ahead(work) && Step(es) == |pre| + Step(Ahead(work))
        invariant Records(Reached(pre)) == []
        invariant skippedCount == old(skippedCount) + Prunes(pre)
        invariant errorCount == old(errorCount) + Failures(Reached(pre))
        decreases |Ahead(work)|
      {
        var ev, info := Advance();
        Moved(es, pre, ev, Ahead(work));
        pre := pre + [ev];
        if info.Some? {
          return info;
        }
      }
      Ended(es, pre);
      return None;
    }

    /** One step of the suspended walk: open the next directory, or examine the next file. */
    method Advance() returns (ev: Event, r: Option<FileRecord>)
      requires work != []
      modifies this`work, this`skippedCount, this`errorCount
      ensures Ahead(old(work)) == [ev] + Ahead(work)
      ensures r == if Yields(ev) then GetFileInfo(ev.dirs, ev.file) else None
      ensures skippedCount == old(skippedCount) + Pruning(ev)
      ensures errorCount == old(errorCount) + if ev.Reach? && ev.file.stat.None? then 1 else 0
    {
      var t := work[0];
      var rest := work[1..];
      assert Ahead(work) == TaskEvents(t) + Ahead(rest);
      match t
      case Open(d, dirs) =>
        ev := Expand(d, dirs, rest);
        r := None;
      case Examine(dirs, e) =>
        ev := Reach(dirs, e);
        r := GetFileInfo(dirs, e);
        work := rest;
        if r.None? {
          errorCount := errorCount + 1;
        }
    }

    /**
     * `os.walk` opens a directory: its subdirectories are pruned, and its
     * files, then the subdirectories kept, come before the work left.
     */
    method Expand(d: Dir, dirs: seq<string>, rest: seq<Task>) returns (ev: Event)
      modifies this`work, this`skippedCount
      ensures Events(d, dirs) + Ahead(rest) == [ev] + Ahead(work)
      ensures ev.Prune? && skippedCount == old(skippedCount) + ev.n
    {
      var kept := PruneDirs(d.subdirs);
      ev := Prune(|d.subdirs| - |kept|);
      work := Examines(d.files, dirs) + Opens(kept, dirs) + rest;
      Opened(d, dirs, rest);
    }

    /**
     * The generator has gone through `consumed`, the first events of the
     * walk, since `scan` was called with the counts at `skipped0` and `errors0`.
     */
    ghost predicate Consumed(consumed: seq<Event>, skipped0: nat, errors0: nat)
      reads this`work, this`skippedCount, this`errorCount, this`started, this`progress
    {
      && Events(root, []) == consumed + Ahead(work)
      && skippedCount == skipped0 + (if started && progress then Skips(root) else 0) + Prunes(consumed)
      && errorCount == errors0 + Failures(Reached(consumed))
      && (!started ==> consumed == [])
    }

    /** `next()` seen from where the walk began: the events gone through grow by one step. */
    method Pull(ghost consumed: seq<Event>, ghost skipped0: nat, ghost errors0: nat)
      returns (r: Option<FileRecord>, ghost consumed': seq<Event>)
      requires Consumed(consumed, skipped0, errors0)
      modifies this`work, this`skippedCount, this`errorCount, this`started
      ensures Consumed(consumed', skipped0, errors0) && started && progress == old(progress)
      ensures var rest := Ahead(old(work)); consumed' == consumed + rest[..Step(rest)]
      ensures Records(Reached(consumed')) == Records(Reached(consumed)) + if r.Some? then [r.value] else []
      ensures r.None? ==> Ahead(work) == [] && consumed' == Events(root, [])
      ensures r.Some? ==> |Ahead(work)| < |Ahead(old(work))|
    {
      ghost var rest := Ahead(work);
      r := Next();
      ghost var n := Step(rest);
      consumed' := consumed + rest[..n];
      EventsAppend(consumed, rest[..n]);
      SplitAt(rest, n);
      Append3(consumed, rest[..n], rest[n..]);
      if r.Some? {
        assert n != 0;
      } else {
        assert consumed' + rest[n..] == consumed';
      }
    }

    /**
     * A consumer's request for record `i`, all earlier ones answered: it is
     * the walk's next record, or the walk has ended after the `i` records
     * already taken; `gone` becomes the events gone through by `i + 1`
     * requests.
     */
    method Request(ghost i: nat, ghost gone: seq<Event>, ghost skipped0: nat, ghost errors0: nat)
      returns (r: Option<FileRecord>, ghost gone': seq<Event>)
      requires Consumed(gone, skipped0, errors0) && gone == Upto(Events(root, []), i)
      requires i <= |WalkRecords(root)| && Records(Reached(gone)) == WalkRecords(root)[..i]
      modifies this`work, this`skippedCount, this`errorCount, this`started
      ensures Consumed(gone', skipped0, errors0) && gone' == Upto(Events(root, []), i + 1) && started
      ensures r.Some? ==> i < |WalkRecords(root)| && r.value == WalkRecords(root)[i]
      ensures r.Some? ==> Records(Reached(gone')) == WalkRecords(root)[..i + 1]
      ensures r.None? ==> i == |WalkRecords(root)| && gone' == Events(root, [])
    {
      ghost var rest := Ahead(work);
      r, gone' := Pull(gone, skipped0, errors0);
      EventsWalk(root, []);
      Answered(Events(root, []), WalkRecords(root), gone, rest, i, r, gone');
    }

    /** `for file_info in scanner.scan(...)` run to its end: every record of the walk, in order. */
    method Scan(showProgress: bool) returns (records: seq<FileRecord>)
      modifies this
      ensures records == WalkRecords(root)
      ensures errorCount == old(errorCount) + Failures(Visited(root, []))
      ensures skippedCount == old(skippedCount) + (if showProgress then 2 else 1) * Skips(root)
    {
      StartScan(showProgress);
      Begun(root);
      ghost var consumed: seq<Event> := [];
      records := [];
      while true
        invariant Consumed(consumed, old(skippedCount), old(errorCount)) && progress == showProgress
        invariant records == Records(Reached(consumed))
        decreases |Ahead(work)|
      {
        var r;
        r, consumed := Pull(consumed, old(skippedCount), old(errorCount));
        if r.None? {
          break;
        }
        records := records + [r.value];
      }
      EventsWalk(root, []);
      assert consumed == Events(root, []);
    }
  }

  // ---------------------------------------------------------------------
  // The walk as the generator goes through it.

  /** One thing the walk does: opening a directory prunes `n` of its subdirectories; a file is reached. */
  datatype Event = Prune(n: nat) | Reach(dirs: seq<string>, file: Entry)

  /** A file reached that yields a record. */
  predicate Yields(ev: Event)
  {
    ev.Reach? && ev.file.stat.Some?
  }

  /** One `os.walk` from `d`, event by event: prune, the files here, then the kept subdirectories in order. */
  function Events(d: Dir, dirs: seq<string>): seq<Event>
    decreases d, 1
  {
    [Prune(|d.subdirs| - |Pruned(d.subdirs)|)] + Reaches(Here(d.files, dirs)) + EventsAll(d.subdirs, dirs)
  }

  function EventsAll(ds: seq<Dir>, dirs: seq<string>): seq<Event>
    decreases ds, 0
  {
    if ds == [] then []
    else
      var last := ds[|ds| - 1];
      EventsAll(ds[..|ds| - 1], dirs)
        + if SkipMatch(last.name) then [] else Events(last, dirs + [last.name])
  }

  function Reaches(vs: seq<(seq<string>, Entry)>): (es: seq<Event>)
    ensures |es| == |vs|
  {
    seq(|vs|, k requires 0 <= k < |vs| => Reach(vs[k].0, vs[k].1))
  }

  /** The file an event reaches, if any. */
  function Found(ev: Event): seq<(seq<string>, Entry)>
  {
    if ev.Reach? then [(ev.dirs, ev.file)] else []
  }

  /** How many directories an event prunes. */
  function Pruning(ev: Event): nat
  {
    if ev.Prune? then ev.n else 0
  }

  /** The files reached among the events. */
  function Reached(es: seq<Event>): seq<(seq<string>, Entry)>
  {
    if es == [] then [] else Reached(es[..|es| - 1]) + Found(es[|es| - 1])
  }

  /** The directories pruned among the events. */
  function Prunes(es: seq<Event>): nat
  {
    if es == [] then 0 else Prunes(es[..|es| - 1]) + Pruning(es[|es| - 1])
  }

  /** How many events the generator goes through for one record: through the first that yields, or all. */
  function Step(es: seq<Event>): (n: nat)
    ensures n <= |es|
  {
    if es == [] then 0 else if Yields(es[0]) then 1 else 1 + Step(es[1..])
  }

  /**
   * The events gone through once `k` records have been asked for: through
   * the `k`-th that yields, or all of them when the walk has fewer.
   */
  function Upto(es: seq<Event>, k: nat): (r: seq<Event>)
    ensures |r| <= |es| && r == es[..|r|]
  {
    if es == [] || k == 0 then []
    else
      var tail := Upto(es[1..], if Yields(es[0]) then k - 1 else k);
      assert es[1..][..|tail|] == es[1..|tail| + 1];
      [es[0]] + tail
  }

  /** Work a suspended `scan` has yet to do: a directory to open, or a file of an opened directory to examine. */
  datatype Task = Open(d: Dir, dirs: seq<string>) | Examine(dirs: seq<string>, file: Entry)

  function TaskEvents(t: Task): seq<Event>
  {
    match t
    case Open(d, dirs) => Events(d, dirs)
    case Examine(dirs, e) => [Reach(dirs, e)]
  }

  /** The events still ahead of a suspended walk. */
  function Ahead(work: seq<Task>): seq<Event>
  {
    if work == [] then [] else TaskEvents(work[0]) + Ahead(work[1..])
  }

  function Opens(ds: seq<Dir>, dirs: seq<string>): seq<Task>
  {
    seq(|ds|, k requires 0 <= k < |ds| => Open(ds[k], dirs + [ds[k].name]))
  }

  function Examines(files: seq<Entry>, dirs: seq<string>): seq<Task>
  {
    seq(|files|, k requires 0 <= k < |files| => Examine(dirs, files[k]))
  }

  // ---------------------------------------------------------------------
  // Properties of the walk.

  /** Where `scan` starts: nothing gone through yet, the whole walk ahead. */
  lemma Started(root: Dir)
    ensures Events(root, []) == [] + Ahead([Open(root, [])])
    ensures Records(Reached([])) == [] && Prunes([]) == 0 && Failures(Reached([])) == 0
  {
    Begun(root);
    Nothing();
  }

  lemma Begun(root: Dir)
    ensures Ahead([Open(root, [])]) == Events(root, [])
  {
    assert [Open(root, [])][1..] == [];
  }

  lemma {:induction false} AheadAppend(a: seq<Task>, b: seq<Task>)
    ensures Ahead(a + b) == Ahead(a) + Ahead(b)
  {
    if a == [] {
      assert a + b == b;
    } else {
      assert (a + b)[1..] == a[1..] + b;
      AheadAppend(a[1..], b);
    }
  }

  lemma {:induction false} AheadExamines(files: seq<Entry>, dirs: seq<string>)
    ensures Ahead(Examines(files, dirs)) == Reaches(Here(files, dirs))
  {
    if files != [] {
      assert Examines(files, dirs)[1..] == Examines(files[1..], dirs);
      assert Reaches(Here(files, dirs)) == [Reach(dirs, files[0])] + Reaches(Here(files[1..], dirs));
      AheadExamines(files[1..], dirs);
    }
  }

  lemma {:induction false} AheadOpens(ds: seq<Dir>, dirs: seq<string>)
    ensures Ahead(Opens(Pruned(ds), dirs)) == EventsAll(ds, dirs)
  {
    if ds != [] {
      var front, last := ds[..|ds| - 1], ds[|ds| - 1];
      AheadOpens(front, dirs);
      if !SkipMatch(last.name) {
        var one := Open(last, dirs + [last.name]);
        assert Opens(Pruned(ds), dirs) == Opens(Pruned(front), dirs) + [one];
        AheadAppend(Opens(Pruned(front), dirs), [one]);
        assert [one][1..] == [];
      }
    }
  }

  /** Opening a directory: its prune event, then its files, then the kept subdirectories. */
  lemma Opened(d: Dir, dirs: seq<string>, rest: seq<Task>)
    ensures Events(d, dirs) + Ahead(rest)
      == [Prune(|d.subdirs| - |Pruned(d.subdirs)|)]
         + Ahead(Examines(d.files, dirs) + Opens(Pruned(d.subdirs), dirs) + rest)
  {
    var files, opens := Examines(d.files, dirs), Opens(Pruned(d.subdirs), dirs);
    var here, below, after := Reaches(Here(d.files, dirs)), EventsAll(d.subdirs, dirs), Ahead(rest);
    AheadAppend(files + opens, rest);
    AheadAppend(files, opens);
    AheadExamines(d.files, dirs);
    AheadOpens(d.subdirs, dirs);
    Append4([Prune(|d.subdirs| - |Pruned(d.subdirs)|)], here, below, after);
  }

  /**
   * One request answered, as seen on the whole walk `es` and its records
   * `rs`: the generator has gone through one more step, to the next record
   * or to the end.
   */
  lemma Answered(es: seq<Event>, rs: seq<FileRecord>, gone: seq<Event>, rest: seq<Event>, i: nat,
                 r: Option<FileRecord>, gone': seq<Event>)
    requires es == gone + rest && gone == Upto(es, i) && rs == Records(Reached(es))
    requires i <= |rs| && Records(Reached(gone)) == rs[..i]
    requires gone' == gone + rest[..Step(rest)]
    requires Records(Reached(gone')) == Records(Reached(gone)) + if r.Some? then [r.value] else []
    requires r.None? ==> gone' == es
    ensures Upto(es, i + 1) == gone'
    ensures r.Some? ==> i < |rs| && r.value == rs[i] && Records(Reached(gone')) == rs[..i + 1]
    ensures r.None? ==> i == |rs|
  {
    PullStep(es, gone, rest, i);
    if r.Some? {
      AnsweredRecord(es, rs, gone, rest, i, r.value, gone');
    } else {
      assert rs[..i] == rs;
    }
  }

  lemma AnsweredRecord(es: seq<Event>, rs: seq<FileRecord>, gone: seq<Event>, rest: seq<Event>, i: nat,
                       x: FileRecord, gone': seq<Event>)
    requires es == gone + rest && rs == Records(Reached(es))
    requires i <= |rs| && Records(Reached(gone)) == rs[..i]
    requires gone' == gone + rest[..Step(rest)]
    requires Records(Reached(gone')) == Records(Reached(gone)) + [x]
    ensures i < |rs| && x == rs[i] && Records(Reached(gone')) == rs[..i + 1]
  {
    SplitAt(rest, Step(rest));
    Append3(gone, rest[..Step(rest)], rest[Step(rest)..]);
    EventsAppend(gone', rest[Step(rest)..]);
    assert rs == rs[..i] + [x] + Records(Reached(rest[Step(rest)..]));
    assert rs[..i + 1] == rs[..i] + [x];
  }

  lemma PullStep(es: seq<Event>, before: seq<Event>, rest: seq<Event>, i: nat)
    requires es == before + rest && before == Upto(es, i)
    ensures Upto(es, i + 1) == before + rest[..Step(rest)]
  {
    UptoStep(es, i);
    assert es[|before|..] == rest;
  }

  /** The generator's loop goes through one more event. */
  lemma Moved(es: seq<Event>, pre: seq<Event>, ev: Event, after: seq<Event>)
    requires es == pre + ([ev] + after)
    requires Step(es) == |pre| + Step([ev] + after)
    requires Records(Reached(pre)) == []
    ensures es == (pre + [ev]) + after
    ensures Yields(ev) ==> Step(es) == |pre| + 1 && es[..Step(es)] == pre + [ev] && es[Step(es)..] == after
    ensures !Yields(ev) ==> Step(es) == |pre + [ev]| + Step(after)
    ensures Records(Reached(pre + [ev])) == if Yields(ev) then [GetFileInfo(ev.dirs, ev.file).value] else []
    ensures Prunes(pre + [ev]) == Prunes(pre) + Pruning(ev)
    ensures Failures(Reached(pre + [ev])) == Failures(Reached(pre)) + if ev.Reach? && ev.file.stat.None? then 1 else 0
  {
    Went(pre, ev, after);
    Append3(pre, [ev], after);
  }

  lemma Nothing()
    ensures Reached([]) == [] && Prunes([]) == 0 && Records([]) == [] && Failures([]) == 0
  {
  }

  /** The generator's loop has gone through every event. */
  lemma Ended(es: seq<Event>, pre: seq<Event>)
    requires es == pre + Ahead([]) && Step(es) == |pre| + Step(Ahead([]))
    ensures Step(es) == |es| && es[..Step(es)] == pre && es[Step(es)..] == []
  {
  }

  /** Going through one more event. */
  lemma Went(pre: seq<Event>, ev: Event, after: seq<Event>)
    ensures Reached(pre + [ev]) == Reached(pre) + Found(ev)
    ensures Prunes(pre + [ev]) == Prunes(pre) + Pruning(ev)
    ensures Records(Reached(pre + [ev]))
      == Records(Reached(pre)) + if Yields(ev) then [GetFileInfo(ev.dirs, ev.file).value] else []
    ensures Failures(Reached(pre + [ev])) == Failures(Reached(pre)) + if ev.Reach? && ev.file.stat.None? then 1 else 0
    ensures Step([ev] + after) == if Yields(ev) then 1 else 1 + Step(after)
  {
    assert (pre + [ev])[..|pre|] == pre;
    assert ([ev] + after)[1..] == after;
    var vs := Reached(pre);
    if ev.Reach? {
      assert (vs + [(ev.dirs, ev.file)])[..|vs|] == vs;
    } else {
      assert vs + [] == vs;
    }
  }

  lemma {:induction false} ReachedAppend(a: seq<Event>, b: seq<Event>)
    ensures Reached(a + b) == Reached(a) + Reached(b)
  {
    if b == [] {
      assert a + b == a;
    } else {
      var front, last := b[..|b| - 1], b[|b| - 1];
      ReachedAppend(a, front);
      assert (a + b)[..|a + b| - 1] == a + front && (a + b)[|a + b| - 1] == last;
      assert Reached(a + b) == Reached(a) + Reached(front) + Found(last);
      Append3(Reached(a), Reached(front), Found(last));
    }
  }

  lemma {:induction false} PrunesAppend(a: seq<Event>, b: seq<Event>)
    ensures Prunes(a + b) == Prunes(a) + Prunes(b)
  {
    if b == [] {
      assert a + b == a;
    } else {
      var front := b[..|b| - 1];
      PrunesAppend(a, front);
      assert (a + b)[..|a + b| - 1] == a + front;
    }
  }

  lemma EventsAppend(a: seq<Event>, b: seq<Event>)
    ensures Reached(a + b) == Reached(a) + Reached(b)
    ensures Prunes(a + b) == Prunes(a) + Prunes(b)
    ensures Records(Reached(a + b)) == Records(Reached(a)) + Records(Reached(b))
    ensures Failures(Reached(a + b)) == Failures(Reached(a)) + Failures(Reached(b))
  {
    ReachedAppend(a, b);
    PrunesAppend(a, b);
    RecordsAppend(Reached(a), Reached(b));
  }

  lemma {:induction false} ReachedReaches(vs: seq<(seq<string>, Entry)>)
    ensures Reached(Reaches(vs)) == vs && Prunes(Reaches(vs)) == 0
  {
    if vs != [] {
      var front := vs[..|vs| - 1];
      assert Reaches(vs)[..|vs| - 1] == Reaches(front);
      ReachedReaches(front);
      assert vs == front + [vs[|vs| - 1]];
    }
  }

  /** Going through the events of a walk reaches the files `Visited` lists and prunes `Skips` directories. */
  lemma {:induction false} EventsWalk(d: Dir, dirs: seq<string>)
    ensures Reached(Events(d, dirs)) == Visited(d, dirs)
    ensures Prunes(Events(d, dirs)) == Skips(d)
    decreases d, 1
  {
    var head := [Prune(|d.subdirs| - |Pruned(d.subdirs)|)];
    var here, below := Reaches(Here(d.files, dirs)), EventsAll(d.subdirs, dirs);
    assert Events(d, dirs) == head + here + below;
    ReachedAppend(head + here, below);
    ReachedAppend(head, here);
    PrunesAppend(head + here, below);
    PrunesAppend(head, here);
    ReachedReaches(Here(d.files, dirs));
    EventsWalkAll(d.subdirs, dirs);
    assert head[..0] == [];
    assert Reached(head) == [] + Found(head[0]) == [];
    assert Reached(head) + Reached(here) == Here(d.files, dirs);
  }

  lemma {:induction false} EventsWalkAll(ds: seq<Dir>, dirs: seq<string>)
    ensures Reached(EventsAll(ds, dirs)) == VisitedAll(ds, dirs)
    ensures Prunes(EventsAll(ds, dirs)) == SkipsAll(ds)
    decreases ds, 0
  {
    if ds != [] {
      var front, last := ds[..|ds| - 1], ds[|ds| - 1];
      EventsWalkAll(front, dirs);
      if SkipMatch(last.name) {
        assert EventsAll(ds, dirs) == EventsAll(front, dirs);
      } else {
        EventsWalk(last, dirs + [last.name]);
        ReachedAppend(EventsAll(front, dirs), Events(last, dirs + [last.name]));
        PrunesAppend(EventsAll(front, dirs), Events(last, dirs + [last.name]));
      }
    }
  }

  /** Asking for one more record goes through one more step of the walk. */
  lemma {:induction false} UptoStep(es: seq<Event>, i: nat)
    ensures var u := Upto(es, i); var rest := es[|u|..];
      Upto(es, i + 1) == u + rest[..Step(rest)]
  {
    if es != [] {
      var x, t := es[0], es[1..];
      if i == 0 {
        UptoFirst(es);
        assert Upto(es, i) == [] && es[0..] == es;
      } else {
        var k := if Yields(x) then i - 1 else i;
        var u := Upto(t, k);
        assert Upto(es, i) == [x] + u;
        assert Upto(es, i + 1) == [x] + Upto(t, k + 1);
        UptoStep(t, k);
        var rest := t[|u|..];
        assert es[|[x] + u|..] == rest;
        Append3([x], u, rest[..Step(rest)]);
      }
    }
  }

  /** The first request goes through the first step of the walk. */
  lemma {:induction false} UptoFirst(es: seq<Event>)
    ensures Upto(es, 1) == es[..Step(es)]
  {
    if es != [] && !Yields(es[0]) {
      var t := es[1..];
      UptoFirst(t);
      assert Upto(es, 1) == [es[0]] + Upto(t, 1);
      assert es[..1 + Step(t)] == [es[0]] + t[..Step(t)];
    }
  }

  lemma {:induction false} VisitedPruned(ds: seq<Dir>, dirs: seq<string>)
    ensures VisitedAll(ds, dirs) == VisitedList(Pruned(ds), dirs)
  {
    if ds != [] {
      VisitedPruned(ds[..|ds| - 1], dirs);
      var front := Pruned(ds[..|ds| - 1]);
      if !SkipMatch(ds[|ds| - 1].name) {
        assert (front + [ds[|ds| - 1]])[..|front|] == front;
      }
    }
  }

  lemma {:induction false} SkipsPruned(ds: seq<Dir>)
    ensures SkipsAll(ds) == SkipsList(Pruned(ds))
  {
    if ds != [] {
      SkipsPruned(ds[..|ds| - 1]);
      var front := Pruned(ds[..|ds| - 1]);
      if !SkipMatch(ds[|ds| - 1].name) {
        assert (front + [ds[|ds| - 1]])[..|front|] == front;
      }
    }
  }

  lemma {:induction false} RecordsAppend(a: seq<(seq<string>, Entry)>, b: seq<(seq<string>, Entry)>)
    ensures Records(a + b) == Records(a) + Records(b)
    ensures Failures(a + b) == Failures(a) + Failures(b)
  {
    if b != [] {
      RecordsAppend(a, b[..|b| - 1]);
      assert (a + b)[..|a + b| - 1] == a + b[..|b| - 1];
    } else {
      assert a + b == a;
    }
  }

  /** Every file reached yields exactly one record or counts exactly one error. */
  lemma {:induction false} RecordOrError(vs: seq<(seq<string>, Entry)>)
    ensures |Records(vs)| + Failures(vs) == |vs|
  {
    if vs != [] {
      RecordOrError(vs[..|vs| - 1]);
    }
  }

  /** A file reached lies under the starting directories and under no pruned directory. */
  predicate UnderUnpruned(v: (seq<string>, Entry), dirs: seq<string>)
  {
    |dirs| <= |v.0| && v.0[..|dirs|] == dirs
    && forall j :: |dirs| <= j < |v.0| ==> !SkipMatch(v.0[j])
  }

  lemma {:induction false} PrunedNeverVisited(d: Dir, dirs: seq<string>)
    ensures forall v :: v in Visited(d, dirs) ==> UnderUnpruned(v, dirs)
    decreases d, 1
  {
    PrunedNeverVisitedAll(d.subdirs, dirs);
  }

  lemma {:induction false} PrunedNeverVisitedAll(ds: seq<Dir>, dirs: seq<string>)
    ensures forall v :: v in VisitedAll(ds, dirs) ==> UnderUnpruned(v, dirs)
    decreases ds, 0
  {
    if ds != [] {
      var last := ds[|ds| - 1];
      PrunedNeverVisitedAll(ds[..|ds| - 1], dirs);
      if !SkipMatch(last.name) {
        var sub := dirs + [last.name];
        PrunedNeverVisited(last, sub);
        forall v | v in Visited(last, sub) ensures UnderUnpruned(v, dirs) {
          assert UnderUnpruned(v, sub);
          assert v.0[..|dirs|] == sub[..|dirs|];
        }
      }
    }
  }

  /**
   * A record's path lists the directories from the drive root and then the
   * file name: splitting it at '/' gives them back.
   */
  lemma RecordPathSplits(dirs: seq<string>, e: Entry)
    requires e.stat.Some?
    requires forall k :: 0 <= k < |dirs| ==> '/' !in dirs[k]
    requires '/' !in e.name
    ensures Split(GetFileInfo(dirs, e).value.path, '/') == dirs + [e.name]
  {
    var parts := dirs + [e.name];
    assert forall k :: 0 <= k < |parts| ==> '/' !in parts[k] by {
      forall k | 0 <= k < |parts| ensures '/' !in parts[k] {
        if k < |dirs| { assert parts[k] == dirs[k]; }
      }
    }
    SplitJoin(parts, '/');
  }

  /** The recorded extension is the name's suffix, lower-cased. */
  lemma ExtensionIsLowerSuffix(dirs: seq<string>, e: Entry)
    requires e.stat.Some?
    ensures var x := GetFileInfo(dirs, e).value.extension;
      forall i :: 0 <= i < |x| ==> x[i] == LowerChar(e.name[|e.name| - |x| + i])
  {
  }
}

=== FILE: hashing.dfy ===
/**
 * File hashing for duplicate detection: which bytes feed the quick hash and
 * the SHA-256 hash, how the results and errors are reported, the staged
 * duplicate comparison, and the `size:hash` composite key.
 *
 * The digests themselves (MD5 and SHA-256) are parameters: a hasher fed a
 * series of chunks yields the digest of their concatenation, so each method
 * collects the bytes it feeds and applies the digest to them at the end.
 */
module Hashing {
  import opened Wrappers
  import opened Text

  const QuickHashChunkSize: nat := 4096
  const MinSizeForQuickHash: nat := 64
  const Sha256ChunkSize: nat := 65536

  /** The exception classes the hashing functions tell apart. */
  datatype ErrorKind = PermissionDenied | NotFound | OtherOsError | Unexpected

  /** A raised exception: its class and its `str()`. */
  datatype IoError = IoError(kind: ErrorKind, text: string)

  /**
   * A file as the hashing code sees it: `os.path.getsize` fails with
   * `statError` or gives the length of `content`; the first `open` (for the
   * quick hash) fails with `openError`, a second one (for SHA-256) with
   * `reopenError`, or each reads `content`.
   */
  datatype FileView = FileView(statError: Option<IoError>, openError: Option<IoError>,
                               reopenError: Option<IoError>, content: seq<byte>)

  /** The message the `except` clauses return for an error. */
  function ErrorMessage(e: IoError): (m: string)
    ensures m != ""
  {
    match e.kind
    case PermissionDenied => "Permission denied"
    case NotFound => "File not found"
    case OtherOsError => "OS error: " + e.text
    case Unexpected => "Unexpected error: " + e.text
  }

  function Min(a: nat, b: nat): nat
  {
    if a <= b then a else b
  }

  /** `f.read(n)` at position `pos`: at most `n` bytes, fewer at the end of the file. */
  function Read(content: seq<byte>, pos: nat, n: nat): (chunk: seq<byte>)
    requires pos <= |content|
    ensures |chunk| == Min(n, |content| - pos) && chunk == content[pos..pos + |chunk|]
  {
    content[pos..Min(pos + n, |content|)]
  }

  /** The decimal size, as `str(size).encode('utf-8')`. */
  function SizeBytes(size: nat): (r: seq<byte>)
    ensures |r| == |NatToString(size)|
  {
    AsciiBytes(NatToString(size))
  }

  /**
   * What the quick hash digests: the decimal size, then the whole file when
   * it is at most 64 bytes or at most two chunks long, else its first and its
   * last chunk.
   */
  function QuickInput(content: seq<byte>, chunkSize: nat): seq<byte>
  {
    if |content| <= MinSizeForQuickHash || |content| <= 2 * chunkSize then SizeBytes(|content|) + content
    else SizeBytes(|content|) + content[..chunkSize] + content[|content| - chunkSize..]
  }

  /**
   * `compute_quick_hash`: exactly one of hash and error. `fed` is what the
   * MD5 hasher has been given so far: the size, then a file of at most 64
   * bytes whole, else its first chunk and then either its last chunk (when
   * longer than two chunks) or the rest of the file.
   */
  method ComputeQuickHash(file: FileView, chunkSize: nat, md5: seq<byte> -> string)
    returns (hash: Option<string>, error: Option<string>)
    ensures hash.Some? != error.Some?
    ensures file.statError.Some? ==> error == Some(ErrorMessage(file.statError.value))
    ensures file.statError.None? && file.openError.Some? ==> error == Some(ErrorMessage(file.openError.value))
    ensures file.statError.None? && file.openError.None? ==> hash == Some(md5(QuickInput(file.content, chunkSize)))
  {
    if file.statError.Some? {
      return None, Some(ErrorMessage(file.statError.value));
    }
    var content := file.content;
    var size := |content|;
    var fed := SizeBytes(size);
    if file.openError.Some? {
      return None, Some(ErrorMessage(file.openError.value));
    }
    if size <= MinSizeForQuickHash {
      fed := fed + Read(content, 0, size);
      assert content[0..size] == content;
    } else {
      var first := Read(content, 0, chunkSize);
      fed := fed + first;
      if size > chunkSize * 2 {
        var last := Read(content, size - chunkSize, chunkSize);
        fed := fed + last;
        assert first == content[..chunkSize] && last == content[size - chunkSize..];
      } else {
        var rest := Read(content, |first|, size - |first|);
        fed := fed + rest;
        assert first + rest == content;
      }
    }
    assert fed == QuickInput(content, chunkSize);
    return Some(md5(fed)), None;
  }

  /** A file of at most two chunks (or at most 64 bytes) is hashed whole, after its size. */
  lemma SmallFileHashedWhole(content: seq<byte>, chunkSize: nat)
    requires |content| <= 2 * chunkSize || |content| <= MinSizeForQuickHash
    ensures QuickInput(content, chunkSize)[|SizeBytes(|content|)|..] == content
  {
  }

  /**
   * Bytes strictly between the first and the last chunk of a large file never
   * reach the quick hash: two files of the same size that agree on both chunks
   * have the same quick-hash input.
   */
  lemma MiddleBytesIgnored(a: seq<byte>, b: seq<byte>, chunkSize: nat)
    requires |a| == |b| && |a| > 2 * chunkSize && |a| > MinSizeForQuickHash
    requires a[..chunkSize] == b[..chunkSize] && a[|a| - chunkSize..] == b[|b| - chunkSize..]
    ensures QuickInput(a, chunkSize) == QuickInput(b, chunkSize)
  {
  }

  /**
   * `compute_sha256`: exactly one of hash and error. The read loop feeds
   * chunks until a read comes back empty, so a positive chunk size feeds the
   * whole file (a chunk size of 0 reads nothing).
   */
  method ComputeSha256(openError: Option<IoError>, content: seq<byte>, chunkSize: nat, sha256: seq<byte> -> string)
    returns (hash: Option<string>, error: Option<string>)
    ensures hash.Some? != error.Some?
    ensures openError.Some? ==> error == Some(ErrorMessage(openError.value))
    ensures openError.None? && chunkSize > 0 ==> hash == Some(sha256(content))
    ensures openError.None? && chunkSize == 0 ==> hash == Some(sha256([]))
  {
    if openError.Some? {
      return None, Some(ErrorMessage(openError.value));
    }
    var fed: seq<byte> := [];
    var pos := 0;
    while true
      invariant pos <= |content| && fed == content[..pos]
      invariant chunkSize == 0 ==> pos == 0
      decreases |content| - pos
    {
      var chunk := Read(content, pos, chunkSize);
      if chunk == [] {
        break;
      }
      fed := fed + chunk;
      pos := pos + |chunk|;
    }
    assert chunkSize > 0 ==> fed == content;
    return Some(sha256(fed)), None;
  }

  /** `HashResult` */
  datatype HashResult = HashResult(
    filePath: string,
    fileSize: nat,
    quickHash: Option<string>,
    sha256Hash: Option<string>,
    error: Option<string>)

  /**
   * `hash_file`: a size error or a quick-hash error stops with no hash at
   * all; SHA-256 is computed only on request, and its failure is an error
   * beside the quick hash.
   */
  method HashFile(path: string, file: FileView, computeSha256: bool,
                  md5: seq<byte> -> string, sha256: seq<byte> -> string)
    returns (result: HashResult)
    ensures result.filePath == path
    ensures file.statError.Some? ==>
      result == HashResult(path, 0, None, None, Some("Could not get file size: " + file.statError.value.text))
    ensures file.statError.None? ==> result.fileSize == |file.content|
    ensures file.statError.None? && file.openError.Some? ==>
      result.quickHash.None? && result.sha256Hash.None? && result.error == Some(ErrorMessage(file.openError.value))
    ensures file.statError.None? && file.openError.None? ==>
      result.quickHash == Some(md5(QuickInput(file.content, QuickHashChunkSize)))
      && result.sha256Hash == (if computeSha256 && file.reopenError.None? then Some(sha256(file.content)) else None)
      && result.error == (if computeSha256 && file.reopenError.Some?
                          then Some("SHA-256 failed: " + ErrorMessage(file.reopenError.value)) else None)
    ensures result.sha256Hash.Some? ==> result.quickHash.Some? && computeSha256
  {
    result := HashResult(path, 0, None, None, None);
    if file.statError.Some? {
      result := result.(error := Some("Could not get file size: " + file.statError.value.text));
      return;
    }
    result := result.(fileSize := |file.content|);
    var quick, error := ComputeQuickHash(file, QuickHashChunkSize, md5);
    if error.Some? {
      result := result.(error := error);
      return;
    }
    result := result.(quickHash := quick);
    if computeSha256 {
      var sha, shaError := ComputeSha256(file.reopenError, file.content, Sha256ChunkSize, sha256);
      if shaError.Some? {
        result := result.(error := Some("SHA-256 failed: " + shaError.value));
      } else {
        result := result.(sha256Hash := sha);
      }
    }
  }

  /**
   * `files_are_duplicates`: sizes first, then quick hashes, then SHA-256;
   * the first difference or error decides.
   */
  method FilesAreDuplicates(file1: FileView, file2: FileView,
                            md5: seq<byte> -> string, sha256: seq<byte> -> string)
    returns (same: bool, reason: string)
    ensures same <==>
      file1.statError.None? && file2.statError.None? && file1.openError.None? && file2.openError.None?
      && file1.reopenError.None? && file2.reopenError.None?
      && |file1.content| == |file2.content|
      && md5(QuickInput(file1.content, QuickHashChunkSize)) == md5(QuickInput(file2.content, QuickHashChunkSize))
      && sha256(file1.content) == sha256(file2.content)
    ensures file1.statError.None? && file2.statError.None? && |file1.content| != |file2.content| ==>
      reason == "Different file sizes"
    ensures same ==> reason == "SHA-256 match confirmed"
  {
    if file1.statError.Some? {
      return false, "Comparison error: " + file1.statError.value.text;
    }
    if file2.statError.Some? {
      return false, "Comparison error: " + file2.statError.value.text;
    }
    if |file1.content| != |file2.content| {
      return false, "Different file sizes";
    }
    var qh1, err1 := ComputeQuickHash(file1, QuickHashChunkSize, md5);
    var qh2, err2 := ComputeQuickHash(file2, QuickHashChunkSize, md5);
    if err1.Some? || err2.Some? {
      return false, "Hash error: " + (if err1.Some? then err1.value else err2.value);
    }
    if qh1 != qh2 {
      return false, "Quick hash mismatch";
    }
    var sha1, shaErr1 := ComputeSha256(file1.reopenError, file1.content, Sha256ChunkSize, sha256);
    var sha2, shaErr2 := ComputeSha256(file2.reopenError, file2.content, Sha256ChunkSize, sha256);
    if shaErr1.Some? || shaErr2.Some? {
      return false, "SHA-256 error: " + (if shaErr1.Some? then shaErr1.value else shaErr2.value);
    }
    if sha1 == sha2 {
      return true, "SHA-256 match confirmed";
    }
    return false, "SHA-256 mismatch (hash collision in quick hash)";
  }

  /** `generate_composite_key`: `"<size>:<hash>"`. */
  function CompositeKey(fileSize: int, quickHash: string): string
  {
    IntToString(fileSize) + ":" + quickHash
  }

  /**
   * `parse_composite_key`: split at the first ':'; None where Python raises
   * (no ':' at all, or a size part that `int()` rejects).
   */
  function ParseCompositeKey(key: string): (r: Option<(int, string)>)
    ensures r.Some? ==> ':' in key
  {
    match IndexOf(key, ':')
    case None => None
    case Some(i) =>
      match ParseInt(key[..i])
      case None => None
      case Some(size) => Some((size, key[i + 1..]))
  }

  /** The key parses back to the size and the hash, even when the hash holds ':' itself. */
  lemma CompositeKeyRoundTrip(fileSize: int, quickHash: string)
    ensures ParseCompositeKey(CompositeKey(fileSize, quickHash)) == Some((fileSize, quickHash))
  {
    var t := IntToString(fileSize);
    var key := CompositeKey(fileSize, quickHash);
    IntToStringShape(fileSize);
    assert key[|t|] == ':' && key[..|t|] == t;
    assert IndexOf(key, ':') == Some(|t|);
    ParseIntToString(fileSize);
    assert key[|t| + 1..] == quickHash;
  }
}

=== FILE: health.dfy ===
/**
 * Pass 1 of the inspection, the drive health check: chkdsk's verdict and
 * the SMART counters are turned into deductions from a score of 100, the
 * clamped score into a label, and the findings into warnings, errors and
 * recommendations. The chkdsk run and the SMART query are the outcomes of
 * external processes and arrive as inputs.
 */
module Health {
  import opened Wrappers
  import opened Text
  import opened DrivePaths
  import opened Chkdsk
  import opened Catalog

  // ---------------------------------------------------------------- SMART

  /** The statuses the health check accepts as good (compared upper-cased). */
  const GoodStatuses: seq<string> := ["OK", "HEALTHY", "PASS"]

  /**
   * The JSON object the SMART query prints, once decoded. The health status
   * is read with a default, so a missing key and a null differ; for the
   * counters, which are read without one, both are None.
   */
  datatype SmartJson = SmartJson(
    available: bool,
    healthStatus: Field<string>,
    temperature: Option<int>,
    powerOnHours: Option<int>,
    wear: Option<int>,
    readUncorrected: Option<int>,
    writeUncorrected: Option<int>)

  /** How the SMART query ended: its output and, when it is JSON, the decoded object. */
  datatype SmartRun =
    | Printed(stdout: string, decoded: Option<SmartJson>)
    | QueryTimedOut
    | QueryFailed(message: string)

  /** `SmartData`; of the attributes only the wear level is read back. A null health status is None. */
  datatype SmartData = SmartData(
    available: bool,
    healthStatus: Option<string>,
    temperature: Option<int>,
    powerOnHours: Option<int>,
    reallocated: Option<int>,
    pending: Option<int>,
    uncorrectable: Option<int>,
    wear: Option<int>,
    warnings: seq<string>,
    rawOutput: string)

  /** The dataclass defaults: nothing known. */
  const NoSmart := SmartData(false, Some("Unknown"), None, None, None, None, None, None, [], "")

  /** `x and x > bound` for an optional integer. */
  predicate Above(x: Option<int>, bound: int)
  {
    x.Some? && x.value > bound
  }

  /** `x or 0` for an optional integer. */
  function OrZero(x: Option<int>): int
  {
    if x.Some? then x.value else 0
  }

  /** A warning when its condition holds. */
  function Note(c: bool, w: string): (ws: seq<string>)
    ensures w in ws <==> c
    ensures |ws| <= 1
  {
    if c then [w] else []
  }

  /** The warnings `_get_smart_data` derives from the counters, in the order it checks them. */
  function SmartWarnings(status: Option<string>, j: SmartJson): seq<string>
  {
    Note(status.Some? && status.value != "" && Upper(status.value) !in ["HEALTHY", "OK"],
         "Health status: " + status.GetOr(""))
    + Note(Above(j.wear, 80), "High wear level: " + IntToString(OrZero(j.wear)) + "%")
    + Note(Above(j.readUncorrected, 0), "Uncorrected read errors: " + IntToString(OrZero(j.readUncorrected)))
    + Note(Above(j.writeUncorrected, 0), "Uncorrected write errors: " + IntToString(OrZero(j.writeUncorrected)))
    + Note(Above(j.temperature, 55), "High temperature: " + IntToString(OrZero(j.temperature)) + "C")
  }

  /**
   * `_get_smart_data`: nothing is known without a drive letter, outside
   * Windows and WSL, or without PowerShell; otherwise the query's output
   * is kept and, when it decodes to an object that says it is available,
   * the counters are read from it.
   */
  function SmartOf(letter: Option<string>, env: Environment, run: SmartRun): (s: SmartData)
    ensures s.reallocated.None? && s.pending.None?
  {
    if letter.None? || !(env.isWindows || env.isWsl) || !(env.isWindows || env.hasPowershell) then NoSmart
    else match run
      case QueryTimedOut => NoSmart
      case QueryFailed(_) => NoSmart
      case Printed(stdout, decoded) =>
        if Strip(stdout) == "" || decoded.None? || !decoded.value.available then NoSmart.(rawOutput := stdout)
        else
          var j := decoded.value;
          var status := Lookup(j.healthStatus, "Unknown");
          SmartData(true, status, j.temperature, j.powerOnHours, None, None,
                    Some(OrZero(j.readUncorrected) + OrZero(j.writeUncorrected)), j.wear,
                    SmartWarnings(status, j), stdout)
  }

  /** The SMART data is available exactly when the query ran and said so. */
  lemma SmartAvailable(letter: Option<string>, env: Environment, run: SmartRun)
    ensures SmartOf(letter, env, run).available <==>
      && letter.Some? && (env.isWindows || (env.isWsl && env.hasPowershell))
      && run.Printed? && Strip(run.stdout) != "" && run.decoded.Some? && run.decoded.value.available
  {
  }

  /**
   * The counters of available SMART data: uncorrectable sectors are the
   * uncorrected reads plus the uncorrected writes, a missing count being
   * 0; reallocated and pending sectors are never filled in; a temperature
   * above 55 and a wear level above 80 each add a warning.
   */
  lemma SmartCounters(letter: Option<string>, env: Environment, stdout: string, j: SmartJson)
    requires SmartOf(letter, env, Printed(stdout, Some(j))).available
    ensures var s := SmartOf(letter, env, Printed(stdout, Some(j)));
      && s.uncorrectable == Some(OrZero(j.readUncorrected) + OrZero(j.writeUncorrected))
      && s.reallocated.None? && s.pending.None?
      && s.healthStatus == Lookup(j.healthStatus, "Unknown")
      && (Above(j.temperature, 55) ==> "High temperature: " + IntToString(OrZero(j.temperature)) + "C" in s.warnings)
      && (Above(j.wear, 80) ==> "High wear level: " + IntToString(OrZero(j.wear)) + "%" in s.warnings)
  {
    var status := Lookup(j.healthStatus, "Unknown");
    var s := SmartOf(letter, env, Printed(stdout, Some(j)));
    SmartAvailable(letter, env, Printed(stdout, Some(j)));
    assert s == SmartData(true, status, j.temperature, j.powerOnHours, None, None,
                          Some(OrZero(j.readUncorrected) + OrZero(j.writeUncorrected)), j.wear,
                          SmartWarnings(status, j), stdout);
    assert s.warnings == SmartWarnings(status, j);
    var a := Note(status.Some? && status.value != "" && Upper(status.value) !in ["HEALTHY", "OK"],
                  "Health status: " + status.GetOr(""));
    var b := Note(Above(j.wear, 80), "High wear level: " + IntToString(OrZero(j.wear)) + "%");
    var c := Note(Above(j.readUncorrected, 0), "Uncorrected read errors: " + IntToString(OrZero(j.readUncorrected)));
    var d := Note(Above(j.writeUncorrected, 0), "Uncorrected write errors: " + IntToString(OrZero(j.writeUncorrected)));
    var e := Note(Above(j.temperature, 55), "High temperature: " + IntToString(OrZero(j.temperature)) + "C");
    assert s.warnings == a + b + c + d + e;
  }

  // ---------------------------------------------------------------- scoring

  /** What `run_chkdsk` gave the health check: a result, or the exception it raised. */
  datatype ChkdskRun = Ran(result: ChkdskResult) | Raised(message: string)

  /** The recommendations pass 1 can make. */
  datatype Advice =
    | SmartNotAvailable
    | SmartRetrievalFailed(message: string)
    | BackUpImmediately
    | ReplaceForBadSectors
    | RunChkdskFix
    | SmartStatusAdvice(status: string)
    | SsdWear(wear: int)
    | AppearsHealthy

  /** What one step of the check contributes: points off the score, warnings, errors and recommendations. */
  datatype Findings = Findings(deduction: nat, warnings: seq<string>, errors: seq<string>, advice: seq<Advice>)

  /** `min(n * k, cap)` for a positive count, 0 otherwise. */
  function Capped(n: Option<int>, k: nat, cap: nat): (d: nat)
    ensures d <= cap
    ensures Above(n, 0) ==> d == if n.value * k < cap then n.value * k else cap
  {
    if !Above(n, 0) then 0 else if n.value * k < cap then n.value * k else cap
  }

  /**
   * The chkdsk step: a successful run costs 20 when it found errors
   * (whose warnings are taken over) and 30 when it found bad sectors (an
   * error); an unsuccessful run costs 10 and its errors become warnings;
   * an exception costs 15 and is an error.
   */
  function ChkdskFindings(run: ChkdskRun): (f: Findings)
    ensures f.advice == []
    ensures forall k :: 0 <= k < |f.errors| ==> f.errors[k] != ""
  {
    match run
    case Raised(message) => Findings(15, [], ["ChkDsk failed: " + message], [])
    case Ran(r) =>
      if r.success then
        var found := r.parsed.errorsFound;
        var bad := r.parsed.badSectors > 0;
        Findings((if found then 20 else 0) + (if bad then 30 else 0),
                 if found then r.parsed.warnings else [],
                 if bad then ["Bad sectors detected: " + IntToString(r.parsed.badSectors)] else [],
                 [])
      else
        Findings(10, ["ChkDsk did not complete successfully"] + r.errors, [], [])
  }

  /** What Python says when `.upper()` is called on None. */
  const NoUpper := "'NoneType' object has no attribute 'upper'"

  /**
   * The SMART step, when it was not skipped: with data available, a
   * status other than OK, HEALTHY or PASS costs 25, reallocated sectors
   * `min(2n, 20)`, pending sectors `min(3n, 25)` and uncorrectable sectors
   * `min(5n, 30)` (an error; the others are warnings), and the data's own
   * warnings follow; without data, the only finding is the advice that
   * SMART is unavailable. A null status makes `.upper()` raise before any
   * deduction; the exception is caught and only noted as advice.
   */
  function SmartFindings(s: SmartData): (f: Findings)
    ensures forall k :: 0 <= k < |f.errors| ==> f.errors[k] != ""
  {
    if !s.available then Findings(0, [], [], [SmartNotAvailable])
    else if s.healthStatus.None? then Findings(0, [], [], [SmartRetrievalFailed(NoUpper)])
    else
      var status := s.healthStatus.value;
      var bad := Upper(status) !in GoodStatuses;
      Findings((if bad then 25 else 0) + Capped(s.reallocated, 2, 20) + Capped(s.pending, 3, 25)
                 + Capped(s.uncorrectable, 5, 30),
               Note(bad, "SMART health status: " + status)
                 + Note(Above(s.reallocated, 0), "Reallocated sectors: " + IntToString(OrZero(s.reallocated)))
                 + Note(Above(s.pending, 0), "Pending sectors: " + IntToString(OrZero(s.pending)))
                 + s.warnings,
               Note(Above(s.uncorrectable, 0), "Uncorrectable sectors: " + IntToString(OrZero(s.uncorrectable))),
               [])
  }

  /** `max(0, min(100, score))` */
  function Clamp(score: int): (c: int)
    ensures 0 <= c <= 100
    ensures 0 <= score <= 100 ==> c == score
  {
    if score < 0 then 0 else if score > 100 then 100 else score
  }

  /** The score after both steps: 100 less every deduction, clamped. */
  function Score(chkdsk: Findings, smart: Option<Findings>): int
  {
    Clamp(100 - chkdsk.deduction - (if smart.Some? then smart.value.deduction else 0))
  }

  /** Deductions only lower the score, so the clamp only ever lifts a negative score to 0. */
  lemma ScoreIsDeducted(chkdsk: Findings, smart: Option<Findings>)
    ensures var d := chkdsk.deduction + (if smart.Some? then smart.value.deduction else 0);
      Score(chkdsk, smart) == if d <= 100 then 100 - d else 0
  {
  }

  /** chkdsk can take at most 50 points, SMART at most 100. */
  lemma DeductionBounds(run: ChkdskRun, s: SmartData)
    ensures ChkdskFindings(run).deduction <= 50
    ensures SmartFindings(s).deduction <= 100
  {
  }

  /** A clean chkdsk run and no SMART check leave the full score. */
  lemma CleanRunScoresFull(r: ChkdskResult)
    requires r.success && !r.parsed.errorsFound && r.parsed.badSectors <= 0
    ensures Score(ChkdskFindings(Ran(r)), None) == 100
  {
  }

  // ---------------------------------------------------------------- labels

  datatype HealthLabel = Excellent | Good | Fair | Poor | Critical

  /** `_calculate_overall_health` */
  function Label(score: int): HealthLabel
  {
    if score >= 90 then Excellent
    else if score >= 75 then Good
    else if score >= 50 then Fair
    else if score >= 25 then Poor
    else Critical
  }

  /** Labels from worst (0) to best (4). */
  function Rank(l: HealthLabel): nat
  {
    match l
    case Critical => 0
    case Poor => 1
    case Fair => 2
    case Good => 3
    case Excellent => 4
  }

  /** A higher score never gets a worse label. */
  lemma LabelMonotone(a: int, b: int)
    requires a <= b
    ensures Rank(Label(a)) <= Rank(Label(b))
  {
  }

  /** The thresholds: each label covers one band of scores. */
  lemma LabelBands(score: int)
    ensures Label(score) == Excellent <==> score >= 90
    ensures Label(score) == Good <==> 75 <= score < 90
    ensures Label(score) == Fair <==> 50 <= score < 75
    ensures Label(score) == Poor <==> 25 <= score < 50
    ensures Label(score) == Critical <==> score < 25
  {
  }

  // ---------------------------------------------------------------- report

  /** `HealthReport`, without the inspection time and the summary text. */
  datatype HealthReport = HealthReport(
    drivePath: string,
    driveLetter: string,
    overallHealth: HealthLabel,
    healthScore: int,
    chkdsk: Option<ChkdskRun>,
    smart: Option<SmartData>,
    recommendations: seq<Advice>,
    warnings: seq<string>,
    errors: seq<string>)

  /** `run.to_dict()` is a non-empty dict, so it is truthy exactly when chkdsk returned. */
  function ChkdskDict(run: ChkdskRun): Option<ChkdskResult>
  {
    if run.Ran? then Some(run.result) else None
  }

  /** An advice when its condition holds. */
  function Advise(c: bool, a: Advice): (as_: seq<Advice>)
    ensures a in as_ <==> c
    ensures forall x :: x in as_ ==> x == a
  {
    if c then [a] else []
  }

  /** The advice `_generate_recommendations` finds, in the order it checks. */
  function Advised(r: HealthReport): seq<Advice>
  {
    var c := if r.chkdsk.Some? then ChkdskDict(r.chkdsk.value) else None;
    var s := if r.smart.Some? && r.smart.value.available then r.smart else None;
    Advise(r.healthScore < 50, BackUpImmediately)
    + Advise(c.Some? && c.value.parsed.badSectors > 0, ReplaceForBadSectors)
    + Advise(c.Some? && c.value.parsed.errorsFound, RunChkdskFix)
    + Advise(s.Some? && Upper(s.value.healthStatus.GetOr("")) !in GoodStatuses,
             SmartStatusAdvice(Upper(s.GetOr(NoSmart).healthStatus.GetOr(""))))
    + Advise(s.Some? && Above(s.value.wear, 90), SsdWear(OrZero(s.GetOr(NoSmart).wear)))
  }

  /**
   * `_generate_recommendations` reads the stored status back with
   * `.upper()`, so available SMART data with a null status raises there,
   * and nothing catches it.
   */
  predicate AdviceRaises(r: HealthReport)
  {
    r.smart.Some? && r.smart.value.available && r.smart.value.healthStatus.None?
  }

  /**
   * `_generate_recommendations`: the all-clear stands in when nothing else
   * is advised; None when it raises.
   */
  function Recommendations(r: HealthReport): (as_: Option<seq<Advice>>)
    ensures as_.None? <==> AdviceRaises(r)
    ensures as_.Some? ==> as_.value != []
  {
    if AdviceRaises(r) then None
    else
      var found := Advised(r);
      Some(if found == [] then [AppearsHealthy] else found)
  }

  /** A score below 50 always brings the advice to back up first. */
  lemma LowScoreBacksUp(r: HealthReport)
    ensures Recommendations(r).Some? ==> (BackUpImmediately in Recommendations(r).value <==> r.healthScore < 50)
  {
    assert BackUpImmediately in Advised(r) <==> r.healthScore < 50;
  }

  /** The all-clear appears only alone, and never beside a low score. */
  lemma AllClearAlone(r: HealthReport)
    ensures Recommendations(r).Some? ==>
      var rs := Recommendations(r).value;
      && (AppearsHealthy in rs <==> rs == [AppearsHealthy])
      && (AppearsHealthy in rs ==> r.healthScore >= 50)
  {
    assert AppearsHealthy !in Advised(r);
    assert r.healthScore < 50 ==> BackUpImmediately in Advised(r);
  }

  // ---------------------------------------------------------------- the pass

  /** The SMART data `inspect` keeps: none when skipped. */
  function SmartKept(drivePath: string, skipSmart: bool, env: Environment, smartRun: SmartRun): Option<SmartData>
  {
    if skipSmart then None else Some(SmartOf(DriveLetter(drivePath), env, smartRun))
  }

  /**
   * `inspect` raises, after the SMART step, exactly when SMART ran and
   * gave available data with a null status.
   */
  predicate Raises(drivePath: string, skipSmart: bool, env: Environment, smartRun: SmartRun)
  {
    var smart := SmartKept(drivePath, skipSmart, env, smartRun);
    smart.Some? && smart.value.available && smart.value.healthStatus.None?
  }

  /**
   * Available SMART data with a null health status costs no points and adds
   * no warning, only the note that retrieval failed (`inspect` then raises
   * while generating the recommendations).
   */
  lemma NullStatusNoted(s: SmartData)
    requires s.available && s.healthStatus.None?
    ensures SmartFindings(s) == Findings(0, [], [], [SmartRetrievalFailed(NoUpper)])
  {
  }

  /** A status read as "Unknown", as a missing key is, costs 25 points and a warning. */
  lemma UnknownStatusCosts(s: SmartData)
    requires s.available && s.healthStatus == Some("Unknown")
    ensures SmartFindings(s).deduction >= 25
    ensures "SMART health status: " + "Unknown" in SmartFindings(s).warnings
  {
    var u := Upper("Unknown");
    assert u[0] == 'U' && |u| == 7;
    assert u !in GoodStatuses;
  }

  /**
   * What the report of `inspect` holds: the path and its letter, the
   * chkdsk run, the SMART data unless it was skipped, the score after
   * both steps' deductions, clamped, and its label, the steps' warnings
   * and errors in order, and the SMART step's advice followed by the
   * generated recommendations.
   */
  predicate Assessed(report: HealthReport, drivePath: string, chkdsk: ChkdskRun, skipSmart: bool, env: Environment,
                     smartRun: SmartRun)
  {
    var data := SmartKept(drivePath, skipSmart, env, smartRun);
    var smart := if data.Some? then Some(SmartFindings(data.value)) else None;
    && report.drivePath == drivePath && report.driveLetter == DriveLetterShown(drivePath)
    && report.chkdsk == Some(chkdsk)
    && report.smart == data
    && report.healthScore == Score(ChkdskFindings(chkdsk), smart)
    && report.overallHealth == Label(report.healthScore)
    && report.warnings == ChkdskFindings(chkdsk).warnings + (if smart.Some? then smart.value.warnings else [])
    && report.errors == ChkdskFindings(chkdsk).errors + (if smart.Some? then smart.value.errors else [])
    && Recommendations(report).Some?
    && report.recommendations == (if smart.Some? then smart.value.advice else []) + Recommendations(report).value
  }

  /** No error the health check reports is empty text. */
  lemma AssessedErrors(report: HealthReport, drivePath: string, chkdsk: ChkdskRun, skipSmart: bool, env: Environment,
                       smartRun: SmartRun)
    requires Assessed(report, drivePath, chkdsk, skipSmart, env, smartRun)
    ensures forall k :: 0 <= k < |report.errors| ==> report.errors[k] != ""
  {
    var a := ChkdskFindings(chkdsk).errors;
    if !skipSmart {
      var b := SmartFindings(SmartOf(DriveLetter(drivePath), env, smartRun)).errors;
      assert report.errors == a + b;
      forall k | 0 <= k < |report.errors|
        ensures report.errors[k] != ""
      {
        if k >= |a| {
          assert report.errors[k] == b[k - |a|];
        }
      }
    }
  }

  /**
   * The body of `inspect` between starting and recording the pass: the
   * steps lower the score one after another and add to the warnings,
   * errors and recommendations; the score is clamped and labelled. None
   * when generating the recommendations raises.
   */
  method Assess(drivePath: string, chkdsk: ChkdskRun, skipSmart: bool, env: Environment, smartRun: SmartRun)
    returns (outcome: Option<HealthReport>)
    ensures outcome.None? <==> Raises(drivePath, skipSmart, env, smartRun)
    ensures outcome.Some? ==> Assessed(outcome.value, drivePath, chkdsk, skipSmart, env, smartRun)
  {
    var found := ChkdskFindings(chkdsk);
    var score := 100 - found.deduction;
    var warnings := found.warnings;
    var errors := found.errors;
    var advice: seq<Advice> := [];
    var smart: Option<SmartData> := None;
    if !skipSmart {
      var data := SmartOf(DriveLetter(drivePath), env, smartRun);
      smart := Some(data);
      var more := SmartFindings(data);
      score := score - more.deduction;
      warnings := warnings + more.warnings;
      errors := errors + more.errors;
      advice := more.advice;
    }
    score := Clamp(score);
    var report := HealthReport(drivePath, DriveLetterShown(drivePath), Label(score), score, Some(chkdsk), smart,
                               advice, warnings, errors);
    var rest := Recommendations(report);
    if rest.None? {
      return None;
    }
    outcome := Some(report.(recommendations := advice + rest.value));
  }

  /**
   * Recording pass 1 of session `sessionId` once the checks are done: a
   * report is stored, failed exactly when it has errors; after an
   * exception nothing is written and the pass stays running.
   */
  method Finish(db: Database, sessionId: int, outcome: Option<HealthReport>, toJson: HealthReport -> string)
    requires db.Valid()
    requires outcome.Some? ==> forall k :: 0 <= k < |outcome.value.errors| ==> outcome.value.errors[k] != ""
    modifies db`passes, db`clock
    ensures db.Valid()
    ensures match outcome
      case None => db.passes == old(db.passes) && db.clock == old(db.clock)
      case Some(report) =>
        && db.passes == PassCompleted(old(db.passes), |db.sessions|, sessionId, 1, Some(toJson(report)),
                                      FailureMessage(report.errors), old(db.clock))
        && db.clock == old(db.clock) + 1
    ensures outcome.Some? ==>
      match PassIndex(|db.sessions|, sessionId, 1)
      case None => true
      case Some(i) =>
        && db.passes[i].status == (if outcome.value.errors != [] then Failed else Completed)
        && db.passes[i].reportJson == Some(toJson(outcome.value))
        && db.passes[i].errorMessage == FailureMessage(outcome.value.errors)
  {
    if outcome.Some? {
      FailureMessageFails(outcome.value.errors);
      var _ := db.CompletePass(sessionId, 1, Some(toJson(outcome.value)), FailureMessage(outcome.value.errors));
    }
  }

  /**
   * `inspect`: with a store and a truthy session id, pass 1 is started
   * first and, unless the recommendations raise, recorded last with the
   * report, failed exactly when the report has errors. A pass whose
   * inspection raised stays running. Nothing else in the store changes.
   */
  method Inspect(db: Database?, sessionId: Option<int>, drivePath: string, chkdsk: ChkdskRun, skipSmart: bool,
                 env: Environment, smartRun: SmartRun, toJson: HealthReport -> string)
    returns (outcome: Option<HealthReport>)
    requires db != null ==> db.Valid()
    modifies (if db == null then {} else {db})`passes, (if db == null then {} else {db})`sessions,
      (if db == null then {} else {db})`clock
    ensures db != null ==> db.Valid()
    ensures outcome.None? <==> Raises(drivePath, skipSmart, env, smartRun)
    ensures outcome.Some? ==> Assessed(outcome.value, drivePath, chkdsk, skipSmart, env, smartRun)
    ensures db != null && !Given(sessionId) ==>
      db.sessions == old(db.sessions) && db.passes == old(db.passes) && db.clock == old(db.clock)
    ensures db != null && Given(sessionId) ==>
      && db.sessions == AtPass(old(db.sessions), sessionId.value, 1)
      && var started := PassStarted(old(db.passes), |old(db.sessions)|, sessionId.value, 1, old(db.clock));
      match outcome
      case None => db.passes == started && db.clock == old(db.clock) + 1
      case Some(report) =>
        && db.passes == PassRun(old(db.passes), |old(db.sessions)|, sessionId.value, 1, Some(toJson(report)),
                                FailureMessage(report.errors), old(db.clock))
        && db.clock == old(db.clock) + 2
    ensures db != null && Given(sessionId) && outcome.Some? ==>
      match PassIndex(|db.sessions|, sessionId.value, 1)
      case None => true
      case Some(i) =>
        && db.passes[i].status == (if outcome.value.errors != [] then Failed else Completed)
        && db.passes[i].reportJson == Some(toJson(outcome.value))
        && db.passes[i].errorMessage == FailureMessage(outcome.value.errors)
  {
    if db != null && Given(sessionId) {
      var _ := db.StartPass(sessionId.value, 1);
    }
    outcome := Assess(drivePath, chkdsk, skipSmart, env, smartRun);
    if outcome.Some? {
      AssessedErrors(outcome.value, drivePath, chkdsk, skipSmart, env, smartRun);
    }
    if db != null && Given(sessionId) {
      Finish(db, sessionId.value, outcome, toJson);
    }
  }
}

=== FILE: index_summary.dfy ===
/**
 * The summary the Windows Search Index extractor computes over the records it
 * read (`generate_summary_report`): the number of records, their total size,
 * a count per perceived type, and the 20 most frequent extensions and folders.
 */
module IndexSummary {
  import opened Wrappers
  import opened Text
  import opened Dicts
  import opened Sorting

  datatype IndexRecord = IndexRecord(
    size: Field<int>,
    perceivedType: Field<string>,
    extension: Field<string>,
    folder: Field<string>)

  /** `f.get('System.Size', 0) or 0` */
  function SizeOf(f: IndexRecord): int
  {
    if f.size.Present? then f.size.value else 0
  }

  /**
   * `f.get('System.PerceivedType', 'Unknown')`: a missing key counts as
   * 'Unknown', a null value counts under Python's None (here `None`).
   */
  function TypeKey(f: IndexRecord): Option<string>
  {
    match f.perceivedType
    case Missing => Some("Unknown")
    case Null => None
    case Present(t) => Some(t)
  }

  /**
   * `f.get('System.FileExtension', '').lower()` as written: a null value has
   * no `lower`, so the call raises (`None` here).
   */
  function ExtensionAsWritten(f: IndexRecord): Option<string>
  {
    match f.extension
    case Missing => Some("")
    case Null => None
    case Present(e) => Some(Lower(e))
  }

  /** The extension key with a null value read as no extension, like a missing one. */
  function ExtensionKey(f: IndexRecord): string
  {
    if f.extension.Present? then Lower(f.extension.value) else ""
  }

  /** `f.get('System.ItemFolderPathDisplay', '')`, with a null value counted as falsy. */
  function FolderKey(f: IndexRecord): string
  {
    if f.folder.Present? then f.folder.value else ""
  }

  function TotalSize(files: seq<IndexRecord>): int
  {
    if files == [] then 0 else TotalSize(files[..|files| - 1]) + SizeOf(files[|files| - 1])
  }

  /** The key of every record, in order. */
  function TypeKeys(files: seq<IndexRecord>): seq<Option<string>>
  {
    if files == [] then [] else TypeKeys(files[..|files| - 1]) + [TypeKey(files[|files| - 1])]
  }

  /** The non-empty extension keys, in order. */
  function ExtensionKeys(files: seq<IndexRecord>): seq<string>
  {
    if files == [] then []
    else
      var e := ExtensionKey(files[|files| - 1]);
      if e != "" then ExtensionKeys(files[..|files| - 1]) + [e] else ExtensionKeys(files[..|files| - 1])
  }

  /** The non-empty folder keys, in order. */
  function FolderKeys(files: seq<IndexRecord>): seq<string>
  {
    if files == [] then []
    else
      var d := FolderKey(files[|files| - 1]);
      if d != "" then FolderKeys(files[..|files| - 1]) + [d] else FolderKeys(files[..|files| - 1])
  }

  /** `counts[k] = counts.get(k, 0) + 1` for every key in turn. */
  function Tally<K(==)>(keys: seq<K>): Dict<K, int>
  {
    if keys == [] then [] else Add(Tally(keys[..|keys| - 1]), keys[|keys| - 1], 1)
  }

  /**
   * A tally holds every key once, each with its number of occurrences, and
   * its counts add up to the number of keys.
   */
  lemma {:induction false} TallyCounts<K>(keys: seq<K>, k: K)
    ensures UniqueKeys(Tally(keys))
    ensures HasKey(Tally(keys), k) <==> k in keys
    ensures GetOr(Tally(keys), k, 0) == multiset(keys)[k]
    ensures SumValues(Tally(keys)) == |keys|
  {
    if keys != [] {
      var init := keys[..|keys| - 1];
      var last := keys[|keys| - 1];
      TallyCounts(init, k);
      AddGet(Tally(init), last, 1, k);
      AddKeys(Tally(init), last, 1);
      SumAdd(Tally(init), last, 1);
      assert keys == init + [last];
    }
  }

  function Count<K>(e: (K, int)): int
  {
    e.1
  }

  datatype Summary = Summary(
    totalFiles: nat,
    totalSizeBytes: int,
    fileTypes: Dict<Option<string>, int>,
    topExtensions: Dict<string, int>,
    topDirectories: Dict<string, int>)

  /** The report, or `None` for the empty dictionary returned when there are no records. */
  function SummaryOf(files: seq<IndexRecord>): Option<Summary>
  {
    if files == [] then None
    else Some(Summary(
      |files|,
      TotalSize(files),
      SortDesc(Tally(TypeKeys(files)), Count),
      Take(SortDesc(Tally(ExtensionKeys(files)), Count), 20),
      Take(SortDesc(Tally(FolderKeys(files)), Count), 20)))
  }

  lemma TallyStep<K>(keys: seq<K>, k: K)
    ensures Tally(keys + [k]) == Add(Tally(keys), k, 1)
  {
    assert (keys + [k])[..|keys|] == keys;
  }

  lemma KeysStep(files: seq<IndexRecord>, i: nat)
    requires i < |files|
    ensures TypeKeys(files[..i + 1]) == TypeKeys(files[..i]) + [TypeKey(files[i])]
    ensures ExtensionKeys(files[..i + 1]) ==
      if ExtensionKey(files[i]) != "" then ExtensionKeys(files[..i]) + [ExtensionKey(files[i])] else ExtensionKeys(files[..i])
    ensures FolderKeys(files[..i + 1]) ==
      if FolderKey(files[i]) != "" then FolderKeys(files[..i]) + [FolderKey(files[i])] else FolderKeys(files[..i])
  {
    assert files[..i + 1][..i] == files[..i];
  }

  /**
   * The report: nothing for no records, otherwise the counts of the two
   * counting loops, sorted and cut to 20 where the report lists the top ones.
   */
  method GenerateSummaryReport(files: seq<IndexRecord>) returns (r: Option<Summary>)
    ensures r == SummaryOf(files)
  {
    if |files| == 0 {
      return None;
    }
    var fileTypes, extensions := CountTypesAndExtensions(files);
    var directories := CountFolders(files);
    r := Some(Summary(
      |files|,
      TotalSize(files),
      SortDesc(fileTypes, Count),
      Take(SortDesc(extensions, Count), 20),
      Take(SortDesc(directories, Count), 20)));
  }

  /** The first loop: a count per perceived type and per non-empty lower-cased extension. */
  method CountTypesAndExtensions(files: seq<IndexRecord>) returns (fileTypes: Dict<Option<string>, int>, extensions: Dict<string, int>)
    ensures fileTypes == Tally(TypeKeys(files))
    ensures extensions == Tally(ExtensionKeys(files))
  {
    fileTypes := [];
    extensions := [];
    for i := 0 to |files|
      invariant fileTypes == Tally(TypeKeys(files[..i]))
      invariant extensions == Tally(ExtensionKeys(files[..i]))
    {
      var f := files[i];
      var fileType := match f.perceivedType
        case Missing => Some("Unknown")
        case Null => None
        case Present(t) => Some(t);
      var extension := if f.extension.Present? then Lower(f.extension.value) else "";
      KeysStep(files, i);
      TallyStep(TypeKeys(files[..i]), fileType);
      fileTypes := Add(fileTypes, fileType, 1);
      if extension != "" {
        TallyStep(ExtensionKeys(files[..i]), extension);
        extensions := Add(extensions, extension, 1);
      }
    }
    assert files[..|files|] == files;
  }

  /** The second loop: a count per non-empty folder. */
  method CountFolders(files: seq<IndexRecord>) returns (directories: Dict<string, int>)
    ensures directories == Tally(FolderKeys(files))
  {
    directories := [];
    for i := 0 to |files|
      invariant directories == Tally(FolderKeys(files[..i]))
    {
      var folder := if files[i].folder.Present? then files[i].folder.value else "";
      KeysStep(files, i);
      if folder != "" {
        TallyStep(FolderKeys(files[..i]), folder);
        directories := Add(directories, folder, 1);
      }
    }
    assert files[..|files|] == files;
  }

  lemma {:induction false} SumInsert<K>(x: (K, int), s: Dict<K, int>)
    ensures SumValues(InsertDesc(x, s, Count)) == x.1 + SumValues(s)
  {
    if s != [] && Count(s[0]) > Count(x) {
      SumInsert(x, s[1..]);
    }
  }

  /** Sorting a dictionary's items keeps the total of its values. */
  lemma {:induction false} SumSorted<K>(d: Dict<K, int>)
    ensures SumValues(SortDesc(d, Count)) == SumValues(d)
  {
    if d != [] {
      SumSorted(d[1..]);
      SumInsert(d[0], SortDesc(d[1..], Count));
    }
  }

  /**
   * The report's shape: one file per record, type counts that add up to the
   * number of records and hold the same items as the tally, and at most 20
   * extensions and folders, each list in non-increasing count order.
   */
  lemma ReportShape(files: seq<IndexRecord>)
    ensures SummaryOf(files).None? <==> files == []
    ensures SummaryOf(files).Some? ==>
      var s := SummaryOf(files).value;
      s.totalFiles == |files|
      && SumValues(s.fileTypes) == |files|
      && multiset(s.fileTypes) == multiset(Tally(TypeKeys(files)))
      && SortedDesc(s.fileTypes, Count)
      && |s.topExtensions| <= 20 && SortedDesc(s.topExtensions, Count)
      && multiset(s.topExtensions) <= multiset(Tally(ExtensionKeys(files)))
      && |s.topDirectories| <= 20 && SortedDesc(s.topDirectories, Count)
      && multiset(s.topDirectories) <= multiset(Tally(FolderKeys(files)))
  {
    if files != [] {
      TypeKeysLength(files);
      TallyCounts(TypeKeys(files), None);
      SumSorted(Tally(TypeKeys(files)));
      SortDescCorrect(Tally(TypeKeys(files)), Count);
      TopN(Tally(ExtensionKeys(files)), Count, 20);
      TopN(Tally(FolderKeys(files)), Count, 20);
    }
  }

  /**
   * The top lists hold 20 entries, or every entry when there are fewer, and
   * nothing left out of a list counts more than anything in it.
   */
  lemma TopListsAreTop(files: seq<IndexRecord>)
    ensures SummaryOf(files).Some? ==>
      var s := SummaryOf(files).value;
      var exts := Tally(ExtensionKeys(files));
      var dirs := Tally(FolderKeys(files));
      && |s.topExtensions| == (if |exts| < 20 then |exts| else 20)
      && (forall i, j :: 0 <= i < |s.topExtensions| <= j < |exts| ==>
            Count(s.topExtensions[i]) >= Count(SortDesc(exts, Count)[j]))
      && |s.topDirectories| == (if |dirs| < 20 then |dirs| else 20)
      && (forall i, j :: 0 <= i < |s.topDirectories| <= j < |dirs| ==>
            Count(s.topDirectories[i]) >= Count(SortDesc(dirs, Count)[j]))
  {
    TopN(Tally(ExtensionKeys(files)), Count, 20);
    TopN(Tally(FolderKeys(files)), Count, 20);
  }

  lemma {:induction false} TypeKeysLength(files: seq<IndexRecord>)
    ensures |TypeKeys(files)| == |files|
  {
    if files != [] {
      TypeKeysLength(files[..|files| - 1]);
    }
  }

  /** How many records have the given key. */
  function Occurrences<K(==)>(files: seq<IndexRecord>, key: IndexRecord -> K, k: K): nat
  {
    if files == [] then 0
    else Occurrences(files[..|files| - 1], key, k) + (if key(files[|files| - 1]) == k then 1 else 0)
  }

  /** Each perceived type is counted once per record that has it. */
  lemma {:induction false} TypeCounts(files: seq<IndexRecord>, t: Option<string>)
    ensures multiset(TypeKeys(files))[t] == Occurrences(files, TypeKey, t)
  {
    if files != [] {
      TypeCounts(files[..|files| - 1], t);
    }
  }

  /**
   * Each extension is counted once per record that has it, and records
   * without one are not counted.
   */
  lemma {:induction false} ExtensionCounts(files: seq<IndexRecord>, k: string)
    ensures multiset(ExtensionKeys(files))[k] == if k == "" then 0 else Occurrences(files, ExtensionKey, k)
  {
    if files != [] {
      var init := files[..|files| - 1];
      var e := ExtensionKey(files[|files| - 1]);
      ExtensionCounts(init, k);
      if e != "" {
        assert multiset(ExtensionKeys(init) + [e]) == multiset(ExtensionKeys(init)) + multiset{e};
      }
    }
  }

  /**
   * Each folder is counted once per record in it, and records without one
   * are not counted.
   */
  lemma {:induction false} FolderCounts(files: seq<IndexRecord>, k: string)
    ensures multiset(FolderKeys(files))[k] == if k == "" then 0 else Occurrences(files, FolderKey, k)
  {
    if files != [] {
      var init := files[..|files| - 1];
      var d := FolderKey(files[|files| - 1]);
      FolderCounts(init, k);
      if d != "" {
        assert multiset(FolderKeys(init) + [d]) == multiset(FolderKeys(init)) + multiset{d};
      }
    }
  }

  /** Every extension counted is a record's extension in lower case, never empty. */
  lemma {:induction false} ExtensionsLowered(files: seq<IndexRecord>)
    ensures forall e :: e in ExtensionKeys(files) ==> e != "" && forall j :: 0 <= j < |e| ==> !('A' <= e[j] <= 'Z')
  {
    if files != [] {
      ExtensionsLowered(files[..|files| - 1]);
    }
  }

  /**
   * The loop as written stops with an AttributeError at the first record
   * whose extension is null (`None`); otherwise it counts what the corrected
   * key counts.
   */
  function ExtensionTallyAsWritten(files: seq<IndexRecord>): Option<Dict<string, int>>
  {
    if files == [] then Some([])
    else
      match ExtensionTallyAsWritten(files[..|files| - 1])
      case None => None
      case Some(counts) =>
        match ExtensionAsWritten(files[|files| - 1])
        case None => None
        case Some(e) => Some(if e != "" then Add(counts, e, 1) else counts)
  }

  predicate AnyNullExtension(files: seq<IndexRecord>)
  {
    exists i :: 0 <= i < |files| && files[i].extension.Null?
  }

  lemma AnyNullStep(files: seq<IndexRecord>)
    requires files != []
    ensures AnyNullExtension(files) <==> AnyNullExtension(files[..|files| - 1]) || files[|files| - 1].extension.Null?
  {
    var init := files[..|files| - 1];
    if AnyNullExtension(init) {
      var i :| 0 <= i < |init| && init[i].extension.Null?;
      assert files[i] == init[i];
    }
  }

  /**
   * The report as written fails exactly when some record has a null
   * extension, as a folder item does; when it does not fail it agrees with
   * the corrected count.
   */
  lemma {:induction false} NullExtensionRaises(files: seq<IndexRecord>)
    ensures ExtensionTallyAsWritten(files).None? <==> AnyNullExtension(files)
    ensures ExtensionTallyAsWritten(files).Some? ==> ExtensionTallyAsWritten(files).value == Tally(ExtensionKeys(files))
  {
    if files != [] {
      var init := files[..|files| - 1];
      var f := files[|files| - 1];
      NullExtensionRaises(init);
      AnyNullStep(files);
      if ExtensionTallyAsWritten(files).Some? {
        var e := ExtensionKey(f);
        assert ExtensionAsWritten(f) == Some(e);
        if e != "" {
          TallyStep(ExtensionKeys(init), e);
        }
      }
    }
  }

  /** A single folder item, with no size and no extension, stops the report as written. */
  lemma FolderItemRaises()
    ensures ExtensionTallyAsWritten([IndexRecord(Null, Missing, Null, Present("E:\\"))]).None?
    ensures SummaryOf([IndexRecord(Null, Missing, Null, Present("E:\\"))]).Some?
  {
  }
}

=== FILE: metadata_capture.dfy ===
/**
 * Pass 3 of the inspection, metadata capture: enumerate the drive's files
 * into the catalogue while gathering statistics, quick-hash the files
 * large enough to matter, group equal (hash, size) pairs into duplicate
 * groups, look for files that other drives' scans may already hold, and
 * derive recommendations.
 *
 * The store is optional, as in the source: with no database (or no scan
 * id) nothing is written and no hashing happens.
 */
module MetadataCapture {
  import opened Wrappers
  import opened Text
  import opened Dicts
  import opened FileScanning
  import opened Catalog
  import opened FileBatches
  import opened MetadataStats
  import opened Seqs

  const DefaultMinSizeForDuplicate: int := 1024
  const DefaultBatchSize: int := 500

  /** `self.db and scan_id`: a store is present and the scan id is truthy. */
  predicate Storing(db: Database?, scanId: Option<int>)
  {
    db != null && scanId.Some? && scanId.value != 0
  }

  /** How many records the loop takes before an exception at `stopAt` (if any) ends it. */
  function Processed(total: nat, stopAt: Option<nat>): (n: nat)
    ensures n <= total
    ensures n < total <==> stopAt.Some? && stopAt.value < total
  {
    if stopAt.Some? && stopAt.value < total then stopAt.value else total
  }

  /** What `_capture_file_metadata` leaves in the report. */
  datatype Capture = Capture(stats: Stats, filesSkipped: nat, errorsCount: nat, enumerationFailed: bool)

  /**
   * One record of the capture loop: the counters, the tallies, the largest
   * file, the date range and the folders move from the statistics of `rs`
   * to those of `rs + [info]`.
   */
  method Tally(ghost rs: seq<FileRecord>, stats: Stats, seenDirs: set<string>, info: FileRecord)
    returns (stats': Stats, seenDirs': set<string>)
    requires Summarises(stats, rs) && seenDirs == Folders(rs)
    ensures Summarises(stats', rs + [info]) && seenDirs' == Folders(rs + [info])
  {
    TalliesStep(rs, info);
    LargestStep(rs, info);
    DatesStep(rs, info);
    var ext := ExtKey(info);
    var largestSize, largestPath := stats.largestSize, stats.largestPath;
    if info.sizeBytes > largestSize {
      largestSize, largestPath := info.sizeBytes, info.path;
    }
    var oldest, newest := stats.oldest, stats.newest;
    if oldest.None? || info.modified < oldest.value {
      oldest := Some(info.modified);
    }
    if newest.None? || info.modified > newest.value {
      newest := Some(info.modified);
    }
    var folderCount;
    seenDirs', folderCount := NoteFolder(rs, seenDirs, stats.folderCount, info);
    stats' := Stats(stats.filesProcessed + 1, stats.totalSize + info.sizeBytes,
                    Add(stats.extensionCounts, ext, 1), Add(stats.extensionSizes, ext, info.sizeBytes),
                    Add(stats.sizeDistribution, SizeLabel(ClassifySize(info.sizeBytes)), 1),
                    largestSize, largestPath, oldest, newest, folderCount);
  }

  /** A folder is counted the first time a file in it is seen, and never for a file without one. */
  method NoteFolder(ghost rs: seq<FileRecord>, seenDirs: set<string>, folderCount: nat, info: FileRecord)
    returns (seenDirs': set<string>, folderCount': nat)
    requires seenDirs == Folders(rs) && folderCount == |seenDirs|
    ensures seenDirs' == Folders(rs + [info]) && folderCount' == |seenDirs'|
  {
    FoldersStep(rs, info);
    seenDirs', folderCount' := seenDirs, folderCount;
    var dir := Dirname(info.path);
    if dir != "" && dir !in seenDirs {
      seenDirs' := seenDirs + {dir};
      folderCount' := folderCount + 1;
    }
  }

  /**
   * `_capture_file_metadata`: records are asked of the scanner's generator
   * one at a time until the walk ends, or until an exception raised while
   * the generator produces record `stopAt + 1` (if any) ends the enumeration.
   * The skipped and error counts are the scanner's at that point: those of
   * the part of the walk gone through, after a whole-tree count when
   * progress is shown.
   */
  method CaptureFileMetadata(tree: Dir, showProgress: bool, stopAt: Option<nat>, db: Database?, scanId: Option<int>,
                             batchSize: int) returns (c: Capture)
    requires db != null ==> db.Valid()
    modifies (if db == null then {} else {db})`files
    ensures db != null ==> db.Valid()
    ensures c.stats == StatsOf(WalkRecords(tree)[..Processed(|WalkRecords(tree)|, stopAt)])
    ensures c.enumerationFailed <==> stopAt.Some? && stopAt.value < |WalkRecords(tree)|
    ensures var gone := Upto(Events(tree, []), Processed(|WalkRecords(tree)|, stopAt) + 1);
      && c.filesSkipped == (if showProgress then Skips(tree) else 0) + Prunes(gone)
      && c.errorsCount == Failures(Reached(gone))
    ensures !c.enumerationFailed ==>
      c.filesSkipped == (if showProgress then 2 else 1) * Skips(tree) && c.errorsCount == Failures(Visited(tree, []))
    ensures Storing(db, scanId) ==>
      db.files == old(db.files) + Rows(scanId.value, WalkRecords(tree)[..Processed(|WalkRecords(tree)|, stopAt)])
    ensures !Storing(db, scanId) && db != null ==> db.files == old(db.files)
  {
    var scanner := new FileScanner(tree);
    scanner.StartScan(showProgress);
    var records, processed, failed, gone := Enumerate(scanner, stopAt, scanner.skippedCount, scanner.errorCount);
    var stats := CaptureRecords(records, db, scanId, batchSize);
    c := Capture(stats, scanner.skippedCount, scanner.errorCount, failed);
    if !failed {
      EndCounts(tree, showProgress, gone, c.filesSkipped, c.errorsCount);
    }
  }

  /** The counts once the walk has ended: every pruned directory, twice when progress is shown, and every failed file. */
  lemma EndCounts(tree: Dir, showProgress: bool, gone: seq<Event>, skipped: nat, errors: nat)
    requires gone == Events(tree, [])
    requires skipped == (if showProgress then Skips(tree) else 0) + Prunes(gone)
    requires errors == Failures(Reached(gone))
    ensures skipped == (if showProgress then 2 else 1) * Skips(tree) && errors == Failures(Visited(tree, []))
  {
    EventsWalk(tree, []);
  }

  /**
   * The enumeration side of the capture loop: records are asked of the
   * generator one at a time until the walk ends, or until the request for
   * record `stopAt + 1`, which raises; the records taken are those before it.
   */
  method Enumerate(scanner: FileScanner, stopAt: Option<nat>, ghost skipped0: nat, ghost errors0: nat)
    returns (records: seq<FileRecord>, processed: nat, failed: bool, ghost gone: seq<Event>)
    requires scanner.Consumed([], skipped0, errors0)
    modifies scanner`work, scanner`skippedCount, scanner`errorCount, scanner`started
    ensures processed == Processed(|WalkRecords(scanner.root)|, stopAt) && records == WalkRecords(scanner.root)[..processed]
    ensures failed <==> stopAt.Some? && stopAt.value < |WalkRecords(scanner.root)|
    ensures gone == Upto(Events(scanner.root, []), processed + 1)
    ensures scanner.Consumed(gone, skipped0, errors0) && scanner.started
    ensures !failed ==> gone == Events(scanner.root, [])
  {
    records, processed, gone := [], 0, [];
    while true
      invariant processed <= Processed(|WalkRecords(scanner.root)|, stopAt)
      invariant records == WalkRecords(scanner.root)[..processed]
      invariant scanner.Consumed(gone, skipped0, errors0) && gone == Upto(Events(scanner.root, []), processed)
      invariant Records(Reached(gone)) == WalkRecords(scanner.root)[..processed]
      decreases |WalkRecords(scanner.root)| - processed
    {
      var r;
      r, gone := scanner.Request(processed, gone, skipped0, errors0);
      if r.None? {
        failed := false;
        return;
      }
      if stopAt.Some? && stopAt.value == processed {
        failed := true;
        return;
      }
      TakeStep(WalkRecords(scanner.root), processed);
      records := records + [r.value];
      processed := processed + 1;
    }
  }

  /**
   * The body of the capture loop over the records taken: every record
   * updates the statistics; when storing, records are inserted in batches
   * of `batchSize`, and the last partial batch is inserted after the loop
   * even when an exception ended it, so the rows written are exactly the
   * records counted.
   */
  method CaptureRecords(records: seq<FileRecord>, db: Database?, scanId: Option<int>, batchSize: int)
    returns (stats: Stats)
    requires db != null ==> db.Valid()
    modifies (if db == null then {} else {db})`files
    ensures db != null ==> db.Valid()
    ensures stats == StatsOf(records)
    ensures Storing(db, scanId) ==> db.files == old(db.files) + Rows(scanId.value, records)
    ensures !Storing(db, scanId) && db != null ==> db.files == old(db.files)
  {
    var storing := db != null && scanId.Some? && scanId.value != 0;
    stats := Stats(0, 0, [], [], [], 0, "", None, None, 0);
    var seenDirs: set<string> := {};
    var batch: seq<FileRecord> := [];
    ghost var stored: seq<FileRecord> := [];
    ghost var before := if db == null then [] else db.files;
    for i := 0 to |records|
      invariant Holds(records[..i], stats, seenDirs, storing, db, scanId, batchSize, before, stored, batch)
    {
      stats, seenDirs, stored, batch := Absorb(records[..i], stats, seenDirs, storing, db, scanId, batchSize, before,
                                               stored, batch, records[i]);
      TakeStep(records, i);
    }
    assert records[..|records|] == records;
    Finish(records, stats, seenDirs, storing, db, scanId, batchSize, before, stored, batch);
  }

  /**
   * After the capture loop: the statistics are those of the records taken,
   * and when storing, the partial batch left is inserted, so the rows
   * written are exactly those records.
   */
  method Finish(ghost taken: seq<FileRecord>, stats: Stats, seenDirs: set<string>, storing: bool, db: Database?,
                scanId: Option<int>, batchSize: int, ghost before: seq<FileRow>, ghost stored: seq<FileRecord>,
                batch: seq<FileRecord>)
    requires Holds(taken, stats, seenDirs, storing, db, scanId, batchSize, before, stored, batch)
    modifies (if db == null then {} else {db})`files
    ensures stats == StatsOf(taken)
    ensures db != null ==> db.Valid()
    ensures Storing(db, scanId) ==> db.files == before + Rows(scanId.value, taken)
    ensures !Storing(db, scanId) && db != null ==> db.files == before
  {
    SummarisesStatsOf(stats, taken);
    if storing && batch != [] {
      db.InsertFilesBatch(scanId.value, batch);
    }
    if storing {
      LastFlush(before, scanId.value, stored, batch);
    }
  }

  /**
   * What the capture loop keeps once it has taken `taken`: the statistics
   * and folders of those records and, when storing, the rows of the
   * batches inserted so far after the rows `before` the loop found.
   */
  ghost predicate Holds(taken: seq<FileRecord>, stats: Stats, seenDirs: set<string>, storing: bool, db: Database?,
                        scanId: Option<int>, batchSize: int, before: seq<FileRow>, stored: seq<FileRecord>,
                        batch: seq<FileRecord>)
    reads db
  {
    && Summarises(stats, taken) && seenDirs == Folders(taken)
    && (db != null ==> db.Valid())
    && (storing <==> Storing(db, scanId))
    && (storing ==> |batch| < Capacity(batchSize) && Flushed(|taken|, batchSize) == |stored|)
    && (storing ==> stored + batch == taken && db.files == before + Rows(scanId.value, stored))
    && (!storing ==> batch == [] && (db != null ==> db.files == before))
  }

  /** The capture loop's body for one record: it is tallied and, when storing, batched. */
  method Absorb(ghost taken: seq<FileRecord>, stats: Stats, seenDirs: set<string>, storing: bool, db: Database?,
                scanId: Option<int>, batchSize: int, ghost before: seq<FileRow>, ghost stored: seq<FileRecord>,
                batch: seq<FileRecord>, info: FileRecord)
    returns (stats': Stats, seenDirs': set<string>, ghost stored': seq<FileRecord>, batch': seq<FileRecord>)
    requires Holds(taken, stats, seenDirs, storing, db, scanId, batchSize, before, stored, batch)
    modifies (if db == null then {} else {db})`files
    ensures Holds(taken + [info], stats', seenDirs', storing, db, scanId, batchSize, before, stored', batch')
  {
    stats', seenDirs' := Tally(taken, stats, seenDirs, info);
    stored', batch' := stored, batch;
    if storing {
      Regroup(stored, batch, info);
      stored', batch' := Collect(db, scanId.value, batchSize, before, stored, batch, info);
    }
  }


}

=== FILE: metadata_inspection.dfy ===
/**
 * The metadata pass as a whole (`MetadataCapture.inspect`): mark pass 3
 * running, find or create the scan, capture the files, hash and group
 * duplicates when a store and a scan are there, look for files other
 * drives may already hold, derive the recommendations, close the scan and
 * record the pass.
 *
 * The store is optional. The drive tree, the point where enumeration
 * raises (if it does) and that exception's text, the file contents, the
 * digest, the time stamp of a temporary drive's serial and the JSON
 * rendering of the report are inputs.
 */
module MetadataInspection {
  import opened Wrappers
  import opened Text
  import opened Dicts
  import opened Sorting
  import opened DrivePaths
  import opened FileScanning
  import opened Catalog
  import opened Hashing
  import opened MetadataStats
  import opened MetadataCapture
  import opened QuickHashes
  import opened DuplicateGroups

  const GiB: int := 1024 * 1024 * 1024
  const CrossScanSamples: nat := 20
  const TopExtensionCount: nat := 5

  /** One cross-scan candidate as the report shows it. */
  datatype Sample = Sample(newFile: string, existingFile: string, existingDrive: Option<string>, sizeBytes: nat)

  /** An entry of the report's `duplicate_groups` list. */
  datatype Entry = GroupEntry(group: Group) | CrossScanEntry(count: nat, samples: seq<Sample>)

  datatype Warning = MayDuplicateOtherDrives(count: nat)

  /** The kinds of recommendation the pass makes, with the figures they quote. */
  datatype Recommendation =
    | ReviewDuplicates(wastedBytes: int)
    | ManyDuplicateGroups(groups: nat)
    | CleanUpTemporaryFiles
    | ReviewBackupFiles
    | FilesSpan(oldest: int, newest: int)
    | HighErrorRate(errors: nat)
    | ReviewCrossDriveDuplicates(count: nat)
    | NoIssues

  datatype MetadataReport = MetadataReport(
    drivePath: string,
    driveLetter: string,
    scanId: Option<int>,
    capture: Capture,
    filesHashed: nat,
    duplicates: Duplicates,
    crossScanDuplicates: nat,
    entries: seq<Entry>,
    errors: seq<string>,
    warnings: seq<Warning>,
    recommendations: seq<Recommendation>)

  function SampleOf(p: PotentialDuplicate): Sample
  {
    Sample(p.newPath, p.existingPath, p.existingDrive, p.sizeBytes)
  }

  function Samples(ps: seq<PotentialDuplicate>): (r: seq<Sample>)
    ensures |r| == |ps|
  {
    seq(|ps|, k requires 0 <= k < |ps| => SampleOf(ps[k]))
  }

  /** The summary loop over the first candidates. */
  method SampleCandidates(ps: seq<PotentialDuplicate>) returns (samples: seq<Sample>)
    ensures samples == Samples(ps)
  {
    samples := [];
    var i := 0;
    while i < |ps|
      invariant i <= |ps|
      invariant |samples| == i && forall k :: 0 <= k < i ==> samples[k] == SampleOf(ps[k])
    {
      samples := samples + [SampleOf(ps[i])];
      i := i + 1;
    }
  }

  function GroupEntries(gs: seq<Group>): (r: seq<Entry>)
    ensures |r| == |gs|
  {
    seq(|gs|, k requires 0 <= k < |gs| => GroupEntry(gs[k]))
  }

  /** The report's cross-scan figures for the candidates `ps`, after the entries `before`. */
  predicate CrossScanShown(ps: seq<PotentialDuplicate>, before: seq<Entry>, count: nat, warnings: seq<Warning>,
                           entries: seq<Entry>)
  {
    && count == |ps|
    && (ps == [] ==> warnings == [] && entries == before)
    && (ps != [] ==> warnings == [MayDuplicateOtherDrives(|ps|)]
                     && entries == before + [CrossScanEntry(|ps|, Samples(Take(ps, CrossScanSamples)))])
  }

  /**
   * `_find_cross_scan_duplicates`: with candidates from other scans, their
   * number is reported, a warning is added, and an entry with the first 20
   * is appended; with none, nothing changes.
   */
  method FindCrossScanDuplicates(db: Database, scanId: int, minSize: int, entries: seq<Entry>)
    returns (count: nat, warnings: seq<Warning>, entries': seq<Entry>)
    ensures CrossScanShown(db.FindPotentialDuplicates(scanId, minSize), entries, count, warnings, entries')
  {
    var ps := db.FindPotentialDuplicates(scanId, minSize);
    count, warnings, entries' := 0, [], entries;
    if ps != [] {
      count := |ps|;
      warnings := [MayDuplicateOtherDrives(|ps|)];
      var samples := SampleCandidates(Take(ps, CrossScanSamples));
      entries' := entries + [CrossScanEntry(|ps|, samples)];
    }
  }

  /**
   * `_find_cross_scan_duplicates` over the query as written: the query
   * raises, the exception is logged as a warning of the log (not of the
   * report), and the report is left with no cross-scan figures at all.
   */
  method FindCrossScanDuplicatesAsWritten(db: Database, scanId: int, minSize: int, entries: seq<Entry>)
    returns (count: nat, warnings: seq<Warning>, entries': seq<Entry>)
    ensures count == 0 && warnings == [] && entries' == entries
  {
    count, warnings, entries' := 0, [], entries;
    var found := db.FindPotentialDuplicatesAsWritten(scanId, minSize);
    if found.Some? {
      count, warnings, entries' := FindCrossScanDuplicates(db, scanId, minSize, entries);
    }
  }

  /**
   * A file of the scan with the size and name of a file of another scan
   * is a candidate the corrected query reports, while the query as
   * written raises and the report shows no cross-scan candidates.
   */
  lemma CrossScanLostAsWritten(db: Database, scanId: int, minSize: int, i: nat, j: nat)
    requires i < |db.files| && j < |db.files| && Joins(db.files, db.scans, db.drives, scanId, minSize, i, j)
    ensures db.FindPotentialDuplicatesAsWritten(scanId, minSize).None?
    ensures db.FindPotentialDuplicates(scanId, minSize) != []
  {
    PairsComplete(db.files, db.scans, db.drives, scanId, minSize, |db.files|, i, j);
  }

  // ---------------------------------------------------------------------
  // Recommendations.

  function ExtensionCount(e: (string, int)): int
  {
    e.1
  }

  /** The five extensions with the most files, most first (ties in first-seen order). */
  function TopExtensions(counts: Dict<string, int>): seq<(string, int)>
  {
    Take(SortDesc(counts, ExtensionCount), TopExtensionCount)
  }

  /** `errors_count > files_processed * 0.1`, in exact arithmetic. */
  predicate HighErrors(errors: nat, processed: nat)
  {
    10 * errors > processed
  }

  /** A recommendation when its condition holds. */
  function When(c: bool, rec: Recommendation): (rs: seq<Recommendation>)
    ensures rec in rs <==> c
    ensures forall x :: x in rs ==> x == rec
  {
    if c then [rec] else []
  }

  /** The recommendations whose conditions hold, in the order they are checked. */
  function Found(r: MetadataReport): seq<Recommendation>
  {
    var stats := r.capture.stats;
    var top := Keys(TopExtensions(stats.extensionCounts));
    When(r.duplicates.totalWastedBytes > GiB, ReviewDuplicates(r.duplicates.totalWastedBytes))
    + When(r.duplicates.groupsFound > 100, ManyDuplicateGroups(r.duplicates.groupsFound))
    + When(".tmp" in top, CleanUpTemporaryFiles)
    + When(".bak" in top, ReviewBackupFiles)
    + When(stats.oldest.Some? && stats.newest.Some?, FilesSpan(stats.oldest.GetOr(0), stats.newest.GetOr(0)))
    + When(HighErrors(r.capture.errorsCount, stats.filesProcessed), HighErrorRate(r.capture.errorsCount))
    + When(r.crossScanDuplicates > 0, ReviewCrossDriveDuplicates(r.crossScanDuplicates))
  }

  /** `_generate_recommendations`: the no-issues note stands in when no condition holds. */
  function Recommendations(r: MetadataReport): (rs: seq<Recommendation>)
    ensures rs != []
  {
    var found := Found(r);
    if found == [] then [NoIssues] else found
  }

  // Each recommendation appears exactly when its condition holds.

  lemma RecommendDuplicates(r: MetadataReport)
    ensures ReviewDuplicates(r.duplicates.totalWastedBytes) in Recommendations(r) <==> r.duplicates.totalWastedBytes > GiB
    ensures ManyDuplicateGroups(r.duplicates.groupsFound) in Recommendations(r) <==> r.duplicates.groupsFound > 100
  {
  }

  lemma RecommendExtensions(r: MetadataReport)
    ensures CleanUpTemporaryFiles in Recommendations(r) <==> ".tmp" in Keys(TopExtensions(r.capture.stats.extensionCounts))
    ensures ReviewBackupFiles in Recommendations(r) <==> ".bak" in Keys(TopExtensions(r.capture.stats.extensionCounts))
  {
  }

  lemma RecommendDates(r: MetadataReport)
    ensures r.capture.stats.oldest.Some? && r.capture.stats.newest.Some? ==>
      FilesSpan(r.capture.stats.oldest.value, r.capture.stats.newest.value) in Recommendations(r)
    ensures r.capture.stats.oldest.None? || r.capture.stats.newest.None? ==>
      forall x :: x in Recommendations(r) ==> !x.FilesSpan?
  {
  }

  lemma RecommendErrors(r: MetadataReport)
    ensures HighErrorRate(r.capture.errorsCount) in Recommendations(r)
      <==> HighErrors(r.capture.errorsCount, r.capture.stats.filesProcessed)
    ensures ReviewCrossDriveDuplicates(r.crossScanDuplicates) in Recommendations(r) <==> r.crossScanDuplicates > 0
  {
  }

  /** The no-issues note appears only alone, and exactly when no condition holds. */
  lemma RecommendNoIssues(r: MetadataReport)
    ensures NoIssues in Recommendations(r) <==> Recommendations(r) == [NoIssues]
    ensures NoIssues in Recommendations(r) <==>
      && r.duplicates.totalWastedBytes <= GiB && r.duplicates.groupsFound <= 100
      && ".tmp" !in Keys(TopExtensions(r.capture.stats.extensionCounts))
      && ".bak" !in Keys(TopExtensions(r.capture.stats.extensionCounts))
      && !(r.capture.stats.oldest.Some? && r.capture.stats.newest.Some?)
      && !HighErrors(r.capture.errorsCount, r.capture.stats.filesProcessed)
      && r.crossScanDuplicates == 0
  {
    FoundNoNote(r);
    FoundNone(r);
  }

  lemma FoundNoNote(r: MetadataReport)
    ensures NoIssues !in Found(r)
  {
    var stats := r.capture.stats;
    var top := Keys(TopExtensions(stats.extensionCounts));
    var w1 := When(r.duplicates.totalWastedBytes > GiB, ReviewDuplicates(r.duplicates.totalWastedBytes));
    var w2 := When(r.duplicates.groupsFound > 100, ManyDuplicateGroups(r.duplicates.groupsFound));
    var w3 := When(".tmp" in top, CleanUpTemporaryFiles);
    var w4 := When(".bak" in top, ReviewBackupFiles);
    var w5 := When(stats.oldest.Some? && stats.newest.Some?, FilesSpan(stats.oldest.GetOr(0), stats.newest.GetOr(0)));
    var w6 := When(HighErrors(r.capture.errorsCount, stats.filesProcessed), HighErrorRate(r.capture.errorsCount));
    var w7 := When(r.crossScanDuplicates > 0, ReviewCrossDriveDuplicates(r.crossScanDuplicates));
    assert Found(r) == w1 + w2 + w3 + w4 + w5 + w6 + w7;
    assert NoIssues !in w1 && NoIssues !in w2 && NoIssues !in w3 && NoIssues !in w4;
    assert NoIssues !in w5 && NoIssues !in w6 && NoIssues !in w7;
  }

  lemma FoundNone(r: MetadataReport)
    ensures Found(r) == [] <==>
      && r.duplicates.totalWastedBytes <= GiB && r.duplicates.groupsFound <= 100
      && ".tmp" !in Keys(TopExtensions(r.capture.stats.extensionCounts))
      && ".bak" !in Keys(TopExtensions(r.capture.stats.extensionCounts))
      && !(r.capture.stats.oldest.Some? && r.capture.stats.newest.Some?)
      && !HighErrors(r.capture.errorsCount, r.capture.stats.filesProcessed)
      && r.crossScanDuplicates == 0
  {
    var stats := r.capture.stats;
    var top := Keys(TopExtensions(stats.extensionCounts));
    var w1 := When(r.duplicates.totalWastedBytes > GiB, ReviewDuplicates(r.duplicates.totalWastedBytes));
    var w2 := When(r.duplicates.groupsFound > 100, ManyDuplicateGroups(r.duplicates.groupsFound));
    var w3 := When(".tmp" in top, CleanUpTemporaryFiles);
    var w4 := When(".bak" in top, ReviewBackupFiles);
    var w5 := When(stats.oldest.Some? && stats.newest.Some?, FilesSpan(stats.oldest.GetOr(0), stats.newest.GetOr(0)));
    var w6 := When(HighErrors(r.capture.errorsCount, stats.filesProcessed), HighErrorRate(r.capture.errorsCount));
    var w7 := When(r.crossScanDuplicates > 0, ReviewCrossDriveDuplicates(r.crossScanDuplicates));
    assert Found(r) == w1 + w2 + w3 + w4 + w5 + w6 + w7;
    assert |Found(r)| == |w1| + |w2| + |w3| + |w4| + |w5| + |w6| + |w7|;
  }

  // ---------------------------------------------------------------------
  // The pass.

  /** The temporary drive recorded when the scan has no drive to hang on. */
  function TemporaryDrive(stamp: string, drivePath: string): (d: DriveInfo)
    ensures d.serialNumber == "TEMP-" + stamp
  {
    DriveInfo("TEMP-" + stamp, Some("Drive at " + drivePath), None, None, None, None, None, None, None, None, None, None)
  }

  /** The drive of session `s`, when the session exists and names one. */
  function SessionDrive(sessions: seq<SessionRow>, s: Option<int>): int
  {
    if Given(s) && 1 <= s.value <= |sessions| then sessions[s.value - 1].driveId else 0
  }

  /**
   * The scan the pass writes to: the one given, or a new scan of the
   * session's drive, or of a temporary drive when there is none.
   */
  method ResolveScan(db: Database, drivePath: string, sessionId: Option<int>, scanId: Option<int>, stamp: string)
    returns (scan: Option<int>)
    requires db.Valid()
    modifies db`drives, db`scans, db`clock
    ensures db.Valid()
    ensures scanId.Some? ==> scan == scanId && db.scans == old(db.scans) && db.drives == old(db.drives)
    ensures scanId.None? ==>
      && scan == Some(|old(db.scans)| + 1)
      && |db.scans| == |old(db.scans)| + 1 && db.scans[..|old(db.scans)|] == old(db.scans)
      && db.scans[|old(db.scans)|].mountPoint == drivePath && db.scans[|old(db.scans)|].status == InProgress
    ensures scanId.None? && SessionDrive(old(db.sessions), sessionId) != 0 ==>
      db.drives == old(db.drives) && db.scans[|old(db.scans)|].driveId == SessionDrive(old(db.sessions), sessionId)
    ensures scanId.None? && SessionDrive(old(db.sessions), sessionId) == 0 ==>
      var upsert := UpsertDrive(old(db.drives), TemporaryDrive(stamp, drivePath), old(db.clock));
      db.drives == upsert.0 && db.scans[|old(db.scans)|].driveId == upsert.1
  {
    scan := scanId;
    if scanId.None? {
      var driveId := 0;
      if Given(sessionId) {
        var inspection := db.GetInspection(sessionId.value);
        if inspection.Some? {
          driveId := inspection.value.0.driveId;
        }
      }
      if driveId == 0 {
        driveId := db.InsertDrive(TemporaryDrive(stamp, drivePath));
      }
      var id := db.StartScan(driveId, drivePath);
      scan := Some(id);
    }
  }

  /** The error list after capture: the enumeration error, if there was one. */
  function CaptureErrors(c: Capture, message: string): (errors: seq<string>)
    ensures errors != [] <==> c.enumerationFailed
    ensures errors != [] ==> Join(errors, "; ") != ""
  {
    if c.enumerationFailed then ["File enumeration error: " + message] else []
  }

  /** The tables of a store at one moment, as one value. */
  datatype Tables = Tables(drives: seq<DriveRow>, scans: seq<ScanRow>, files: seq<FileRow>, hashes: seq<HashRow>,
                           groups: seq<GroupRow>, members: seq<MemberRow>, sessions: seq<SessionRow>,
                           passes: seq<PassRow>, decisions: seq<DecisionRow>, clock: nat)

  ghost function TablesOf(db: Database): Tables
    reads db
  {
    Tables(db.drives, db.scans, db.files, db.fileHashes, db.duplicateGroups, db.duplicateMembers, db.sessions,
           db.passes, db.decisions, db.clock)
  }

  /**
   * The tables after the hashing phases of scan `s`, from hash, group and
   * member rows `t0`: the hash rows grow by the quick hashes of the scan's
   * queue, the group and member rows by the scan's duplicate groups (each
   * new group stamped one tick after the one before).
   */
  ghost predicate HashedInto(t0: Tables, t: Tables, s: int, minSize: int, fileAt: string -> FileView,
                             md5: seq<byte> -> string)
  {
    var cs := DuplicateCandidates(JoinRows(t.hashes, t.files, s));
    && t0.hashes <= t.hashes
    && HashKeys(t.hashes) == HashKeys(t0.hashes) + Hashed(HashQueue(t.files, s, minSize), s, fileAt, md5)
    && (exists time :: t.groups == t0.groups + GroupRowsOf(cs, time))
    && t.members == t0.members + MemberRowsOf(cs, |t0.groups| + 1, s)
  }

  /** No hash, group or member rows added. */
  ghost predicate NotHashed(t0: Tables, t: Tables)
  {
    t.hashes == t0.hashes && t.groups == t0.groups && t.members == t0.members
  }

  /**
   * What the report says about the duplicate phases, in terms of the store
   * they read: with a truthy scan id and hashing on, the number of files
   * hashed and the duplicate groups of the scan; with a truthy scan id,
   * the cross-scan candidates of the scan, and the entries and warnings
   * they add after one entry per reported group.
   */
  ghost predicate Analysed(report: MetadataReport, db: Database, enableHashing: bool, minSize: int,
                     fileAt: string -> FileView, md5: seq<byte> -> string)
    reads db`files, db`fileHashes, db`scans, db`drives
  {
    Given(report.scanId) ==>
      var s := report.scanId.value;
      && (enableHashing ==>
            && report.filesHashed == |Hashed(HashQueue(db.files, s, minSize), s, fileAt, md5)|
            && report.duplicates == DuplicatesOf(DuplicateCandidates(JoinRows(db.fileHashes, db.files, s))))
      && CrossScanShown(db.FindPotentialDuplicates(s, minSize), GroupEntries(report.duplicates.reported),
                        report.crossScanDuplicates, report.warnings, report.entries)
  }

  /** Quick hashes of the scan's files, then its duplicate groups. */
  method HashAndGroup(db: Database, scanId: int, minSize: int, batchSize: int, fileAt: string -> FileView,
                      md5: seq<byte> -> string)
    returns (filesHashed: nat, duplicates: Duplicates)
    requires db.Valid()
    modifies db`fileHashes, db`duplicateGroups, db`duplicateMembers, db`clock
    ensures db.Valid()
    ensures filesHashed == |Hashed(HashQueue(db.files, scanId, minSize), scanId, fileAt, md5)|
    ensures duplicates == DuplicatesOf(DuplicateCandidates(JoinRows(db.fileHashes, db.files, scanId)))
    ensures HashedInto(old(TablesOf(db)), TablesOf(db), scanId, minSize, fileAt, md5)
  {
    filesHashed := ComputeFileHashes(db, scanId, minSize, batchSize, fileAt, md5);
    ghost var t := db.clock;
    ghost var groups0 := db.duplicateGroups;
    duplicates := IdentifyDuplicates(db, scanId);
    assert db.duplicateGroups == groups0 + GroupRowsOf(DuplicateCandidates(JoinRows(db.fileHashes, db.files, scanId)), t);
  }

  /**
   * The duplicate phases once a store and a scan are there: quick hashes
   * and duplicate groups when hashing is on, then the cross-scan search.
   */
  method AnalyseDuplicates(db: Database, scanId: int, enableHashing: bool, minSize: int, batchSize: int,
                           fileAt: string -> FileView, md5: seq<byte> -> string)
    returns (filesHashed: nat, duplicates: Duplicates, crossScan: nat, warnings: seq<Warning>, entries: seq<Entry>)
    requires db.Valid()
    modifies db`fileHashes, db`duplicateGroups, db`duplicateMembers, db`clock
    ensures db.Valid()
    ensures !enableHashing ==>
      filesHashed == 0 && duplicates == Duplicates(0, 0, 0, []) && NotHashed(old(TablesOf(db)), TablesOf(db))
    ensures enableHashing ==>
      && filesHashed == |Hashed(HashQueue(db.files, scanId, minSize), scanId, fileAt, md5)|
      && duplicates == DuplicatesOf(DuplicateCandidates(JoinRows(db.fileHashes, db.files, scanId)))
      && HashedInto(old(TablesOf(db)), TablesOf(db), scanId, minSize, fileAt, md5)
    ensures CrossScanShown(db.FindPotentialDuplicates(scanId, minSize), GroupEntries(duplicates.reported),
                           crossScan, warnings, entries)
  {
    filesHashed := 0;
    duplicates := Duplicates(0, 0, 0, []);
    if enableHashing {
      filesHashed, duplicates := HashAndGroup(db, scanId, minSize, batchSize, fileAt, md5);
    }
    entries := GroupEntries(duplicates.reported);
    crossScan, warnings, entries := FindCrossScanDuplicates(db, scanId, minSize, entries);
  }

  /** The scans table after closing the report's scan, when its id is truthy, with the captured totals. */
  predicate Closed(scans0: seq<ScanRow>, scans: seq<ScanRow>, report: MetadataReport)
  {
    && |scans| == |scans0|
    && forall i :: 0 <= i < |scans| ==>
         if Given(report.scanId) && i + 1 == report.scanId.value
         then scans[i].scanEnd.Some?
              && scans[i] == scans0[i].(scanEnd := scans[i].scanEnd,
                                        fileCount := Some(report.capture.stats.filesProcessed),
                                        totalSizeBytes := Some(report.capture.stats.totalSize), status := Complete)
         else scans[i] == scans0[i]
  }

  /** The tables after closing the report's scan, when its id is truthy; nothing else changes but the clock. */
  ghost predicate ScanClosed(t2: Tables, t3: Tables, report: MetadataReport)
  {
    && t3.drives == t2.drives && t3.files == t2.files && NotHashed(t2, t3)
    && t3.sessions == t2.sessions && t3.passes == t2.passes && t3.decisions == t2.decisions
    && Closed(t2.scans, t3.scans, report)
  }

  /** Closing the report's scan with the captured totals; what the report says about the duplicate phases still holds. */
  method CloseReported(db: Database, report: MetadataReport, enableHashing: bool, minSize: int,
                       fileAt: string -> FileView, md5: seq<byte> -> string)
    requires db.Valid() && Analysed(report, db, enableHashing, minSize, fileAt, md5)
    modifies db`scans, db`clock
    ensures db.Valid() && Analysed(report, db, enableHashing, minSize, fileAt, md5)
    ensures ScanClosed(old(TablesOf(db)), TablesOf(db), report)
  {
    if Given(report.scanId) {
      CloseScan(db, report, enableHashing, minSize, fileAt, md5);
    } else {
      assert Closed(db.scans, db.scans, report);
    }
  }

  /**
   * The tables after recording pass 3 of a truthy session with `json` and
   * `errors` at the current time; without one nothing changes.
   */
  ghost predicate PassRecorded(t2: Tables, t3: Tables, sessionId: Option<int>, json: string, errors: seq<string>)
  {
    && t3.drives == t2.drives && t3.scans == t2.scans && t3.files == t2.files && NotHashed(t2, t3)
    && t3.sessions == t2.sessions && t3.decisions == t2.decisions
    && (Given(sessionId) ==>
          && |t2.passes| == 4 * |t2.sessions| && t3.clock == t2.clock + 1
          && t3.passes == PassCompleted(t2.passes, |t2.sessions|, sessionId.value, 3, Some(json),
                                        FailureMessage(errors), t2.clock))
    && (!Given(sessionId) ==> t3.passes == t2.passes)
  }

  /** `complete_pass` of pass 3 with the report, when the session id is truthy. */
  method RecordMetadataPass(db: Database, sessionId: Option<int>, json: string, errors: seq<string>)
    requires db.Valid()
    modifies db`passes, db`clock
    ensures db.Valid()
    ensures PassRecorded(old(TablesOf(db)), TablesOf(db), sessionId, json, errors)
    ensures Given(sessionId) ==>
      match PassIndex(|db.sessions|, sessionId.value, 3)
      case None => true
      case Some(i) =>
        && db.passes[i].status == (var m := FailureMessage(errors); if m.Some? && m.value != "" then Failed else Completed)
        && db.passes[i].reportJson == Some(json)
        && db.passes[i].errorMessage == FailureMessage(errors)
  {
    if Given(sessionId) {
      RecordPass(db, sessionId.value, 3, json, errors);
    }
  }

  /** `complete_scan` of the report's scan: it keeps every scan's drive, so the cross-scan candidates stay the same. */
  method CloseScan(db: Database, report: MetadataReport, enableHashing: bool, minSize: int,
                   fileAt: string -> FileView, md5: seq<byte> -> string)
    requires db.Valid() && Given(report.scanId) && Analysed(report, db, enableHashing, minSize, fileAt, md5)
    modifies db`scans, db`clock
    ensures db.Valid() && Analysed(report, db, enableHashing, minSize, fileAt, md5)
    ensures Closed(old(db.scans), db.scans, report)
  {
    var s := report.scanId.value;
    db.CompleteScan(s, report.capture.stats.filesProcessed, report.capture.stats.totalSize);
    PairsSameDrives(db.files, old(db.scans), db.scans, db.drives, s, minSize, |db.files|);
    assert db.FindPotentialDuplicates(s, minSize) == old(db.FindPotentialDuplicates(s, minSize));
  }

  /**
   * What the report says about the pass: the path and its letter, the
   * statistics of the records taken before an enumeration exception (if
   * any), the error that exception leaves, the recommendations derived
   * from the rest of the report, and no hashing, grouping or cross-scan
   * figures unless the scan id is truthy (and, for the first two, hashing
   * is on).
   */
  predicate Describes(report: MetadataReport, drivePath: string, tree: Dir, stopAt: Option<nat>,
                      enumerationError: string, enableHashing: bool)
  {
    && report.drivePath == drivePath && report.driveLetter == DriveLetterShown(drivePath)
    && report.capture.stats == StatsOf(WalkRecords(tree)[..Processed(|WalkRecords(tree)|, stopAt)])
    && (report.capture.enumerationFailed <==> stopAt.Some? && stopAt.value < |WalkRecords(tree)|)
    && report.errors == CaptureErrors(report.capture, enumerationError)
    && report.recommendations == Recommendations(report.(recommendations := []))
    && (!(Given(report.scanId) && enableHashing) ==>
          report.filesHashed == 0 && report.duplicates == Duplicates(0, 0, 0, []))
    && (!Given(report.scanId) ==> report.crossScanDuplicates == 0 && report.warnings == [] && report.entries == [])
  }

  /** The report records the enumeration error exactly when the enumeration failed, and then it is not empty. */
  lemma DescribedErrors(report: MetadataReport, drivePath: string, tree: Dir, stopAt: Option<nat>,
                        enumerationError: string, enableHashing: bool)
    requires Describes(report, drivePath, tree, stopAt, enumerationError, enableHashing)
    ensures report.errors != [] <==> stopAt.Some? && stopAt.value < |WalkRecords(tree)|
    ensures report.errors != [] ==> FailureMessage(report.errors) == Some("File enumeration error: " + enumerationError)
  {
  }

  /**
   * The tables after capture and the duplicate phases for the report's
   * scan: the captured files stored under a truthy scan id, the rows of the
   * hashing phases when hashing is on too; nothing else changes.
   */
  ghost predicate Gathered(t1: Tables, t2: Tables, report: MetadataReport, tree: Dir, stopAt: Option<nat>,
                           enableHashing: bool, minSize: int, fileAt: string -> FileView, md5: seq<byte> -> string)
  {
    && t2.drives == t1.drives && t2.scans == t1.scans && t2.sessions == t1.sessions && t2.passes == t1.passes
    && t2.decisions == t1.decisions
    && (Given(report.scanId) ==>
          t2.files == t1.files + Rows(report.scanId.value, WalkRecords(tree)[..Processed(|WalkRecords(tree)|, stopAt)]))
    && (!Given(report.scanId) ==> t2.files == t1.files)
    && (Given(report.scanId) && enableHashing ==> HashedInto(t1, t2, report.scanId.value, minSize, fileAt, md5))
    && (!(Given(report.scanId) && enableHashing) ==> NotHashed(t1, t2))
  }

  /**
   * The body of `inspect` between resolving the scan and recording the
   * pass: capture, the duplicate phases when the scan id is truthy, and
   * the recommendations. The files captured are stored under a truthy
   * scan id; the hashing phases write only when hashing is on too.
   */
  method Gather(db: Database, drivePath: string, scan: Option<int>, enableHashing: bool, showProgress: bool,
                tree: Dir, stopAt: Option<nat>, enumerationError: string, fileAt: string -> FileView,
                md5: seq<byte> -> string, minSize: int, batchSize: int)
    returns (report: MetadataReport)
    requires db.Valid()
    modifies db`files, db`fileHashes, db`duplicateGroups, db`duplicateMembers, db`clock
    ensures db.Valid()
    ensures report.scanId == scan
    ensures Describes(report, drivePath, tree, stopAt, enumerationError, enableHashing)
    ensures Analysed(report, db, enableHashing, minSize, fileAt, md5)
    ensures Gathered(old(TablesOf(db)), TablesOf(db), report, tree, stopAt, enableHashing, minSize, fileAt, md5)
  {
    ghost var t1 := TablesOf(db);
    var capture := CaptureFileMetadata(tree, showProgress, stopAt, db, scan, batchSize);
    ghost var captured := TablesOf(db);
    report := Report(db, drivePath, scan, capture, tree, stopAt, enumerationError, enableHashing, minSize, batchSize,
                     fileAt, md5);
    GatheredComposed(t1, captured, TablesOf(db), report, tree, stopAt, enableHashing, minSize, fileAt, md5);
  }

  /** Capture, then the duplicate phases, taken together. */
  lemma GatheredComposed(t1: Tables, captured: Tables, t2: Tables, report: MetadataReport, tree: Dir, stopAt: Option<nat>,
                         enableHashing: bool, minSize: int, fileAt: string -> FileView, md5: seq<byte> -> string)
    requires captured == t1.(files := captured.files)
    requires Given(report.scanId) ==>
      captured.files == t1.files + Rows(report.scanId.value, WalkRecords(tree)[..Processed(|WalkRecords(tree)|, stopAt)])
    requires !Given(report.scanId) ==> captured.files == t1.files
    requires t2 == captured.(hashes := t2.hashes, groups := t2.groups, members := t2.members, clock := t2.clock)
    requires Given(report.scanId) && enableHashing ==>
      HashedInto(captured, t2, report.scanId.value, minSize, fileAt, md5)
    requires !(Given(report.scanId) && enableHashing) ==> NotHashed(captured, t2)
    ensures Gathered(t1, t2, report, tree, stopAt, enableHashing, minSize, fileAt, md5)
  {
    if Given(report.scanId) && enableHashing {
      var cs := DuplicateCandidates(JoinRows(t2.hashes, t2.files, report.scanId.value));
      var time :| t2.groups == captured.groups + GroupRowsOf(cs, time);
      assert t2.groups == t1.groups + GroupRowsOf(cs, time);
    }
  }

  /**
   * The report from a capture: its error, the duplicate phases when the
   * scan id is truthy, and the recommendations.
   */
  method Report(db: Database, drivePath: string, scan: Option<int>, capture: Capture, tree: Dir, stopAt: Option<nat>,
                enumerationError: string, enableHashing: bool, minSize: int, batchSize: int,
                fileAt: string -> FileView, md5: seq<byte> -> string)
    returns (report: MetadataReport)
    requires db.Valid()
    requires capture.stats == StatsOf(WalkRecords(tree)[..Processed(|WalkRecords(tree)|, stopAt)])
    requires capture.enumerationFailed <==> stopAt.Some? && stopAt.value < |WalkRecords(tree)|
    modifies db`fileHashes, db`duplicateGroups, db`duplicateMembers, db`clock
    ensures db.Valid()
    ensures report.scanId == scan
    ensures Describes(report, drivePath, tree, stopAt, enumerationError, enableHashing)
    ensures !(Given(scan) && enableHashing) ==> NotHashed(old(TablesOf(db)), TablesOf(db))
    ensures Given(scan) && enableHashing ==> HashedInto(old(TablesOf(db)), TablesOf(db), scan.value, minSize, fileAt, md5)
    ensures Analysed(report, db, enableHashing, minSize, fileAt, md5)
  {
    var filesHashed: nat, duplicates, crossScan: nat, warnings: seq<Warning>, entries: seq<Entry> :=
      0, Duplicates(0, 0, 0, []), 0, [], [];
    if Given(scan) {
      filesHashed, duplicates, crossScan, warnings, entries :=
        AnalyseDuplicates(db, scan.value, enableHashing, minSize, batchSize, fileAt, md5);
    }
    var draft := MetadataReport(drivePath, DriveLetterShown(drivePath), scan, capture, filesHashed, duplicates,
                                crossScan, entries, CaptureErrors(capture, enumerationError), warnings, []);
    report := draft.(recommendations := Recommendations(draft));
  }

  /**
   * The tables after pass 3 of a truthy session is marked running and the
   * scan `scan` resolved: the one given, or a new scan in progress on the
   * session's drive, or on a temporary drive upserted when the session has
   * none; nothing else changes.
   */
  ghost predicate Started(t0: Tables, t1: Tables, drivePath: string, sessionId: Option<int>, scanId: Option<int>,
                          stamp: string, scan: Option<int>)
  {
    && |t0.passes| == 4 * |t0.sessions|
    && t1.files == t0.files && NotHashed(t0, t1) && t1.decisions == t0.decisions
    && (Given(sessionId) ==>
          && t1.sessions == AtPass(t0.sessions, sessionId.value, 3)
          && t1.passes == PassStarted(t0.passes, |t0.sessions|, sessionId.value, 3, t0.clock))
    && (!Given(sessionId) ==> t1.sessions == t0.sessions && t1.passes == t0.passes)
    && (scanId.Some? ==> scan == scanId && t1.scans == t0.scans && t1.drives == t0.drives)
    && (scanId.None? ==>
          var n := |t0.scans|;
          && scan == Some(n + 1)
          && |t1.scans| == n + 1 && t1.scans[..n] == t0.scans
          && t1.scans[n].mountPoint == drivePath && t1.scans[n].status == InProgress
          && NewScanDrive(t0, t1, drivePath, sessionId, stamp))
  }

  /** The drive of the new scan: the session's, or a temporary drive upserted at the current time. */
  ghost predicate NewScanDrive(t0: Tables, t1: Tables, drivePath: string, sessionId: Option<int>, stamp: string)
    requires |t1.scans| == |t0.scans| + 1
  {
    var n := |t0.scans|;
    if SessionDrive(t0.sessions, sessionId) != 0
    then t1.drives == t0.drives && t1.scans[n].driveId == SessionDrive(t0.sessions, sessionId)
    else var upsert := UpsertDrive(t0.drives, TemporaryDrive(stamp, drivePath),
                                   t0.clock + if Given(sessionId) then 1 else 0);
         t1.drives == upsert.0 && t1.scans[n].driveId == upsert.1
  }

  /**
   * The pass is marked running (with a truthy session id), then the scan
   * is resolved: the one given, or a new scan in progress on the session's
   * drive, or on a temporary drive upserted when the session has none.
   */
  method Begin(db: Database, drivePath: string, sessionId: Option<int>, scanId: Option<int>, stamp: string)
    returns (scan: Option<int>)
    requires db.Valid()
    modifies db`drives, db`scans, db`sessions, db`passes, db`clock
    ensures db.Valid()
    ensures Started(old(TablesOf(db)), TablesOf(db), drivePath, sessionId, scanId, stamp, scan)
  {
    if Given(sessionId) {
      var _ := db.StartPass(sessionId.value, 3);
    }
    assert SessionDrive(db.sessions, sessionId) == SessionDrive(old(db.sessions), sessionId);
    scan := ResolveScan(db, drivePath, sessionId, scanId, stamp);
  }

  /**
   * What pass 3 leaves in the store, from tables `t0` to `t3`: for a truthy
   * session id, the session at pass 3 and the pass started and then
   * recorded with the report; the scan resolved (the one given, or a new
   * one on the session's drive or on an upserted temporary drive) and, with
   * a truthy id, closed with the captured totals; the captured files stored
   * under a truthy scan id; the rows of the hashing phases when hashing is
   * on; the decisions untouched.
   */
  ghost predicate Leaves(t0: Tables, t3: Tables, report: MetadataReport, drivePath: string, sessionId: Option<int>,
                         scanId: Option<int>, stamp: string, enableHashing: bool, tree: Dir, stopAt: Option<nat>,
                         minSize: int, fileAt: string -> FileView, md5: seq<byte> -> string, json: string)
  {
    && PassesLeft(t0, t3, report, sessionId, json)
    && ScansLeft(t0, t3, report, drivePath, sessionId, scanId, stamp)
    && RowsLeft(t0, t3, report, enableHashing, tree, stopAt, minSize, fileAt, md5)
  }

  /** The session, pass and decision tables pass 3 leaves. */
  ghost predicate PassesLeft(t0: Tables, t3: Tables, report: MetadataReport, sessionId: Option<int>, json: string)
  {
    && |t0.passes| == 4 * |t0.sessions|
    && t3.decisions == t0.decisions
    && (Given(sessionId) ==>
          && t3.sessions == AtPass(t0.sessions, sessionId.value, 3)
          && t3.clock >= 1
          && t3.passes == PassCompleted(PassStarted(t0.passes, |t0.sessions|, sessionId.value, 3, t0.clock),
                                        |t0.sessions|, sessionId.value, 3, Some(json),
                                        FailureMessage(report.errors), t3.clock - 1))
    && (!Given(sessionId) ==> t3.sessions == t0.sessions && t3.passes == t0.passes)
  }

  /** The drive and scan tables pass 3 leaves. */
  ghost predicate ScansLeft(t0: Tables, t3: Tables, report: MetadataReport, drivePath: string, sessionId: Option<int>,
                            scanId: Option<int>, stamp: string)
  {
    && (scanId.Some? ==> report.scanId == scanId && t3.drives == t0.drives && Closed(t0.scans, t3.scans, report))
    && (scanId.None? ==>
          var n := |t0.scans|;
          && report.scanId == Some(n + 1)
          && |t3.scans| == n + 1 && t3.scans[..n] == t0.scans
          && t3.scans[n].mountPoint == drivePath && t3.scans[n].status == Complete && t3.scans[n].scanEnd.Some?
          && t3.scans[n].fileCount == Some(report.capture.stats.filesProcessed)
          && t3.scans[n].totalSizeBytes == Some(report.capture.stats.totalSize)
          && NewScanDrive(t0, t3, drivePath, sessionId, stamp))
  }

  /** The file, hash, group and member tables pass 3 leaves. */
  ghost predicate RowsLeft(t0: Tables, t3: Tables, report: MetadataReport, enableHashing: bool, tree: Dir,
                           stopAt: Option<nat>, minSize: int, fileAt: string -> FileView, md5: seq<byte> -> string)
  {
    && (Given(report.scanId) ==>
          t3.files == t0.files + Rows(report.scanId.value, WalkRecords(tree)[..Processed(|WalkRecords(tree)|, stopAt)]))
    && (!Given(report.scanId) ==> t3.files == t0.files)
    && (Given(report.scanId) && enableHashing ==> HashedInto(t0, t3, report.scanId.value, minSize, fileAt, md5))
    && (!(Given(report.scanId) && enableHashing) ==> NotHashed(t0, t3))
  }

  /** The three steps of `inspect` with a store, taken together. */
  lemma LeavesComposed(t0: Tables, t1: Tables, t2: Tables, t2': Tables, t3: Tables, report: MetadataReport,
                       drivePath: string, sessionId: Option<int>, scanId: Option<int>, stamp: string,
                       enableHashing: bool, tree: Dir, stopAt: Option<nat>, minSize: int, fileAt: string -> FileView,
                       md5: seq<byte> -> string, json: string)
    requires Started(t0, t1, drivePath, sessionId, scanId, stamp, report.scanId)
    requires Gathered(t1, t2, report, tree, stopAt, enableHashing, minSize, fileAt, md5)
    requires ScanClosed(t2, t2', report)
    requires PassRecorded(t2', t3, sessionId, json, report.errors)
    ensures Leaves(t0, t3, report, drivePath, sessionId, scanId, stamp, enableHashing, tree, stopAt, minSize, fileAt,
                   md5, json)
  {
    PassesComposed(t0, t1, t2, t2', t3, report, drivePath, sessionId, scanId, stamp, json);
    ScansComposed(t0, t1, t2, t2', t3, report, drivePath, sessionId, scanId, stamp);
    RowsComposed(t0, t1, t2, t2', t3, report, enableHashing, tree, stopAt, minSize, fileAt, md5);
  }

  lemma PassesComposed(t0: Tables, t1: Tables, t2: Tables, t2': Tables, t3: Tables, report: MetadataReport,
                       drivePath: string, sessionId: Option<int>, scanId: Option<int>, stamp: string, json: string)
    requires Started(t0, t1, drivePath, sessionId, scanId, stamp, report.scanId)
    requires t2.sessions == t1.sessions && t2.passes == t1.passes && t2.decisions == t1.decisions
    requires t2'.sessions == t2.sessions && t2'.passes == t2.passes && t2'.decisions == t2.decisions
    requires PassRecorded(t2', t3, sessionId, json, report.errors)
    ensures PassesLeft(t0, t3, report, sessionId, json)
  {
  }

  lemma ScansComposed(t0: Tables, t1: Tables, t2: Tables, t2': Tables, t3: Tables, report: MetadataReport,
                      drivePath: string, sessionId: Option<int>, scanId: Option<int>, stamp: string)
    requires Started(t0, t1, drivePath, sessionId, scanId, stamp, report.scanId)
    requires t2.drives == t1.drives && t2.scans == t1.scans
    requires t2'.drives == t2.drives && Closed(t2.scans, t2'.scans, report)
    requires t3.drives == t2'.drives && t3.scans == t2'.scans
    ensures ScansLeft(t0, t3, report, drivePath, sessionId, scanId, stamp)
  {
    if scanId.None? {
      var n := |t0.scans|;
      assert t3.scans[..n] == t0.scans by {
        forall i | 0 <= i < n
          ensures t3.scans[i] == t0.scans[i]
        {
          assert t3.scans[i] == t2.scans[i] == t1.scans[..n][i];
        }
      }
    }
  }

  lemma RowsComposed(t0: Tables, t1: Tables, t2: Tables, t2': Tables, t3: Tables, report: MetadataReport,
                     enableHashing: bool, tree: Dir, stopAt: Option<nat>, minSize: int, fileAt: string -> FileView,
                     md5: seq<byte> -> string)
    requires t1.files == t0.files && NotHashed(t0, t1)
    requires Gathered(t1, t2, report, tree, stopAt, enableHashing, minSize, fileAt, md5)
    requires t2'.files == t2.files && NotHashed(t2, t2')
    requires t3.files == t2'.files && NotHashed(t2', t3)
    ensures RowsLeft(t0, t3, report, enableHashing, tree, stopAt, minSize, fileAt, md5)
  {
  }


  /** The files captured and analysed, then the scan closed; `t2` is the store in between. */
  method GatherClosed(db: Database, drivePath: string, scan: Option<int>, enableHashing: bool, showProgress: bool,
                      tree: Dir, stopAt: Option<nat>, enumerationError: string, fileAt: string -> FileView,
                      md5: seq<byte> -> string, minSize: int, batchSize: int)
    returns (report: MetadataReport, ghost t2: Tables)
    requires db.Valid()
    modifies db`scans, db`files, db`fileHashes, db`duplicateGroups, db`duplicateMembers, db`clock
    ensures db.Valid()
    ensures report.scanId == scan
    ensures Describes(report, drivePath, tree, stopAt, enumerationError, enableHashing)
    ensures Analysed(report, db, enableHashing, minSize, fileAt, md5)
    ensures Gathered(old(TablesOf(db)), t2, report, tree, stopAt, enableHashing, minSize, fileAt, md5)
    ensures ScanClosed(t2, TablesOf(db), report)
  {
    report := Gather(db, drivePath, scan, enableHashing, showProgress, tree, stopAt, enumerationError, fileAt, md5,
                     minSize, batchSize);
    t2 := TablesOf(db);
    CloseReported(db, report, enableHashing, minSize, fileAt, md5);
  }

  /**
   * `inspect` with a store: the pass is started, the scan resolved, the
   * files captured and, with a truthy scan id, analysed for duplicates;
   * the scan row is closed and the pass recorded with the report.
   */
  method InspectStored(db: Database, drivePath: string, sessionId: Option<int>, scanId: Option<int>,
                       enableHashing: bool, showProgress: bool, tree: Dir, stopAt: Option<nat>,
                       enumerationError: string, fileAt: string -> FileView, md5: seq<byte> -> string,
                       stamp: string, minSize: int, batchSize: int, toJson: MetadataReport -> string)
    returns (report: MetadataReport)
    requires db.Valid()
    modifies db`drives, db`scans, db`files, db`fileHashes, db`duplicateGroups, db`duplicateMembers,
      db`sessions, db`passes, db`clock
    ensures db.Valid()
    ensures Describes(report, drivePath, tree, stopAt, enumerationError, enableHashing)
    ensures Analysed(report, db, enableHashing, minSize, fileAt, md5)
    ensures Leaves(old(TablesOf(db)), TablesOf(db), report, drivePath, sessionId, scanId, stamp, enableHashing, tree,
                   stopAt, minSize, fileAt, md5, toJson(report))
    ensures Given(sessionId) ==>
      match PassIndex(|db.sessions|, sessionId.value, 3)
      case None => true
      case Some(i) =>
        && db.passes[i].status == (if report.errors != [] then Failed else Completed)
        && db.passes[i].reportJson == Some(toJson(report))
        && db.passes[i].errorMessage == FailureMessage(report.errors)
  {
    ghost var t0 := TablesOf(db);
    var scan := Begin(db, drivePath, sessionId, scanId, stamp);
    ghost var t1 := TablesOf(db);
    ghost var t2;
    report, t2 := GatherClosed(db, drivePath, scan, enableHashing, showProgress, tree, stopAt, enumerationError, fileAt,
                               md5, minSize, batchSize);
    ghost var t2' := TablesOf(db);
    assert report.errors != [] ==> Join(report.errors, "; ") != "";
    RecordMetadataPass(db, sessionId, toJson(report), report.errors);
    LeavesComposed(t0, t1, t2, t2', TablesOf(db), report, drivePath, sessionId, scanId, stamp, enableHashing, tree, stopAt,
                   minSize, fileAt, md5, toJson(report));
  }

  /**
   * `inspect`: the report of the pass and what it leaves in the store.
   * Without a store nothing is written and the report has no scan id, so
   * hashing, grouping and the cross-scan search, which need both, do not run.
   */
  method Inspect(db: Database?, drivePath: string, sessionId: Option<int>, scanId: Option<int>, enableHashing: bool,
                 showProgress: bool, tree: Dir, stopAt: Option<nat>, enumerationError: string,
                 fileAt: string -> FileView, md5: seq<byte> -> string, stamp: string,
                 minSize: int, batchSize: int, toJson: MetadataReport -> string)
    returns (report: MetadataReport)
    requires db != null ==> db.Valid()
    modifies db
    ensures db != null ==> db.Valid()
    ensures Describes(report, drivePath, tree, stopAt, enumerationError, enableHashing)
    ensures db == null ==> report.scanId.None?
    ensures db != null ==> db.osInfo == old(db.osInfo)
    ensures db != null ==>
      && Analysed(report, db, enableHashing, minSize, fileAt, md5)
      && Leaves(old(TablesOf(db)), TablesOf(db), report, drivePath, sessionId, scanId, stamp, enableHashing, tree,
                stopAt, minSize, fileAt, md5, toJson(report))
    ensures db != null && Given(sessionId) ==>
      match PassIndex(|db.sessions|, sessionId.value, 3)
      case None => true
      case Some(i) =>
        && db.passes[i].status == (if report.errors != [] then Failed else Completed)
        && db.passes[i].reportJson == Some(toJson(report))
        && db.passes[i].errorMessage == FailureMessage(report.errors)
  {
    if db != null {
      report := InspectStored(db, drivePath, sessionId, scanId, enableHashing, showProgress, tree, stopAt,
                              enumerationError, fileAt, md5, stamp, minSize, batchSize, toJson);
    } else {
      report := InspectUnstored(drivePath, showProgress, tree, stopAt, enumerationError, batchSize, enableHashing);
    }
  }

  /** `inspect` without a store: the capture alone, with no scan id and no duplicate analysis. */
  method InspectUnstored(drivePath: string, showProgress: bool, tree: Dir, stopAt: Option<nat>,
                         enumerationError: string, batchSize: int, enableHashing: bool)
    returns (report: MetadataReport)
    ensures Describes(report, drivePath, tree, stopAt, enumerationError, enableHashing)
    ensures report.scanId.None?
  {
    var capture := CaptureFileMetadata(tree, showProgress, stopAt, null, None, batchSize);
    var draft := MetadataReport(drivePath, DriveLetterShown(drivePath), None, capture, 0, Duplicates(0, 0, 0, []),
                                0, [], CaptureErrors(capture, enumerationError), [], []);
    report := draft.(recommendations := Recommendations(draft));
  }
}

=== FILE: metadata_stats.dfy ===
/**
 * The running statistics of the metadata pass: while the file records of
 * a drive are enumerated, it counts files and bytes, tallies extensions
 * and size classes, keeps the largest file and the range of modification
 * times, and counts the distinct folders that hold files.
 *
 * `StatsOf` is the reference: the statistics of a run of records, one
 * record at a time. The lemmas below say what those statistics mean.
 */
module MetadataStats {
  import opened Wrappers
  import opened Text
  import opened Dicts
  import opened FileScanning

  datatype SizeClass = Tiny | Small | Medium | Large | Huge

  /** `_classify_size`: the bucket boundaries are 1 KiB, 1 MiB, 100 MiB and 1 GiB. */
  function ClassifySize(size: int): (c: SizeClass)
    ensures c == Tiny <==> size < 1024
    ensures c == Small <==> 1024 <= size < 1024 * 1024
    ensures c == Medium <==> 1024 * 1024 <= size < 100 * 1024 * 1024
    ensures c == Large <==> 100 * 1024 * 1024 <= size < 1024 * 1024 * 1024
    ensures c == Huge <==> 1024 * 1024 * 1024 <= size
  {
    if size < 1024 then Tiny
    else if size < 1024 * 1024 then Small
    else if size < 100 * 1024 * 1024 then Medium
    else if size < 1024 * 1024 * 1024 then Large
    else Huge
  }

  function Rank(c: SizeClass): nat
  {
    match c
    case Tiny => 0
    case Small => 1
    case Medium => 2
    case Large => 3
    case Huge => 4
  }

  /** A larger file never lands in a smaller bucket. */
  lemma ClassifyMonotone(a: int, b: int)
    requires a <= b
    ensures Rank(ClassifySize(a)) <= Rank(ClassifySize(b))
  {
  }

  /** The key each bucket has in the size distribution. */
  function SizeLabel(c: SizeClass): (name: string)
    ensures name != ""
  {
    match c
    case Tiny => "tiny (<1KB)"
    case Small => "small (1KB-1MB)"
    case Medium => "medium (1MB-100MB)"
    case Large => "large (100MB-1GB)"
    case Huge => "huge (>1GB)"
  }

  /** `file_info['extension'] or '(no extension)'` */
  function ExtKey(r: FileRecord): (k: string)
    ensures k != ""
    ensures r.extension != "" ==> k == r.extension
  {
    if r.extension != "" then r.extension else "(no extension)"
  }

  /**
   * `os.path.dirname`: everything before the last '/', with trailing
   * slashes removed unless it is made of slashes only.
   */
  function Dirname(path: string): (d: string)
    ensures '/' !in path ==> d == ""
  {
    match LastIndexOf(path, '/')
    case None => ""
    case Some(i) =>
      var head := path[..i + 1];
      if forall k :: 0 <= k < |head| ==> head[k] == '/' then head
      else TrimRight(head, c => c == '/')
  }

  /** `counts[key] = counts.get(key, 0) + n` over a run of records, one per record. */
  function ExtensionCounts(rs: seq<FileRecord>): Dict<string, int>
  {
    if rs == [] then [] else Add(ExtensionCounts(rs[..|rs| - 1]), ExtKey(rs[|rs| - 1]), 1)
  }

  function ExtensionSizes(rs: seq<FileRecord>): Dict<string, int>
  {
    if rs == [] then [] else Add(ExtensionSizes(rs[..|rs| - 1]), ExtKey(rs[|rs| - 1]), rs[|rs| - 1].sizeBytes)
  }

  function SizeDistribution(rs: seq<FileRecord>): Dict<string, int>
  {
    if rs == [] then [] else Add(SizeDistribution(rs[..|rs| - 1]), SizeLabel(ClassifySize(rs[|rs| - 1].sizeBytes)), 1)
  }

  /** The largest size and its path: a record replaces them only when strictly larger. */
  function Largest(rs: seq<FileRecord>): (nat, string)
  {
    if rs == [] then (0, "")
    else
      var prev := Largest(rs[..|rs| - 1]);
      var r := rs[|rs| - 1];
      if r.sizeBytes > prev.0 then (r.sizeBytes, r.path) else prev
  }

  function Oldest(rs: seq<FileRecord>): Option<int>
  {
    if rs == [] then None
    else
      var prev := Oldest(rs[..|rs| - 1]);
      var m := rs[|rs| - 1].modified;
      if prev.None? || m < prev.value then Some(m) else prev
  }

  function Newest(rs: seq<FileRecord>): Option<int>
  {
    if rs == [] then None
    else
      var prev := Newest(rs[..|rs| - 1]);
      var m := rs[|rs| - 1].modified;
      if prev.None? || m > prev.value then Some(m) else prev
  }

  /** The folders seen: each record's parent directory, when it has one. */
  function Folders(rs: seq<FileRecord>): set<string>
  {
    if rs == [] then {}
    else
      var dir := Dirname(rs[|rs| - 1].path);
      Folders(rs[..|rs| - 1]) + if dir != "" then {dir} else {}
  }

  /** The statistics the metadata report takes from a run of records. */
  datatype Stats = Stats(
    filesProcessed: nat,
    totalSize: nat,
    extensionCounts: Dict<string, int>,
    extensionSizes: Dict<string, int>,
    sizeDistribution: Dict<string, int>,
    largestSize: nat,
    largestPath: string,
    oldest: Option<int>,
    newest: Option<int>,
    folderCount: nat)

  function StatsOf(rs: seq<FileRecord>): Stats
  {
    Stats(|rs|, TotalSize(rs), ExtensionCounts(rs), ExtensionSizes(rs), SizeDistribution(rs),
          Largest(rs).0, Largest(rs).1, Oldest(rs), Newest(rs), |Folders(rs)|)
  }

  /** The statistics of `rs`, field by field; the capture loop keeps this of what it has taken. */
  predicate Summarises(s: Stats, rs: seq<FileRecord>)
  {
    && s.filesProcessed == |rs| && s.totalSize == TotalSize(rs)
    && s.extensionCounts == ExtensionCounts(rs) && s.extensionSizes == ExtensionSizes(rs)
    && s.sizeDistribution == SizeDistribution(rs)
    && (s.largestSize, s.largestPath) == Largest(rs)
    && s.oldest == Oldest(rs) && s.newest == Newest(rs)
    && s.folderCount == |Folders(rs)|
  }

  lemma SummarisesStatsOf(s: Stats, rs: seq<FileRecord>)
    requires Summarises(s, rs)
    ensures s == StatsOf(rs)
  {
  }

  // One more record, statistic by statistic.

  lemma TalliesStep(rs: seq<FileRecord>, r: FileRecord)
    ensures ExtensionCounts(rs + [r]) == Add(ExtensionCounts(rs), ExtKey(r), 1)
    ensures ExtensionSizes(rs + [r]) == Add(ExtensionSizes(rs), ExtKey(r), r.sizeBytes)
    ensures SizeDistribution(rs + [r]) == Add(SizeDistribution(rs), SizeLabel(ClassifySize(r.sizeBytes)), 1)
  {
    assert (rs + [r])[..|rs|] == rs;
  }

  lemma LargestStep(rs: seq<FileRecord>, r: FileRecord)
    ensures TotalSize(rs + [r]) == TotalSize(rs) + r.sizeBytes
    ensures Largest(rs + [r]) == if r.sizeBytes > Largest(rs).0 then (r.sizeBytes, r.path) else Largest(rs)
  {
    assert (rs + [r])[..|rs|] == rs;
  }

  lemma DatesStep(rs: seq<FileRecord>, r: FileRecord)
    ensures Oldest(rs + [r]) == if Oldest(rs).None? || r.modified < Oldest(rs).value then Some(r.modified) else Oldest(rs)
    ensures Newest(rs + [r]) == if Newest(rs).None? || r.modified > Newest(rs).value then Some(r.modified) else Newest(rs)
  {
    assert (rs + [r])[..|rs|] == rs;
  }

  lemma FoldersStep(rs: seq<FileRecord>, r: FileRecord)
    ensures Folders(rs + [r]) == Folders(rs) + if Dirname(r.path) != "" then {Dirname(r.path)} else {}
  {
    assert (rs + [r])[..|rs|] == rs;
  }

  // ---------------------------------------------------------------------
  // What the statistics mean.

  /** How many records have extension key `k`. */
  function CountExt(rs: seq<FileRecord>, k: string): nat
  {
    if rs == [] then 0
    else CountExt(rs[..|rs| - 1], k) + if ExtKey(rs[|rs| - 1]) == k then 1 else 0
  }

  /**
   * The extension counts and the size distribution each add up to the
   * number of files, and the extension sizes to the bytes. Every
   * dictionary has distinct keys.
   */
  lemma {:induction false} StatsTotals(rs: seq<FileRecord>)
    ensures SumValues(ExtensionCounts(rs)) == |rs|
    ensures SumValues(SizeDistribution(rs)) == |rs|
    ensures SumValues(ExtensionSizes(rs)) == TotalSize(rs)
    ensures UniqueKeys(ExtensionCounts(rs)) && UniqueKeys(ExtensionSizes(rs)) && UniqueKeys(SizeDistribution(rs))
  {
    if rs != [] {
      var front, r := rs[..|rs| - 1], rs[|rs| - 1];
      StatsTotals(front);
      SumAdd(ExtensionCounts(front), ExtKey(r), 1);
      SumAdd(ExtensionSizes(front), ExtKey(r), r.sizeBytes);
      SumAdd(SizeDistribution(front), SizeLabel(ClassifySize(r.sizeBytes)), 1);
      AddKeys(ExtensionCounts(front), ExtKey(r), 1);
      AddKeys(ExtensionSizes(front), ExtKey(r), r.sizeBytes);
      AddKeys(SizeDistribution(front), SizeLabel(ClassifySize(r.sizeBytes)), 1);
    }
  }

  /**
   * Each extension is counted exactly as often as it occurs, and a file
   * without an extension is counted under "(no extension)", never under "".
   */
  lemma {:induction false} ExtensionCountsExact(rs: seq<FileRecord>, k: string)
    ensures GetOr(ExtensionCounts(rs), k, 0) == CountExt(rs, k)
    ensures k == "" ==> CountExt(rs, k) == 0
  {
    if rs != [] {
      var front, r := rs[..|rs| - 1], rs[|rs| - 1];
      ExtensionCountsExact(front, k);
      AddGet(ExtensionCounts(front), ExtKey(r), 1, k);
    }
  }

  /**
   * The largest size is at least every file's size; when it is not 0, the
   * path is that of the first file of that size (a later file of equal
   * size does not replace it); when it is 0, no path was recorded.
   */
  lemma {:induction false} LargestFile(rs: seq<FileRecord>)
    ensures forall i :: 0 <= i < |rs| ==> rs[i].sizeBytes <= Largest(rs).0
    ensures Largest(rs).0 == 0 ==> Largest(rs).1 == ""
    ensures Largest(rs).0 > 0 ==>
      exists j :: 0 <= j < |rs| && rs[j].sizeBytes == Largest(rs).0 && rs[j].path == Largest(rs).1
        && forall i :: 0 <= i < j ==> rs[i].sizeBytes < Largest(rs).0
  {
    if rs != [] {
      var front, r := rs[..|rs| - 1], rs[|rs| - 1];
      LargestFile(front);
      var prev := Largest(front);
      forall i | 0 <= i < |front| ensures rs[i] == front[i] {
      }
      if r.sizeBytes > prev.0 {
        assert rs[|rs| - 1] == r;
      } else if prev.0 > 0 {
        var j :| 0 <= j < |front| && front[j].sizeBytes == prev.0 && front[j].path == prev.1
          && forall i :: 0 <= i < j ==> front[i].sizeBytes < prev.0;
        assert rs[j] == front[j];
      }
    }
  }

  /** The oldest date is the least modification time, and is missing only for no files. */
  lemma {:induction false} OldestDate(rs: seq<FileRecord>)
    ensures Oldest(rs).None? <==> rs == []
    ensures Oldest(rs).Some? ==>
      (forall i :: 0 <= i < |rs| ==> Oldest(rs).value <= rs[i].modified)
      && exists i :: 0 <= i < |rs| && rs[i].modified == Oldest(rs).value
  {
    if rs != [] {
      var front, r := rs[..|rs| - 1], rs[|rs| - 1];
      OldestDate(front);
      var prev := Oldest(front);
      forall i | 0 <= i < |front| ensures rs[i] == front[i] {
      }
      assert rs[|rs| - 1] == r;
      if prev.Some? && r.modified >= prev.value {
        var j :| 0 <= j < |front| && front[j].modified == prev.value;
        assert rs[j] == front[j];
      }
    }
  }

  /** The newest date is the greatest modification time, and is missing only for no files. */
  lemma {:induction false} NewestDate(rs: seq<FileRecord>)
    ensures Newest(rs).None? <==> rs == []
    ensures Newest(rs).Some? ==>
      (forall i :: 0 <= i < |rs| ==> rs[i].modified <= Newest(rs).value)
      && exists i :: 0 <= i < |rs| && rs[i].modified == Newest(rs).value
  {
    if rs != [] {
      var front, r := rs[..|rs| - 1], rs[|rs| - 1];
      NewestDate(front);
      var prev := Newest(front);
      forall i | 0 <= i < |front| ensures rs[i] == front[i] {
      }
      assert rs[|rs| - 1] == r;
      if prev.Some? && r.modified <= prev.value {
        var j :| 0 <= j < |front| && front[j].modified == prev.value;
        assert rs[j] == front[j];
      }
    }
  }

  /** Some record's parent directory is `d`. */
  predicate HasDirname(rs: seq<FileRecord>, d: string)
  {
    exists i :: 0 <= i < |rs| && Dirname(rs[i].path) == d
  }

  lemma HasDirnameStep(rs: seq<FileRecord>)
    requires rs != []
    ensures forall d :: HasDirname(rs, d) <==> HasDirname(rs[..|rs| - 1], d) || Dirname(rs[|rs| - 1].path) == d
  {
    var front := rs[..|rs| - 1];
    forall d | HasDirname(front, d) ensures HasDirname(rs, d) {
      var i :| 0 <= i < |front| && Dirname(front[i].path) == d;
      assert rs[i] == front[i];
    }
    forall d | HasDirname(rs, d) ensures HasDirname(front, d) || Dirname(rs[|rs| - 1].path) == d {
      var i :| 0 <= i < |rs| && Dirname(rs[i].path) == d;
      if i < |front| {
        assert front[i] == rs[i];
      }
    }
  }

  /** The folders are exactly the distinct non-empty parent directories. */
  lemma {:induction false} FoldersExact(rs: seq<FileRecord>)
    ensures forall d :: d in Folders(rs) <==> d != "" && HasDirname(rs, d)
  {
    if rs != [] {
      FoldersExact(rs[..|rs| - 1]);
      HasDirnameStep(rs);
    }
  }
}

=== FILE: os_detection.dfy ===
/**
 * Operating-system detection on a mounted drive: Windows through the
 * registry or, failing that, marker folders; Linux through os-release or
 * lsb-release; macOS through SystemVersion.plist. The drive is given as the
 * set of its relative paths that exist and the outcomes of reading the few
 * files the detectors open.
 */
module OsDetection {
  import opened Wrappers
  import opened Text
  import opened Registry

  datatype Confidence = High | Medium | Low | Unknown

  datatype DetectionMethod = Undetected | ByRegistry | ByPattern | ByOsRelease | ByLsbRelease | ByPlist

  /** `OSDetectionResult` without its free-form `raw_data`; `distribution` is the one raw entry kept. */
  datatype Detection = Detection(
    osType: string,
    osName: string,
    version: Option<string>,
    buildNumber: Option<string>,
    edition: Option<string>,
    installDate: Option<string>,
    bootCapable: bool,
    detectionMethod: DetectionMethod,
    confidence: Confidence,
    methodsTried: seq<string>,
    distribution: Option<string>,
    errors: seq<string>)

  /** A fresh result for an operating-system family: nothing known yet. */
  function Fresh(osType: string): (r: Detection)
    ensures r.confidence == Unknown && !r.bootCapable && r.methodsTried == [] && r.errors == []
  {
    Detection(osType, "Unknown", None, None, None, None, false, Undetected, Unknown, [], None, [])
  }

  /** The text the result's `detection_method` holds for each method. */
  function MethodName(m: DetectionMethod): string
  {
    match m
    case Undetected => "NONE"
    case ByRegistry => "REGISTRY"
    case ByPattern => "PATTERN"
    case ByOsRelease => "OS_RELEASE"
    case ByLsbRelease => "LSB_RELEASE"
    case ByPlist => "SYSTEM_VERSION_PLIST"
  }

  /** The text the result's `confidence` holds for each level. */
  function ConfidenceName(c: Confidence): string
  {
    match c
    case High => "HIGH"
    case Medium => "MEDIUM"
    case Low => "LOW"
    case Unknown => "UNKNOWN"
  }

  /** Distinct methods and distinct levels are written as distinct text, so a stored row tells them apart. */
  lemma NamesInjective(m1: DetectionMethod, m2: DetectionMethod, c1: Confidence, c2: Confidence)
    ensures MethodName(m1) == MethodName(m2) ==> m1 == m2
    ensures ConfidenceName(c1) == ConfidenceName(c2) ==> c1 == c2
  {
  }

  /** A text file the detectors open: missing, failing to read, or its text. */
  datatype FileRead = Absent | Unreadable(message: string) | Content(text: string)

  /** SystemVersion.plist: missing, failing to load, or the three keys the detector reads. */
  datatype PlistRead =
    | NoPlist
    | PlistFailed(message: string)
    | Plist(productName: Option<string>, userVisibleVersion: Option<string>, buildVersion: Option<string>)

  /**
   * What the detectors see of a drive: the relative paths that exist, the
   * two Linux release files, the macOS plist, and the registry read of
   * `Microsoft\Windows NT\CurrentVersion` in the SOFTWARE hive (None when
   * no registry reader can be created).
   */
  datatype DriveView = DriveView(
    present: set<string>,
    osRelease: FileRead,
    lsbRelease: FileRead,
    plist: PlistRead,
    registry: Option<ReadResult>)

  // ---------------------------------------------------------------------
  // `detect`

  /** `detect`: Windows, then Linux, then macOS; the first result that is not UNKNOWN. */
  function Detect(view: DriveView): Detection
  {
    var windows := DetectWindows(view);
    if windows.confidence != Unknown then windows
    else
      var linux := DetectLinux(view);
      if linux.confidence != Unknown then linux
      else
        var mac := DetectMac(view);
        if mac.confidence != Unknown then mac
        else Fresh("Unknown")
  }

  /**
   * Each family is ruled out exactly when its marker folder is missing, so
   * the result is UNKNOWN, of type 'Unknown' and method NONE exactly when
   * the drive has none of `Windows`, `etc` and `System/Library`; otherwise
   * the first family whose marker exists decides.
   */
  lemma DetectOrder(view: DriveView)
    ensures var d := Detect(view);
      && (d.confidence == Unknown <==>
           "Windows" !in view.present && "etc" !in view.present && "System/Library" !in view.present)
      && (d.confidence == Unknown ==> d == Fresh("Unknown"))
      && ("Windows" in view.present ==> d == DetectWindows(view))
      && ("Windows" !in view.present && "etc" in view.present ==> d == DetectLinux(view))
      && ("Windows" !in view.present && "etc" !in view.present && "System/Library" in view.present ==>
            d == DetectMac(view))
  {
    WindowsDecided(view);
    LinuxDecided(view);
    MacDecided(view);
  }

  // ---------------------------------------------------------------------
  // Windows

  /** `_detect_windows` */
  function DetectWindows(view: DriveView): Detection
  {
    if "Windows" !in view.present then Fresh("Windows")
    else
      var registry := DetectByRegistry(view.registry);
      if registry.confidence == High then registry
      else
        var pattern := DetectByPattern(view.present);
        if pattern.confidence != Unknown then pattern
        else Fresh("Windows").(bootCapable := true, confidence := Low, osName := "Windows (version unknown)",
                               detectionMethod := ByPattern,
                               methodsTried := ["windows_folder_found"] + registry.methodsTried,
                               errors := registry.errors)
  }

  /**
   * With a `Windows` folder the result is a boot-capable Windows result that
   * is never UNKNOWN: the registry's when it is HIGH, otherwise the pattern
   * detector's, because that one never answers UNKNOWN and the final
   * fallback is never taken. Without the folder the result is UNKNOWN.
   */
  lemma WindowsDecided(view: DriveView)
    ensures var d := DetectWindows(view);
      && (d.confidence == Unknown <==> "Windows" !in view.present)
      && ("Windows" in view.present ==>
            && d.osType == "Windows" && d.bootCapable
            && d == (if DetectByRegistry(view.registry).confidence == High then DetectByRegistry(view.registry)
                     else DetectByPattern(view.present)))
  {
    PatternNeverUnknown(view.present);
    RegistryOutcome(view.registry);
  }

  predicate Filled(d: Option<Data>)
  {
    d.Some? && d.value.Truthy()
  }

  /** `_detect_windows_by_registry` */
  function DetectByRegistry(reader: Option<ReadResult>): Detection
  {
    var base := Fresh("Windows").(methodsTried := ["registry_read"]);
    match reader
    case None => base.(errors := ["Registry reader not available"])
    case Some(read) =>
      match VersionInfoOf(read)
      case VersionFailed(error) => base.(errors := [error])
      case VersionRead(_, _) =>
        var info := VersionInfoOf(read);
        var product := info.Field("product_name");
        if !Filled(product) then base.(errors := ["ProductName not found in registry"])
        else
          var build, ubr := info.Field("current_build"), info.Field("ubr");
          var edition, installed := info.Field("edition_id"), info.Field("install_date");
          base.(
            osName := product.value.Shown(),
            confidence := High,
            detectionMethod := ByRegistry,
            bootCapable := true,
            version := VersionOf(info),
            buildNumber := if !Filled(build) then None
                           else if Filled(ubr) then Some(build.value.Shown() + "." + ubr.value.Shown())
                           else Some(build.value.Shown()),
            edition := if Filled(edition) then Some(edition.value.Shown()) else None,
            installDate := if Filled(installed) then Some(installed.value.Shown()) else None)
  }

  /** The version is DisplayVersion when it is filled, else CurrentVersion when that is filled. */
  function VersionOf(info: VersionInfo): Option<string>
  {
    var display, current := info.Field("display_version"), info.Field("current_version");
    if Filled(display) then Some(display.value.Shown())
    else if Filled(current) then Some(current.value.Shown())
    else None
  }

  /** The registry detector answers HIGH or UNKNOWN, and explains every UNKNOWN with one error. */
  lemma RegistryOutcome(reader: Option<ReadResult>)
    ensures var d := DetectByRegistry(reader);
      && (d.confidence == High || d.confidence == Unknown)
      && d.methodsTried == ["registry_read"] && d.osType == "Windows"
      && (d.confidence == High <==> d.errors == [])
      && (d.confidence == High ==> d.bootCapable && d.detectionMethod == ByRegistry)
      && (d.confidence == Unknown ==> |d.errors| == 1)
  {
  }

  /** Registry detection is HIGH exactly when the key was read and holds a non-empty ProductName, the name. */
  lemma RegistryNamed(key: RegistryKey, how: string)
    ensures var d := DetectByRegistry(Some(ReadOk(key, how)));
      var v := key.values;
      && (d.confidence == High <==> "ProductName" in v && v["ProductName"].data.Truthy())
      && (d.confidence == High ==> d.osName == v["ProductName"].data.Shown())
  {
    SingleSource(key.values, 0);
    assert ValueMapping[0] == ("ProductName", "product_name");
  }

  /** The version is DisplayVersion when it is filled, else CurrentVersion when that is filled. */
  lemma RegistryVersion(key: RegistryKey, how: string)
    requires DetectByRegistry(Some(ReadOk(key, how))).confidence == High
    ensures var d := DetectByRegistry(Some(ReadOk(key, how)));
      var v := key.values;
      && ("DisplayVersion" in v && v["DisplayVersion"].data.Truthy() ==>
            d.version == Some(v["DisplayVersion"].data.Shown()))
      && (!("DisplayVersion" in v && v["DisplayVersion"].data.Truthy()) ==>
            d.version == (if "CurrentVersion" in v && v["CurrentVersion"].data.Truthy()
                          then Some(v["CurrentVersion"].data.Shown()) else None))
  {
    FieldFrom(key, how, 1);
    FieldFrom(key, how, 11);
  }

  /** A single-source result key holds its registry value's data, or nothing when the value is absent. */
  lemma FieldFrom(key: RegistryKey, how: string, j: nat)
    requires j < |ValueMapping| && j != 2 && j != 3
    ensures var (name, k) := ValueMapping[j];
      VersionInfoOf(ReadOk(key, how)).Field(k) == if name in key.values then Some(key.values[name].data) else None
  {
    SingleSource(key.values, j);
  }

  /**
   * The build is "build.ubr" when UBR is filled, else the build alone, where
   * the build is CurrentBuildNumber when present and CurrentBuild otherwise.
   */
  lemma RegistryBuild(key: RegistryKey, how: string)
    requires DetectByRegistry(Some(ReadOk(key, how))).confidence == High
    ensures var d := DetectByRegistry(Some(ReadOk(key, how)));
      var v := key.values;
      var build := if "CurrentBuildNumber" in v then Some(v["CurrentBuildNumber"].data)
                   else if "CurrentBuild" in v then Some(v["CurrentBuild"].data) else None;
      d.buildNumber == (if !Filled(build) then None
                        else if "UBR" in v && v["UBR"].data.Truthy()
                        then Some(build.value.Shown() + "." + v["UBR"].data.Shown())
                        else Some(build.value.Shown()))
  {
    SingleSource(key.values, 12);
    CurrentBuildNumberWins(key.values);
    assert ValueMapping[12] == ("UBR", "ubr");
  }

  /** A read that fails is reported with the read's own error. */
  lemma RegistryFailure(error: string, how: string)
    ensures DetectByRegistry(Some(ReadFailed(error, how))).errors == [error]
    ensures DetectByRegistry(None).errors == ["Registry reader not available"]
  {
  }

  /** `_detect_windows_by_pattern`: the marker-folder decision tree. */
  function DetectByPattern(present: set<string>): Detection
  {
    var users, x86 := "Users" in present, "Program Files (x86)" in present;
    var (name, confidence) :=
      if users && x86 then
        if "Program Files/WindowsApps" in present then
          if "Windows/System32/WinBioDatabase" in present then ("Windows 10/11 (64-bit)", Medium)
          else ("Windows 8/10/11 (64-bit)", Medium)
        else ("Windows Vista/7/8 (64-bit)", Medium)
      else if users then ("Windows Vista or later (32-bit)", Low)
      else if "Documents and Settings" in present then ("Windows XP or earlier", Medium)
      else if "WINNT" in present then ("Windows NT/2000", Medium)
      else ("Windows (version unknown)", Low);
    Fresh("Windows").(
      methodsTried := ["pattern_match"]
        + (if "Windows/System32/ntoskrnl.exe" in present then ["ntoskrnl_found"] else [])
        + (if "Windows/System32/kernel32.dll" in present then ["kernel32_found"] else []),
      detectionMethod := ByPattern,
      bootCapable := true,
      osName := name,
      confidence := confidence)
  }

  lemma PatternNeverUnknown(present: set<string>)
    ensures DetectByPattern(present).confidence in {Medium, Low}
  {
  }

  /**
   * The pattern detector is MEDIUM exactly for a 64-bit Vista-or-later
   * layout (Users and Program Files (x86)), or, without Users, for an XP
   * (Documents and Settings) or NT (WINNT) layout; every other drive is LOW.
   * The 10/11 name needs WindowsApps and WinBioDatabase besides the 64-bit
   * layout, and the kernel files are noted exactly when they exist.
   */
  lemma PatternTree(present: set<string>)
    ensures var d := DetectByPattern(present);
      var users, x86 := "Users" in present, "Program Files (x86)" in present;
      && (d.confidence == Medium <==>
           (users && x86) || (!users && ("Documents and Settings" in present || "WINNT" in present)))
      && (d.confidence == Low <==> !(d.confidence == Medium))
      && (d.osName == "Windows 10/11 (64-bit)" <==>
           users && x86 && "Program Files/WindowsApps" in present && "Windows/System32/WinBioDatabase" in present)
      && d.methodsTried[0] == "pattern_match"
      && ("ntoskrnl_found" in d.methodsTried <==> "Windows/System32/ntoskrnl.exe" in present)
      && ("kernel32_found" in d.methodsTried <==> "Windows/System32/kernel32.dll" in present)
  {
    var d := DetectByPattern(present);
    assert d.methodsTried[0] == "pattern_match";
    assert "ntoskrnl_found" != "pattern_match" && "ntoskrnl_found" != "kernel32_found";
    assert "kernel32_found" != "pattern_match";
  }

  // ---------------------------------------------------------------------
  // Linux

  /**
   * The value the pattern `"?([^"\n]+)"?` captures at position `q`: after an
   * optional opening quote, the longest run without quotes or line breaks;
   * no match when that run is empty.
   */
  function Run(s: string): (r: string)
    ensures |r| <= |s| && r == s[..|r|]
    ensures forall k :: 0 <= k < |r| ==> r[k] != '"' && r[k] != '\n'
    ensures |r| < |s| ==> s[|r|] == '"' || s[|r|] == '\n'
  {
    if s == [] || s[0] == '"' || s[0] == '\n' then [] else [s[0]] + Run(s[1..])
  }

  function CaptureAt(c: string, q: nat): Option<string>
    requires q <= |c|
  {
    var v := if q < |c| && c[q] == '"' then Run(c[q + 1..]) else Run(c[q..]);
    if v == "" then None else Some(v)
  }

  /** `KEY="?([^"\n]+)"?` matched at position `p`. */
  function MatchAt(c: string, key: string, p: nat): Option<string>
    requires p <= |c|
  {
    if StartsWith(c[p..], key + "=") then CaptureAt(c, p + |key| + 1) else None
  }

  predicate LineStart(c: string, p: nat)
    requires p <= |c|
  {
    p == 0 || c[p - 1] == '\n'
  }

  /** `re.search`: the first match at or after `p`; with `anchored` only at line starts (`^` in MULTILINE). */
  function SearchFrom(c: string, key: string, anchored: bool, p: nat): (r: Option<string>)
    requires p <= |c|
    ensures r.Some? ==> r.value != "" && '"' !in r.value && '\n' !in r.value
    decreases |c| - p
  {
    if (!anchored || LineStart(c, p)) && MatchAt(c, key, p).Some? then MatchAt(c, key, p)
    else if p == |c| then None
    else SearchFrom(c, key, anchored, p + 1)
  }

  /** `re.search(rf'^{key}="?([^"\n]+)"?', content, re.MULTILINE).group(1).strip('"')` */
  function LineValue(c: string, key: string): Option<string>
  {
    SearchFrom(c, key, true, 0)
  }

  /** `re.search(r'DISTRIB_DESCRIPTION="?([^"\n]+)"?', content).group(1)`: anywhere, not only at a line start. */
  function Description(c: string): Option<string>
  {
    SearchFrom(c, "DISTRIB_DESCRIPTION", false, 0)
  }

  /**
   * A found value comes from the first line start at which the key is
   * followed by '='; no earlier line start matches.
   */
  lemma {:induction false} LineValueFirst(c: string, key: string, p: nat) returns (at: nat)
    requires p <= |c| && SearchFrom(c, key, true, p).Some?
    ensures p <= at <= |c| && LineStart(c, at) && StartsWith(c[at..], key + "=")
    ensures MatchAt(c, key, at) == SearchFrom(c, key, true, p)
    ensures forall q :: p <= q < at && LineStart(c, q) ==> MatchAt(c, key, q).None?
    decreases |c| - p
  {
    if LineStart(c, p) && MatchAt(c, key, p).Some? {
      at := p;
    } else {
      at := LineValueFirst(c, key, p + 1);
    }
  }

  /** A line that names a longer key, such as `VERSION_ID=` for `VERSION`, never matches. */
  lemma LongerKeyNoMatch(c: string, key: string, suffix: string, p: nat)
    requires p <= |c| && suffix != [] && suffix[0] != '='
    requires StartsWith(c[p..], key + suffix)
    ensures MatchAt(c, key, p).None?
  {
    var t := c[p..];
    assert t[..|key| + |suffix|] == key + suffix;
    assert t[|key|] == t[..|key| + |suffix|][|key|] == suffix[0];
    assert (key + "=")[|key|] == '=';
  }

  lemma RunOfValue(v: string, rest: string)
    requires forall k :: 0 <= k < |v| ==> v[k] != '"' && v[k] != '\n'
    requires rest == [] || rest[0] == '"' || rest[0] == '\n'
    ensures Run(v + rest) == v
  {
    assert (v + rest)[..|v|] == v;
  }

  /**
   * A file that begins with `KEY="value"` or `KEY=value` on its first line
   * yields the value, without the quotes.
   */
  lemma FirstLineValue(key: string, v: string, quoted: bool, rest: string)
    requires v != [] && forall k :: 0 <= k < |v| ==> v[k] != '"' && v[k] != '\n'
    ensures var q := if quoted then "\"" else "";
      LineValue(key + "=" + q + v + q + "\n" + rest, key) == Some(v)
  {
    var q := if quoted then "\"" else "";
    var c := key + "=" + q + v + q + "\n" + rest;
    var at := |key| + 1;
    assert c[0..][..|key| + 1] == key + "=";
    if quoted {
      assert c[at] == '"';
      assert c[at + 1..] == v + ("\"" + "\n" + rest);
      RunOfValue(v, "\"" + "\n" + rest);
    } else {
      assert c[at..] == v + ("\n" + rest);
      RunOfValue(v, "\n" + rest);
    }
  }

  /** The os-release keys, in the order they are applied, and the field each fills. */
  const OsReleaseKeys := ["NAME", "VERSION", "VERSION_ID", "ID"]

  /** The handler of one os-release key. */
  function Apply(r: Detection, key: string, value: string): Detection
  {
    if key == "NAME" then r.(osName := value)
    else if key == "VERSION" then r.(version := Some(value))
    else if key == "VERSION_ID" then r.(buildNumber := Some(value))
    else r.(distribution := Some(value))
  }

  /** Every os-release key found in `c` sets its field; the rest of `r` is kept. */
  function OsReleaseFields(r: Detection, c: string): (s: Detection)
  {
    var name, version := LineValue(c, "NAME"), LineValue(c, "VERSION");
    var id, distribution := LineValue(c, "VERSION_ID"), LineValue(c, "ID");
    r.(osName := if name.Some? then name.value else r.osName,
       version := if version.Some? then version else r.version,
       buildNumber := if id.Some? then id else r.buildNumber,
       distribution := if distribution.Some? then distribution else r.distribution)
  }

  /** The parser loop of `_detect_linux`: each key is searched for and, when found, handled. */
  method ParseOsRelease(r: Detection, c: string) returns (s: Detection)
    ensures s == OsReleaseFields(r, c)
  {
    s := r;
    var i := 0;
    while i < |OsReleaseKeys|
      invariant 0 <= i <= |OsReleaseKeys|
      invariant s == OsReleaseFieldsUpTo(r, c, i)
    {
      var found := LineValue(c, OsReleaseKeys[i]);
      if found.Some? {
        s := Apply(s, OsReleaseKeys[i], found.value);
      }
      i := i + 1;
    }
    AllKeysApplied(r, c);
  }

  lemma AllKeysApplied(r: Detection, c: string)
    ensures OsReleaseFieldsUpTo(r, c, |OsReleaseKeys|) == OsReleaseFields(r, c)
  {
    assert OsReleaseKeys[0] == "NAME" && OsReleaseKeys[1] == "VERSION";
    assert OsReleaseKeys[2] == "VERSION_ID" && OsReleaseKeys[3] == "ID";
    assert OsReleaseFieldsUpTo(r, c, 0) == r;
    var s1 := OsReleaseFieldsUpTo(r, c, 1);
    assert s1 == if LineValue(c, "NAME").Some? then Apply(r, "NAME", LineValue(c, "NAME").value) else r;
    var s2 := OsReleaseFieldsUpTo(r, c, 2);
    var s3 := OsReleaseFieldsUpTo(r, c, 3);
    assert s1 == r.(osName := if LineValue(c, "NAME").Some? then LineValue(c, "NAME").value else r.osName);
    assert s2 == s1.(version := if LineValue(c, "VERSION").Some? then LineValue(c, "VERSION") else r.version);
    assert s3 == s2.(buildNumber := if LineValue(c, "VERSION_ID").Some? then LineValue(c, "VERSION_ID") else r.buildNumber);
  }

  /** The first `n` handlers applied in order. */
  function OsReleaseFieldsUpTo(r: Detection, c: string, n: nat): Detection
    requires n <= |OsReleaseKeys|
  {
    if n == 0 then r
    else
      var s := OsReleaseFieldsUpTo(r, c, n - 1);
      var found := LineValue(c, OsReleaseKeys[n - 1]);
      if found.Some? then Apply(s, OsReleaseKeys[n - 1], found.value) else s
  }

  /** `_detect_linux` */
  function DetectLinux(view: DriveView): Detection
  {
    if "etc" !in view.present then Fresh("Linux")
    else
      var r := Fresh("Linux").(bootCapable := true, methodsTried := ["etc_folder_found"]);
      var (r, decided) :=
        match view.osRelease
        case Absent => (r, false)
        case Unreadable(message) => (r.(errors := r.errors + ["Could not read os-release: " + message]), false)
        case Content(c) =>
          var parsed := OsReleaseFields(r, c);
          if parsed.osName != "" && parsed.osName != "Unknown"
          then (parsed.(confidence := High, detectionMethod := ByOsRelease), true)
          else (parsed, false);
      if decided then r
      else
        var (r, decided) :=
          match view.lsbRelease
          case Absent => (r, false)
          case Unreadable(message) => (r.(errors := r.errors + ["Could not read lsb-release: " + message]), false)
          case Content(c) =>
            match Description(c)
            case Some(d) => (r.(osName := d, confidence := Medium, detectionMethod := ByLsbRelease), true)
            case None => (r, false);
        if decided then r
        else r.(osName := "Linux (distribution unknown)", confidence := Low, detectionMethod := ByPattern)
  }

  /** The os-release NAME, when the file was read and names something other than 'Unknown'. */
  predicate NamedByOsRelease(view: DriveView)
  {
    view.osRelease.Content? && LineValue(view.osRelease.text, "NAME").Some?
    && LineValue(view.osRelease.text, "NAME").value != "Unknown"
  }

  /**
   * Linux detection: UNKNOWN exactly without `etc`; HIGH from os-release
   * exactly when it has a NAME other than 'Unknown'; otherwise MEDIUM from
   * lsb-release exactly when it has a DISTRIB_DESCRIPTION; otherwise LOW.
   */
  lemma LinuxDecided(view: DriveView)
    ensures var d := DetectLinux(view);
      && (d.confidence == Unknown <==> "etc" !in view.present)
      && ("etc" in view.present ==> d.bootCapable && d.osType == "Linux" && d.methodsTried == ["etc_folder_found"])
      && (d.confidence == High <==> "etc" in view.present && NamedByOsRelease(view))
      && (d.confidence == High ==> d.osName == LineValue(view.osRelease.text, "NAME").value
                                    && d.detectionMethod == ByOsRelease)
      && (d.confidence == Medium <==> "etc" in view.present && !NamedByOsRelease(view)
                                      && view.lsbRelease.Content? && Description(view.lsbRelease.text).Some?)
      && (d.confidence == Low ==> d.osName == "Linux (distribution unknown)")
  {
  }

  // ---------------------------------------------------------------------
  // macOS

  /** `_detect_mac` */
  function DetectMac(view: DriveView): Detection
  {
    if "System/Library" !in view.present then Fresh("macOS")
    else
      var r := Fresh("macOS").(bootCapable := true, methodsTried := ["system_library_found"]);
      var fallback := (s: Detection) => s.(osName := "macOS (version unknown)", confidence := Low,
                                           detectionMethod := ByPattern);
      match view.plist
      case NoPlist => fallback(r)
      case PlistFailed(message) => fallback(r.(errors := ["Could not read SystemVersion.plist: " + message]))
      case Plist(name, version, build) =>
        var s := r.(osName := name.GetOr("macOS"), version := version, buildNumber := build);
        if version.Some? && version.value != "" then s.(confidence := High, detectionMethod := ByPlist)
        else fallback(s)
  }

  /**
   * macOS detection: UNKNOWN exactly without `System/Library`; HIGH exactly
   * when the plist gives a non-empty version; otherwise LOW, keeping
   * whatever version and build the plist gave.
   */
  lemma MacDecided(view: DriveView)
    ensures var d := DetectMac(view);
      && (d.confidence == Unknown <==> "System/Library" !in view.present)
      && (d.confidence == High <==> "System/Library" in view.present && view.plist.Plist?
                                    && view.plist.userVisibleVersion.Some? && view.plist.userVisibleVersion.value != "")
      && (d.confidence == High ==> d.version == view.plist.userVisibleVersion
                                    && d.osName == view.plist.productName.GetOr("macOS"))
      && ("System/Library" in view.present && d.confidence != High ==>
            d.confidence == Low && d.osName == "macOS (version unknown)"
            && (view.plist.Plist? ==> d.buildNumber == view.plist.buildVersion))
  {
  }
}

=== FILE: os_inspection.dfy ===
/**
 * Pass 2 of an inspection: operating-system detection, then, for Windows
 * drives, feature markers, user profiles and a count of installed programs,
 * then recommendations; the report is recorded as pass 2 of the session.
 */
module OsInspection {
  import opened Wrappers
  import opened Text
  import opened DrivePaths
  import opened OsDetection
  import opened Catalog

  /** `_analyze_windows_features`: which marker paths exist. */
  datatype WindowsFeatures = WindowsFeatures(
    hasWsl: bool,
    hasHyperV: bool,
    hasWindowsDefender: bool,
    hasBitlocker: bool,
    hasPowershell7: bool,
    hasDotnetCore: bool,
    hasVisualStudio: bool,
    hasOffice: bool,
    hasStoreApps: bool,
    is64bit: bool)

  function FeaturesOf(present: set<string>): (f: WindowsFeatures)
    ensures f.is64bit <==> "Program Files (x86)" in present
  {
    WindowsFeatures(
      "Windows/System32/lxss" in present,
      "Windows/System32/vmms.exe" in present,
      "Program Files/Windows Defender" in present,
      "Windows/System32/fvenotify.exe" in present,
      "Program Files/PowerShell/7" in present,
      "Program Files/dotnet" in present,
      "Program Files/Microsoft Visual Studio" in present || "Program Files (x86)/Microsoft Visual Studio" in present,
      "Program Files/Microsoft Office" in present || "Program Files (x86)/Microsoft Office" in present,
      "Program Files/WindowsApps" in present,
      "Program Files (x86)" in present)
  }

  /** An entry of a directory listing. */
  datatype Entry = Entry(name: string, isDir: bool, hasNtUser: bool)

  /** Listing a directory: its entries, or the exception raised (permission, or anything else). */
  datatype Listing = Listed(entries: seq<Entry>) | Denied(message: string) | ListFailed(message: string)

  /** The four directories the pass lists; each is consulted only when it exists. */
  datatype Listings = Listings(users: Listing, documentsAndSettings: Listing, programFiles: Listing,
                               programFilesX86: Listing)

  /** What advice `_generate_recommendations` gives. */
  datatype OsAdvice =
    | CouldNotDetect
    | LowConfidence
    | ServerEdition
    | OlderWindows
    | BitLockerDetected
    | ManyProfiles(count: nat)
    | NoIssues

  /** `OSReport`, with the detection fields kept together. */
  datatype OsReport = OsReport(
    drivePath: string,
    driveLetter: string,
    detection: Detection,
    features: Option<WindowsFeatures>,
    userProfiles: seq<string>,
    installedProgramsCount: Option<nat>,
    errors: seq<string>,
    warnings: seq<string>,
    recommendations: seq<OsAdvice>)

  // ---------------------------------------------------------------------
  // User profiles

  const SystemProfiles: set<string> := {"Default", "Default User", "Public", "All Users"}
  const LegacySystemProfiles: set<string> := {"Default User", "All Users", "NetworkService", "LocalService"}

  predicate IsProfile(e: Entry, excluded: set<string>)
  {
    e.isDir && e.name !in excluded && e.hasNtUser
  }

  /** The names of the profile entries, in listing order. */
  function Profiles(entries: seq<Entry>, excluded: set<string>): seq<string>
  {
    if entries == [] then []
    else
      var rest := Profiles(entries[..|entries| - 1], excluded);
      var e := entries[|entries| - 1];
      if IsProfile(e, excluded) then rest + [e.name] else rest
  }

  /** A name is listed exactly when some entry of that name is a directory, not excluded, with NTUSER.DAT. */
  lemma {:induction false} ProfilesIff(entries: seq<Entry>, excluded: set<string>, name: string)
    ensures name in Profiles(entries, excluded) <==>
      exists k :: 0 <= k < |entries| && entries[k].name == name && IsProfile(entries[k], excluded)
  {
    if entries != [] {
      var init := entries[..|entries| - 1];
      ProfilesIff(init, excluded, name);
      if exists k :: 0 <= k < |init| && init[k].name == name && IsProfile(init[k], excluded) {
        var k :| 0 <= k < |init| && init[k].name == name && IsProfile(init[k], excluded);
        assert entries[k] == init[k];
      }
      if exists k :: 0 <= k < |entries| && entries[k].name == name && IsProfile(entries[k], excluded) {
        var k :| 0 <= k < |entries| && entries[k].name == name && IsProfile(entries[k], excluded);
        if k < |init| {
          assert init[k] == entries[k];
        }
      }
    }
  }

  /** No system folder is ever reported as a profile. */
  lemma {:induction false} ProfilesExclude(entries: seq<Entry>, excluded: set<string>)
    ensures forall k :: 0 <= k < |Profiles(entries, excluded)| ==> Profiles(entries, excluded)[k] !in excluded
  {
    if entries != [] {
      ProfilesExclude(entries[..|entries| - 1], excluded);
    }
  }

  /** The profile loop: entries are checked in order and the profiles appended. */
  method CollectProfiles(entries: seq<Entry>, excluded: set<string>) returns (profiles: seq<string>)
    ensures profiles == Profiles(entries, excluded)
  {
    profiles := [];
    var i := 0;
    while i < |entries|
      invariant 0 <= i <= |entries|
      invariant profiles == Profiles(entries[..i], excluded)
    {
      assert entries[..i + 1][..i] == entries[..i];
      if IsProfile(entries[i], excluded) {
        profiles := profiles + [entries[i].name];
      }
      i := i + 1;
    }
    assert entries[..i] == entries;
  }

  /** `_analyze_user_profiles`: the profiles found and the warnings raised. */
  function ProfilesFound(present: set<string>, listings: Listings): (seq<string>, seq<string>)
  {
    var (profiles, warnings) :=
      if "Users" !in present then ([], [])
      else match listings.users
        case Listed(es) => (Profiles(es, SystemProfiles), [])
        case Denied(_) => ([], ["Could not enumerate all user profiles (permission denied)"])
        case ListFailed(m) => ([], ["Error enumerating user profiles: " + m]);
    if "Documents and Settings" in present && "Users" !in present then
      match listings.documentsAndSettings
      case Listed(es) => (Profiles(es, LegacySystemProfiles), warnings)
      case Denied(m) => (profiles, warnings + ["Error enumerating legacy user profiles: " + m])
      case ListFailed(m) => (profiles, warnings + ["Error enumerating legacy user profiles: " + m])
    else (profiles, warnings)
  }

  /**
   * Profiles come from `Users` when it exists and from `Documents and
   * Settings` only when `Users` does not.
   */
  lemma ProfileSources(present: set<string>, listings: Listings)
    ensures var (profiles, warnings) := ProfilesFound(present, listings);
      && ("Users" in present && listings.users.Listed? ==> profiles == Profiles(listings.users.entries, SystemProfiles))
      && ("Users" in present && !listings.users.Listed? ==> profiles == [] && |warnings| == 1)
      && ("Users" !in present && "Documents and Settings" in present && listings.documentsAndSettings.Listed? ==>
            profiles == Profiles(listings.documentsAndSettings.entries, LegacySystemProfiles) && warnings == [])
      && ("Users" !in present && "Documents and Settings" !in present ==> profiles == [] && warnings == [])
  {
  }

  /** The body of `_analyze_user_profiles` on the report. */
  method AnalyseUserProfiles(report: OsReport, present: set<string>, listings: Listings) returns (r: OsReport)
    ensures r == report.(userProfiles := if ProfilesAssigned(present, listings) then ProfilesFound(present, listings).0
                                         else report.userProfiles,
                         warnings := report.warnings + ProfilesFound(present, listings).1)
  {
    r := report;
    if "Users" in present {
      match listings.users
      case Listed(es) =>
        var profiles := CollectProfiles(es, SystemProfiles);
        r := r.(userProfiles := profiles);
      case Denied(_) =>
        r := r.(warnings := r.warnings + ["Could not enumerate all user profiles (permission denied)"]);
      case ListFailed(m) =>
        r := r.(warnings := r.warnings + ["Error enumerating user profiles: " + m]);
    }
    if "Documents and Settings" in present && "Users" !in present {
      match listings.documentsAndSettings
      case Listed(es) =>
        var profiles := CollectProfiles(es, LegacySystemProfiles);
        r := r.(userProfiles := profiles);
      case Denied(m) =>
        r := r.(warnings := r.warnings + ["Error enumerating legacy user profiles: " + m]);
      case ListFailed(m) =>
        r := r.(warnings := r.warnings + ["Error enumerating legacy user profiles: " + m]);
    }
  }

  /** Whether a listing succeeded, so that the profile list is assigned. */
  predicate ProfilesAssigned(present: set<string>, listings: Listings)
  {
    ("Users" in present && listings.users.Listed?)
    || ("Documents and Settings" in present && "Users" !in present && listings.documentsAndSettings.Listed?)
  }

  // ---------------------------------------------------------------------
  // Installed programs

  /** The number of directories in a listing. */
  function Dirs(entries: seq<Entry>): (n: nat)
    ensures n <= |entries|
  {
    if entries == [] then 0 else Dirs(entries[..|entries| - 1]) + (if entries[|entries| - 1].isDir then 1 else 0)
  }

  /** A listing's share of the count: its directories, or nothing when it raised. */
  function Share(exists_: bool, listing: Listing): nat
  {
    if exists_ && listing.Listed? then Dirs(listing.entries) else 0
  }

  /**
   * `_count_installed_programs`: the subdirectories of `Program Files` plus
   * those of `Program Files (x86)`; a folder that is missing or cannot be
   * listed adds nothing.
   */
  function ProgramCount(present: set<string>, listings: Listings): nat
  {
    Share("Program Files" in present, listings.programFiles)
    + Share("Program Files (x86)" in present, listings.programFilesX86)
  }

  /** The counting loops: over the two folders, and over each folder's entries. */
  method CountInstalledPrograms(present: set<string>, listings: Listings) returns (count: nat)
    ensures count == ProgramCount(present, listings)
    ensures count <= (if listings.programFiles.Listed? then |listings.programFiles.entries| else 0)
                     + (if listings.programFilesX86.Listed? then |listings.programFilesX86.entries| else 0)
  {
    count := 0;
    var folders := [("Program Files", listings.programFiles), ("Program Files (x86)", listings.programFilesX86)];
    var f := 0;
    while f < 2
      invariant 0 <= f <= 2
      invariant count == (if f > 0 then Share(folders[0].0 in present, folders[0].1) else 0)
                         + (if f > 1 then Share(folders[1].0 in present, folders[1].1) else 0)
    {
      var (name, listing) := folders[f];
      if name in present && listing.Listed? {
        var es := listing.entries;
        var dirs := 0;
        var i := 0;
        while i < |es|
          invariant 0 <= i <= |es|
          invariant dirs == Dirs(es[..i])
        {
          assert es[..i + 1][..i] == es[..i];
          if es[i].isDir {
            dirs := dirs + 1;
          }
          i := i + 1;
        }
        assert es[..i] == es;
        count := count + dirs;
      }
      f := f + 1;
    }
  }

  // ---------------------------------------------------------------------
  // Recommendations

  const OldVersions := ["XP", "Vista", "Windows 7", "Windows 8"]

  predicate OlderWindowsName(name: string)
  {
    exists k :: 0 <= k < |OldVersions| && Contains(name, OldVersions[k])
  }

  /** The advice `_generate_recommendations` gives on the detection's confidence. */
  function ConfidenceAdvice(d: Detection): (a: seq<OsAdvice>)
    ensures CouldNotDetect in a <==> d.confidence == Unknown
    ensures LowConfidence in a <==> d.confidence == Low
    ensures forall x :: x in a ==> x == CouldNotDetect || x == LowConfidence
  {
    if d.confidence == Unknown then [CouldNotDetect] else if d.confidence == Low then [LowConfidence] else []
  }

  /** The advice `_generate_recommendations` gives only for Windows drives. */
  function WindowsAdvice(report: OsReport): (a: seq<OsAdvice>)
  {
    var d := report.detection;
    (if d.edition.Some? && d.edition.value != "" && Contains(d.edition.value, "Server") then [ServerEdition] else [])
    + (if d.version.Some? && d.version.value != "" && OlderWindowsName(d.osName) then [OlderWindows] else [])
    + (if report.features.Some? && report.features.value.hasBitlocker then [BitLockerDetected] else [])
    + (if |report.userProfiles| > 5 then [ManyProfiles(|report.userProfiles|)] else [])
  }

  /**
   * Each Windows advice is given exactly when its condition holds: a Server
   * edition, a named older version, BitLocker among the features, more than
   * five user profiles.
   */
  lemma WindowsAdviceIff(report: OsReport)
    ensures var a := WindowsAdvice(report);
      var d := report.detection;
      && (ServerEdition in a <==> d.edition.Some? && Contains(d.edition.value, "Server"))
      && (OlderWindows in a <==> d.version.Some? && d.version.value != "" && OlderWindowsName(d.osName))
      && (BitLockerDetected in a <==> report.features.Some? && report.features.value.hasBitlocker)
      && (ManyProfiles(|report.userProfiles|) in a <==> |report.userProfiles| > 5)
      && (forall x :: x in a ==> x != CouldNotDetect && x != LowConfidence && x != NoIssues)
  {
    var d := report.detection;
    if d.edition.Some? && Contains(d.edition.value, "Server") {
      var i := ContainsWitness(d.edition.value, "Server");
    }
  }

  /** `_generate_recommendations` */
  function Recommendations(report: OsReport): (advice: seq<OsAdvice>)
    ensures advice != []
  {
    var found := ConfidenceAdvice(report.detection)
                 + (if report.detection.osType == "Windows" then WindowsAdvice(report) else []);
    if found == [] then [NoIssues] else found
  }

  /**
   * UNKNOWN and LOW detections are flagged exactly when they occur; the
   * Windows advice is given exactly for Windows drives, and "no issues"
   * comes alone, exactly when nothing else applies.
   */
  lemma RecommendationsIff(report: OsReport)
    ensures var a := Recommendations(report);
      var d := report.detection;
      var windows := d.osType == "Windows";
      && (CouldNotDetect in a <==> d.confidence == Unknown)
      && (LowConfidence in a <==> d.confidence == Low)
      && (forall x :: x in WindowsAdvice(report) ==> (x in a <==> windows))
      && (NoIssues in a <==> a == [NoIssues])
  {
    WindowsAdviceIff(report);
  }

  // ---------------------------------------------------------------------
  // The pass

  /** The report before recommendations, from the detection: copied over, with the Windows analysis. */
  function AnalysedFrom(drivePath: string, d: Detection, present: set<string>, listings: Listings, includeExtra: bool): (r: OsReport)
  {
    var base := OsReport(drivePath, DriveLetterShown(drivePath), d, None, [], None, d.errors, [], []);
    if !(includeExtra && d.osType == "Windows") then base
    else
      var features := FeaturesOf(present);
      var tried := d.methodsTried + (if features.is64bit then ["64bit_detected"] else [])
                   + (if features.hasWsl then ["wsl_installed"] else []);
      var (profiles, warnings) := ProfilesFound(present, listings);
      base.(detection := d.(methodsTried := tried), features := Some(features), userProfiles := profiles,
            warnings := warnings, installedProgramsCount := Some(ProgramCount(present, listings)))
  }

  /** The report of pass 2, recommendations included. */
  function OsReportOf(drivePath: string, view: DriveView, listings: Listings, includeExtra: bool): OsReport
  {
    var r := AnalysedFrom(drivePath, Detect(view), view.present, listings, includeExtra);
    r.(recommendations := Recommendations(r))
  }

  /**
   * The Windows analysis runs exactly when it is enabled and the drive was
   * detected as Windows; `is_64bit` is then exactly the existence of
   * `Program Files (x86)`. The errors are the detection's.
   */
  lemma ExtraAnalysisOnlyForWindows(drivePath: string, view: DriveView, listings: Listings, includeExtra: bool)
    ensures var r := OsReportOf(drivePath, view, listings, includeExtra);
      && (r.features.Some? <==> includeExtra && Detect(view).osType == "Windows")
      && (r.installedProgramsCount.Some? <==> r.features.Some?)
      && (r.features.Some? ==> (r.features.value.is64bit <==> "Program Files (x86)" in view.present))
      && (r.features.None? ==> r.userProfiles == [] && ManyProfiles(0) !in r.recommendations)
      && r.errors == Detect(view).errors
      && r.recommendations != []
  {
    var r := AnalysedFrom(drivePath, Detect(view), view.present, listings, includeExtra);
    if r.features.None? {
      WindowsAdviceIff(r);
    }
  }

  /** The Windows analysis steps of `inspect`, on the report. */
  method AnalyseWindows(report: OsReport, present: set<string>, listings: Listings) returns (r: OsReport)
    requires report.features.None? && report.userProfiles == [] && report.warnings == []
    ensures r == report.(detection := report.detection.(methodsTried := report.detection.methodsTried
                           + (if FeaturesOf(present).is64bit then ["64bit_detected"] else [])
                           + (if FeaturesOf(present).hasWsl then ["wsl_installed"] else [])),
                         features := Some(FeaturesOf(present)), userProfiles := ProfilesFound(present, listings).0,
                         warnings := ProfilesFound(present, listings).1,
                         installedProgramsCount := Some(ProgramCount(present, listings)))
  {
    var features := FeaturesOf(present);
    var tried := report.detection.methodsTried;
    if features.is64bit {
      tried := tried + ["64bit_detected"];
    }
    if features.hasWsl {
      tried := tried + ["wsl_installed"];
    }
    r := report.(features := Some(features), detection := report.detection.(methodsTried := tried));
    r := AnalyseUserProfiles(r, present, listings);
    var count := CountInstalledPrograms(present, listings);
    r := r.(installedProgramsCount := Some(count));
  }

  /** The analysis steps of `inspect` in order, on the report. */
  method Analyse(drivePath: string, view: DriveView, listings: Listings, includeExtra: bool)
    returns (report: OsReport)
    ensures report == OsReportOf(drivePath, view, listings, includeExtra)
  {
    var d := Detect(view);
    report := OsReport(drivePath, DriveLetterShown(drivePath), d, None, [], None, [], [], []);
    report := report.(errors := report.errors + d.errors);
    if includeExtra && d.osType == "Windows" {
      report := AnalyseWindows(report, view.present, listings);
    }
    assert report == AnalysedFrom(drivePath, d, view.present, listings, includeExtra);
    report := report.(recommendations := report.recommendations + Recommendations(report));
  }

  /**
   * The legacy `os_info` write at the end of `inspect` is attempted when the
   * session exists and has a truthy drive id; the row is keyed by the
   * session id.
   */
  predicate LegacyRowWanted(sessions: seq<SessionRow>, sessionId: Option<int>)
  {
    Given(sessionId) && 1 <= sessionId.value <= |sessions| && sessions[sessionId.value - 1].driveId != 0
  }

  /**
   * `inspect`: with a store and a truthy session id, pass 2 is started first
   * and recorded with the report, failed exactly when the joined errors are
   * non-empty text; then the detection is stored in `os_info` under the
   * session id, when the session has a drive and the key is still free (an
   * insert that raises is ignored). Nothing else in the store changes.
   */
  method Inspect(db: Database?, sessionId: Option<int>, drivePath: string, view: DriveView, listings: Listings,
                 includeExtra: bool, toJson: OsReport -> string) returns (report: OsReport)
    requires db != null ==> db.Valid()
    modifies (if db == null then {} else {db})`passes, (if db == null then {} else {db})`sessions,
      (if db == null then {} else {db})`clock, (if db == null then {} else {db})`osInfo
    ensures db != null ==> db.Valid()
    ensures report == OsReportOf(drivePath, view, listings, includeExtra)
    ensures db != null && !LegacyRowWanted(db.sessions, sessionId) ==> db.osInfo == old(db.osInfo)
    ensures db != null && LegacyRowWanted(db.sessions, sessionId) ==>
      db.osInfo == if HasOsInfo(old(db.osInfo), sessionId.value) then old(db.osInfo)
                   else old(db.osInfo) + [OsInfoOf(sessionId.value, report.detection)]
    ensures db != null && !Given(sessionId) ==>
      db.sessions == old(db.sessions) && db.passes == old(db.passes) && db.clock == old(db.clock)
    ensures db != null && Given(sessionId) ==>
      && db.sessions == AtPass(old(db.sessions), sessionId.value, 2)
      && db.passes == PassRun(old(db.passes), |old(db.sessions)|, sessionId.value, 2, Some(toJson(report)),
                              FailureMessage(report.errors), old(db.clock))
      && db.clock == old(db.clock) + 2
    ensures db != null && Given(sessionId) ==>
      match PassIndex(|db.sessions|, sessionId.value, 2)
      case None => true
      case Some(i) =>
        && db.passes[i].status == (var m := FailureMessage(report.errors); if m.Some? && m.value != "" then Failed else Completed)
        && db.passes[i].reportJson == Some(toJson(report))
        && db.passes[i].errorMessage == FailureMessage(report.errors)
  {
    if db != null && Given(sessionId) {
      report := InspectSession(db, sessionId.value, drivePath, view, listings, includeExtra, toJson);
    } else {
      report := Analyse(drivePath, view, listings, includeExtra);
    }
  }

  /** `inspect` with a store and session `s`: pass 2 started, the analysis, pass 2 recorded, the legacy row. */
  method InspectSession(db: Database, s: int, drivePath: string, view: DriveView, listings: Listings,
                        includeExtra: bool, toJson: OsReport -> string) returns (report: OsReport)
    requires db.Valid() && s != 0
    modifies db`passes, db`sessions, db`clock, db`osInfo
    ensures db.Valid()
    ensures report == OsReportOf(drivePath, view, listings, includeExtra)
    ensures !LegacyRowWanted(db.sessions, Some(s)) ==> db.osInfo == old(db.osInfo)
    ensures LegacyRowWanted(db.sessions, Some(s)) ==>
      db.osInfo == if HasOsInfo(old(db.osInfo), s) then old(db.osInfo)
                   else old(db.osInfo) + [OsInfoOf(s, report.detection)]
    ensures db.sessions == AtPass(old(db.sessions), s, 2)
    ensures db.passes == PassRun(old(db.passes), |old(db.sessions)|, s, 2, Some(toJson(report)),
                                 FailureMessage(report.errors), old(db.clock))
    ensures db.clock == old(db.clock) + 2
    ensures match PassIndex(|db.sessions|, s, 2)
      case None => true
      case Some(i) =>
        && db.passes[i].status == (var m := FailureMessage(report.errors); if m.Some? && m.value != "" then Failed else Completed)
        && db.passes[i].reportJson == Some(toJson(report))
        && db.passes[i].errorMessage == FailureMessage(report.errors)
  {
    var _ := db.StartPass(s, 2);
    report := Analyse(drivePath, view, listings, includeExtra);
    RecordSession(db, s, toJson(report), report.errors, report.detection);
  }

  /** The writes after the analysis: pass 2 recorded with the report, then the legacy `os_info` row. */
  method RecordSession(db: Database, s: int, reportJson: string, errors: seq<string>, d: Detection)
    requires db.Valid() && s != 0
    modifies db`passes, db`clock, db`osInfo
    ensures db.Valid()
    ensures !LegacyRowWanted(db.sessions, Some(s)) ==> db.osInfo == old(db.osInfo)
    ensures LegacyRowWanted(db.sessions, Some(s)) ==>
      db.osInfo == if HasOsInfo(old(db.osInfo), s) then old(db.osInfo) else old(db.osInfo) + [OsInfoOf(s, d)]
    ensures db.passes == PassCompleted(old(db.passes), |db.sessions|, s, 2, Some(reportJson), FailureMessage(errors),
                                       old(db.clock))
    ensures db.clock == old(db.clock) + 1
    ensures match PassIndex(|db.sessions|, s, 2)
      case None => true
      case Some(i) =>
        && db.passes[i].status == (var m := FailureMessage(errors); if m.Some? && m.value != "" then Failed else Completed)
        && db.passes[i].reportJson == Some(reportJson)
        && db.passes[i].errorMessage == FailureMessage(errors)
  {
    RecordPass(db, s, 2, reportJson, errors);
    StoreLegacyRow(db, Some(s), d);
  }

  /** The legacy `os_info` write of `inspect`, keyed by the session id; an insert that raises is ignored. */
  method StoreLegacyRow(db: Database, sessionId: Option<int>, d: Detection)
    requires db.Valid()
    modifies db`osInfo
    ensures db.Valid()
    ensures !LegacyRowWanted(db.sessions, sessionId) ==> db.osInfo == old(db.osInfo)
    ensures LegacyRowWanted(db.sessions, sessionId) ==>
      db.osInfo == if HasOsInfo(old(db.osInfo), sessionId.value) then old(db.osInfo)
                   else old(db.osInfo) + [OsInfoOf(sessionId.value, d)]
  {
    if Given(sessionId) {
      var inspection := db.GetInspection(sessionId.value);
      if inspection.Some? && inspection.value.0.driveId != 0 {
        var _ := db.InsertOsInfo(sessionId.value, d);
      }
    }
  }
}

=== FILE: quick_hashes.dfy ===
/**
 * The hashing phase of the metadata pass: the scan's files of at least the
 * minimum size are read back from the catalogue, largest first, and each
 * one's quick hash is stored as a `quick` hash row, in batches.
 *
 * The file system is a function from a file's path (relative to the drive)
 * to what the hashing code sees there; the MD5 digest is a parameter.
 */
module QuickHashes {
  import opened Wrappers
  import opened Text
  import opened Sorting
  import opened Seqs
  import opened FileScanning
  import opened Catalog
  import opened Hashing

  /** One row of the hashing query: a file's id (its row number), path and size. */
  datatype Candidate = Candidate(fileId: nat, path: string, sizeBytes: nat)

  /** The files of scan `scanId` with at least `minSize` bytes, in table order. */
  function Candidates(files: seq<FileRow>, scanId: int, minSize: int): seq<Candidate>
  {
    if files == [] then []
    else
      var f := files[|files| - 1];
      Candidates(files[..|files| - 1], scanId, minSize)
        + if f.scanId == scanId && f.rec.sizeBytes >= minSize then [Candidate(|files|, f.rec.path, f.rec.sizeBytes)] else []
  }

  /** A candidate is exactly a file row of the scan that is large enough, with its row number as id. */
  lemma {:induction false} CandidatesExact(files: seq<FileRow>, scanId: int, minSize: int)
    ensures forall c :: c in Candidates(files, scanId, minSize) <==>
      exists i :: 0 <= i < |files| && files[i].scanId == scanId && files[i].rec.sizeBytes >= minSize
        && c == Candidate(i + 1, files[i].rec.path, files[i].rec.sizeBytes)
  {
    if files != [] {
      var front := files[..|files| - 1];
      CandidatesExact(front, scanId, minSize);
      forall c ensures c in Candidates(files, scanId, minSize) <==>
        exists i :: 0 <= i < |files| && files[i].scanId == scanId && files[i].rec.sizeBytes >= minSize
          && c == Candidate(i + 1, files[i].rec.path, files[i].rec.sizeBytes)
      {
        if c in Candidates(front, scanId, minSize) {
          var i :| 0 <= i < |front| && front[i].scanId == scanId && front[i].rec.sizeBytes >= minSize
            && c == Candidate(i + 1, front[i].rec.path, front[i].rec.sizeBytes);
          assert files[i] == front[i];
        }
        if exists i :: (0 <= i < |files| && files[i].scanId == scanId && files[i].rec.sizeBytes >= minSize
                        && c == Candidate(i + 1, files[i].rec.path, files[i].rec.sizeBytes)) {
          var i :| 0 <= i < |files| && files[i].scanId == scanId && files[i].rec.sizeBytes >= minSize
            && c == Candidate(i + 1, files[i].rec.path, files[i].rec.sizeBytes);
          if i < |front| {
            assert files[i] == front[i];
          }
        }
      }
    }
  }

  function SizeOf(c: Candidate): int
  {
    c.sizeBytes
  }

  /** `ORDER BY size_bytes DESC`: the candidates, largest first. */
  function HashQueue(files: seq<FileRow>, scanId: int, minSize: int): seq<Candidate>
  {
    SortDesc(Candidates(files, scanId, minSize), SizeOf)
  }

  /** The queue holds every candidate once, in non-increasing order of size. */
  lemma HashQueueOrdered(files: seq<FileRow>, scanId: int, minSize: int)
    ensures multiset(HashQueue(files, scanId, minSize)) == multiset(Candidates(files, scanId, minSize))
    ensures forall i, j :: 0 <= i < j < |HashQueue(files, scanId, minSize)| ==>
      HashQueue(files, scanId, minSize)[i].sizeBytes >= HashQueue(files, scanId, minSize)[j].sizeBytes
  {
    SortDescCorrect(Candidates(files, scanId, minSize), SizeOf);
  }

  /** What `compute_quick_hash` returns as the hash: none when the file cannot be examined or opened. */
  function QuickHashOf(file: FileView, md5: seq<byte> -> string): Option<string>
  {
    if file.statError.Some? || file.openError.Some? then None
    else Some(md5(QuickInput(file.content, QuickHashChunkSize)))
  }

  /** `(scan_id, file_id, hash_type, hash_value)`, as a hash batch holds it. */
  type HashTuple = (int, int, string, string)

  /** The hash entry a candidate yields: only a non-empty hash is kept. */
  function Entry(scanId: int, c: Candidate, fileAt: string -> FileView, md5: seq<byte> -> string): seq<HashTuple>
  {
    match QuickHashOf(fileAt(c.path), md5)
    case Some(h) => if h != "" then [(scanId, c.fileId, "quick", h)] else []
    case None => []
  }

  /** The hash entries of a run of candidates, in order. */
  function Hashed(cs: seq<Candidate>, scanId: int, fileAt: string -> FileView, md5: seq<byte> -> string): seq<HashTuple>
  {
    if cs == [] then []
    else Hashed(cs[..|cs| - 1], scanId, fileAt, md5) + Entry(scanId, cs[|cs| - 1], fileAt, md5)
  }

  lemma HashedStep(cs: seq<Candidate>, c: Candidate, scanId: int, fileAt: string -> FileView, md5: seq<byte> -> string)
    ensures Hashed(cs + [c], scanId, fileAt, md5) == Hashed(cs, scanId, fileAt, md5) + Entry(scanId, c, fileAt, md5)
  {
    assert (cs + [c])[..|cs|] == cs;
  }

  /**
   * Every entry is a `quick` hash of scan `scanId` with a non-empty value,
   * for one of the candidates; there is at most one entry per candidate.
   */
  lemma {:induction false} HashedShape(cs: seq<Candidate>, scanId: int, fileAt: string -> FileView, md5: seq<byte> -> string)
    ensures |Hashed(cs, scanId, fileAt, md5)| <= |cs|
    ensures forall t :: t in Hashed(cs, scanId, fileAt, md5) ==>
      t.0 == scanId && t.2 == "quick" && t.3 != ""
      && exists c :: c in cs && t.1 == c.fileId && QuickHashOf(fileAt(c.path), md5) == Some(t.3)
  {
    if cs != [] {
      var front, c := cs[..|cs| - 1], cs[|cs| - 1];
      HashedShape(front, scanId, fileAt, md5);
      forall t | t in Hashed(cs, scanId, fileAt, md5)
        ensures t.0 == scanId && t.2 == "quick" && t.3 != ""
          && exists c :: c in cs && t.1 == c.fileId && QuickHashOf(fileAt(c.path), md5) == Some(t.3)
      {
        if t in Hashed(front, scanId, fileAt, md5) {
          var c' :| c' in front && t.1 == c'.fileId && QuickHashOf(fileAt(c'.path), md5) == Some(t.3);
          assert c' in cs;
        } else {
          assert c in cs;
        }
      }
    }
  }

  /** Every candidate whose file can be opened and hashes to a non-empty digest has its entry. */
  lemma {:induction false} HashedComplete(cs: seq<Candidate>, scanId: int, fileAt: string -> FileView,
                                          md5: seq<byte> -> string, c: Candidate)
    requires c in cs
    requires QuickHashOf(fileAt(c.path), md5).Some? && QuickHashOf(fileAt(c.path), md5).value != ""
    ensures (scanId, c.fileId, "quick", QuickHashOf(fileAt(c.path), md5).value) in Hashed(cs, scanId, fileAt, md5)
  {
    var front := cs[..|cs| - 1];
    if c != cs[|cs| - 1] {
      assert c in front by {
        var k :| 0 <= k < |cs| && cs[k] == c;
        assert front[k] == c;
      }
      HashedComplete(front, scanId, fileAt, md5, c);
    }
  }

  /** The rows `insert_file_hashes_batch` writes for a batch at time `now`. */
  function Stamp(batch: seq<HashTuple>, now: nat): seq<HashRow>
  {
    seq(|batch|, k requires 0 <= k < |batch| => HashRow(batch[k].0, batch[k].1, batch[k].2, batch[k].3, now))
  }

  /** The hash rows without their time stamps. */
  function HashKeys(rows: seq<HashRow>): (ks: seq<HashTuple>)
    ensures |ks| == |rows|
  {
    if rows == [] then []
    else
      var r := rows[|rows| - 1];
      HashKeys(rows[..|rows| - 1]) + [(r.scanId, r.fileId, r.hashType, r.hashValue)]
  }

  lemma {:induction false} HashKeysAppend(a: seq<HashRow>, b: seq<HashRow>)
    ensures HashKeys(a + b) == HashKeys(a) + HashKeys(b)
    decreases |b|
  {
    if b == [] {
      assert a + b == a;
    } else {
      var front, r := b[..|b| - 1], b[|b| - 1];
      var key := [(r.scanId, r.fileId, r.hashType, r.hashValue)];
      assert (a + b)[..|a + b| - 1] == a + front;
      HashKeysAppend(a, front);
      calc {
        HashKeys(a + b);
        HashKeys(a + front) + key;
        (HashKeys(a) + HashKeys(front)) + key;
        HashKeys(a) + (HashKeys(front) + key);
        HashKeys(a) + HashKeys(b);
      }
    }
  }

  /** Stamping a batch and dropping the stamps gives the batch back. */
  lemma {:induction false} HashKeysStamp(batch: seq<HashTuple>, now: nat)
    ensures HashKeys(Stamp(batch, now)) == batch
    decreases |batch|
  {
    if batch != [] {
      var front := batch[..|batch| - 1];
      assert Stamp(batch, now)[..|batch| - 1] == Stamp(front, now);
      HashKeysStamp(front, now);
    }
  }

  /** Inserting a batch adds exactly its entries, after the rows already there. */
  method FlushHashes(db: Database, ghost prior: seq<HashTuple>, ghost stored: seq<HashTuple>, batch: seq<HashTuple>)
    requires db.Valid()
    requires HashKeys(db.fileHashes) == prior + stored
    modifies db`fileHashes, db`clock
    ensures db.Valid()
    ensures old(db.fileHashes) <= db.fileHashes
    ensures HashKeys(db.fileHashes) == prior + (stored + batch)
  {
    ghost var before := db.fileHashes;
    var n := db.InsertFileHashesBatch(batch);
    assert db.fileHashes == before + Stamp(batch, old(db.clock));
    HashKeysAppend(before, Stamp(batch, old(db.clock)));
    HashKeysStamp(batch, old(db.clock));
  }

  /**
   * `_compute_file_hashes`: the scan's files of at least `minSize` bytes are
   * read back largest first; with none, nothing happens.
   */
  method ComputeFileHashes(db: Database, scanId: int, minSize: int, batchSize: int,
                           fileAt: string -> FileView, md5: seq<byte> -> string) returns (filesHashed: nat)
    requires db.Valid()
    modifies db`fileHashes, db`clock
    ensures db.Valid()
    ensures old(db.fileHashes) <= db.fileHashes
    ensures HashKeys(db.fileHashes) == HashKeys(old(db.fileHashes)) + Hashed(HashQueue(db.files, scanId, minSize), scanId, fileAt, md5)
    ensures filesHashed == |Hashed(HashQueue(db.files, scanId, minSize), scanId, fileAt, md5)|
  {
    var queue := HashQueue(db.files, scanId, minSize);
    if queue == [] {
      assert HashKeys(db.fileHashes) + [] == HashKeys(db.fileHashes);
      return 0;
    }
    filesHashed := HashQueued(db, queue, scanId, batchSize, fileAt, md5);
  }

  /**
   * One turn of the hashing loop: the file is hashed; a non-empty hash is
   * counted and batched, and a batch that reaches `batchSize` is inserted.
   */
  method HashOne(db: Database, ghost prior: seq<HashTuple>, ghost stored: seq<HashTuple>, batch: seq<HashTuple>,
                 filesHashed: nat, ghost seen: seq<Candidate>, c: Candidate, scanId: int, batchSize: int,
                 fileAt: string -> FileView, md5: seq<byte> -> string)
    returns (ghost stored': seq<HashTuple>, batch': seq<HashTuple>, filesHashed': nat)
    requires db.Valid()
    requires HashKeys(db.fileHashes) == prior + stored
    requires stored + batch == Hashed(seen, scanId, fileAt, md5) && filesHashed == |stored| + |batch|
    modifies db`fileHashes, db`clock
    ensures db.Valid()
    ensures old(db.fileHashes) <= db.fileHashes
    ensures HashKeys(db.fileHashes) == prior + stored'
    ensures stored' + batch' == Hashed(seen + [c], scanId, fileAt, md5) && filesHashed' == |stored'| + |batch'|
  {
    var hash, error := ComputeQuickHash(fileAt(c.path), QuickHashChunkSize, md5);
    HashedStep(seen, c, scanId, fileAt, md5);
    stored', batch', filesHashed' := stored, batch, filesHashed;
    if hash.Some? && hash.value != "" {
      var entry := (scanId, c.fileId, "quick", hash.value);
      assert Entry(scanId, c, fileAt, md5) == [entry];
      Regroup(stored, batch, entry);
      batch' := batch + [entry];
      filesHashed' := filesHashed + 1;
      if |batch'| >= batchSize {
        FlushHashes(db, prior, stored, batch');
        stored', batch' := stored + batch', [];
      }
    } else {
      assert Entry(scanId, c, fileAt, md5) == [];
    }
  }

  /**
   * The hashing loop: each file whose quick hash is non-empty is counted
   * and batched, a batch is inserted when it reaches `batchSize`, and what
   * is left is inserted at the end. The rows added are the entries of the
   * queue, in order, after the rows already there.
   */
  method HashQueued(db: Database, queue: seq<Candidate>, scanId: int, batchSize: int,
                    fileAt: string -> FileView, md5: seq<byte> -> string) returns (filesHashed: nat)
    requires db.Valid()
    modifies db`fileHashes, db`clock
    ensures db.Valid()
    ensures old(db.fileHashes) <= db.fileHashes
    ensures HashKeys(db.fileHashes) == HashKeys(old(db.fileHashes)) + Hashed(queue, scanId, fileAt, md5)
    ensures filesHashed == |Hashed(queue, scanId, fileAt, md5)|
  {
    ghost var prior := HashKeys(db.fileHashes);
    var batch: seq<HashTuple> := [];
    ghost var stored: seq<HashTuple> := [];
    ghost var seen: seq<Candidate> := [];
    filesHashed := 0;
    assert prior + [] == prior;
    var i := 0;
    while i < |queue|
      invariant i <= |queue| && seen == queue[..i]
      invariant db.Valid()
      invariant old(db.fileHashes) <= db.fileHashes
      invariant HashKeys(db.fileHashes) == prior + stored
      invariant stored + batch == Hashed(seen, scanId, fileAt, md5)
      invariant filesHashed == |stored| + |batch|
    {
      var c := queue[i];
      stored, batch, filesHashed := HashOne(db, prior, stored, batch, filesHashed, seen, c, scanId, batchSize, fileAt, md5);
      TakeStep(queue, i);
      seen := seen + [c];
      i := i + 1;
    }
    assert queue[..|queue|] == queue;
    if batch != [] {
      FlushHashes(db, prior, stored, batch);
    } else {
      assert stored + batch == stored;
    }
  }
}

=== FILE: registry.dfy ===
/**
 * The offline registry reader: decoding of raw value data by registry type,
 * the type-name table, locating a hive file on the drive, walking a key path
 * through a parsed hive, the hivex-then-PowerShell fallback of `read_key`,
 * and the value mapping of `read_windows_version`.
 */
module Registry {
  import opened Wrappers
  import opened Text
  import opened DrivePaths
  import opened Seqs

  // ---------------------------------------------------------------------
  // Value types.

  /** `REG_TYPES`, indexed by type code. */
  const RegTypes: seq<string> := [
    "REG_NONE", "REG_SZ", "REG_EXPAND_SZ", "REG_BINARY", "REG_DWORD", "REG_DWORD_BIG_ENDIAN",
    "REG_LINK", "REG_MULTI_SZ", "REG_RESOURCE_LIST", "REG_FULL_RESOURCE_DESCRIPTOR",
    "REG_RESOURCE_REQUIREMENTS_LIST", "REG_QWORD"]

  /** `REG_TYPES.get(t, f'Unknown({t})')` */
  function TypeName(code: int): (r: string)
    ensures 0 <= code < 12 ==> r == RegTypes[code]
    ensures !(0 <= code < 12) ==> r == "Unknown(" + IntToString(code) + ")"
  {
    if 0 <= code < |RegTypes| then RegTypes[code] else "Unknown(" + IntToString(code) + ")"
  }

  /** Different type codes get different names: the twelve known ones and every unknown code. */
  lemma TypeNameInjective(a: int, b: int)
    requires a != b
    ensures TypeName(a) != TypeName(b)
  {
    if 0 <= a < 12 && 0 <= b < 12 {
      TableDistinct(a, b);
    } else if !(0 <= a < 12) && !(0 <= b < 12) {
      if TypeName(a) == TypeName(b) {
        UnknownNamesDiffer(a, b);
      }
    } else if 0 <= a < 12 {
      KnownOrUnknown(a, b);
    } else {
      KnownOrUnknown(b, a);
    }
  }

  /** A known name starts with 'R', an unknown one with 'U'. */
  lemma KnownOrUnknown(known: int, unknown: int)
    requires 0 <= known < 12 && !(0 <= unknown < 12)
    ensures TypeName(known) != TypeName(unknown)
  {
    assert RegTypes[known][0] == 'R';
    assert TypeName(unknown)[0] == 'U';
  }

  lemma UnknownNamesDiffer(a: int, b: int)
    requires "Unknown(" + IntToString(a) + ")" == "Unknown(" + IntToString(b) + ")"
    ensures a == b
  {
    var ta, tb := IntToString(a), IntToString(b);
    assert |ta| == |tb|;
    assert ("Unknown(" + ta + ")")[8..8 + |ta|] == ta;
    assert ("Unknown(" + tb + ")")[8..8 + |tb|] == tb;
    ParseIntToString(a);
    ParseIntToString(b);
  }

  lemma TableDistinct(a: int, b: int)
    requires 0 <= a < 12 && 0 <= b < 12 && a != b
    ensures RegTypes[a] != RegTypes[b]
  {
    var lengths := [8, 6, 13, 10, 9, 20, 8, 12, 17, 28, 30, 9];
    assert forall k :: 0 <= k < 12 ==> |RegTypes[k]| == lengths[k];
    if |RegTypes[a]| == |RegTypes[b]| {
      if {a, b} == {0, 6} {
        assert RegTypes[0][4] != RegTypes[6][4];
      } else if {a, b} == {4, 11} {
        assert RegTypes[4][4] != RegTypes[11][4];
      }
    }
  }

  // ---------------------------------------------------------------------
  // Integers from bytes.

  function Pow256(k: nat): (r: nat)
    ensures r >= 1
  {
    if k == 0 then 1 else 256 * Pow256(k - 1)
  }

  /** `struct.unpack('<...')`: the first byte is the least significant. */
  function LittleEndian(b: seq<byte>): nat
  {
    if b == [] then 0 else b[0] as nat + 256 * LittleEndian(b[1..])
  }

  /** `struct.unpack('>...')`: the last byte is the least significant. */
  function BigEndian(b: seq<byte>): nat
  {
    if b == [] then 0 else 256 * BigEndian(b[..|b| - 1]) + b[|b| - 1] as nat
  }

  function Reverse(b: seq<byte>): (r: seq<byte>)
    ensures |r| == |b|
  {
    if b == [] then [] else [b[|b| - 1]] + Reverse(b[..|b| - 1])
  }

  /** `n.to_bytes(k, 'little')` */
  function EncodeLittle(n: nat, k: nat): (r: seq<byte>)
    ensures |r| == k
  {
    if k == 0 then [] else [(n % 256) as byte] + EncodeLittle(n / 256, k - 1)
  }

  lemma {:induction false} LittleEndianBound(b: seq<byte>)
    ensures LittleEndian(b) < Pow256(|b|)
  {
    if b != [] {
      LittleEndianBound(b[1..]);
    }
  }

  /** Reading the bytes of `n` back gives `n`. */
  lemma {:induction false} LittleRoundTrip(n: nat, k: nat)
    requires n < Pow256(k)
    ensures LittleEndian(EncodeLittle(n, k)) == n
  {
    if k > 0 {
      var e := EncodeLittle(n, k);
      assert e[1..] == EncodeLittle(n / 256, k - 1);
      LittleRoundTrip(n / 256, k - 1);
    }
  }

  /** Big-endian reading is little-endian reading of the reversed bytes. */
  lemma {:induction false} BigIsReversedLittle(b: seq<byte>)
    ensures BigEndian(b) == LittleEndian(Reverse(b))
  {
    if b != [] {
      BigIsReversedLittle(b[..|b| - 1]);
    }
  }

  lemma {:induction false} ReverseReverse(b: seq<byte>)
    ensures Reverse(Reverse(b)) == b
  {
    if b != [] {
      var init := b[..|b| - 1];
      var x := Reverse(b);
      assert x[1..] == Reverse(init);
      ReverseInit(x);
      ReverseReverse(init);
      var y := Reverse(x);
      assert y == y[..|b| - 1] + [y[|b| - 1]];
      assert b == init + [b[|b| - 1]];
    }
  }

  /** The reversal of `b` drops `b`'s first byte at its end. */
  lemma {:induction false} ReverseInit(b: seq<byte>)
    requires b != []
    ensures Reverse(b)[|b| - 1] == b[0]
    ensures Reverse(b)[..|b| - 1] == Reverse(b[1..])
  {
    if |b| > 1 {
      var init := b[..|b| - 1];
      ReverseInit(init);
      assert init[1..] == b[1..][..|b| - 2];
      assert b[1..][|b| - 2] == b[|b| - 1];
    }
  }

  lemma Pow256Values()
    ensures Pow256(4) == 0x1_0000_0000
    ensures Pow256(8) == 0x1_0000_0000_0000_0000
  {
    assert Pow256(2) == 0x1_0000;
    assert Pow256(4) == 0x1_0000_0000;
    assert Pow256(6) == 0x1_0000_0000_0000;
  }

  // ---------------------------------------------------------------------
  // UTF-16-LE text.

  predicate IsNul(c: char)
  {
    c == '\0'
  }

  /** The 16-bit code units of an even number of bytes, least significant byte first. */
  function Units(data: seq<byte>): (us: seq<nat>)
    requires |data| % 2 == 0
    ensures |us| == |data| / 2
    ensures forall k :: 0 <= k < |us| ==> us[k] < 0x1_0000
  {
    if data == [] then [] else [data[0] as nat + 256 * data[1] as nat] + Units(data[2..])
  }

  /** Code units to text: surrogate pairs combine, a lone surrogate is an error. */
  function DecodeUnits(us: seq<nat>): Option<string>
    requires forall k :: 0 <= k < |us| ==> us[k] < 0x1_0000
  {
    if us == [] then Some("")
    else
      var u := us[0];
      if 0xD800 <= u < 0xDC00 then
        if |us| >= 2 && 0xDC00 <= us[1] < 0xE000 then
          match DecodeUnits(us[2..])
          case None => None
          case Some(rest) => Some([(0x1_0000 + (u - 0xD800) * 0x400 + (us[1] - 0xDC00)) as char] + rest)
        else None
      else if 0xDC00 <= u < 0xE000 then None
      else match DecodeUnits(us[1..])
        case None => None
        case Some(rest) => Some([u as char] + rest)
  }

  /** `data.decode('utf-16-le')`, or None where Python raises (odd length, lone surrogate). */
  function Utf16Decode(data: seq<byte>): Option<string>
  {
    if |data| % 2 == 1 then None else DecodeUnits(Units(data))
  }

  function EncodeUnits(s: string): (us: seq<nat>)
    ensures forall k :: 0 <= k < |us| ==> us[k] < 0x1_0000
  {
    if s == [] then []
    else
      var n := s[0] as int;
      (if n < 0x1_0000 then [n] else [0xD800 + (n - 0x1_0000) / 0x400, 0xDC00 + (n - 0x1_0000) % 0x400])
      + EncodeUnits(s[1..])
  }

  function UnitBytes(us: seq<nat>): (b: seq<byte>)
    requires forall k :: 0 <= k < |us| ==> us[k] < 0x1_0000
    ensures |b| == 2 * |us|
  {
    if us == [] then [] else [(us[0] % 256) as byte, (us[0] / 256) as byte] + UnitBytes(us[1..])
  }

  /** `s.encode('utf-16-le')` */
  function Utf16Encode(s: string): (b: seq<byte>)
  {
    UnitBytes(EncodeUnits(s))
  }

  lemma {:induction false} UnitsOfBytes(us: seq<nat>)
    requires forall k :: 0 <= k < |us| ==> us[k] < 0x1_0000
    ensures Units(UnitBytes(us)) == us
  {
    if us != [] {
      var b := UnitBytes(us);
      assert b[2..] == UnitBytes(us[1..]);
      UnitsOfBytes(us[1..]);
    }
  }

  lemma {:induction false} DecodeEncodeUnits(s: string)
    ensures DecodeUnits(EncodeUnits(s)) == Some(s)
  {
    if s != [] {
      var n := s[0] as int;
      var us := EncodeUnits(s);
      DecodeEncodeUnits(s[1..]);
      if n < 0x1_0000 {
        assert us[1..] == EncodeUnits(s[1..]);
        assert (n as char) == s[0];
      } else {
        var hi, lo := (n - 0x1_0000) / 0x400, (n - 0x1_0000) % 0x400;
        assert hi * 0x400 + lo == n - 0x1_0000;
        assert us[2..] == EncodeUnits(s[1..]);
        assert us[0] == 0xD800 + hi && us[1] == 0xDC00 + lo;
      }
      assert s == [s[0]] + s[1..];
    }
  }

  /** Encoding text as UTF-16-LE and decoding it again gives the text back. */
  lemma Utf16RoundTrip(s: string)
    ensures Utf16Decode(Utf16Encode(s)) == Some(s)
  {
    UnitsOfBytes(EncodeUnits(s));
    DecodeEncodeUnits(s);
  }

  // ---------------------------------------------------------------------
  // `_parse_value_data`

  /** The decoded data of a registry value. */
  datatype Data = Str(s: string) | Num(n: nat) | Strs(items: seq<string>) | NoData
  {
    /** Python truthiness of the decoded value. */
    predicate Truthy()
    {
      match this
      case Str(s) => s != ""
      case Num(n) => n != 0
      case Strs(items) => items != []
      case NoData => false
    }

    /** `str(value)`; a list shows its items quoted, without escaping. */
    function Shown(): string
    {
      match this
      case Str(s) => s
      case Num(n) => NatToString(n)
      case Strs(items) => "[" + Join(Quoted(items), ", ") + "]"
      case NoData => "None"
    }
  }

  /** Each item between single quotes, as `str()` shows the items of a list. */
  function Quoted(items: seq<string>): (r: seq<string>)
    ensures |r| == |items|
  {
    if items == [] then [] else ["'" + items[0] + "'"] + Quoted(items[1..])
  }

  /** Text as a REG_SZ value decodes: UTF-16-LE, else UTF-8 with replacement. */
  function DecodeText(data: seq<byte>, utf8: seq<byte> -> string): string
  {
    match Utf16Decode(data)
    case Some(s) => s
    case None => utf8(data)
  }

  /** `[s for s in t.split('\x00') if s]` */
  function NonEmpty(pieces: seq<string>): (r: seq<string>)
    ensures forall k :: 0 <= k < |r| ==> r[k] != "" && r[k] in pieces
  {
    if pieces == [] then []
    else if pieces[0] == "" then NonEmpty(pieces[1..])
    else [pieces[0]] + NonEmpty(pieces[1..])
  }

  /**
   * `_parse_value_data(value_type, data)`. The UTF-8 decoding with
   * replacement characters that serves as the fallback is a parameter.
   */
  function ParseValueData(valueType: int, data: seq<byte>, utf8: seq<byte> -> string): Data
  {
    if valueType == 1 || valueType == 2 then Str(TrimRight(DecodeText(data, utf8), IsNul))
    else if valueType == 3 then Str(Hex(data))
    else if valueType == 4 then (if |data| >= 4 then Num(LittleEndian(data[..4])) else NoData)
    else if valueType == 5 then (if |data| >= 4 then Num(BigEndian(data[..4])) else NoData)
    else if valueType == 7 then
      match Utf16Decode(data)
      case Some(t) => Strs(NonEmpty(Split(t, '\0')))
      case None => Strs([utf8(data)])
    else if valueType == 11 then (if |data| >= 8 then Num(LittleEndian(data[..8])) else NoData)
    else if data != [] then Str(Hex(data))
    else NoData
  }

  /**
   * REG_DWORD is the little-endian value of the first four bytes (anything
   * after them is ignored); fewer than four bytes give no value.
   */
  lemma DwordLittleEndian(n: nat, rest: seq<byte>, short: seq<byte>, utf8: seq<byte> -> string)
    requires n < 0x1_0000_0000 && |short| < 4
    ensures ParseValueData(4, EncodeLittle(n, 4) + rest, utf8) == Num(n)
    ensures ParseValueData(4, short, utf8) == NoData
  {
    Pow256Values();
    LittleRoundTrip(n, 4);
    assert (EncodeLittle(n, 4) + rest)[..4] == EncodeLittle(n, 4);
  }

  /** REG_DWORD_BIG_ENDIAN reads the same four bytes most significant first. */
  lemma DwordBigEndian(n: nat, rest: seq<byte>, utf8: seq<byte> -> string)
    requires n < 0x1_0000_0000
    ensures ParseValueData(5, Reverse(EncodeLittle(n, 4)) + rest, utf8) == Num(n)
  {
    var e := EncodeLittle(n, 4);
    Pow256Values();
    LittleRoundTrip(n, 4);
    BigIsReversedLittle(Reverse(e));
    ReverseReverse(e);
    assert (Reverse(e) + rest)[..4] == Reverse(e);
  }

  /** REG_QWORD is the little-endian value of the first eight bytes, or none below eight. */
  lemma QwordLittleEndian(n: nat, rest: seq<byte>, short: seq<byte>, utf8: seq<byte> -> string)
    requires n < 0x1_0000_0000_0000_0000 && |short| < 8
    ensures ParseValueData(11, EncodeLittle(n, 8) + rest, utf8) == Num(n)
    ensures ParseValueData(11, short, utf8) == NoData
  {
    Pow256Values();
    LittleRoundTrip(n, 8);
    assert (EncodeLittle(n, 8) + rest)[..8] == EncodeLittle(n, 8);
  }

  /** The integer types stay within their widths. */
  lemma IntegerWidths(data: seq<byte>, utf8: seq<byte> -> string)
    ensures ParseValueData(4, data, utf8).Num? ==> ParseValueData(4, data, utf8).n < 0x1_0000_0000
    ensures ParseValueData(5, data, utf8).Num? ==> ParseValueData(5, data, utf8).n < 0x1_0000_0000
    ensures ParseValueData(11, data, utf8).Num? ==> ParseValueData(11, data, utf8).n < 0x1_0000_0000_0000_0000
  {
    Pow256Values();
    if |data| >= 4 {
      LittleEndianBound(data[..4]);
      BigIsReversedLittle(data[..4]);
      LittleEndianBound(Reverse(data[..4]));
    }
    if |data| >= 8 {
      LittleEndianBound(data[..8]);
    }
  }

  /**
   * REG_BINARY is lower-case hex, two digits per byte, that reads back as the
   * data; an unknown type does the same for non-empty data and gives no value
   * for empty data.
   */
  lemma BinaryIsHex(valueType: int, data: seq<byte>, utf8: seq<byte> -> string)
    requires valueType == 3 || valueType !in {1, 2, 4, 5, 7, 11}
    ensures valueType != 3 && data == [] ==> ParseValueData(valueType, data, utf8) == NoData
    ensures valueType == 3 || data != [] ==>
      var d := ParseValueData(valueType, data, utf8);
      d.Str? && |d.s| == 2 * |data| && Unhex(d.s) == Some(data)
  {
    UnhexHex(data);
  }

  lemma {:induction false} TrimNuls(s: string, k: nat)
    requires s == [] || s[|s| - 1] != '\0'
    ensures TrimRight(s + seq(k, _ => '\0'), IsNul) == s
  {
    if k > 0 {
      var t := s + seq(k, _ => '\0');
      assert t[..|t| - 1] == s + seq(k - 1, _ => '\0');
      TrimNuls(s, k - 1);
    } else {
      assert s + seq(0, _ => '\0') == s;
    }
  }

  /** REG_SZ and REG_EXPAND_SZ: the stored text with its trailing NULs stripped. */
  lemma StringValue(valueType: int, s: string, k: nat, utf8: seq<byte> -> string)
    requires valueType == 1 || valueType == 2
    requires s == [] || s[|s| - 1] != '\0'
    ensures ParseValueData(valueType, Utf16Encode(s + seq(k, _ => '\0')), utf8) == Str(s)
  {
    Utf16RoundTrip(s + seq(k, _ => '\0'));
    TrimNuls(s, k);
  }

  /** Every string a REG_SZ value yields has no trailing NUL. */
  lemma StringValueUntrailed(valueType: int, data: seq<byte>, utf8: seq<byte> -> string)
    requires valueType == 1 || valueType == 2
    ensures var d := ParseValueData(valueType, data, utf8); d.Str? && (d.s == [] || d.s[|d.s| - 1] != '\0')
  {
  }

  lemma {:induction false} NonEmptyAppend(a: seq<string>, b: seq<string>)
    ensures NonEmpty(a + b) == NonEmpty(a) + NonEmpty(b)
  {
    if a != [] {
      var t := a[1..];
      assert (a + b)[0] == a[0] && (a + b)[1..] == t + b;
      NonEmptyAppend(t, b);
      var h := if a[0] == "" then [] else [a[0]];
      assert NonEmpty(a) == h + NonEmpty(t);
      assert NonEmpty(a + b) == h + NonEmpty(t + b);
      Append3(h, NonEmpty(t), NonEmpty(b));
    } else {
      AppendEmpty(b);
    }
  }

  lemma {:induction false} NonEmptyKeeps(items: seq<string>)
    requires forall k :: 0 <= k < |items| ==> items[k] != ""
    ensures NonEmpty(items) == items
  {
    if items != [] {
      NonEmptyKeeps(items[1..]);
    }
  }

  lemma {:induction false} JoinAppend(a: seq<string>, b: seq<string>, sep: string)
    requires a != [] && b != []
    ensures Join(a + b, sep) == Join(a, sep) + sep + Join(b, sep)
  {
    if |a| == 1 {
      assert (a + b)[1..] == b;
    } else {
      assert (a + b)[1..] == a[1..] + b;
      JoinAppend(a[1..], b, sep);
    }
  }

  /**
   * REG_MULTI_SZ: strings stored one after another, each ended by a NUL and
   * the list ended by one more, decode to exactly those strings.
   */
  lemma MultiStringRoundTrip(items: seq<string>, utf8: seq<byte> -> string)
    requires forall k :: 0 <= k < |items| ==> items[k] != "" && '\0' !in items[k]
    ensures ParseValueData(7, Utf16Encode(Join(items, "\0") + "\0\0"), utf8) == Strs(items)
  {
    var t := Join(items, "\0") + "\0\0";
    Utf16RoundTrip(t);
    TerminatedPieces(items);
    MultiStringDecodes(Utf16Encode(t), t, utf8);
  }

  lemma MultiStringDecodes(data: seq<byte>, t: string, utf8: seq<byte> -> string)
    requires Utf16Decode(data) == Some(t)
    ensures ParseValueData(7, data, utf8) == Strs(NonEmpty(Split(t, '\0')))
  {
  }

  lemma TerminatedPieces(items: seq<string>)
    requires forall k :: 0 <= k < |items| ==> items[k] != "" && '\0' !in items[k]
    ensures NonEmpty(Split(Join(items, "\0") + "\0\0", '\0')) == items
  {
    if items == [] {
      EmptyTerminatedSplit();
    } else {
      TerminatedSplit(items);
      NonEmptyAppend(items, ["", ""]);
      assert NonEmpty(["", ""]) == [];
      NonEmptyKeeps(items);
    }
  }

  /** The terminators of a multi-string give two empty pieces after the strings. */
  lemma TerminatedSplit(items: seq<string>)
    requires items != []
    requires forall k :: 0 <= k < |items| ==> '\0' !in items[k]
    ensures Split(Join(items, "\0") + "\0\0", '\0') == items + ["", ""]
  {
    NoSeparatorAppend(items, ["", ""], '\0');
    TerminatedJoin(items);
    SplitJoin(items + ["", ""], '\0');
  }

  lemma NoSeparatorAppend(items: seq<string>, more: seq<string>, c: char)
    requires forall k :: 0 <= k < |items| ==> c !in items[k]
    requires forall k :: 0 <= k < |more| ==> c !in more[k]
    ensures forall k :: 0 <= k < |items + more| ==> c !in (items + more)[k]
  {
    forall k | 0 <= k < |items + more|
      ensures c !in (items + more)[k]
    {
      if k < |items| {
        assert (items + more)[k] == items[k];
      } else {
        assert (items + more)[k] == more[k - |items|];
      }
    }
  }

  lemma TerminatedJoin(items: seq<string>)
    requires items != []
    ensures Join(items + ["", ""], "\0") == Join(items, "\0") + "\0\0"
  {
    JoinAppend(items, ["", ""], "\0");
    assert Join(["", ""], "\0") == "\0";
  }

  lemma EmptyTerminatedSplit()
    ensures NonEmpty(Split("\0\0", '\0')) == []
  {
    var t := "\0\0";
    assert t[1..] == "\0";
    assert t[1..][1..] == "";
    assert Split(t, '\0') == ["", "", ""];
  }

  /** Every string of a decoded REG_MULTI_SZ is non-empty and NUL-free. */
  lemma MultiStringPieces(data: seq<byte>, utf8: seq<byte> -> string)
    requires Utf16Decode(data).Some?
    ensures var d := ParseValueData(7, data, utf8);
      d.Strs? && forall k :: 0 <= k < |d.items| ==> d.items[k] != "" && '\0' !in d.items[k]
  {
  }

  // ---------------------------------------------------------------------
  // The drive: hive files and the host's PowerShell.

  const ConfigDir := "Windows/System32/config"

  /**
   * `_get_hive_path`: the drive paths that exist are given relative to the
   * drive's root. The config directory must exist; the exact hive file name
   * is tried first, then its lower-case form.
   */
  function HivePath(present: set<string>, hive: string): (r: Option<string>)
    ensures r.Some? ==> r.value in present && ConfigDir in present
    ensures r.Some? ==> r.value == ConfigDir + "/" + hive || r.value == ConfigDir + "/" + Lower(hive)
    ensures ConfigDir in present && ConfigDir + "/" + hive in present ==> r == Some(ConfigDir + "/" + hive)
    ensures r.None? <==> (ConfigDir !in present
      || (ConfigDir + "/" + hive !in present && ConfigDir + "/" + Lower(hive) !in present))
  {
    if ConfigDir !in present then None
    else if ConfigDir + "/" + hive in present then Some(ConfigDir + "/" + hive)
    else if ConfigDir + "/" + Lower(hive) in present then Some(ConfigDir + "/" + Lower(hive))
    else None
  }

  /**
   * `_extract_drive_letter` of the reader, which reads the drive path after
   * `pathlib` has normalised it.
   */
  function ReaderDriveLetter(drivePath: string): (r: Option<string>)
    ensures r.Some? ==> |r.value| == 1
  {
    DriveLetter(Normal(drivePath))
  }

  /** `_find_powershell`: on Windows its own name; under WSL the first of two host paths that exists. */
  const PowerShellPaths := ["/mnt/c/Windows/System32/WindowsPowerShell/v1.0/powershell.exe",
                            "/mnt/c/Program Files/PowerShell/7/pwsh.exe"]

  function FindPowerShell(isWindows: bool, isWsl: bool, hostPaths: set<string>): (r: Option<string>)
    ensures r.Some? <==> isWindows || (isWsl && (PowerShellPaths[0] in hostPaths || PowerShellPaths[1] in hostPaths))
    ensures r.Some? && !isWindows ==> r.value in hostPaths
  {
    if isWindows then Some("powershell.exe")
    else if isWsl then
      if PowerShellPaths[0] in hostPaths then Some(PowerShellPaths[0])
      else if PowerShellPaths[1] in hostPaths then Some(PowerShellPaths[1])
      else None
    else None
  }

  // ---------------------------------------------------------------------
  // Reading a key.

  /** A value as hivex reports it: its name, type code and raw bytes. */
  datatype HiveValue = HiveValue(key: string, typeCode: int, data: seq<byte>)

  /** A parsed hive: each node has a name, values and ordered children. */
  datatype HiveNode = HiveNode(name: string, values: seq<HiveValue>, children: seq<HiveNode>)

  /** What opening a hive file gives: the tree, or the message of the exception. */
  datatype HiveFile = Parsed(root: HiveNode) | Unparsable(message: string)

  datatype RegistryValue = RegistryValue(name: string, valueType: string, data: Data)

  datatype RegistryKey = RegistryKey(path: string, values: map<string, RegistryValue>, subkeys: seq<string>)

  /** `RegistryReadResult`: a key read by some method, or an error. */
  datatype ReadResult =
    | ReadOk(key: RegistryKey, methodUsed: string)
    | ReadFailed(error: string, methodUsed: string)

  predicate IsBackslash(c: char)
  {
    c == '\\'
  }

  /** `key_path.strip('\\').split('\\')` */
  function KeyParts(keyPath: string): (parts: seq<string>)
    ensures forall k :: 0 <= k < |parts| ==> '\\' !in parts[k]
  {
    Split(Trim(keyPath, IsBackslash), '\\')
  }

  /** The first child whose name equals `part` ignoring case. */
  function ChildIndex(children: seq<HiveNode>, part: string): (r: Option<nat>)
    ensures r.Some? ==> r.value < |children| && Lower(children[r.value].name) == Lower(part)
    ensures r.Some? ==> forall k :: 0 <= k < r.value ==> Lower(children[k].name) != Lower(part)
    ensures r.None? ==> forall k :: 0 <= k < |children| ==> Lower(children[k].name) != Lower(part)
  {
    if children == [] then None
    else if Lower(children[0].name) == Lower(part) then Some(0)
    else match ChildIndex(children[1..], part)
      case None => None
      case Some(k) => Some(k + 1)
  }

  /** The node a sequence of key parts leads to; empty parts are skipped. */
  function Lookup(node: HiveNode, parts: seq<string>): Option<HiveNode>
    decreases |parts|
  {
    if parts == [] then Some(node)
    else if parts[0] == "" then Lookup(node, parts[1..])
    else match ChildIndex(node.children, parts[0])
      case None => None
      case Some(k) => Lookup(node.children[k], parts[1..])
  }

  /** The inner search of the walk: the first child whose name matches `part` ignoring case. */
  method FindChild(children: seq<HiveNode>, part: string) returns (r: Option<nat>)
    ensures r == ChildIndex(children, part)
  {
    var j := 0;
    while j < |children|
      invariant 0 <= j <= |children|
      invariant forall k :: 0 <= k < j ==> Lower(children[k].name) != Lower(part)
    {
      if Lower(children[j].name) == Lower(part) {
        return Some(j);
      }
      j := j + 1;
    }
    return None;
  }

  /** Empty parts make no difference to where a path leads. */
  lemma {:induction false} LookupSkipsEmpty(node: HiveNode, parts: seq<string>)
    ensures Lookup(node, parts) == Lookup(node, NonEmpty(parts))
    decreases |parts|
  {
    if parts != [] {
      if parts[0] == "" {
        LookupSkipsEmpty(node, parts[1..]);
      } else {
        var r := NonEmpty(parts);
        assert r[0] == parts[0] && r[1..] == NonEmpty(parts[1..]);
        match ChildIndex(node.children, parts[0])
        case None =>
        case Some(k) => LookupSkipsEmpty(node.children[k], parts[1..]);
      }
    }
  }

  /** Paths that differ only in the case of their letters lead to the same node. */
  lemma {:induction false} LookupIgnoresCase(node: HiveNode, parts: seq<string>, other: seq<string>)
    requires |parts| == |other|
    requires forall k :: 0 <= k < |parts| ==> Lower(parts[k]) == Lower(other[k])
    ensures Lookup(node, parts) == Lookup(node, other)
    decreases |parts|
  {
    if parts != [] {
      assert (parts[0] == "") == (other[0] == "") by {
        assert |parts[0]| == |Lower(parts[0])| && |other[0]| == |Lower(other[0])|;
      }
      if parts[0] == "" {
        LookupIgnoresCase(node, parts[1..], other[1..]);
      } else {
        SameChild(node.children, parts[0], other[0]);
        match ChildIndex(node.children, parts[0])
        case None =>
        case Some(k) => LookupIgnoresCase(node.children[k], parts[1..], other[1..]);
      }
    }
  }

  lemma {:induction false} SameChild(children: seq<HiveNode>, a: string, b: string)
    requires Lower(a) == Lower(b)
    ensures ChildIndex(children, a) == ChildIndex(children, b)
  {
    if children != [] {
      SameChild(children[1..], a, b);
    }
  }

  /**
   * The navigation loop of `_read_with_hivex`: for each non-empty part, the
   * children of the current node are searched in order for the first whose
   * name matches ignoring case; a part without a match ends the walk.
   */
  method Navigate(root: HiveNode, keyPath: string) returns (found: Option<HiveNode>)
    ensures found == Lookup(root, KeyParts(keyPath))
  {
    var parts := KeyParts(keyPath);
    var node := root;
    var i := 0;
    while i < |parts|
      invariant 0 <= i <= |parts|
      invariant Lookup(root, parts) == Lookup(node, parts[i..])
    {
      var part := parts[i];
      assert parts[i..][1..] == parts[i + 1..];
      if part != "" {
        var j := FindChild(node.children, part);
        if j.None? {
          return None;
        }
        node := node.children[j.value];
      }
      i := i + 1;
    }
    found := Some(node);
  }

  /** The name a value is stored under: its own, or "(Default)" when it has none. */
  function ValueName(v: HiveValue): string
  {
    if v.key == "" then "(Default)" else v.key
  }

  function Decoded(v: HiveValue, utf8: seq<byte> -> string): RegistryValue
  {
    RegistryValue(ValueName(v), TypeName(v.typeCode), ParseValueData(v.typeCode, v.data, utf8))
  }

  /** The values of a node by name; a later value of the same name replaces an earlier one. */
  function ValuesOf(vs: seq<HiveValue>, utf8: seq<byte> -> string): map<string, RegistryValue>
  {
    if vs == [] then map[]
    else ValuesOf(vs[..|vs| - 1], utf8)[ValueName(vs[|vs| - 1]) := Decoded(vs[|vs| - 1], utf8)]
  }

  /** The stored names are exactly the values' names, each holding its last value. */
  lemma {:induction false} ValuesOfLastWins(vs: seq<HiveValue>, utf8: seq<byte> -> string, k: nat)
    requires k < |vs|
    requires forall j :: k < j < |vs| ==> ValueName(vs[j]) != ValueName(vs[k])
    ensures ValueName(vs[k]) in ValuesOf(vs, utf8)
    ensures ValuesOf(vs, utf8)[ValueName(vs[k])] == Decoded(vs[k], utf8)
  {
    if k < |vs| - 1 {
      ValuesOfLastWins(vs[..|vs| - 1], utf8, k);
    }
  }

  lemma {:induction false} ValuesOfNames(vs: seq<HiveValue>, utf8: seq<byte> -> string, name: string)
    ensures name in ValuesOf(vs, utf8) <==> exists j :: 0 <= j < |vs| && ValueName(vs[j]) == name
  {
    if vs != [] {
      var init := vs[..|vs| - 1];
      ValuesOfNames(init, utf8, name);
      if name in ValuesOf(init, utf8) {
        var j :| 0 <= j < |init| && ValueName(init[j]) == name;
        assert vs[j] == init[j];
      }
      if exists j :: 0 <= j < |vs| && ValueName(vs[j]) == name {
        var j :| 0 <= j < |vs| && ValueName(vs[j]) == name;
        if j < |vs| - 1 {
          assert init[j] == vs[j];
        }
      }
    }
  }

  function Names(nodes: seq<HiveNode>): (r: seq<string>)
    ensures |r| == |nodes| && forall k :: 0 <= k < |r| ==> r[k] == nodes[k].name
  {
    seq(|nodes|, k requires 0 <= k < |nodes| => nodes[k].name)
  }

  /**
   * `_read_with_hivex`: the hive file must exist and open, the key path must
   * lead somewhere; the key then holds the node's decoded values and the
   * names of its children.
   */
  function HivexRead(present: set<string>, open: string -> HiveFile, hive: string, keyPath: string,
                     utf8: seq<byte> -> string): (r: ReadResult)
    ensures r.methodUsed == "hivex"
    ensures r.ReadOk? <==>
      && HivePath(present, hive).Some?
      && open(HivePath(present, hive).value).Parsed?
      && Lookup(open(HivePath(present, hive).value).root, KeyParts(keyPath)).Some?
  {
    match HivePath(present, hive)
    case None => ReadFailed("Hive file not found for " + hive, "hivex")
    case Some(path) =>
      match open(path)
      case Unparsable(message) => ReadFailed("hivex error: " + message, "hivex")
      case Parsed(root) =>
        match Lookup(root, KeyParts(keyPath))
        case None => ReadFailed("Key not found: " + keyPath, "hivex")
        case Some(node) =>
          ReadOk(RegistryKey(keyPath, ValuesOf(node.values, utf8), Names(node.children)), "hivex")
  }

  /** The body of `_read_with_hivex`, walking the key and collecting its values one by one. */
  method ReadWithHivex(present: set<string>, open: string -> HiveFile, hive: string, keyPath: string,
                       utf8: seq<byte> -> string) returns (r: ReadResult)
    ensures r == HivexRead(present, open, hive, keyPath, utf8)
  {
    var path := HivePath(present, hive);
    if path.None? {
      return ReadFailed("Hive file not found for " + hive, "hivex");
    }
    var file := open(path.value);
    if file.Unparsable? {
      return ReadFailed("hivex error: " + file.message, "hivex");
    }
    var node := Navigate(file.root, keyPath);
    if node.None? {
      return ReadFailed("Key not found: " + keyPath, "hivex");
    }
    var vs := node.value.values;
    var values: map<string, RegistryValue> := map[];
    var j := 0;
    while j < |vs|
      invariant 0 <= j <= |vs|
      invariant values == ValuesOf(vs[..j], utf8)
    {
      assert vs[..j + 1][..j] == vs[..j];
      values := values[ValueName(vs[j]) := Decoded(vs[j], utf8)];
      j := j + 1;
    }
    assert vs[..j] == vs;
    r := ReadOk(RegistryKey(keyPath, values, Names(node.value.children)), "hivex");
  }

  /**
   * The first steps of `_read_with_powershell`: the hive file must exist and,
   * under WSL, the drive path must name a drive letter for the Windows-side
   * path. The script's own outcome, which runs outside this model, is `ran`.
   */
  function PowerShellRead(present: set<string>, drivePath: string, isWsl: bool, hive: string,
                          ran: ReadResult): (r: ReadResult)
    ensures HivePath(present, hive).None? ==> r == ReadFailed("Hive file not found for " + hive, "powershell")
    ensures HivePath(present, hive).Some? && isWsl && ReaderDriveLetter(drivePath).None? ==>
      r == ReadFailed("Could not extract drive letter for WSL path", "powershell")
    ensures HivePath(present, hive).Some? && (!isWsl || ReaderDriveLetter(drivePath).Some?) ==> r == ran
  {
    if HivePath(present, hive).None? then ReadFailed("Hive file not found for " + hive, "powershell")
    else if isWsl && ReaderDriveLetter(drivePath).None? then
      ReadFailed("Could not extract drive letter for WSL path", "powershell")
    else ran
  }

  /** `read_key`: hivex first when the library is there, then PowerShell when it was found. */
  function ReadKey(hivex: Option<ReadResult>, powershell: Option<ReadResult>): ReadResult
  {
    if hivex.Some? && hivex.value.ReadOk? then hivex.value
    else if powershell.Some? && powershell.value.ReadOk? then powershell.value
    else ReadFailed("No available method could read the registry", "")
  }

  /**
   * A key is read exactly when some available method reads it, and then by
   * the first of them in the order hivex, PowerShell.
   */
  lemma ReadKeyFirstSuccess(hivex: Option<ReadResult>, powershell: Option<ReadResult>)
    ensures var r := ReadKey(hivex, powershell);
      && (r.ReadOk? <==> (hivex.Some? && hivex.value.ReadOk?) || (powershell.Some? && powershell.value.ReadOk?))
      && (hivex.Some? && hivex.value.ReadOk? ==> r == hivex.value)
      && (!(hivex.Some? && hivex.value.ReadOk?) && powershell.Some? && powershell.value.ReadOk? ==> r == powershell.value)
      && (r.ReadFailed? ==> r.error == "No available method could read the registry")
  {
  }

  // ---------------------------------------------------------------------
  // `read_windows_version`

  /** Registry value names and the result keys they fill, in the order they are applied. */
  const ValueMapping: seq<(string, string)> := [
    ("ProductName", "product_name"), ("DisplayVersion", "display_version"),
    ("CurrentBuild", "current_build"), ("CurrentBuildNumber", "current_build"),
    ("EditionID", "edition_id"), ("InstallDate", "install_date"),
    ("RegisteredOwner", "registered_owner"), ("RegisteredOrganization", "registered_organization"),
    ("SystemRoot", "system_root"), ("BuildLab", "build_lab"), ("BuildLabEx", "build_lab_ex"),
    ("CurrentVersion", "current_version"), ("UBR", "ubr")]

  /** The last of the first `n` mapping entries for result key `k` whose value exists. */
  function LastSource(values: map<string, RegistryValue>, n: nat, k: string): (r: Option<string>)
    requires n <= |ValueMapping|
    ensures r.Some? ==> r.value in values
  {
    if n == 0 then None
    else if ValueMapping[n - 1].1 == k && ValueMapping[n - 1].0 in values then Some(ValueMapping[n - 1].0)
    else LastSource(values, n - 1, k)
  }

  /** The version dictionary: found, with its fields and raw values, or the read's error. */
  datatype VersionInfo =
    | VersionRead(fields: map<string, Data>, methodUsed: string)
    | VersionFailed(error: string)
  {
    /** `version_info.get(k)`: a field, or None when it was not filled. */
    function Field(k: string): Option<Data>
    {
      if VersionRead? && k in fields then Some(fields[k]) else None
    }
  }

  /** The fields read from `values`: each key holds the value of its last present source. */
  function MappedFields(values: map<string, RegistryValue>): (fields: map<string, Data>)
  {
    map k | k in Sources(|ValueMapping|) && LastSource(values, |ValueMapping|, k).Some?
      :: values[LastSource(values, |ValueMapping|, k).value].data
  }

  /** The result keys of the first `n` mapping entries. */
  function Sources(n: nat): set<string>
    requires n <= |ValueMapping|
  {
    set j | 0 <= j < n :: ValueMapping[j].1
  }

  function VersionInfoOf(read: ReadResult): VersionInfo
  {
    match read
    case ReadFailed(error, _) => VersionFailed(error)
    case ReadOk(key, how) => VersionRead(MappedFields(key.values), how)
  }

  lemma {:induction false} LastSourceIn(values: map<string, RegistryValue>, n: nat, k: string)
    requires n <= |ValueMapping|
    ensures LastSource(values, n, k).Some? ==> k in Sources(n)
  {
    if n > 0 && LastSource(values, n, k).Some? {
      if !(ValueMapping[n - 1].1 == k && ValueMapping[n - 1].0 in values) {
        LastSourceIn(values, n - 1, k);
      }
    }
  }

  /**
   * `read_windows_version`: the SOFTWARE key `Microsoft\Windows NT\CurrentVersion`
   * is read; on success each mapping entry whose registry value exists
   * overwrites its result key, in the fixed order.
   */
  method ReadWindowsVersion(read: ReadResult) returns (info: VersionInfo)
    ensures info == VersionInfoOf(read)
  {
    if read.ReadFailed? {
      return VersionFailed(read.error);
    }
    var values := read.key.values;
    var fields: map<string, Data> := map[];
    var j := 0;
    while j < |ValueMapping|
      invariant 0 <= j <= |ValueMapping|
      invariant forall k :: k in fields <==> LastSource(values, j, k).Some?
      invariant forall k :: k in fields ==> fields[k] == values[LastSource(values, j, k).value].data
    {
      var (name, key) := ValueMapping[j];
      if name in values {
        fields := fields[key := values[name].data];
      }
      j := j + 1;
    }
    forall k | LastSource(values, |ValueMapping|, k).Some? {
      LastSourceIn(values, |ValueMapping|, k);
    }
    assert fields == MappedFields(values);
    info := VersionRead(fields, read.methodUsed);
  }

  /**
   * `current_build` holds CurrentBuildNumber when both it and CurrentBuild
   * exist, because that entry is applied later; CurrentBuild alone fills it
   * too, and without either it stays unfilled.
   */
  lemma CurrentBuildNumberWins(values: map<string, RegistryValue>)
    ensures "CurrentBuildNumber" in values ==>
      MappedFields(values).Keys >= {"current_build"} && MappedFields(values)["current_build"] == values["CurrentBuildNumber"].data
    ensures "CurrentBuildNumber" !in values && "CurrentBuild" in values ==>
      "current_build" in MappedFields(values) && MappedFields(values)["current_build"] == values["CurrentBuild"].data
    ensures "CurrentBuildNumber" !in values && "CurrentBuild" !in values ==> "current_build" !in MappedFields(values)
  {
    var k := "current_build";
    assert k in Sources(|ValueMapping|) by { assert ValueMapping[2].1 == k; }
    var n := |ValueMapping|;
    assert LastSource(values, n, k) == LastSource(values, 4, k) by {
      forall j | 4 <= j < n ensures ValueMapping[j].1 != k {}
      LastSourceSkip(values, 4, n, k);
    }
    assert LastSource(values, 2, k) == None by {
      LastSourceSkip(values, 0, 2, k);
    }
    assert ValueMapping[3] == ("CurrentBuildNumber", k) && ValueMapping[2] == ("CurrentBuild", k);
    assert LastSource(values, 4, k) == if "CurrentBuildNumber" in values then Some("CurrentBuildNumber") else LastSource(values, 3, k);
    assert LastSource(values, 3, k) == if "CurrentBuild" in values then Some("CurrentBuild") else None;
  }

  lemma {:induction false} LastSourceSkip(values: map<string, RegistryValue>, m: nat, n: nat, k: string)
    requires m <= n <= |ValueMapping|
    requires forall j :: m <= j < n ==> ValueMapping[j].1 != k
    ensures LastSource(values, n, k) == LastSource(values, m, k)
    decreases n
  {
    if n > m {
      LastSourceSkip(values, m, n - 1, k);
    }
  }

  /** Every other result key has a single source: it is filled exactly when that value exists. */
  lemma SingleSource(values: map<string, RegistryValue>, j: nat)
    requires j < |ValueMapping| && j != 2 && j != 3
    ensures var (name, k) := ValueMapping[j];
      && (k in MappedFields(values) <==> name in values)
      && (name in values ==> MappedFields(values)[k] == values[name].data)
  {
    var (name, k) := ValueMapping[j];
    var n := |ValueMapping|;
    forall i | j < i < n ensures ValueMapping[i].1 != k {}
    LastSourceSkip(values, j + 1, n, k);
    forall i | 0 <= i < j ensures ValueMapping[i].1 != k {}
    LastSourceSkip(values, 0, j, k);
    assert k in Sources(n);
  }
}

=== FILE: review.dfy ===
/**
 * Pass 4 of an inspection, the interactive review: the reports of passes
 * 1-3 are read back from the store and summarised, decision points are
 * proposed from the findings (and resolved with their defaults on request),
 * recommendations and a summary line are drawn up, and the review is
 * recorded as pass 4. Decisions taken later are logged in the store, and
 * the decision points still pending are those no logged decision names.
 */
module Review {
  import opened Wrappers
  import opened Text
  import opened DrivePaths
  import opened Sorting
  import opened Chkdsk
  import opened Health
  import opened Catalog

  // ---------------------------------------------------------------------
  // The reports of passes 1-3 as pass 4 reads them back

  /**
   * A nested object of a stored report: the key is missing, holds null, or
   * holds an object (with its `success` or `available` flag when present).
   */
  type Nested = Field<Option<bool>>

  /**
   * The keys of a stored pass-1 report that pass 4 reads. For the other
   * keys, an absent key and a null value both read as None.
   */
  datatype HealthJson = HealthJson(
    overallHealth: Option<string>,
    healthScore: Option<int>,
    errors: Option<seq<string>>,
    warnings: Option<seq<string>>,
    recommendations: Option<seq<string>>,
    chkdskResult: Nested,
    smartData: Nested)

  /** The keys of a stored pass-2 report that pass 4 reads. */
  datatype OsJson = OsJson(
    osType: Option<string>,
    osName: Option<string>,
    version: Option<string>,
    buildNumber: Option<string>,
    edition: Option<string>,
    bootCapable: Option<bool>,
    confidence: Option<string>,
    detectionMethod: Option<string>,
    userProfiles: Option<seq<string>>)

  /** The keys of a stored pass-3 report that pass 4 reads; `extension_counts` keeps its key order. */
  datatype MetadataJson = MetadataJson(
    totalFiles: Option<int>,
    totalFolders: Option<int>,
    totalSizeBytes: Option<int>,
    filesHashed: Option<int>,
    duplicateGroupsFound: Option<int>,
    totalDuplicateFiles: Option<int>,
    totalWastedBytes: Option<int>,
    crossScanDuplicates: Option<int>,
    oldestFileDate: Option<string>,
    newestFileDate: Option<string>,
    extensionCounts: Option<seq<(string, int)>>)

  /** The JSON decoders of the three stored reports; None is a decoding failure. */
  datatype Decoders = Decoders(
    health: string -> Option<HealthJson>,
    os: string -> Option<OsJson>,
    metadata: string -> Option<MetadataJson>)

  /** The text `_calculate_overall_health` stores for a label. */
  function LabelText(l: HealthLabel): string
  {
    match l
    case Excellent => "Excellent"
    case Good => "Good"
    case Fair => "Fair"
    case Poor => "Poor"
    case Critical => "Critical"
  }

  /**
   * What pass 1 stores for a report, as pass 4 reads it: a chkdsk run that
   * raised and skipped SMART data are stored as null. Recommendations are
   * stored as their texts.
   */
  function HealthJsonOf(r: HealthReport, adviceText: Advice -> string): (j: HealthJson)
    ensures j.smartData.Null? <==> r.smart.None?
  {
    HealthJson(
      Some(LabelText(r.overallHealth)), Some(r.healthScore), Some(r.errors), Some(r.warnings),
      Some(seq(|r.recommendations|, k requires 0 <= k < |r.recommendations| => adviceText(r.recommendations[k]))),
      match ChkdskDict(r.chkdsk.GetOr(Raised(""))) { case Some(c) => Present(Some(c.success)) case None => Null },
      match r.smart { case Some(s) => Present(Some(s.available)) case None => Null })
  }

  // ---------------------------------------------------------------------
  // Summaries

  datatype HealthSummary =
    | HealthMissing
    | HealthCompiled(status: string, score: int, errors: seq<string>, warnings: seq<string>,
                     recommendations: seq<string>, chkdskSuccess: bool, smartAvailable: bool)

  datatype OsSummary =
    | OsMissing
    | OsCompiled(osType: string, osName: string, version: Option<string>, buildNumber: Option<string>,
                 edition: Option<string>, bootCapable: bool, confidence: string, detectionMethod: string,
                 userProfiles: seq<string>)

  datatype MetadataSummary =
    | MetadataMissing
    | MetadataCompiled(totalFiles: int, totalFolders: int, totalSizeBytes: int, filesHashed: int,
                       duplicateGroups: int, totalDuplicateFiles: int, wastedBytes: int, crossScanDuplicates: int,
                       oldestFile: Option<string>, newestFile: Option<string>, topExtensions: seq<(string, int)>)

  /** `report.get(key, {}).get(flag, False)` once a null object is read as an empty one. */
  function FlagOf(n: Nested): bool
  {
    match n
    case Present(f) => f.GetOr(false)
    case _ => false
  }

  /**
   * `_compile_health_summary` as written: a nested object stored as null
   * makes `.get` fail on None, which stops the whole review (None here).
   */
  function CompileHealthSummaryAsWritten(h: Option<HealthJson>): Option<HealthSummary>
  {
    match h
    case None => Some(HealthMissing)
    case Some(j) =>
      if j.chkdskResult.Null? || j.smartData.Null? then None
      else Some(CompileHealthSummary(h))
  }

  /** `_compile_health_summary`, with a null nested object read as an empty one. */
  function CompileHealthSummary(h: Option<HealthJson>): HealthSummary
  {
    match h
    case None => HealthMissing
    case Some(j) =>
      HealthCompiled(j.overallHealth.GetOr("Unknown"), j.healthScore.GetOr(0), j.errors.GetOr([]),
                     j.warnings.GetOr([]), j.recommendations.GetOr([]), FlagOf(j.chkdskResult), FlagOf(j.smartData))
  }

  /**
   * The code as written fails exactly on a stored report holding a null
   * chkdsk result or null SMART data, and otherwise agrees with the
   * corrected summary.
   */
  lemma HealthSummaryFailsOnNull(h: Option<HealthJson>)
    ensures CompileHealthSummaryAsWritten(h).None? <==>
      h.Some? && (h.value.chkdskResult.Null? || h.value.smartData.Null?)
    ensures CompileHealthSummaryAsWritten(h).Some? ==> CompileHealthSummaryAsWritten(h).value == CompileHealthSummary(h)
  {
  }

  /**
   * A pass-1 report made with SMART skipped stops the review as written;
   * the corrected summary reads SMART as unavailable and keeps the score.
   */
  lemma SkippedSmartStopsReview(r: HealthReport, adviceText: Advice -> string)
    requires r.smart.None?
    ensures CompileHealthSummaryAsWritten(Some(HealthJsonOf(r, adviceText))).None?
    ensures var s := CompileHealthSummary(Some(HealthJsonOf(r, adviceText)));
      !s.smartAvailable && s.score == r.healthScore && s.status == LabelText(r.overallHealth)
  {
  }

  /** `_compile_os_summary` */
  function CompileOsSummary(o: Option<OsJson>): OsSummary
  {
    match o
    case None => OsMissing
    case Some(j) =>
      OsCompiled(j.osType.GetOr("Unknown"), j.osName.GetOr("Unknown"), j.version, j.buildNumber, j.edition,
                 j.bootCapable.GetOr(false), j.confidence.GetOr("Unknown"), j.detectionMethod.GetOr("None"),
                 j.userProfiles.GetOr([]))
  }

  function Count(e: (string, int)): int
  {
    e.1
  }

  /** `_get_top_extensions`: a stable sort on the counts, largest first, then the first `limit`. */
  function TopExtensions(counts: seq<(string, int)>, limit: nat): seq<(string, int)>
  {
    Take(SortDesc(counts, Count), limit)
  }

  /**
   * At most `limit` extensions, in non-increasing count order, each taken
   * from the counts, and none left out counts more than one kept.
   */
  lemma TopExtensionsAreTop(counts: seq<(string, int)>, limit: nat)
    ensures var top := TopExtensions(counts, limit);
      && |top| == (if |counts| < limit then |counts| else limit)
      && SortedDesc(top, Count)
      && multiset(top) <= multiset(counts)
      && forall i, j :: 0 <= i < |top| <= j < |counts| ==> Count(top[i]) >= Count(SortDesc(counts, Count)[j])
  {
    TopN(counts, Count, limit);
  }

  /** `_compile_metadata_summary` */
  function CompileMetadataSummary(m: Option<MetadataJson>): MetadataSummary
  {
    match m
    case None => MetadataMissing
    case Some(j) =>
      MetadataCompiled(j.totalFiles.GetOr(0), j.totalFolders.GetOr(0), j.totalSizeBytes.GetOr(0), j.filesHashed.GetOr(0),
                       j.duplicateGroupsFound.GetOr(0), j.totalDuplicateFiles.GetOr(0), j.totalWastedBytes.GetOr(0),
                       j.crossScanDuplicates.GetOr(0), j.oldestFileDate, j.newestFileDate,
                       TopExtensions(j.extensionCounts.GetOr([]), 5))
  }

  // `summary.get(key, default)` on each summary: a missing report's summary
  // holds only a status and a message.

  function HealthStatus(h: HealthSummary): string
  {
    if h.HealthMissing? then "not_available" else h.status
  }

  function HealthScore(h: HealthSummary): int
  {
    if h.HealthMissing? then 100 else h.score
  }

  function OsType(o: OsSummary): Option<string>
  {
    if o.OsMissing? then None else Some(o.osType)
  }

  function OsName(o: OsSummary, default: string): string
  {
    if o.OsMissing? then default else o.osName
  }

  function BootCapable(o: OsSummary): bool
  {
    o.OsCompiled? && o.bootCapable
  }

  function UserProfiles(o: OsSummary): seq<string>
  {
    if o.OsMissing? then [] else o.userProfiles
  }

  function DuplicateGroups(m: MetadataSummary): int
  {
    if m.MetadataMissing? then 0 else m.duplicateGroups
  }

  function CrossScanDuplicates(m: MetadataSummary): int
  {
    if m.MetadataMissing? then 0 else m.crossScanDuplicates
  }

  function WastedBytes(m: MetadataSummary): int
  {
    if m.MetadataMissing? then 0 else m.wastedBytes
  }

  // ---------------------------------------------------------------------
  // Decision points

  /** The context recorded with each kind of decision point. */
  datatype Context =
    | DuplicateContext(groups: int, crossScan: int, wastedBytes: int)
    | OsContext(osName: string, version: Option<string>, edition: Option<string>, userProfiles: seq<string>)
    | FilterContext
    | HealthContext(score: int, errors: seq<string>, warnings: seq<string>)

  /** A decision point as proposed: its id, category, title, option ids and default. */
  datatype Proposal = Proposal(id: string, category: string, title: string, options: seq<string>,
                               defaultOption: Option<string>, context: Context)

  /** A decision point as stored in the report (`to_dict`). */
  datatype DecisionRecord = DecisionRecord(proposal: Proposal, resolved: bool, resolution: Option<string>,
                                           resolutionNotes: Option<string>)

  /** The review report (`ReviewReport`); the summary line is kept as its parts. */
  datatype ReviewReport = ReviewReport(
    sessionId: Option<int>,
    drivePath: string,
    driveLetter: string,
    driveModel: string,
    driveSerial: string,
    health: HealthSummary,
    os: OsSummary,
    metadata: MetadataSummary,
    decisionPoints: seq<DecisionRecord>,
    resolvedDecisions: seq<DecisionRow>,
    recommendations: seq<ReviewAdvice>,
    warnings: seq<string>,
    errors: seq<string>,
    reportPath: Option<string>,
    summary: seq<SummaryPart>)

  function DuplicateHandling(r: ReviewReport): Proposal
  {
    Proposal("duplicate_handling", "duplicate", "Duplicate Handling",
             ["skip_all", "catalog_with_flag", "review_individually"], Some("catalog_with_flag"),
             DuplicateContext(DuplicateGroups(r.metadata), CrossScanDuplicates(r.metadata), WastedBytes(r.metadata)))
  }

  function OsPreservation(r: ReviewReport): Proposal
  {
    Proposal("os_preservation", "os", "OS Preservation", ["bootable_archive", "data_only"], Some("data_only"),
             OsContext(OsName(r.os, "Unknown"), if r.os.OsMissing? then Some("") else r.os.version,
                       if r.os.OsMissing? then None else r.os.edition, UserProfiles(r.os)))
  }

  const SystemFolderFilter := Proposal("system_folder_filter", "filter", "System Folder Filtering",
                                       ["exclude_windows", "exclude_all_system", "include_all"],
                                       Some("exclude_windows"), FilterContext)

  function HealthAction(r: ReviewReport): Proposal
  {
    Proposal("health_action", "custom", "Health Warning Action",
             ["proceed_with_caution", "quick_backup_first", "abort_inspection"], Some("proceed_with_caution"),
             HealthContext(HealthScore(r.health), if r.health.HealthMissing? then [] else r.health.errors,
                           if r.health.HealthMissing? then [] else r.health.warnings))
  }

  predicate ProposesDuplicates(r: ReviewReport)
  {
    DuplicateGroups(r.metadata) > 0 || CrossScanDuplicates(r.metadata) > 0
  }

  /** `_generate_decision_points`: the proposals, in the order they are appended. */
  function Proposals(r: ReviewReport): seq<Proposal>
  {
    (if ProposesDuplicates(r) then [DuplicateHandling(r)] else [])
    + (if OsType(r.os) == Some("Windows") && BootCapable(r.os) then [OsPreservation(r)] else [])
    + (if OsType(r.os) == Some("Windows") then [SystemFolderFilter] else [])
    + (if HealthScore(r.health) < 70 then [HealthAction(r)] else [])
  }

  predicate Proposed(r: ReviewReport, id: string)
  {
    exists p :: p in Proposals(r) && p.id == id
  }

  /**
   * Each decision point appears exactly when its finding does: duplicates
   * (in the scan or across scans), a bootable Windows installation, a
   * Windows installation at all, a health score below 70 (a missing health
   * report counts as 100).
   */
  lemma ProposalsIff(r: ReviewReport)
    ensures Proposed(r, "duplicate_handling") <==> DuplicateGroups(r.metadata) > 0 || CrossScanDuplicates(r.metadata) > 0
    ensures Proposed(r, "os_preservation") <==> OsType(r.os) == Some("Windows") && BootCapable(r.os)
    ensures Proposed(r, "system_folder_filter") <==> OsType(r.os) == Some("Windows")
    ensures Proposed(r, "health_action") <==> HealthScore(r.health) < 70
    ensures r.health.HealthMissing? ==> !Proposed(r, "health_action")
  {
    if ProposesDuplicates(r) {
      assert DuplicateHandling(r) in Proposals(r);
    }
    if OsType(r.os) == Some("Windows") && BootCapable(r.os) {
      assert OsPreservation(r) in Proposals(r);
    }
    if OsType(r.os) == Some("Windows") {
      assert SystemFolderFilter in Proposals(r);
    }
    if HealthScore(r.health) < 70 {
      assert HealthAction(r) in Proposals(r);
    }
  }

  /** Each proposal is one of the four kinds of decision point. */
  lemma ProposalKinds(r: ReviewReport)
    ensures forall p :: p in Proposals(r) ==>
      p == DuplicateHandling(r) || p == OsPreservation(r) || p == SystemFolderFilter || p == HealthAction(r)
  {
  }

  /** Every proposal has a default, and it is one of its own options. */
  lemma ProposalDefaults(r: ReviewReport)
    ensures forall p :: p in Proposals(r) ==> p.defaultOption.Some? && p.defaultOption.value in p.options
  {
    ProposalKinds(r);
    assert DuplicateHandling(r).options[1] == "catalog_with_flag";
    assert OsPreservation(r).options[1] == "data_only";
    assert SystemFolderFilter.options[0] == "exclude_windows";
    assert HealthAction(r).options[0] == "proceed_with_caution";
  }

  /** No two proposals share an id: they come in a fixed order, each kind at most once. */
  lemma ProposalIdsDistinct(r: ReviewReport)
    ensures forall i, j :: 0 <= i < j < |Proposals(r)| ==> Proposals(r)[i].id != Proposals(r)[j].id
  {
    var ps := Proposals(r);
    forall i, j | 0 <= i < j < |ps|
      ensures ps[i].id != ps[j].id
    {
      ProposalKinds(r);
      assert ps[i] in ps && ps[j] in ps;
      assert |ps[i].id| != |ps[j].id|;
    }
  }

  const AutoNote := "Auto-resolved with default"

  /** A decision point of the review, resolved in place. */
  class DecisionPoint {
    const proposal: Proposal
    var resolved: bool
    var resolution: Option<string>
    var resolutionNotes: Option<string>

    constructor (p: Proposal)
      ensures proposal == p && !resolved && resolution == None && resolutionNotes == None
    {
      proposal := p;
      resolved := false;
      resolution := None;
      resolutionNotes := None;
    }

    /** `to_dict` */
    function Record(): DecisionRecord
      reads this
    {
      DecisionRecord(proposal, resolved, resolution, resolutionNotes)
    }
  }

  /** `[d.to_dict() for d in decisions]` */
  function Records(ds: seq<DecisionPoint>): seq<DecisionRecord>
    reads set d | d in ds
  {
    if ds == [] then [] else Records(ds[..|ds| - 1]) + [ds[|ds| - 1].Record()]
  }

  /** What becomes of a proposal: resolved with its default under auto-resolve, pending otherwise. */
  function Settled(p: Proposal, autoResolve: bool): DecisionRecord
  {
    if autoResolve && p.defaultOption.Some? then DecisionRecord(p, true, p.defaultOption, Some(AutoNote))
    else DecisionRecord(p, false, None, None)
  }

  function SettledAll(ps: seq<Proposal>, autoResolve: bool): (rs: seq<DecisionRecord>)
    ensures |rs| == |ps|
    ensures forall k :: 0 <= k < |ps| ==> rs[k] == Settled(ps[k], autoResolve)
  {
    if ps == [] then [] else SettledAll(ps[..|ps| - 1], autoResolve) + [Settled(ps[|ps| - 1], autoResolve)]
  }

  /** The records of decision points that each stand as their proposal settled. */
  lemma {:induction false} RecordsSettled(ds: seq<DecisionPoint>, ps: seq<Proposal>, autoResolve: bool)
    requires |ds| == |ps|
    requires forall k :: 0 <= k < |ds| ==> ds[k].Record() == Settled(ps[k], autoResolve)
    ensures Records(ds) == SettledAll(ps, autoResolve)
  {
    if ds != [] {
      RecordsSettled(ds[..|ds| - 1], ps[..|ps| - 1], autoResolve);
    }
  }

  /** `_generate_decision_points`: a fresh, pending decision point per proposal. */
  method GenerateDecisionPoints(r: ReviewReport) returns (ds: seq<DecisionPoint>)
    ensures |ds| == |Proposals(r)|
    ensures forall k :: 0 <= k < |ds| ==> fresh(ds[k]) && ds[k].Record() == Settled(Proposals(r)[k], false)
  {
    ghost var w1 := if ProposesDuplicates(r) then [DuplicateHandling(r)] else [];
    ghost var w2 := if OsType(r.os) == Some("Windows") && BootCapable(r.os) then [OsPreservation(r)] else [];
    ghost var w3 := if OsType(r.os) == Some("Windows") then [SystemFolderFilter] else [];
    ghost var w4 := if HealthScore(r.health) < 70 then [HealthAction(r)] else [];
    assert Proposals(r) == w1 + w2 + w3 + w4;
    ds := [];
    ghost var ps: seq<Proposal> := [];
    if DuplicateGroups(r.metadata) > 0 || CrossScanDuplicates(r.metadata) > 0 {
      var d := new DecisionPoint(DuplicateHandling(r));
      ds, ps := ds + [d], ps + [DuplicateHandling(r)];
    }
    assert ps == w1;
    var osType := OsType(r.os);
    if osType == Some("Windows") && BootCapable(r.os) {
      var d := new DecisionPoint(OsPreservation(r));
      ds, ps := ds + [d], ps + [OsPreservation(r)];
    }
    assert ps == w1 + w2;
    if osType == Some("Windows") {
      var d := new DecisionPoint(SystemFolderFilter);
      ds, ps := ds + [d], ps + [SystemFolderFilter];
    }
    assert ps == w1 + w2 + w3;
    if HealthScore(r.health) < 70 {
      var d := new DecisionPoint(HealthAction(r));
      ds, ps := ds + [d], ps + [HealthAction(r)];
    }
    assert ps == w1 + w2 + w3 + w4;
  }

  /** The auto-resolve loop: every decision point with a default is resolved with it. */
  method AutoResolve(ds: seq<DecisionPoint>)
    modifies set d | d in ds
    ensures forall d :: d in ds ==>
      if d.proposal.defaultOption.Some? then
        d.resolved && d.resolution == d.proposal.defaultOption && d.resolutionNotes == Some(AutoNote)
      else
        d.resolved == old(d.resolved) && d.resolution == old(d.resolution) && d.resolutionNotes == old(d.resolutionNotes)
  {
    for i := 0 to |ds|
      invariant forall d :: d in ds && d in ds[..i] && d.proposal.defaultOption.Some? ==>
        d.resolved && d.resolution == d.proposal.defaultOption && d.resolutionNotes == Some(AutoNote)
      invariant forall d :: d in ds && !(d in ds[..i] && d.proposal.defaultOption.Some?) ==>
        d.resolved == old(d.resolved) && d.resolution == old(d.resolution) && d.resolutionNotes == old(d.resolutionNotes)
    {
      var d := ds[i];
      assert ds[..i + 1] == ds[..i] + [d];
      if d.proposal.defaultOption.Some? {
        d.resolved := true;
        d.resolution := d.proposal.defaultOption;
        d.resolutionNotes := Some(AutoNote);
      }
    }
    assert ds[..|ds|] == ds;
  }

  /** The number of decision points still pending, as the summary counts them. */
  function PendingCount(rs: seq<DecisionRecord>): (n: nat)
    ensures n <= |rs|
  {
    if rs == [] then 0 else PendingCount(rs[..|rs| - 1]) + (if rs[|rs| - 1].resolved then 0 else 1)
  }

  /**
   * Every proposal has a default, so after auto-resolve nothing is pending;
   * without it every decision point is.
   */
  lemma {:induction false} PendingAfterAutoResolve(ps: seq<Proposal>, autoResolve: bool)
    requires forall p :: p in ps ==> p.defaultOption.Some?
    ensures PendingCount(SettledAll(ps, autoResolve)) == if autoResolve then 0 else |ps|
  {
    if ps != [] {
      var init := ps[..|ps| - 1];
      var last := ps[|ps| - 1];
      var before := SettledAll(init, autoResolve);
      assert forall p :: p in init ==> p in ps;
      PendingAfterAutoResolve(init, autoResolve);
      assert last in ps;
      assert SettledAll(ps, autoResolve) == before + [Settled(last, autoResolve)];
      assert (before + [Settled(last, autoResolve)])[..|before|] == before;
    }
  }

  // ---------------------------------------------------------------------
  // Recommendations and summary

  const GiB := 1024 * 1024 * 1024

  /** The recommendations `_generate_recommendations` can make. */
  datatype ReviewAdvice =
    | PriorityArchive(status: string)
    | DuplicateCleanup(wastedBytes: int)
    | BootableBackup(osName: string)
    | ProfileReview(count: nat)
    | HistoricalValue(since: string)
    | StandardArchiving

  /** `oldest[:10]` */
  function Prefix10(s: string): (p: string)
    ensures |p| <= 10 && |p| <= |s| && p == s[..|p|]
  {
    if |s| <= 10 then s else s[..10]
  }

  function OldestFile(m: MetadataSummary): Option<string>
  {
    if m.MetadataMissing? then None else m.oldestFile
  }

  /** The recommendations `_generate_recommendations` draws from the findings, in order. */
  function Advised(r: ReviewReport): seq<ReviewAdvice>
  {
    var status := HealthStatus(r.health);
    var oldest := OldestFile(r.metadata);
    (if status == "Critical" || status == "Poor" then [PriorityArchive(status)] else [])
    + (if WastedBytes(r.metadata) > GiB then [DuplicateCleanup(WastedBytes(r.metadata))] else [])
    + (if BootCapable(r.os) then [BootableBackup(OsName(r.os, "Unknown OS"))] else [])
    + (if |UserProfiles(r.os)| > 3 then [ProfileReview(|UserProfiles(r.os)|)] else [])
    + (if oldest.Some? && oldest.value != "" then [HistoricalValue(Prefix10(oldest.value))] else [])
  }

  /**
   * Each recommendation is drawn exactly when its finding holds: health
   * Critical or Poor, more than 1 GiB recoverable from duplicates, a
   * bootable system, more than three user profiles, a known oldest file.
   */
  lemma AdvisedIff(r: ReviewReport)
    ensures var a := Advised(r);
      var status := HealthStatus(r.health);
      var oldest := OldestFile(r.metadata);
      && (PriorityArchive(status) in a <==> status == "Critical" || status == "Poor")
      && (DuplicateCleanup(WastedBytes(r.metadata)) in a <==> WastedBytes(r.metadata) > GiB)
      && (BootableBackup(OsName(r.os, "Unknown OS")) in a <==> BootCapable(r.os))
      && (ProfileReview(|UserProfiles(r.os)|) in a <==> |UserProfiles(r.os)| > 3)
      && StandardArchiving !in a
  {
    var status := HealthStatus(r.health);
    var oldest := OldestFile(r.metadata);
    var w1 := if status == "Critical" || status == "Poor" then [PriorityArchive(status)] else [];
    var w2 := if WastedBytes(r.metadata) > GiB then [DuplicateCleanup(WastedBytes(r.metadata))] else [];
    var w3 := if BootCapable(r.os) then [BootableBackup(OsName(r.os, "Unknown OS"))] else [];
    var w4 := if |UserProfiles(r.os)| > 3 then [ProfileReview(|UserProfiles(r.os)|)] else [];
    var w5 := if oldest.Some? && oldest.value != "" then [HistoricalValue(Prefix10(oldest.value))] else [];
    assert Advised(r) == w1 + w2 + w3 + w4 + w5;
    assert forall x :: x in Advised(r) <==> x in w1 || x in w2 || x in w3 || x in w4 || x in w5;
  }

  /** The date the files go back to is drawn exactly when the oldest file's date is known, cut to ten characters. */
  lemma AdvisedHistory(r: ReviewReport)
    ensures var oldest := OldestFile(r.metadata);
      && (oldest.Some? && oldest.value != "" <==> exists since :: HistoricalValue(since) in Advised(r))
      && forall since :: HistoricalValue(since) in Advised(r) ==> since == Prefix10(oldest.value)
  {
    var oldest := OldestFile(r.metadata);
    if oldest.Some? && oldest.value != "" {
      assert HistoricalValue(Prefix10(oldest.value)) in Advised(r);
    }
  }

  /** `_generate_recommendations` */
  function Recommendations(r: ReviewReport): (advice: seq<ReviewAdvice>)
    ensures advice != []
  {
    if Advised(r) == [] then [StandardArchiving] else Advised(r)
  }

  /**
   * The recommendations are the ones drawn from the findings; the standard
   * advice comes alone, exactly when nothing was drawn.
   */
  lemma RecommendationsIff(r: ReviewReport)
    ensures forall x :: x != StandardArchiving ==> (x in Recommendations(r) <==> x in Advised(r))
    ensures StandardArchiving in Recommendations(r) <==> Recommendations(r) == [StandardArchiving]
    ensures StandardArchiving in Recommendations(r) <==> Advised(r) == []
  {
    AdvisedIff(r);
  }

  /** The parts of the summary line `_generate_summary` joins with " | ". */
  datatype SummaryPart =
    | DriveShown(letter: string)
    | HealthShown(status: string)
    | OsShown(name: string, version: Option<string>)
    | FilesShown(files: int, sizeBytes: int)
    | PendingShown(count: nat)

  /** `_generate_summary` */
  function Summary(r: ReviewReport): (parts: seq<SummaryPart>)
  {
    var osName := OsName(r.os, "Unknown");
    var version := if r.os.OsMissing? then Some("") else r.os.version;
    var files := if r.metadata.MetadataMissing? then 0 else r.metadata.totalFiles;
    var size := if r.metadata.MetadataMissing? then 0 else r.metadata.totalSizeBytes;
    var pending := PendingCount(r.decisionPoints);
    [DriveShown(r.driveLetter), HealthShown(HealthStatus(r.health))]
    + (if osName == "Unknown" then []
       else [OsShown(osName, if version.Some? && version.value != "" then version else None)])
    + (if files > 0 then [FilesShown(files, size)] else [])
    + (if pending > 0 then [PendingShown(pending)] else [])
  }

  /** The summary names the drive and the health status first, and reports the pending count exactly when some are pending. */
  lemma SummaryPending(r: ReviewReport)
    ensures |Summary(r)| >= 2 && Summary(r)[0] == DriveShown(r.driveLetter)
    ensures Summary(r)[1] == HealthShown(HealthStatus(r.health))
    ensures PendingShown(PendingCount(r.decisionPoints)) in Summary(r) <==> PendingCount(r.decisionPoints) > 0
    ensures forall n :: PendingShown(n) in Summary(r) ==> n == PendingCount(r.decisionPoints)
  {
  }

  // ---------------------------------------------------------------------
  // The pass

  /** The outcome of writing the markdown report (its generator is not part of this model). */
  datatype Rendering = Written(path: string) | RenderFailed(message: string)

  /** `inspection.get('model') or 'Unknown'` and the same for the serial number. */
  function DriveModel(d: Option<DriveRow>): string
  {
    if d.Some? && d.value.info.model.Some? && d.value.info.model.value != "" then d.value.info.model.value else "Unknown"
  }

  function DriveSerial(d: Option<DriveRow>): string
  {
    if d.Some? && d.value.info.serialNumber != "" then d.value.info.serialNumber else "Unknown"
  }

  /** `_load_pass_report`: the stored JSON of a pass, when the row has non-empty JSON that decodes. */
  function Loaded<T>(json: Option<string>, decode: string -> Option<T>): Option<T>
  {
    if json.Some? && json.value != "" then decode(json.value) else None
  }

  /** The JSON stored for pass `n` of session `s`. */
  function StoredJson(passes: seq<PassRow>, sessions: nat, s: int, n: int): Option<string>
  {
    match PassIndex(sessions, s, n)
    case None => None
    case Some(i) => if i < |passes| then passes[i].reportJson else None
  }

  /** What pass 4 reads from the store, or the defaults when there is no store or no session id. */
  datatype Stored = Stored(drive: Option<DriveRow>, health: Option<HealthJson>, os: Option<OsJson>,
                           metadata: Option<MetadataJson>, decisions: seq<DecisionRow>)

  function StoredIn(sessions: seq<SessionRow>, drives: seq<DriveRow>, passes: seq<PassRow>, decisions: seq<DecisionRow>,
                    s: int, decode: Decoders): Stored
  {
    Stored(
      if 1 <= s <= |sessions| then DriveById(drives, sessions[s - 1].driveId) else None,
      Loaded(StoredJson(passes, |sessions|, s, 1), decode.health),
      Loaded(StoredJson(passes, |sessions|, s, 2), decode.os),
      Loaded(StoredJson(passes, |sessions|, s, 3), decode.metadata),
      DecisionsOf(decisions, s))
  }

  /** The report with the three summaries compiled from what was read, before any decision. */
  function Compiled(drivePath: string, sessionId: Option<int>, stored: Stored): ReviewReport
  {
    ReviewReport(sessionId, drivePath, DriveLetterShown(drivePath), DriveModel(stored.drive),
                 DriveSerial(stored.drive), CompileHealthSummary(stored.health),
                 CompileOsSummary(stored.os), CompileMetadataSummary(stored.metadata),
                 [], stored.decisions, [], [], [], None, [])
  }

  /** The report with its decision points, settled under auto-resolve. */
  function Decided(r: ReviewReport, autoResolve: bool): ReviewReport
  {
    r.(decisionPoints := SettledAll(Proposals(r), autoResolve))
  }

  /** The report with recommendations, summary, and the outcome of writing the markdown report. */
  function Finished(r: ReviewReport, rendering: Option<Rendering>): ReviewReport
  {
    var advised := r.(recommendations := Recommendations(r));
    var summarised := advised.(summary := Summary(advised));
    match rendering
    case None => summarised
    case Some(Written(path)) => summarised.(reportPath := Some(path))
    case Some(RenderFailed(m)) => summarised.(warnings := r.warnings + ["Could not generate markdown report: " + m])
  }

  /** The review `inspect` produces from what it read. */
  function ReviewOf(drivePath: string, sessionId: Option<int>, stored: Stored, autoResolve: bool,
                    rendering: Option<Rendering>): ReviewReport
  {
    Finished(Decided(Compiled(drivePath, sessionId, stored), autoResolve), rendering)
  }

  /** Finishing keeps the decision points and the errors, and summarises the advised report. */
  lemma FinishedKeeps(r: ReviewReport, rendering: Option<Rendering>)
    ensures var f := Finished(r, rendering);
      && f.errors == r.errors && f.decisionPoints == r.decisionPoints
      && f.summary == Summary(r.(recommendations := Recommendations(r)))
  {
  }

  /**
   * Nothing in the review adds an error, so pass 4 is never recorded as
   * failed; every decision point is pending unless auto-resolve settled
   * them all, and the summary counts exactly the pending ones.
   */
  lemma ReviewNeverFails(drivePath: string, sessionId: Option<int>, stored: Stored, autoResolve: bool,
                         rendering: Option<Rendering>)
    ensures var r := ReviewOf(drivePath, sessionId, stored, autoResolve, rendering);
      && r.errors == []
      && FailureMessage(r.errors) == None
      && PendingCount(r.decisionPoints) == (if autoResolve then 0 else |r.decisionPoints|)
      && (PendingShown(|r.decisionPoints|) in r.summary <==> !autoResolve && r.decisionPoints != [])
  {
    var c := Compiled(drivePath, sessionId, stored);
    var d := Decided(c, autoResolve);
    FinishedKeeps(d, rendering);
    ProposalDefaults(c);
    PendingAfterAutoResolve(Proposals(c), autoResolve);
    SummaryPending(d.(recommendations := Recommendations(d)));
  }

  /**
   * `inspect`: with a store and a truthy session id, pass 4 is started,
   * the drive, the stored reports of passes 1-3 and the session's logged
   * decisions are read, and pass 4 is recorded as completed with the
   * review. Nothing else in the store changes; without a store or a
   * session id nothing is read or written.
   */
  method Inspect(db: Database?, sessionId: Option<int>, drivePath: string, autoResolve: bool, generateReport: bool,
                 rendering: Rendering, decode: Decoders, toJson: ReviewReport -> string)
    returns (report: ReviewReport)
    requires db != null ==> db.Valid()
    modifies (if db == null then {} else {db})`passes, (if db == null then {} else {db})`sessions,
      (if db == null then {} else {db})`clock
    ensures db != null ==> db.Valid()
    ensures report == ReviewOf(drivePath, sessionId,
                               if db != null && Given(sessionId)
                               then old(StoredIn(db.sessions, db.drives, db.passes, db.decisions, sessionId.value, decode))
                               else Stored(None, None, None, None, []),
                               autoResolve, if generateReport then Some(rendering) else None)
    ensures db != null && !Given(sessionId) ==>
      db.sessions == old(db.sessions) && db.passes == old(db.passes) && db.clock == old(db.clock)
    ensures db != null && Given(sessionId) ==>
      && db.sessions == AtPass(old(db.sessions), sessionId.value, 4)
      && db.passes == PassRun(old(db.passes), |old(db.sessions)|, sessionId.value, 4, Some(toJson(report)), None,
                              old(db.clock))
      && db.clock == old(db.clock) + 2
    ensures db != null && Given(sessionId) ==>
      match PassIndex(|db.sessions|, sessionId.value, 4)
      case None => true
      case Some(i) =>
        && db.passes[i].status == Completed
        && db.passes[i].reportJson == Some(toJson(report))
        && db.passes[i].errorMessage == None
  {
    var rendered := if generateReport then Some(rendering) else None;
    if db != null && Given(sessionId) {
      report := InspectStored(db, sessionId, drivePath, autoResolve, rendered, decode, toJson);
    } else {
      report := Review(drivePath, sessionId, Stored(None, None, None, None, []), autoResolve, rendered);
    }
  }

  /** `inspect` with a store and a truthy session id: start pass 4, read, review, record. */
  method InspectStored(db: Database, sessionId: Option<int>, drivePath: string, autoResolve: bool,
                       rendering: Option<Rendering>, decode: Decoders, toJson: ReviewReport -> string)
    returns (report: ReviewReport)
    requires db.Valid() && sessionId.Some?
    modifies db`passes, db`sessions, db`clock
    ensures db.Valid()
    ensures report == ReviewOf(drivePath, sessionId,
                               old(StoredIn(db.sessions, db.drives, db.passes, db.decisions, sessionId.value, decode)),
                               autoResolve, rendering)
    ensures db.sessions == AtPass(old(db.sessions), sessionId.value, 4)
    ensures db.passes == PassRun(old(db.passes), |old(db.sessions)|, sessionId.value, 4, Some(toJson(report)), None,
                                 old(db.clock))
    ensures db.clock == old(db.clock) + 2
    ensures match PassIndex(|db.sessions|, sessionId.value, 4)
      case None => true
      case Some(i) =>
        && db.passes[i].status == Completed
        && db.passes[i].reportJson == Some(toJson(report))
        && db.passes[i].errorMessage == None
  {
    var stored := StartAndRead(db, sessionId.value, decode);
    report := Review(drivePath, sessionId, stored, autoResolve, rendering);
    ReviewNeverFails(drivePath, sessionId, stored, autoResolve, rendering);
    RecordPass(db, sessionId.value, 4, toJson(report), report.errors);
  }

  /** Pass 4 is started, then the reads: starting it changes nothing they read. */
  method StartAndRead(db: Database, s: int, decode: Decoders) returns (stored: Stored)
    requires db.Valid()
    modifies db`passes, db`sessions, db`clock
    ensures db.Valid()
    ensures stored == old(StoredIn(db.sessions, db.drives, db.passes, db.decisions, s, decode))
    ensures db.passes == PassStarted(old(db.passes), |old(db.sessions)|, s, 4, old(db.clock))
    ensures db.sessions == AtPass(old(db.sessions), s, 4)
    ensures db.clock == old(db.clock) + 1
  {
    ghost var before := StoredIn(db.sessions, db.drives, db.passes, db.decisions, s, decode);
    var _ := db.StartPass(s, 4);
    stored := ReadStored(db, s, decode);
    assert stored == before;
  }

  /** The reads of `inspect`: the session's drive, the stored reports of passes 1-3, the logged decisions. */
  method ReadStored(db: Database, s: int, decode: Decoders) returns (stored: Stored)
    requires db.Valid()
    ensures stored == StoredIn(db.sessions, db.drives, db.passes, db.decisions, s, decode)
  {
    var inspection := db.GetInspection(s);
    var drive := if inspection.Some? then DriveById(db.drives, inspection.value.0.driveId) else None;
    var health := Loaded(StoredJson(db.passes, |db.sessions|, s, 1), decode.health);
    var os := Loaded(StoredJson(db.passes, |db.sessions|, s, 2), decode.os);
    var metadata := Loaded(StoredJson(db.passes, |db.sessions|, s, 3), decode.metadata);
    var existing := db.GetDecisions(s);
    stored := Stored(drive, health, os, metadata, existing);
  }

  /**
   * The steps of `inspect` after the reads: summaries, decision points
   * (auto-resolved on request), recommendations, summary, markdown report.
   */
  method Review(drivePath: string, sessionId: Option<int>, stored: Stored, autoResolve: bool,
                rendering: Option<Rendering>) returns (report: ReviewReport)
    ensures report == ReviewOf(drivePath, sessionId, stored, autoResolve, rendering)
  {
    report := Compiled(drivePath, sessionId, stored);
    var decisions := GenerateDecisionPoints(report);
    if autoResolve {
      AutoResolve(decisions);
    }
    RecordsSettled(decisions, Proposals(report), autoResolve);
    report := report.(decisionPoints := Records(decisions));
    report := report.(recommendations := Recommendations(report));
    report := report.(summary := Summary(report));
    match rendering
    case None =>
    case Some(Written(path)) =>
      report := report.(reportPath := Some(path));
    case Some(RenderFailed(m)) =>
      report := report.(warnings := report.warnings + ["Could not generate markdown report: " + m]);
  }

  // ---------------------------------------------------------------------
  // Decisions taken later

  /** The keys of the logged decisions. */
  function DecisionKeys(rows: seq<DecisionRow>): set<string>
  {
    set r | r in rows :: r.decisionKey
  }

  /** The decision points whose id is not among `keys`, in order. */
  function Unresolved(points: seq<DecisionRecord>, keys: set<string>): (r: seq<DecisionRecord>)
    ensures |r| <= |points|
  {
    if points == [] then []
    else
      var last := points[|points| - 1];
      Unresolved(points[..|points| - 1], keys) + if last.proposal.id in keys then [] else [last]
  }

  /** A decision point is pending exactly when it was proposed and no logged decision names it. */
  lemma {:induction false} UnresolvedIff(points: seq<DecisionRecord>, keys: set<string>, d: DecisionRecord)
    ensures d in Unresolved(points, keys) <==> d in points && d.proposal.id !in keys
  {
    if points != [] {
      var init := points[..|points| - 1];
      UnresolvedIff(init, keys, d);
      assert points == init + [points[|points| - 1]];
    }
  }

  /** Filtering by more keys is filtering again. */
  lemma {:induction false} UnresolvedMore(points: seq<DecisionRecord>, keys: set<string>, k: string)
    ensures Unresolved(points, keys + {k}) == Unresolved(Unresolved(points, keys), {k})
  {
    if points != [] {
      var init := points[..|points| - 1];
      UnresolvedMore(init, keys, k);
      var last := points[|points| - 1];
      var u := Unresolved(init, keys);
      assert points[..|points| - 1] == init;
      if last.proposal.id !in keys {
        assert Unresolved(points, keys) == u + [last];
        assert (u + [last])[..|u|] == u;
        assert Unresolved(u + [last], {k}) == Unresolved(u, {k}) + (if last.proposal.id == k then [] else [last]);
      } else {
        assert Unresolved(points, keys) == u;
      }
    }
  }

  /** `get_pending_decisions` on the store's tables. */
  function PendingIn(sessions: seq<SessionRow>, passes: seq<PassRow>, decisions: seq<DecisionRow>, s: int,
                     decode: string -> Option<seq<DecisionRecord>>): seq<DecisionRecord>
  {
    if !(1 <= s <= |sessions|) then []
    else match Loaded(StoredJson(passes, |sessions|, s, 4), decode)
      case None => []
      case Some(points) => Unresolved(points, DecisionKeys(DecisionsOf(decisions, s)))
  }

  /** The keys of a session's decisions grow by the key of each decision logged for it. */
  lemma {:induction false} KeysAfterRecord(rows: seq<DecisionRow>, row: DecisionRow, s: int)
    requires row.sessionId == s
    ensures DecisionKeys(DecisionsOf(rows + [row], s)) == DecisionKeys(DecisionsOf(rows, s)) + {row.decisionKey}
  {
    assert (rows + [row])[..|rows|] == rows;
  }

  /**
   * Logging a decision for a decision point removes exactly that point
   * from the pending ones, and nothing else.
   */
  lemma ResolvingRemovesPending(sessions: seq<SessionRow>, passes: seq<PassRow>, decisions: seq<DecisionRow>, s: int,
                                decode: string -> Option<seq<DecisionRecord>>, row: DecisionRow)
    requires row.sessionId == s
    ensures PendingIn(sessions, passes, decisions + [row], s, decode)
            == Unresolved(PendingIn(sessions, passes, decisions, s, decode), {row.decisionKey})
    ensures forall d :: d in PendingIn(sessions, passes, decisions + [row], s, decode) ==> d.proposal.id != row.decisionKey
  {
    KeysAfterRecord(decisions, row, s);
    if 1 <= s <= |sessions| {
      match Loaded(StoredJson(passes, |sessions|, s, 4), decode)
      case None =>
      case Some(points) =>
        UnresolvedMore(points, DecisionKeys(DecisionsOf(decisions, s)), row.decisionKey);
    }
    forall d | d in PendingIn(sessions, passes, decisions + [row], s, decode)
      ensures d.proposal.id != row.decisionKey
    {
      UnresolvedIff(PendingIn(sessions, passes, decisions, s, decode), {row.decisionKey}, d);
    }
  }

  /** `get_pending_decisions`: nothing without a store, an unknown session or a pass-4 report. */
  method GetPendingDecisions(db: Database?, s: int, decode: string -> Option<seq<DecisionRecord>>)
    returns (pending: seq<DecisionRecord>)
    requires db != null ==> db.Valid()
    ensures pending == if db == null then [] else PendingIn(db.sessions, db.passes, db.decisions, s, decode)
    ensures forall d :: d in pending ==> d.proposal.id !in (if db == null then {} else DecisionKeys(DecisionsOf(db.decisions, s)))
  {
    if db == null {
      return [];
    }
    var existing := db.GetDecisions(s);
    var resolvedIds := set d | d in existing :: d.decisionKey;
    var inspection := db.GetInspection(s);
    if inspection.None? {
      return [];
    }
    var report := Loaded(StoredJson(db.passes, |db.sessions|, s, 4), decode);
    if report.None? {
      return [];
    }
    pending := Unresolved(report.value, resolvedIds);
    forall d | d in pending
      ensures d.proposal.id !in resolvedIds
    {
      UnresolvedIff(report.value, resolvedIds, d);
    }
  }

  /**
   * `resolve_decision`: without a store nothing is logged; otherwise the
   * decision is logged under the decision point's id as both type and key,
   * and nothing else in the store changes but the clock.
   */
  method ResolveDecision(db: Database?, s: int, decisionId: string, resolution: string, notes: Option<string>,
                         decidedBy: string) returns (ok: bool)
    requires db != null ==> db.Valid()
    modifies (if db == null then {} else {db})`decisions, (if db == null then {} else {db})`clock
    ensures ok <==> db != null
    ensures db != null ==> db.Valid()
    ensures db != null ==>
      db.decisions == old(db.decisions) + [DecisionRow(s, decisionId, decisionId, resolution, notes, old(db.clock), decidedBy)]
    ensures db != null ==> db.sessions == old(db.sessions) && db.passes == old(db.passes)
    ensures db != null ==> db.clock == old(db.clock) + 1
  {
    if db == null {
      return false;
    }
    var _ := db.RecordDecision(s, decisionId, decisionId, resolution, notes, decidedBy);
    ok := true;
  }
}

=== FILE: scan_drive.dfy ===
/**
 * The `scan_drive.py` entry point: check the drive path, validate the
 * drive, record the drive and a new scan, walk the drive inserting file
 * records in batches of 1000, and close the scan with its totals.
 *
 * The machine is a `Host` (drive identity), the validator's inputs and a
 * directory tree; an interrupt or an error raised while the walk is at a
 * given record is an input too.
 */
module ScanDrive {
  import opened Wrappers
  import opened Text
  import opened DrivePaths
  import opened FileScanning
  import opened Catalog
  import opened DriveIdentity
  import opened DriveValidation
  import opened FileBatches
  import opened OsDetection

  const BatchSize: nat := 1000

  datatype Args = Args(
    drivePath: string,
    noProgress: bool,
    driveModel: Option<string>,
    driveSerial: Option<string>,
    driveNotes: Option<string>)

  /** `given or fallback` for an optional command-line string: an empty string is falsy. */
  function OrElse(given: Option<string>, fallback: string): (r: string)
    ensures given.Some? && given.value != "" ==> r == given.value
    ensures given.None? || given.value == "" ==> r == fallback
  {
    if given.Some? && given.value != "" then given.value else fallback
  }

  /**
   * The keys of the drive-information dictionary the drive record reads;
   * `None` is a missing key (or a null value, for the optional columns).
   */
  datatype Detected = Detected(
    serialNumber: Option<string>,
    model: Option<string>,
    connectionMethod: Option<string>,
    totalBytes: int,
    filesystem: Option<string>,
    manufacturer: Option<string>,
    firmwareVersion: Option<string>,
    mediaType: Option<string>,
    busType: Option<string>)

  /** The dictionary `get_drive_info` returns always has a serial, a model and a connection. */
  function DetectedOf(info: DriveInfoView): (d: Detected)
    ensures d.serialNumber == Some(info.identity.serialNumber)
    ensures d.model == Some(info.identity.model)
    ensures d.connectionMethod == Some(info.identity.connectionMethod)
  {
    var id := info.identity;
    Detected(Some(id.serialNumber), Some(id.model), Some(id.connectionMethod), info.totalBytes,
             info.filesystem, id.manufacturer, id.firmwareVersion, id.mediaType, id.busType)
  }

  /**
   * The drive record: a non-empty `--drive-serial`/`--drive-model` wins;
   * otherwise the detected value, and `MANUAL_<name>`/`Drive_<name>` only
   * when the key is missing. The notes are `--drive-notes` as given.
   */
  function DriveRecord(args: Args, d: Detected, name: string, platform: string): (r: DriveInfo)
    ensures r.serialNumber == OrElse(args.driveSerial, d.serialNumber.GetOr("MANUAL_" + name))
    ensures r.model == Some(OrElse(args.driveModel, d.model.GetOr("Drive_" + name)))
    ensures r.notes == args.driveNotes
    ensures r.connectionType == Some(d.connectionMethod.GetOr(platform))
    ensures r.sizeBytes == Some(d.totalBytes)
    ensures r.volumeLabel.None? && r.partitionScheme.None?
  {
    DriveInfo(
      OrElse(args.driveSerial, d.serialNumber.GetOr("MANUAL_" + name)),
      Some(OrElse(args.driveModel, d.model.GetOr("Drive_" + name))),
      d.manufacturer,
      Some(d.totalBytes),
      d.filesystem,
      None,
      None,
      Some(d.connectionMethod.GetOr(platform)),
      d.firmwareVersion,
      d.mediaType,
      d.busType,
      args.driveNotes)
  }

  /**
   * With drive information from `get_drive_info`, the `MANUAL_` and
   * `Drive_` defaults never apply: the serial is the override or the
   * detected serial, and it is never empty.
   */
  lemma DetectedIdentityUsed(args: Args, info: DriveInfoView, name: string, platform: string)
    requires info.identity.serialNumber != ""
    ensures DriveRecord(args, DetectedOf(info), name, platform).serialNumber
      == OrElse(args.driveSerial, info.identity.serialNumber)
    ensures DriveRecord(args, DetectedOf(info), name, platform).model
      == Some(OrElse(args.driveModel, info.identity.model))
    ensures DriveRecord(args, DetectedOf(info), name, platform).serialNumber != ""
  {
  }

  datatype Failure = Interrupted | Raised

  /**
   * The batch loop: records are collected, and each time 1000 are held
   * they are inserted and the batch restarts; what is left is inserted
   * after the loop. When `stopAt` names a record, an exception ends the
   * loop there and only the full batches before it are stored.
   */
  method InsertInBatches(db: Database, scanId: int, records: seq<FileRecord>, stopAt: Option<nat>)
    returns (fileCount: nat, totalSize: nat, stopped: bool)
    requires db.Valid()
    modifies db`files
    ensures db.Valid()
    ensures stopped <==> stopAt.Some? && stopAt.value < |records|
    ensures !stopped ==> db.files == old(db.files) + Rows(scanId, records)
    ensures !stopped ==> fileCount == |records| && totalSize == TotalSize(records)
    ensures stopped ==> db.files == old(db.files) + Rows(scanId, records[..Flushed(stopAt.value, BatchSize)])
  {
    var batch: seq<FileRecord> := [];
    fileCount, totalSize := 0, 0;
    ghost var stored: seq<FileRecord> := [];
    var i := 0;
    while i < |records|
      invariant i <= |records| && |batch| < BatchSize
      invariant Flushed(i, BatchSize) == |stored|
      invariant stored + batch == records[..i]
      invariant fileCount == i && totalSize == TotalSize(records[..i])
      invariant db.Valid()
      invariant db.files == old(db.files) + Rows(scanId, stored)
      invariant stopAt.Some? ==> i <= stopAt.value
    {
      if stopAt == Some(i) {
        assert stored == records[..i][..Flushed(i, BatchSize)];
        return fileCount, totalSize, true;
      }
      TotalSizeStep(records, i);
      PrefixStep(records, i, stored, batch);
      stored, batch := Collect(db, scanId, BatchSize, old(db.files), stored, batch, records[i]);
      fileCount := fileCount + 1;
      totalSize := totalSize + records[i].sizeBytes;
      i := i + 1;
    }
    assert records[..|records|] == records;
    if batch != [] {
      db.InsertFilesBatch(scanId, batch);
    }
    LastFlush(old(db.files), scanId, stored, batch);
    stopped := false;
  }

  /** The tables a scan writes, and the clock; the other tables are outside a scan's frame. */
  datatype Store = Store(drives: seq<DriveRow>, scans: seq<ScanRow>, files: seq<FileRow>, osInfo: seq<OsInfoRow>,
                         clock: nat)

  ghost function StoreOf(db: Database): Store
    reads db
  {
    Store(db.drives, db.scans, db.files, db.osInfo, db.clock)
  }

  /**
   * `main`: exit code 1 for a missing path, a non-directory, a failed
   * validation or missing drive information, all before the store is
   * touched; otherwise the scan is recorded.
   */
  method RunScan(args: Args, host: Host, procVersion: Option<string>, query: StatusQuery, listing: Listing,
                 detected: Option<Detection>, tree: Dir, failure: Option<(Failure, nat)>, db: Database)
    returns (exitCode: int, validation: Option<Validation>)
    requires db.Valid()
    modifies db`drives, db`scans, db`files, db`osInfo, db`clock
    ensures db.Valid()
    ensures validation.None? <==> !host.pathExists(Normal(args.drivePath)) || !host.isDir(Normal(args.drivePath))
    ensures validation.Some? ==> (validation.value.valid <==> validation.value.errors == [])
    ensures validation.None? || !validation.value.valid || GetDriveInfo(host, Normal(args.drivePath)).None? ==>
      exitCode == 1 && StoreOf(db) == old(StoreOf(db))
    ensures validation.Some? && validation.value.valid && GetDriveInfo(host, Normal(args.drivePath)).Some? ==>
      var path := Normal(args.drivePath);
      var info := GetDriveInfo(host, path).value;
      var record := DriveRecord(args, DetectedOf(info), Name(path), PlatformName(host.platform));
      Recorded(old(StoreOf(db)), record, path, detected, WalkRecords(tree), failure, StoreOf(db), exitCode)
  {
    var path := Normal(args.drivePath);
    if !host.pathExists(path) || !host.isDir(path) {
      return 1, None;
    }
    var validator := new DriveValidator(path, procVersion);
    var v := validator.Validate(host.pathExists(path), host.isDir(path), query, listing);
    validation := Some(v);
    if !v.valid {
      return 1, validation;
    }
    var found := GetDriveInfo(host, path);
    if found.None? {
      return 1, validation;
    }
    var info := found.value;
    var record := DriveRecord(args, DetectedOf(info), Name(path), PlatformName(host.platform));
    exitCode := RecordScan(db, record, path, detected, tree, !args.noProgress, failure);
  }

  /**
   * Stage 2 stops the scan when `detect` raises (`detected` is None) or when
   * `insert_os_info` raises because `os_info` already has a row keyed by the
   * new scan's id.
   */
  predicate StageTwoFails(osInfo: seq<OsInfoRow>, scanId: int, detected: Option<Detection>)
  {
    detected.None? || HasOsInfo(osInfo, scanId)
  }

  /**
   * The file stage of scan `scanId`, from store `t`: either the scan is
   * completed with all rows and exit code 0, or it is left as it was with
   * the rows of the full batches before the failure and exit code 130
   * (interrupt) or 1 (error). Drives and `os_info` do not change.
   */
  ghost predicate Walked(t: Store, scanId: int, records: seq<FileRecord>, failure: Option<(Failure, nat)>,
                         t': Store, exitCode: int)
  {
    var hit := failure.Some? && failure.value.1 < |records|;
    && t'.drives == t.drives && t'.osInfo == t.osInfo
    && (hit ==>
          && exitCode == (if failure.value.0 == Interrupted then 130 else 1)
          && t'.scans == t.scans
          && t'.files == t.files + Rows(scanId, records[..Flushed(failure.value.1, BatchSize)])
          && t'.clock == t.clock)
    && (!hit ==>
          && exitCode == 0
          && |t'.scans| == |t.scans|
          && (forall i :: 0 <= i < |t.scans| && i + 1 != scanId ==> t'.scans[i] == t.scans[i])
          && (1 <= scanId <= |t.scans| ==>
                t'.scans[scanId - 1] == t.scans[scanId - 1].(scanEnd := Some(t.clock), fileCount := Some(|records|),
                                                           totalSizeBytes := Some(TotalSize(records)), status := Complete))
          && t'.files == t.files + Rows(scanId, records)
          && t'.clock == t.clock + 1)
  }

  /** Stage 3 and the completion of the scan: walk the tree, insert in batches, close the scan unless stopped. */
  method WalkScan(db: Database, scanId: int, tree: Dir, showProgress: bool, failure: Option<(Failure, nat)>)
    returns (exitCode: int)
    requires db.Valid()
    modifies db`scans, db`files, db`clock
    ensures db.Valid()
    ensures Walked(old(StoreOf(db)), scanId, WalkRecords(tree), failure, StoreOf(db), exitCode)
  {
    var scanner := new FileScanner(tree);
    var records := scanner.Scan(showProgress);
    var stopAt := if failure.Some? then Some(failure.value.1) else None;
    var fileCount, totalSize, stopped := InsertInBatches(db, scanId, records, stopAt);
    if stopped {
      exitCode := if failure.value.0 == Interrupted then 130 else 1;
      return;
    }
    db.CompleteScan(scanId, fileCount, totalSize);
    exitCode := 0;
  }

  /**
   * What recording a scan leaves, from store `t`: the drive upserted and one
   * new in-progress scan row. If Stage 2 fails, that is all, with exit code
   * 1. Otherwise the detection is stored under the scan's id and the file
   * stage follows.
   */
  ghost predicate Recorded(t: Store, record: DriveInfo, path: string, detected: Option<Detection>,
                           records: seq<FileRecord>, failure: Option<(Failure, nat)>, t': Store, exitCode: int)
  {
    var upsert := UpsertDrive(t.drives, record, t.clock);
    var scanId := |t.scans| + 1;
    var begun := Store(upsert.0, t.scans + [ScanRow(upsert.1, t.clock + 1, None, path, None, None, InProgress)],
                        t.files, t.osInfo, t.clock + 2);
    && (StageTwoFails(t.osInfo, scanId, detected) ==> exitCode == 1 && t' == begun)
    && (!StageTwoFails(t.osInfo, scanId, detected) ==>
          Walked(begun.(osInfo := t.osInfo + [OsInfoOf(scanId, detected.value)]), scanId, records, failure, t',
                 exitCode))
  }

  /**
   * The recording half of `main`: insert the drive, start a scan, detect
   * the operating system and store it under the scan, then the file stage.
   * Stage 2 reads the detection result through its dictionary.
   */
  method RecordScan(db: Database, record: DriveInfo, path: string, detected: Option<Detection>, tree: Dir,
                    showProgress: bool, failure: Option<(Failure, nat)>) returns (exitCode: int)
    requires db.Valid()
    modifies db`drives, db`scans, db`files, db`osInfo, db`clock
    ensures db.Valid()
    ensures Recorded(old(StoreOf(db)), record, path, detected, WalkRecords(tree), failure, StoreOf(db), exitCode)
  {
    var driveId := db.InsertDrive(record);
    var scanId := db.StartScan(driveId, path);
    if detected.None? {
      return 1;
    }
    var saved := db.InsertOsInfo(scanId, detected.value);
    if !saved {
      return 1;
    }
    exitCode := WalkScan(db, scanId, tree, showProgress, failure);
  }

  /**
   * What the recording leaves as written, when `core.os_detector` is the
   * detector of python/core/os_detector.py: its `detect` returns an
   * `OSDetectionResult`, which is not a dictionary, so the first log line
   * of Stage 2 that subscripts it raises a TypeError. Whatever the drive
   * holds, the scan stays in progress with no file rows, nothing is stored
   * in `os_info`, and `main` exits with 1. A detector returning a
   * dictionary would not raise there; `RecordScan` models that behaviour.
   */
  ghost predicate RecordedAsWritten(t: Store, record: DriveInfo, path: string, t': Store, exitCode: int)
  {
    var upsert := UpsertDrive(t.drives, record, t.clock);
    && exitCode == 1
    && t' == Store(upsert.0, t.scans + [ScanRow(upsert.1, t.clock + 1, None, path, None, None, InProgress)],
                   t.files, t.osInfo, t.clock + 2)
  }

  /** The recording half of `main` as written, over a dataclass result: it ends in Stage 2 whether `detect` raises or returns. */
  method RecordScanAsWritten(db: Database, record: DriveInfo, path: string, detected: Option<Detection>)
    returns (exitCode: int)
    requires db.Valid()
    modifies db`drives, db`scans, db`clock
    ensures db.Valid()
    ensures RecordedAsWritten(old(StoreOf(db)), record, path, StoreOf(db), exitCode)
  {
    var driveId := db.InsertDrive(record);
    var scanId := db.StartScan(driveId, path);
    if detected.None? {
      return 1;
    }
    // `os_info['os_type']` on the returned result raises, and `except Exception` returns 1.
    exitCode := 1;
  }

  /**
   * As written, no scan completes: even when detection succeeds, the scan
   * id has no `os_info` row and the walk is not stopped, the written
   * recording leaves the new scan in progress with no file rows and exit
   * code 1, where the corrected recording completes it with every row, its
   * `os_info` row and exit code 0.
   */
  lemma StageTwoStopsEveryScan(t: Store, record: DriveInfo, path: string, d: Detection, records: seq<FileRecord>,
                               written: Store, writtenExit: int, fixed: Store, fixedExit: int)
    requires RecordedAsWritten(t, record, path, written, writtenExit)
    requires Recorded(t, record, path, Some(d), records, None, fixed, fixedExit)
    requires !HasOsInfo(t.osInfo, |t.scans| + 1)
    ensures writtenExit == 1 && fixedExit == 0
    ensures written.scans[|t.scans|].status == InProgress && fixed.scans[|t.scans|].status == Complete
    ensures written.files == t.files && fixed.files == t.files + Rows(|t.scans| + 1, records)
    ensures written.osInfo == t.osInfo && fixed.osInfo == t.osInfo + [OsInfoOf(|t.scans| + 1, d)]
  {
  }
}

=== FILE: text.dfy ===
/** Option, shared by every module. */
module Wrappers {
  datatype Option<T> = None | Some(value: T)
  {
    function GetOr(default: T): T
    {
      if Some? then value else default
    }
  }

  /** One key of a decoded JSON object: missing, null, or holding a value. */
  datatype Field<T> = Missing | Null | Present(value: T)

  /** `data.get(key, default)`: the default only when the key is missing; null reads as None. */
  function Lookup<T>(f: Field<T>, default: T): (r: Option<T>)
    ensures f.Missing? ==> r == Some(default)
    ensures f.Null? ==> r.None?
    ensures f.Present? ==> r == Some(f.value)
  {
    match f
    case Missing => Some(default)
    case Null => None
    case Present(v) => Some(v)
  }
}

/**
 * Python string helpers restricted to what the catalogue's code uses:
 * ASCII case mapping, `in` on strings, `strip`, `split`, `int()` and `str()`
 * on integers, and `<` on strings (code-point order).
 */
module Text {
  import opened Wrappers

  newtype byte = b: int | 0 <= b < 256

  /** `str.isspace()` for the ASCII range. */
  predicate IsSpace(c: char)
  {
    c == ' ' || (9 <= c as int <= 13) || (28 <= c as int <= 31)
  }

  predicate IsDigit(c: char)
  {
    '0' <= c <= '9'
  }

  function LowerChar(c: char): char
  {
    if 'A' <= c <= 'Z' then (c as int + 32) as char else c
  }

  function UpperChar(c: char): char
  {
    if 'a' <= c <= 'z' then (c as int - 32) as char else c
  }

  /** `s.lower()` on the ASCII letters. */
  function Lower(s: string): (r: string)
    ensures |r| == |s|
  {
    seq(|s|, i requires 0 <= i < |s| => LowerChar(s[i]))
  }

  /** `s.upper()` on the ASCII letters. */
  function Upper(s: string): (r: string)
    ensures |r| == |s|
  {
    seq(|s|, i requires 0 <= i < |s| => UpperChar(s[i]))
  }

  predicate StartsWith(s: string, prefix: string)
  {
    |prefix| <= |s| && s[..|prefix|] == prefix
  }

  /** Python's `sub in s`. */
  predicate Contains(s: string, sub: string)
    decreases |s|
  {
    if |sub| > |s| then false
    else if s[..|sub|] == sub then true
    else |s| > 0 && Contains(s[1..], sub)
  }

  lemma {:induction false} ContainsAt(s: string, sub: string, i: nat)
    requires i + |sub| <= |s| && s[i..i + |sub|] == sub
    ensures Contains(s, sub)
    decreases i
  {
    if s[..|sub|] != sub {
      assert i > 0;
      assert s[1..][i - 1..i - 1 + |sub|] == sub;
      ContainsAt(s[1..], sub, i - 1);
    }
  }

  lemma {:induction false} ContainsWitness(s: string, sub: string) returns (i: nat)
    requires Contains(s, sub)
    ensures i + |sub| <= |s| && s[i..i + |sub|] == sub
    decreases |s|
  {
    if s[..|sub|] == sub {
      i := 0;
    } else {
      var j := ContainsWitness(s[1..], sub);
      i := j + 1;
      assert s[i..i + |sub|] == s[1..][j..j + |sub|];
    }
  }

  /** Python's `s.index(c)`, as an option: the first position of `c`. */
  function IndexOf(s: string, c: char): (r: Option<nat>)
    ensures r.None? <==> c !in s
    ensures r.Some? ==> r.value < |s| && s[r.value] == c && c !in s[..r.value]
  {
    if s == [] then None
    else if s[0] == c then Some(0)
    else
      var rest := IndexOf(s[1..], c);
      assert s == [s[0]] + s[1..];
      if rest.None? then None
      else
        assert s[..rest.value + 1] == [s[0]] + s[1..][..rest.value];
        Some(rest.value + 1)
  }

  /** Python's `s.rfind(c)`, as an option: the last position of `c`. */
  function LastIndexOf(s: string, c: char): (r: Option<nat>)
    ensures r.None? <==> c !in s
    ensures r.Some? ==> r.value < |s| && s[r.value] == c && c !in s[r.value + 1..]
  {
    if s == [] then None
    else if s[|s| - 1] == c then Some(|s| - 1)
    else
      var front := s[..|s| - 1];
      assert s == front + [s[|s| - 1]];
      var r := LastIndexOf(front, c);
      if r.Some? then
        assert s[r.value + 1..] == front[r.value + 1..] + [s[|s| - 1]];
        r
      else r
  }

  /** The first separator after a separator-free head is the one right after it. */
  lemma IndexOfAfter(a: string, c: char, b: string)
    requires c !in a
    ensures IndexOf(a + [c] + b, c) == Some(|a|)
  {
    var s := a + [c] + b;
    assert s[|a|] == c && s[..|a|] == a;
  }

  /**
   * Joining separator-free parts and splitting the result at the same
   * separator gives the parts back.
   */
  lemma {:induction false} SplitJoin(parts: seq<string>, sep: char)
    requires |parts| >= 1
    requires forall k :: 0 <= k < |parts| ==> sep !in parts[k]
    ensures Split(Join(parts, [sep]), sep) == parts
  {
    if |parts| > 1 {
      var rest := Join(parts[1..], [sep]);
      assert Join(parts, [sep]) == parts[0] + [sep] + rest;
      SplitAfter(parts[0], sep, rest);
      SplitJoin(parts[1..], sep);
      ConsTail(parts);
    }
  }

  /** Splitting at a separator right after a separator-free head splits off that head. */
  lemma SplitAfter(a: string, c: char, b: string)
    requires c !in a
    ensures Split(a + [c] + b, c) == [a] + Split(b, c)
  {
    var s := a + [c] + b;
    IndexOfAfter(a, c, b);
    assert s[..|a|] == a && s[|a| + 1..] == b;
  }

  /** `s.lstrip(chars)` / `s.rstrip(chars)` / `s.strip(chars)` for a character class. */
  function TrimLeft(s: string, drop: char -> bool): (r: string)
    ensures |r| <= |s| && r == s[|s| - |r|..]
    ensures r == [] || !drop(r[0])
  {
    if s != [] && drop(s[0]) then TrimLeft(s[1..], drop) else s
  }

  function TrimRight(s: string, drop: char -> bool): (r: string)
    ensures |r| <= |s| && r == s[..|r|]
    ensures r == [] || !drop(r[|r| - 1])
  {
    if s != [] && drop(s[|s| - 1]) then TrimRight(s[..|s| - 1], drop) else s
  }

  function Trim(s: string, drop: char -> bool): string
  {
    TrimRight(TrimLeft(s, drop), drop)
  }

  /** `s.strip()` */
  function Strip(s: string): string
  {
    Trim(s, IsSpace)
  }

  /** `s.split(sep)` with a one-character separator. */
  function Split(s: string, sep: char): (parts: seq<string>)
    ensures |parts| >= 1
    ensures forall k :: 0 <= k < |parts| ==> sep !in parts[k]
    decreases |s|
  {
    match IndexOf(s, sep)
    case None => [s]
    case Some(i) => [s[..i]] + Split(s[i + 1..], sep)
  }

  /** `sep.join(parts)` */
  function Join(parts: seq<string>, sep: string): string
  {
    if parts == [] then ""
    else if |parts| == 1 then parts[0]
    else parts[0] + sep + Join(parts[1..], sep)
  }

  /** Splitting and joining again with the same separator gives back the string. */
  lemma {:induction false} JoinSplit(s: string, sep: char)
    ensures Join(Split(s, sep), [sep]) == s
    decreases |s|
  {
    match IndexOf(s, sep)
    case None =>
    case Some(i) =>
      var rest := Split(s[i + 1..], sep);
      JoinSplit(s[i + 1..], sep);
      var parts := [s[..i]] + rest;
      assert parts[0] == s[..i] && parts[1..] == rest;
      assert Join(parts, [sep]) == s[..i] + [sep] + Join(rest, [sep]);
      assert s == s[..i] + [sep] + s[i + 1..];
  }

  predicate NoSpace(w: string)
  {
    forall i :: 0 <= i < |w| ==> !IsSpace(w[i])
  }

  /** The longest prefix of `s` without white space. */
  function Run(s: string): (r: string)
    ensures |r| <= |s| && r == s[..|r|] && NoSpace(r)
    ensures |r| < |s| ==> IsSpace(s[|r|])
  {
    if s == [] || IsSpace(s[0]) then [] else [s[0]] + Run(s[1..])
  }

  /** `s.split()`: the maximal runs of non-space characters, in order. */
  function Words(s: string): (r: seq<string>)
    ensures forall k :: 0 <= k < |r| ==> r[k] != [] && NoSpace(r[k])
    decreases |s|
  {
    var t := TrimLeft(s, IsSpace);
    if t == [] then []
    else
      var w := Run(t);
      [w] + Words(t[|w|..])
  }

  lemma {:induction false} RunWord(w: string, rest: string)
    requires NoSpace(w)
    requires rest == [] || IsSpace(rest[0])
    ensures Run(w + rest) == w
    decreases |w|
  {
    if w != [] {
      RunWord(w[1..], rest);
      assert (w + rest)[1..] == w[1..] + rest;
    }
  }

  lemma WordsStep(w: string, tail: string)
    requires w != [] && NoSpace(w)
    requires tail == [] || IsSpace(tail[0])
    ensures Words(w + tail) == [w] + Words(tail)
  {
    var s := w + tail;
    assert TrimLeft(s, IsSpace) == s by { assert s[0] == w[0]; }
    RunWord(w, tail);
    assert s[|w|..] == tail;
  }

  lemma WordsSingle(w: string)
    requires w != [] && NoSpace(w)
    ensures Words(w) == [w]
  {
    WordsStep(w, []);
    assert w + [] == w;
  }

  lemma SpaceSkip(rest: string)
    requires rest == [] || !IsSpace(rest[0])
    ensures Words(" " + rest) == Words(rest)
  {
    assert (" " + rest)[1..] == rest;
    assert TrimLeft(" " + rest, IsSpace) == TrimLeft(rest, IsSpace);
  }

  lemma JoinedStep(w: string, rest: string)
    requires w != [] && NoSpace(w)
    requires rest != [] && !IsSpace(rest[0])
    ensures Words(w + (" " + rest)) == [w] + Words(rest)
  {
    WordsStep(w, " " + rest);
    SpaceSkip(rest);
  }

  /** Words joined by single spaces split back into the same words. */
  lemma {:induction false} WordsJoin(ws: seq<string>)
    requires forall k :: 0 <= k < |ws| ==> ws[k] != [] && NoSpace(ws[k])
    ensures Words(Join(ws, " ")) == ws
    decreases |ws|
  {
    if ws == [] {
    } else if |ws| == 1 {
      assert Join(ws, " ") == ws[0];
      WordsSingle(ws[0]);
    } else {
      var tl := ws[1..];
      var rest := Join(tl, " ");
      assert Join(ws, " ") == ws[0] + (" " + rest);
      assert forall k :: 0 <= k < |tl| ==> tl[k] == ws[k + 1];
      WordsJoin(tl);
      JoinHead(tl);
      JoinedStep(ws[0], rest);
      ConsTail(ws);
    }
  }

  lemma ConsTail<T>(s: seq<T>)
    requires s != []
    ensures [s[0]] + s[1..] == s
  {
  }

  /** A space-joined list of non-empty words begins with its first word's first character. */
  lemma JoinHead(ws: seq<string>)
    requires |ws| >= 1 && ws[0] != []
    ensures Join(ws, " ") != [] && Join(ws, " ")[0] == ws[0][0]
  {
  }

  function DigitChar(d: nat): char
    requires d < 10
  {
    ('0' as int + d) as char
  }

  /** `str(n)` for a non-negative integer. */
  function NatToString(n: nat): (r: string)
    ensures |r| >= 1 && forall k :: 0 <= k < |r| ==> IsDigit(r[k])
  {
    if n < 10 then [DigitChar(n)] else NatToString(n / 10) + [DigitChar(n % 10)]
  }

  /** `str(i)` for any integer. */
  function IntToString(i: int): string
  {
    if i < 0 then "-" + NatToString(-i) else NatToString(i)
  }

  /** Decimal value of a string of digits. */
  function DigitsValue(s: string): nat
    requires forall k :: 0 <= k < |s| ==> IsDigit(s[k])
  {
    if s == [] then 0
    else
      assert IsDigit(s[|s| - 1]);
      DigitsValue(s[..|s| - 1]) * 10 + (s[|s| - 1] as int - '0' as int)
  }

  predicate AllDigits(s: string)
  {
    forall k :: 0 <= k < |s| ==> IsDigit(s[k])
  }

  /**
   * `int(s)`: surrounding whitespace, an optional sign and at least one digit.
   * Anything else raises ValueError, modelled as None.
   */
  function ParseInt(s: string): (r: Option<int>)
  {
    var t := Strip(s);
    if t == [] then None
    else
      var neg := t[0] == '-';
      var body := if t[0] == '-' || t[0] == '+' then t[1..] else t;
      if body == [] || !AllDigits(body) then None
      else if neg then Some(-(DigitsValue(body) as int))
      else Some(DigitsValue(body) as int)
  }

  lemma {:induction false} DigitsOfNat(n: nat)
    ensures DigitsValue(NatToString(n)) == n
  {
    if n >= 10 {
      DigitsOfNat(n / 10);
      var s := NatToString(n);
      assert s[..|s| - 1] == NatToString(n / 10);
    }
  }

  lemma TrimKeeps(s: string, drop: char -> bool)
    requires s != [] && !drop(s[0]) && !drop(s[|s| - 1])
    ensures Trim(s, drop) == s
  {
  }

  /** `int(str(i)) == i`: printing an integer and parsing it back is the identity. */
  lemma ParseIntToString(i: int)
    ensures ParseInt(IntToString(i)) == Some(i)
  {
    var t := IntToString(i);
    var digits := NatToString(if i < 0 then -i else i);
    DigitsOfNat(if i < 0 then -i else i);
    TrimKeeps(t, IsSpace);
    if i < 0 {
      assert t[1..] == digits;
    }
  }

  /** `str(i)` is decimal notation: digits, led by '-' exactly for negative numbers. */
  lemma IntToStringShape(i: int)
    ensures (var t := IntToString(i);
      |t| >= 1 && ':' !in t && (t[0] == '-' <==> i < 0) && forall k :: 0 < k < |t| ==> IsDigit(t[k]))
  {
    var t := IntToString(i);
    var d := NatToString(if i < 0 then -i else i);
    if i < 0 {
      assert t == "-" + d;
      forall k | 0 < k < |t| ensures IsDigit(t[k]) {
        assert t[k] == d[k - 1];
      }
    }
    forall k | 0 <= k < |t| ensures t[k] != ':' {
      if i < 0 && k > 0 {
        assert t[k] == d[k - 1];
      }
    }
  }

  /** Python's `a < b` on strings: lexicographic by code point. */
  predicate StrLess(a: string, b: string)
  {
    if a == [] then b != []
    else if b == [] then false
    else if a[0] != b[0] then a[0] < b[0]
    else StrLess(a[1..], b[1..])
  }

  lemma {:induction false} StrLessTotal(a: string, b: string)
    ensures a == b || StrLess(a, b) || StrLess(b, a)
  {
    if a != [] && b != [] && a[0] == b[0] {
      StrLessTotal(a[1..], b[1..]);
      if a[1..] == b[1..] {
        assert a == [a[0]] + a[1..] && b == [b[0]] + b[1..];
      }
    }
  }

  lemma {:induction false} StrLessIrreflexive(a: string)
    ensures !StrLess(a, a)
  {
    if a != [] {
      StrLessIrreflexive(a[1..]);
    }
  }

  lemma {:induction false} StrLessTransitive(a: string, b: string, c: string)
    requires StrLess(a, b) && StrLess(b, c)
    ensures StrLess(a, c)
  {
    if a != [] && b != [] && c != [] && a[0] == b[0] && b[0] == c[0] {
      StrLessTransitive(a[1..], b[1..], c[1..]);
    }
  }

  function HexDigit(n: nat): char
    requires n < 16
  {
    if n < 10 then DigitChar(n) else ('a' as int + n - 10) as char
  }

  /** `bytes.hex()`: two lower-case hexadecimal digits per byte. */
  function Hex(data: seq<byte>): (r: string)
    ensures |r| == 2 * |data|
  {
    if data == [] then ""
    else [HexDigit(data[0] as nat / 16), HexDigit(data[0] as nat % 16)] + Hex(data[1..])
  }

  function HexValue(c: char): Option<nat>
  {
    if '0' <= c <= '9' then Some(c as int - '0' as int)
    else if 'a' <= c <= 'f' then Some(c as int - 'a' as int + 10)
    else None
  }

  /** `bytes.fromhex(s)` for the lower-case, unspaced form that `Hex` produces. */
  function Unhex(s: string): Option<seq<byte>>
    decreases |s|
  {
    if s == [] then Some([])
    else if |s| == 1 then None
    else match (HexValue(s[0]), HexValue(s[1]), Unhex(s[2..]))
      case (Some(h), Some(l), Some(rest)) =>
        if h < 16 && l < 16 then Some([(h * 16 + l) as byte] + rest) else None
      case _ => None
  }

  lemma HexDigitValue(n: nat)
    requires n < 16
    ensures HexValue(HexDigit(n)) == Some(n)
  {
  }

  /** Hex text decodes back to the bytes it was made from. */
  lemma {:induction false} UnhexHex(data: seq<byte>)
    ensures Unhex(Hex(data)) == Some(data)
  {
    if data != [] {
      var h := Hex(data);
      HexDigitValue(data[0] as nat / 16);
      HexDigitValue(data[0] as nat % 16);
      assert h[2..] == Hex(data[1..]);
      UnhexHex(data[1..]);
      assert [data[0]] + data[1..] == data;
    }
  }

  /** UTF-8 encoding of text that is all ASCII (as `str(n).encode()` is). */
  function AsciiBytes(s: string): (r: seq<byte>)
    requires forall k :: 0 <= k < |s| ==> s[k] as int < 128
    ensures |r| == |s|
  {
    seq(|s|, i requires 0 <= i < |s| => s[i] as int as byte)
  }
}
